=== FILE: README.md ===
# wasp, modelled in Dafny

This project models the core of wasp, a personalised web-archive search tool. wasp tails the WARC files that a recording proxy writes. It pairs request, response and revisit records. It stores each HTML page once, under the id of its first response record, together with every request that later fetched it. A query is a set of terms plus an optional time window [from, to]. For each matching page, wasp shows the latest request whose date lies inside that window.

Two generations of the code live side by side: the older `de.webis.warc` packages and the newer `de.webis.wasp` packages. The model follows each file on its own terms. It does not reconcile the generations where their signatures disagree.

The model works as follows:

- Java `null` becomes `Option`.
- A thrown exception becomes the `Throws` case of `Outcome`.
- Java `int` arithmetic is written out as 32-bit wrap-around (`Common.Wrap32`) with truncating division.
- An instant is an integer number of nanoseconds since the epoch.
- The search backend, the HTML extractor, date formatting, URL and HTML encoding, and the WARC and HTTP parsers become function parameters.
- Threads, sleeping and file watching become explicit events of state machines.

Modules, leaves first:

- `Common`: options, outcomes, 32-bit integers, the truncation of record times to whole seconds, and `String.join`.
- `Records`, `Window`: request and response records. `Window` covers `matchRequest`, which picks the latest request inside a time window.
- `Store`, `WaspIndex`, `LegacyIndex`: the document store as a map from id to page or revisit pointer, resolution of revisit chains, and the index operations of both generations.
- `Queries`: query values, their `equals`, the generated bool/nested/range query as a syntax tree, and the page offset.
- `Results`, `LegacyFetch`: hit conversion, snippets and the results fetchers.
- `Warcs`: the HTML content-type test, the Content-Encoding decoder stack (section 3.1.2.2 of RFC 7231), the body-length rules and the response conversion.
- `Consumers`, `LegacyIndexer`, `Matching`: record dispatch by WARC-Type (section 6 of ISO 28500:2017), the indexers, and the bounded request/response matching cache.
- `Readers`, `Watchers`: the plain reader, the tailing readers as an event-driven state machine, and the directory watchers' startup plans and reader slot.
- `Display`, `UiPages`, `Renderer`, `PageCache`, `Servlets`: decimal page numbers, URI shortening, the pagination of both search pages, the result-page caches, and the two search servlets' parameter handling, session caching and page slicing.

## Model

| member | source | states |
|---|---|---|
| Common.TruncateToSeconds | src/de/webis/wasp/warcs/GenericWarcRecordConsumer.java:36-37 | a record's time is cut down to a whole second: the result is a multiple of one second, not after the WARC-Date and less than a second before it |
| Common.EpochSecond | src/de/webis/wasp/warcs/GenericWarcRecordConsumer.java:37 | `getEpochSecond` is the floor of the instant in seconds, also for instants before the epoch, and scaling it back gives the truncated time |
| Common.TruncateIdempotent | src/de/webis/wasp/warcs/GenericWarcRecordConsumer.java:36-37 | truncating twice is truncating once, and an instant already on a whole second is kept |
| Common.TruncateMonotone | src/de/webis/wasp/warcs/GenericWarcRecordConsumer.java:36-37 | truncation never reorders two record times |
| Common.Wrap32 | src/de/webis/wasp/ui/SearchServlet.java:206-209 | Java `int` arithmetic: the result is a 32-bit value congruent to the exact one modulo 2^32, and equal to it when it fits |
| Common.ToLower | src/de/webis/wasp/warcs/Warcs.java:233 | lower-casing keeps the length and maps each character on its own |
| Common.JoinSnoc | src/de/webis/wasp/index/Result.java:146 | `String.join` with one more part adds exactly one separator and that part at the end |
| Common.JoinLength | src/de/webis/wasp/index/Result.java:146 | the joined text is as long as the parts plus one separator between each two |
| Common.JoinEmptyIff | src/de/webis/wasp/index/Result.java:146 | with " ... " as separator, the joined snippet is empty exactly when there are no fragments or the only fragment is empty |
| Records.NewRequestRecord | src/de/webis/wasp/index/RequestRecord.java:67-72 | the request record exists iff uri and date are both given, and then holds exactly them; otherwise a NullPointerException |
| Records.Values | src/de/webis/wasp/index/ResponseRecord.java:101 | copying a list without nulls keeps its length and every element in place |
| Records.NewResponseRecord | src/de/webis/wasp/index/ResponseRecord.java:90-102 | the record exists iff the uri is given and the request list has no null element; title and content are kept as given, a null list becomes empty, a given list is copied element by element |
| Records.ForPage | src/de/webis/wasp/index/ResponseRecord.java:112-117 | `forPage` succeeds iff uri, title and content are all given, and yields exactly them with no requests |
| Window.InWindowInclusive | src/de/webis/wasp/index/Result.java:128-129 | the skip tests (`isBefore(from)`, `isAfter(to)`) admit a date iff from ≤ date ≤ to, an absent bound admitting everything; both ends are inclusive |
| Window.LatestUnique | src/de/webis/wasp/index/Result.java:122-130 | at most one position is the latest in-window request |
| Window.LatestInWindow | src/de/webis/wasp/index/Result.java:122-133 | the backward scan finds the latest in-window position, and finds nothing iff no request is in the window |
| Window.Select | src/de/webis/wasp/index/Result.java:120-134 | `matchRequest` returns a request iff some request is in the window, and then the one at the latest in-window position; otherwise IllegalArgumentException |
| Window.SelectLoop | src/de/webis/wasp/index/Result.java:122-133 | the `ListIterator` loop with its two `continue` tests computes exactly `Select` |
| Window.LatestIsSelected | src/de/webis/wasp/index/Result.java:122-130 | whatever position is the latest in the window is the one returned |
| Window.UnboundedSelectsLast | src/de/webis/wasp/index/Result.java:125-130 | with both bounds null the last request of a non-empty list is returned |
| Window.AppendedInWindowIsSelected | src/de/webis/wasp/index/Result.java:122-130 | after a request inside the window is appended, it is the one returned |
| Window.AppendedOutsideWindowIgnored | src/de/webis/wasp/index/Result.java:122-133 | appending a request outside the window changes neither the result nor the exception |
| Window.WiderWindowSelectsLater | src/de/webis/wasp/index/Result.java:122-130 | widening the window keeps a request selected, at the same or a later position |
| Store.ResolveFrom | src/de/webis/wasp/index/Index.java:116-131 | following revisit pointers ends on a stored page whenever it finds one |
| Store.Resolve | src/de/webis/wasp/index/Index.java:116-131 | a missing id resolves to nothing (null), a stored page to itself, and whatever is found is a stored page |
| Store.ResolveRevisit | src/de/webis/wasp/index/Index.java:123-124 | a revisit id resolves exactly as its target does, divergence on a pointer cycle included |
| Store.SelfRevisitDiverges | src/de/webis/wasp/index/Index.java:123-124 | a revisit that points at itself never resolves: the recursion has no bound |
| Store.ResolveSameShape | src/de/webis/wasp/index/Index.java:116-131 | resolution depends only on which ids exist, which are pages and where revisits point |
| Store.ResolveFresh | src/de/webis/wasp/index/Index.java:116-131 | storing a document under a new id leaves every id that resolved resolving alike |
| Store.AppendRequest | src/de/webis/wasp/index/Index.java:176-188 | the script `requests.add(...)` puts one request at the end of the page's list; title, content, the set of ids and every other document are unchanged |
| Store.AppendRequestPreserves | src/de/webis/wasp/index/Index.java:176-188 | appending a request keeps the pointer structure, so every id resolves as before, and request lists only grow |
| WaspIndex.ResolveConcurrentId | src/de/webis/wasp/index/Index.java:107-114 | the id of the page an id resolves to, null iff nothing is found, and a StackOverflowError iff the pointers cycle |
| WaspIndex.IndexResponse | src/de/webis/wasp/index/Index.java:136-146 | a null id is a NullPointerException; otherwise the answer is true and the id holds a fresh page with the title and content and no requests, every other id unchanged |
| WaspIndex.IndexRevisit | src/de/webis/wasp/index/Index.java:148-161 | nothing is written and the answer is false iff `responseId` does not resolve; otherwise the id holds a pointer to `responseId` itself and every other id is unchanged |
| WaspIndex.IndexRequest | src/de/webis/wasp/index/Index.java:165-188 | false with nothing changed iff the concurrent id does not resolve; otherwise exactly one request is appended to the resolved page and every other document is unchanged |
| WaspIndex.IndexedResponseResolves | src/de/webis/wasp/index/Index.java:136-146 | a page just indexed resolves to its own id |
| WaspIndex.IndexedRevisitResolves | src/de/webis/wasp/index/Index.java:148-161 | a revisit under a new id resolves to the page its target resolves to, and every id that resolved before resolves alike |
| WaspIndex.IndexedRequestPreserves | src/de/webis/wasp/index/Index.java:165-188 | indexing a request changes no resolution and only grows request lists; the new request is the one shown for every window containing its instant |
| WaspIndex.RequestWithoutResponseDropped | src/de/webis/wasp/index/Index.java:167-171 | a request whose response is not indexed is dropped, answering false |
| WaspIndex.RevisitRequestsReachOriginal | src/de/webis/wasp/index/Index.java:136-188 | response, request, revisit and the revisit's request in this order leave both requests, in order, on the original page |
| WaspIndex.RevisitCycleDiverges | src/de/webis/wasp/index/Index.java:148-161 | the guard does not prevent cycles: with A a page, `indexRevisit(B, A)` then `indexRevisit(A, B)` both succeed and afterwards A never resolves and a request for B fails |
| LegacyIndex.IndexResponse | src/de/webis/warc/index/Index.java:170-193 | succeeds iff id and content are both present, otherwise a NullPointerException; the id then holds a page with the content, the possibly null title and no requests, and every other id is unchanged |
| LegacyIndex.IndexRevisit | src/de/webis/warc/index/Index.java:195-217 | a null id or target is a NullPointerException; otherwise false with nothing written iff the target does not resolve, and a pointer to the target when it does |
| LegacyIndex.IndexRequest | src/de/webis/warc/index/Index.java:219-248 | false with nothing written iff the concurrent id does not resolve; a null instant fails only once a page is found; on success exactly the request `{uri, date}` is appended to the resolved page |
| LegacyIndex.AgreesWithWaspIndex | src/de/webis/warc/index/Index.java:170-248 | when every argument is present, the older index writes exactly what the wasp index writes |
| LegacyIndex.NullRevisitIdRefusedFirst | src/de/webis/warc/index/Index.java:197 | a null revisit id is refused before the target is looked up, where the wasp index answers false |
| Queries.NewQuery | src/de/webis/wasp/index/Query.java:65-70 | a query exists iff its terms are present, and holds exactly the terms and the two bounds given |
| Queries.Of | src/de/webis/warc/index/Query.java:27-36 | the older factory needs terms and leaves both bounds unset |
| Queries.SetFrom | src/de/webis/warc/index/Query.java:42-45 | the setter changes the lower bound and nothing else |
| Queries.SetTo | src/de/webis/warc/index/Query.java:47-50 | the setter changes the upper bound and nothing else |
| Queries.EqualsIsValueEquality | src/de/webis/wasp/index/Query.java:104-128 | `equals` holds exactly between queries with equal terms and equal bounds, and never for null or another class |
| Queries.EqualsIsEquivalence | src/de/webis/warc/index/Query.java:73-90 | `equals` is reflexive, symmetric and transitive |
| Queries.MainQuery | src/de/webis/wasp/index/WaspQuery.java:87-126 | the search query has one required part, a nested range over the request dates bounded by exactly the query's bounds with max score mode, and one optional part, the term query |
| Queries.TimeQuery | src/de/webis/wasp/index/WaspQuery.java:108-125 | a nested query on the request path with max score mode over a range on the requests' date field bounded by exactly the query's bounds |
| Queries.TermQuery | src/de/webis/wasp/index/WaspQuery.java:93-106 | a bool query of two optional match queries on the terms with the AND operator, content unboosted and title boosted by 2 |
| Queries.TermQueryMatchesContentOrTitle | src/de/webis/wasp/index/WaspQuery.java:93-106 | a page matches the term query exactly when its content or its title contains all the terms |
| Queries.WaspQueryBuilder | src/de/webis/wasp/index/WaspQuery.java:87-91 | required: the time query over "requests.date"; optional: the term query |
| Queries.LegacyQueryBuilder | src/de/webis/warc/index/Query.java:92-126 | required: the time query over "request.date"; optional: the term query |
| Queries.Build | src/de/webis/wasp/index/Query.java:134-165 | the search request is the main query over "requests", highlights the content and sets neither size nor offset |
| Queries.BuildSized | src/de/webis/wasp/index/Query.java:172-174 | the same query with the given page size |
| Queries.BuildPage | src/de/webis/wasp/index/Query.java:182-184 | the same query and size with the offset `(page - 1) * pageSize` taken in 32-bit arithmetic |
| Queries.PagesTile | src/de/webis/wasp/index/Query.java:182-184 | without overflow, page 1 starts at offset 0 and each next page starts one page size further |
| Queries.MainQueryMatchesIffRequestInWindow | src/de/webis/wasp/index/Query.java:139-163 | a page matches the search query iff one of its requests is dated inside the window, whatever its text, so every hit has a request to show |
| Results.SnippetEmptyIff | src/de/webis/wasp/index/Result.java:141-147 | the snippet is empty iff the content has no highlight list, an empty one, or a single empty fragment |
| Results.SnippetAppendsFragment | src/de/webis/wasp/index/Result.java:146 | fragments are kept in order, each after the previous one and " ... " |
| Results.Snippet | src/de/webis/wasp/index/Result.java:141-147 | no content highlight gives the empty snippet, a single fragment is the snippet itself, and the snippet always starts with the first fragment |
| Results.FromHitEmptySnippetIff | src/de/webis/wasp/index/Result.java:197-199 | a converted hit has an empty snippet, and so is dropped by `search`, exactly when its content has no highlight list, an empty one, or a single empty fragment |
| Results.Collect | resources/de/webis/wasp/Index.java:298-303 | the loop over the hits succeeds iff every conversion does, otherwise it fails with the first failure; its results are exactly the accepted conversions, in the order of the hits (`Results.KeptInOrder`) |
| Results.CollectLoop | src/de/webis/wasp/index/ResultsFetcher.java:75-81 | the for-each loop computes exactly what the collection above describes |
| Results.CollectStopsAtFailure | src/de/webis/wasp/index/ResultsFetcher.java:75-81 | once the loop has failed on a prefix, later hits change nothing |
| Results.NewWaspResult | src/de/webis/wasp/index/Result.java:78-87 | a result exists iff snippet, page and request are all present; otherwise a NullPointerException |
| Results.FromHit | src/de/webis/wasp/index/Result.java:99-108 | succeeds iff the page has a request inside the window, else IllegalArgumentException; the result keeps score and page, has the hit's snippet and shows the latest request inside the window |
| Results.Search | resources/de/webis/wasp/Index.java:291-304 | searches with the sized request at the given offset; fails iff some hit has no request in the window, with IllegalArgumentException; otherwise the results are the converted hits with a non-empty snippet, in hit order, none left out |
| Results.SearchDefault | resources/de/webis/wasp/Index.java:265-268 | `search(query)` asks for 100 hits from offset 0; it fails iff some hit has no request in the window, and otherwise keeps the converted hits with a snippet, in hit order |
| Results.SearchMax | resources/de/webis/wasp/Index.java:277-280 | `search(query, maxResults)` sends a request of size maxResults at offset 0; it fails iff some hit has no request in the window, and otherwise keeps the converted hits with a snippet, in hit order |
| Results.SoundBackendSearchSucceeds | resources/de/webis/wasp/Index.java:291-304 | when the backend only returns pages matching the query, the search does not throw |
| Results.NewLegacyResult | src/de/webis/warc/index/Result.java:37-55 | a result exists iff URI, instant, title and snippet are present; the content may be null |
| Results.NewFetcher | src/de/webis/wasp/index/ResultsFetcher.java:42-52 | a null index or query is a NullPointerException, a page size below 1 an IllegalArgumentException, otherwise the fetcher keeps query and page size |
| Results.ToResult | src/de/webis/wasp/index/ResultsFetcher.java:84-97 | succeeds iff the page has a request in the window and a title; the result shows URI and date of the latest request in the window, the page's title and content, the hit's score and snippet |
| Results.Fetch | src/de/webis/wasp/index/ResultsFetcher.java:63-82 | fails iff some hit cannot be converted; otherwise every result comes from a hit of the page's search request and has a non-empty snippet, and the results are the converted non-empty hits in hit order |
| Results.FetchRequest | src/de/webis/wasp/index/ResultsFetcher.java:65-69 | the page's request carries the wasp query, content highlighting and the page size, and its offset is `(page - 1) * pageSize` modulo 2^32, exactly that product when it fits in an `int` |
| Results.FetchRequestOffset | src/de/webis/wasp/index/ResultsFetcher.java:65-69 | without overflow, page p asks for page-size hits after the first `(p - 1) * pageSize`, with the wasp query |
| LegacyFetch.MinimalRequestOf | src/de/webis/warc/index/ResultsFetcher.java:155-161 | a missing node, URI or date is a NullPointerException; on success the request holds the URI's text and the date its text parses to |
| LegacyFetch.RequestArray | src/de/webis/warc/index/ResultsFetcher.java:105-109 | a request list is only handed on when it is non-empty; a missing one is refused and a non-array fails the cast |
| LegacyFetch.Scan | src/de/webis/warc/index/ResultsFetcher.java:110-119 | the backwards loop fails only with "no request in the time interval" (IllegalArgumentException), a missing field (NullPointerException) or a date that does not parse |
| LegacyFetch.ScanPicksLatest | src/de/webis/warc/index/ResultsFetcher.java:110-119 | the loop returns the request read at the highest position whose date lies in the window, every later one parsed and outside it; when every request parses and lies outside, it throws IllegalArgumentException |
| LegacyFetch.PickRequestAsWritten | src/de/webis/warc/index/ResultsFetcher.java:103-120 | as written: the request list's errors pass through; otherwise a picked request is the one at the highest position i whose element `get(i)` of request i lies in the window, every later position read the same way parsed and outside it |
| LegacyFetch.PickRequest | src/de/webis/warc/index/ResultsFetcher.java:103-120 | with the loop corrected: the request list's errors pass through; otherwise the pick is the last request in the window, all later ones parsed and outside it, and when all lie outside it is an IllegalArgumentException |
| LegacyFetch.PickRequestAsWrittenAlwaysThrows | src/de/webis/warc/index/ResultsFetcher.java:105-119 | as written, picking a request fails on every page the older index writes: IllegalArgumentException without requests, NullPointerException otherwise, because of the double index at line 112 |
| LegacyFetch.ScanAgreesWithSelect | src/de/webis/warc/index/ResultsFetcher.java:110-117 | the corrected backwards loop over the first n stored requests finds a request iff one lies in the window, and then exactly the latest such |
| LegacyFetch.EncodedRequestReadsBack | src/de/webis/warc/index/ResultsFetcher.java:155-161 | a request object as the older index writes it reads back as its URI and date |
| LegacyFetch.PickRequestAgreesWithSelect | src/de/webis/warc/index/ResultsFetcher.java:103-119 | with the loop corrected, the request picked from a stored page is the latest request inside the window, and there is none iff no request lies in the window |
| LegacyFetch.FetchAsWrittenFails | src/de/webis/warc/index/ResultsFetcher.java:66-85 | as written, fetching any non-empty page of hits on indexed documents throws |
| LegacyFetch.ToResultAsWritten | src/de/webis/warc/index/ResultsFetcher.java:87-101 | as written: a picking error passes through; otherwise the result exists iff the page has a title and content (else NullPointerException) and shows the picked request's URI and date, the serialised title and content, and the hit's score and snippet |
| LegacyFetch.ToResult | src/de/webis/warc/index/ResultsFetcher.java:87-101 | the same with the corrected request loop |
| LegacyFetch.FetchAsWritten | src/de/webis/warc/index/ResultsFetcher.java:66-85 | as written: succeeds iff every hit converts, otherwise fails with the first failure; the results are the converted hits with a non-empty snippet, in hit order |
| LegacyFetch.Fetch | src/de/webis/warc/index/ResultsFetcher.java:66-85 | with the loop corrected: succeeds iff every hit converts, otherwise fails with the first failure; no result is empty, and the results are the converted non-empty hits in hit order |
| LegacyFetch.ToResultShowsLatestInWindow | src/de/webis/warc/index/ResultsFetcher.java:87-101 | with the loop corrected, a stored page with a request in the window becomes a result showing URI and date of the latest such request and the hit's snippet |
| LegacyFetch.PageRequest | src/de/webis/warc/index/ResultsFetcher.java:68-72 | the older fetcher asks for the older query with content highlighting, a page's worth of hits, and an offset of (page - 1) * pageSize taken in `int` arithmetic |
| LegacyFetch.FetchPageAsWritten | src/de/webis/warc/index/ResultsFetcher.java:66-85 | as written: the page's search hits convert one by one; it succeeds iff every hit converts, and the results are the converted hits with a non-empty snippet, in hit order |
| LegacyFetch.FetchPage | src/de/webis/warc/index/ResultsFetcher.java:66-85 | the same page fetch with the corrected request loop |
| LegacyFetch.FetchPageAsWrittenFails | src/de/webis/warc/index/ResultsFetcher.java:66-85 | as written, a page throws exactly when its search returns hits on indexed documents |
| LegacyFetch.ToResultOfPage | src/de/webis/warc/index/ResultsFetcher.java:87-101 | the result of a page carries the picked request, the serialised title and content, and the hit's score and snippet |
| Warcs.LastHeader | src/de/webis/wasp/warcs/Warcs.java:159-160 | null iff no header has the name, ignoring ASCII case; otherwise a header with the name after which none has it |
| Warcs.FirstHeader | src/de/webis/wasp/warcs/Warcs.java:286-293 | null iff no header has the name; otherwise a header with the name before which none has it |
| Warcs.IsHtml | src/de/webis/wasp/warcs/Warcs.java:156-168 | no response is not HTML; a response without a Content-Type header is a NullPointerException; it is HTML exactly when the last Content-Type header has a value matching `text/html.*` |
| Warcs.IsHtmlDecidedByLastContentType | src/de/webis/wasp/warcs/Warcs.java:156-168 | a Content-Type header added at the end decides alone, and a header of another name added at the end changes nothing |
| Warcs.HtmlContentTypeExamples | src/de/webis/wasp/warcs/Warcs.java:72-73 | the pattern is matched case-sensitively against the whole value: `text/html; charset=UTF-8` is HTML, `Text/HTML` and a trailing line break are not |
| Warcs.CreateInputStream | src/de/webis/wasp/warcs/Warcs.java:250-262 | chunked, identity, empty and fixed-length input exactly for the lengths CHUNKED, IDENTITY, 0 and any other, the last keeping the length |
| Warcs.GetEntity | src/de/webis/wasp/warcs/Warcs.java:264-298 | chunked iff the length is CHUNKED, content length -1 when unknown and the length otherwise, and the first Content-Type and Content-Encoding headers |
| Warcs.LookupDecoder | src/de/webis/wasp/warcs/Warcs.java:223-228 | the registry knows gzip and x-gzip as gzip and deflate as deflate, and nothing else |
| Warcs.DecodersInListedOrder | src/de/webis/wasp/warcs/Warcs.java:229-244 | the loop fails with HttpException iff some listed coding is neither known nor "identity"; otherwise the decoders are those of the known codings, in listed order |
| Warcs.EncodeEntity | src/de/webis/wasp/warcs/Warcs.java:212-248 | fails exactly as the loop as written fails; otherwise the decoders undo the listed codings for every text, as section 3.1.2.2 of RFC 7231 orders codings, and any other order of as many decoders fails with an I/O error |
| Warcs.EncodeEntityAsWritten | src/de/webis/wasp/warcs/Warcs.java:212-248 | nothing to undo for an empty body or without Content-Encoding; otherwise it succeeds iff every listed coding is known or "identity", with the known codings' decoders in listed order, and fails with HttpException |
| Warcs.KnownCodecsNamed | src/de/webis/wasp/warcs/Warcs.java:223-244 | a decoder is stacked exactly when some listed coding, lower-cased, names it |
| Warcs.Decode | src/de/webis/wasp/warcs/Warcs.java:179-181 | reading through the decoders fails only with an I/O error |
| Warcs.DecodeEncoded | src/de/webis/wasp/warcs/Warcs.java:229-244 | as many decoders as codings recover the text exactly when they are the codings reversed; any other order fails with an I/O error |
| Warcs.DecodeUndoesOnlyReverse | src/de/webis/wasp/warcs/Warcs.java:229-244 | for every text, the reversed codings decode and every other order of as many decoders fails |
| Warcs.ListedOrderDecodesIffPalindrome | src/de/webis/wasp/warcs/Warcs.java:229-244 | decoding in listed order, as the loop does, recovers the text exactly when the listed codings read the same both ways |
| Warcs.RemoveHeaders | src/de/webis/wasp/warcs/Warcs.java:236-238 | `removeHeaders(name)` leaves no header of that name and never adds one |
| Warcs.RemoveHeadersMember | src/de/webis/wasp/warcs/Warcs.java:236-238 | a header survives the removal exactly when it was there under another name |
| Warcs.RemoveHeadersIdempotent | src/de/webis/wasp/warcs/Warcs.java:236-238 | removing the same name twice removes nothing more |
| Warcs.StripCodingHeadersMember | src/de/webis/wasp/warcs/Warcs.java:236-238 | stripping keeps exactly the headers other than Content-Length, Content-Encoding and Content-MD5 |
| Warcs.LastHeaderAfterRemove | src/de/webis/wasp/warcs/Warcs.java:236-238 | removing headers of another name leaves the last header of a name in place |
| Warcs.IsHtmlAfterStrip | src/de/webis/wasp/warcs/Warcs.java:236-238 | stripping the coding headers does not change whether the response is HTML |
| Warcs.Stack | src/de/webis/wasp/warcs/Warcs.java:229-247 | the response keeps entity, decoders and body; without decoders its headers are untouched, with any it holds exactly the original headers other than Content-Length, Content-Encoding and Content-MD5; its HTML test is unchanged |
| Warcs.DecodeReversedRoundTrip | src/de/webis/wasp/warcs/Warcs.java:229-244 | undoing any list of codings last-applied first recovers the text |
| Warcs.SingleCodingDecodes | src/de/webis/wasp/warcs/Warcs.java:229-244 | with a single coding, the order of the loop does not matter |
| Warcs.ListedOrderFailsOnTwoCodings | src/de/webis/wasp/warcs/Warcs.java:229-244 | a body sent with `Content-Encoding: gzip, deflate` fails when decoded in listed order and is recovered in reverse order |
| Warcs.EncodeEntityTwoCodings | src/de/webis/wasp/warcs/Warcs.java:216-244 | for a non-empty entity listing gzip then deflate, the loop as written stacks gzip first and the corrected one deflate first |
| Warcs.ElementsOfGzipDeflate | src/de/webis/wasp/warcs/Warcs.java:222 | the header elements of `gzip,deflate` are the names gzip and deflate, in order |
| Warcs.GetDate | src/de/webis/wasp/warcs/Warcs.java:123-126 | a missing WARC-Date is a NullPointerException, one that does not parse a parse error, and otherwise the parsed instant |
| Warcs.ToResponse | src/de/webis/wasp/warcs/Warcs.java:189-209 | a record without a type is a NullPointerException, one of another type gives null, an unparsable response an HttpException; a parsed response fails exactly when the loop as written fails and otherwise gets its entity, the decoders in reverse listed order and, once a decoder is stacked, its coding headers removed |
| Warcs.ToResponseAsWritten | src/de/webis/wasp/warcs/Warcs.java:189-209 | as written: the same null and error cases, and a parsed response gets its entity and the decoders in listed order, with its coding headers removed once a decoder is stacked |
| Warcs.HtmlOf | src/de/webis/wasp/warcs/Warcs.java:176-181 | no response gives null, a response without Content-Type a NullPointerException, a non-HTML one null, and an HTML one the entity's text as read through its decoders (coded bytes where codings remain), or an I/O error |
| Warcs.GetHtml | src/de/webis/wasp/warcs/Warcs.java:174-182 | errors of building the response pass through and a record that is not a response gives null; an HTML response gives the text read through its decoders, and text is only ever returned for an HTML response |
| Warcs.GetHtmlAsWritten | src/de/webis/wasp/warcs/Warcs.java:174-182 | as written: errors of building the response pass through, a record that is not a response gives null, and an HTML response whose body decodes gives that text |
| Warcs.GetHtmlReadsEncodedText | src/de/webis/wasp/warcs/Warcs.java:174-248 | an HTML response whose body was coded with the codings its Content-Encoding lists reads back as the original text; as written, only when the listed codings read the same both ways, and otherwise an I/O error |
| Warcs.GetHtmlAsWrittenFailsOnTwoCodings | src/de/webis/wasp/warcs/Warcs.java:174-248 | as written, an HTML response sent with `Content-Encoding: gzip,deflate` fails with an I/O error |
| Warcs.GetHtmlDecodesCodedBody | src/de/webis/wasp/warcs/Warcs.java:174-247 | with the corrected decoder order, an HTML response sent with `Content-Encoding: gzip,deflate` is read back as the original text |
| Warcs.GetHtmlReadsUndecodedBody | src/de/webis/wasp/warcs/Warcs.java:174-181 | an HTML response whose headers list no coding is read as its body's bytes, in both decoder orders; that is the original text only when the body was not coded |
| Warcs.TextOfEncoded | src/de/webis/wasp/warcs/Warcs.java:179-181 | `EntityUtils.toString` on a body still coded does not give the text inside: reading back yields the text iff no coding was applied |
| Warcs.Elements | src/de/webis/wasp/warcs/Warcs.java:222 | the Content-Encoding value gives at most one element per comma-separated piece, and an element name is empty only where its piece carries a value |
| Warcs.ElementNamesMember | src/de/webis/wasp/warcs/Warcs.java:222 | a name is an element exactly when some comma-separated piece has it as its name and that piece has a non-empty name or a value |
| Warcs.EmptyNamedElementRefused | src/de/webis/wasp/warcs/Warcs.java:222-244 | a listed piece with an empty name and a value makes `encodeEntity` throw HttpException, in the loop as written and in the reversed order alike |
| Warcs.GzipThenEmptyNameRefused | src/de/webis/wasp/warcs/Warcs.java:222-244 | `Content-Encoding: gzip,=x` has the elements gzip and the empty name, and `encodeEntity` throws HttpException for it |
| Warcs.ElementsOfJoinedNames | src/de/webis/wasp/warcs/Warcs.java:222 | a comma-separated list of plain coding names gives back exactly those names, in order |
| Consumers.ConsumerHtml | src/de/webis/wasp/warcs/GenericWarcRecordConsumer.java:131-143 | the HTML of the record when reading it succeeds, and null whenever parsing or decoding throws |
| Consumers.ConsumerHtmlOnlyForHtmlResponses | src/de/webis/wasp/warcs/GenericWarcRecordConsumer.java:131-143 | HTML is only ever returned for a record of type response whose content is an HTTP response with an HTML Content-Type |
| Consumers.HookFor | src/de/webis/wasp/warcs/GenericWarcRecordConsumer.java:40-52 | a missing type fails the switch; exactly response, request and revisit records reach a hook, each with the record's fields in the hook's argument order and the given time; a response goes to the HTML hook iff it has HTML |
| Consumers.Accept | src/de/webis/wasp/warcs/GenericWarcRecordConsumer.java:34-57 | a missing or malformed WARC-Date escapes; otherwise accept never throws, other types leave the state alone, and a record that routes to a hook leaves the state that hook produces, or the state as it was when the hook throws |
| Consumers.HookTimeIsWholeSecond | src/de/webis/wasp/warcs/GenericWarcRecordConsumer.java:37-38 | the time a hook receives is the record's date cut down to its whole second |
| Consumers.DefaultHooks | src/de/webis/wasp/warcs/GenericWarcRecordConsumer.java:74-120 | the default hooks do nothing |
| Consumers.DefaultHooksChangeNothing | src/de/webis/wasp/warcs/GenericWarcRecordConsumer.java:34-120 | with the default hooks, accept keeps the state and fails only on the date |
| Consumers.SetDocumentExtractor | src/de/webis/wasp/warcs/GenericHtmlWarcRecordConsumer.java:73-76 | a null extractor is a NullPointerException; otherwise it is kept as given |
| Consumers.ToDocumentCall | src/de/webis/wasp/warcs/GenericHtmlWarcRecordConsumer.java:83-88 | the extractor's document for the HTML goes on with the same id and time |
| Consumers.IndexDocument | src/de/webis/wasp/index/WarcIndexer.java:48-59 | a null title or text counts as empty; nothing is indexed when both are empty; otherwise the page is written under the id with the text as content and the title, and a null id fails |
| Consumers.AcceptRevisitAsWritten | src/de/webis/wasp/index/WarcIndexer.java:61-66 | as written the arguments are swapped: anything written is a pointer from the referred-to id to the record's own id, and nothing happens while the record's own id does not resolve |
| Consumers.AcceptRevisit | src/de/webis/wasp/index/WarcIndexer.java:61-66 | with the arguments in the index's order, a pointer to the referred-to record is written under the revisit's id iff the referred-to record resolves |
| Consumers.AcceptRequest | src/de/webis/wasp/index/WarcIndexer.java:68-75 | a null concurrent id fails; an unresolved one changes nothing; otherwise the target URI at the given time is appended to the resolved page |
| Consumers.IndexerHooksAsWritten | src/de/webis/wasp/index/WarcIndexer.java:48-75 | an HTML response indexes the extracted document with its id and time, a non-HTML response is ignored, a request is accepted under its concurrent id, and a revisit takes the swapped call |
| Consumers.IndexerHooks | src/de/webis/wasp/index/WarcIndexer.java:48-75 | each hook call goes to the matching index write, with the revisit arguments in order |
| Consumers.RevisitAsWrittenIsDropped | src/de/webis/wasp/index/WarcIndexer.java:65 | as written, a revisit of an indexed page under a new id is dropped and the id stays unknown; in order, the id resolves to the page |
| Consumers.RevisitAsWrittenOverwritesPage | src/de/webis/wasp/index/WarcIndexer.java:65 | as written, when the revisit's own id is already a page, the referred-to page is replaced by a pointer to it |
| Consumers.AcceptHtmlResponseIndexesPage | src/de/webis/wasp/warcs/GenericWarcRecordConsumer.java:34-72 | an HTML response record with a title or text is indexed under its record id as a page without requests |
| Consumers.HtmlResponseHookFor | src/de/webis/wasp/warcs/GenericWarcRecordConsumer.java:62-72 | an HTML response record goes to the HTML hook with its id, its HTML and the time |
| Consumers.AcceptRequestAppends | src/de/webis/wasp/warcs/GenericWarcRecordConsumer.java:106-112 | a request record whose WARC-Concurrent-To resolves appends its target URI at the record's second to the resolved page |
| LegacyIndexer.NewLegacyIndexer | src/de/webis/warc/index/WarcIndexer.java:36-47 | a null index is a NullPointerException; a null extractor stands for the identity, any other is kept |
| LegacyIndexer.IndexCallFor | src/de/webis/warc/index/WarcIndexer.java:63-108 | a missing type is a NullPointerException and other types make no call; a response passes on the error of reading its HTML, a non-HTML one makes no call, and an HTML one is indexed under its id with the extracted text exactly when the extractor yields text; a revisit passes (id, WARC-Refers-To); a request passes concurrent id, target URI and the epoch second of its date, and a request whose WARC-Date is missing or malformed passes on that error |
| LegacyIndexer.Accept | src/de/webis/warc/index/WarcIndexer.java:53-61 | only I/O and HTTP failures are swallowed, leaving the state as it was; every other exception escapes; a successful call's state is the result |
| LegacyIndexer.MissingTypeEscapesOnlyHere | src/de/webis/warc/index/WarcIndexer.java:53-67 | a record without a WARC-Type makes the older indexer throw, while the wasp consumer swallows it |
| LegacyIndexer.RequestSecondAgreesWithWasp | src/de/webis/warc/index/WarcIndexer.java:103-108 | both generations record a request at the same whole second, with the same concurrent id and URI |
| LegacyIndexer.RevisitArgumentsInOrder | src/de/webis/warc/index/WarcIndexer.java:97-101 | the older indexer passes the revisit's own id first and the referred-to id second |
| Matching.NewWarcRecordPair | src/de/webis/warc/WarcRecordPair.java:28-47 | a pair exists iff both records are present, the first is of type request and the second of type response; null records are a NullPointerException and a wrongly typed request an IllegalArgumentException |
| Matching.Find | src/de/webis/warc/read/RecordMatchingConsumer.java:112-128 | the position of the first entry under the key, or -1 iff no entry has it |
| Matching.Get | src/de/webis/warc/read/RecordMatchingConsumer.java:112-128 | a record is found iff some entry has the key, and the entry under the key holds it |
| Matching.NewCache | src/de/webis/warc/read/RecordMatchingConsumer.java:118-120 | a new cache has the given size bound and no entries |
| Matching.Put | src/de/webis/warc/read/RecordMatchingConsumer.java:122-126 | keys stay distinct, a cache within its bound stays within it, the key then maps to the value whenever the bound is positive, and no other key's value changes |
| Matching.PutExisting | src/de/webis/warc/read/RecordMatchingConsumer.java:105 | re-putting a cached key replaces its record in place |
| Matching.PutNew | src/de/webis/warc/read/RecordMatchingConsumer.java:122-126 | a new key goes last and over the bound only the eldest entry is dropped |
| Matching.PutKeepsPlace | src/de/webis/warc/read/RecordMatchingConsumer.java:112-128 | re-putting a cached key moves neither it nor any other entry |
| Matching.Remove | src/de/webis/warc/read/RecordMatchingConsumer.java:94 | removal returns the record under the key, or null when there is none and then changes nothing; afterwards the key is absent and every other key maps as before |
| Matching.PutEvictsEldest | src/de/webis/warc/read/RecordMatchingConsumer.java:123-126 | a new key put into a full cache drops exactly the eldest entry and appends the new one |
| Matching.NewMatchingConsumer | src/de/webis/warc/read/RecordMatchingConsumer.java:68-74 | a null pair consumer is a NullPointerException; otherwise the cache is empty with the given size |
| Matching.Accept | src/de/webis/warc/read/RecordMatchingConsumer.java:81-106 | a record without a type fails; a response is put under its id; a request takes out the response named by its WARC-Concurrent-To and yields the pair of itself and that response; anything else is ignored |
| Matching.AcceptPreservesValid | src/de/webis/warc/read/RecordMatchingConsumer.java:81-106 | the cache keeps distinct keys, stays within its bound and holds only responses, so a typed record never makes accept throw and a request whose response is cached is always paired |
| Matching.PutKeepsResponses | src/de/webis/warc/read/RecordMatchingConsumer.java:103-106 | caching a response keeps the cache valid |
| Matching.RemoveKeepsResponses | src/de/webis/warc/read/RecordMatchingConsumer.java:92-101 | taking a response out keeps the cache valid |
| Matching.PairedAtMostOnce | src/de/webis/warc/read/RecordMatchingConsumer.java:92-101 | a cached response is paired at most once: a second request naming it forwards nothing |
| Matching.RequestBeforeResponseIsNotPaired | src/de/webis/warc/read/RecordMatchingConsumer.java:81-106 | a request read before its response is not paired, and the response then stays cached |
| Matching.ResponseBeforeRequestIsPaired | src/de/webis/warc/read/RecordMatchingConsumer.java:81-106 | a response followed by the request naming it yields exactly that pair and empties the cache |
| Readers.GzipRulesCompared | src/de/webis/wasp/warcs/WarcRecordReader.java:74-82 | the wasp reader treats every path the older reader treats as gzip as gzip too, and also a path ending in ".GZ", which the older reader (src/de/webis/warc/WarcReader.java:68) reads uncompressed |
| Readers.LeadingRecords | src/de/webis/wasp/warcs/WarcRecordReader.java:132-136 | the records the stream answers before its first null or failure, in order |
| Readers.Run | src/de/webis/wasp/warcs/WarcRecordReader.java:129-144 | the stream is closed iff reading reached the end; an I/O failure stops after the leading records and leaves it open; the consumer sees the leading records in order, and its first exception escapes |
| Readers.RunLoop | src/de/webis/warc/WarcReader.java:87-101 | the `while (record != null)` loop computes exactly the run described above |
| Readers.EscapingRecordStopsRun | src/de/webis/wasp/warcs/WarcRecordReader.java:129-144 | an exception from the consumer ends the run with the stream left open, and no later record is read |
| Readers.NewTail | src/de/webis/wasp/warcs/ContinuousWarcRecordReader.java:59-68 | a new tailing reader is open, running, at position 0 and forwards from the start iff it consumes existing records; the older reader without a flag always forwards (src/de/webis/warc/OpenWarcReader.java:55-61) |
| Readers.Step | src/de/webis/wasp/warcs/ContinuousWarcRecordReader.java:83-152 | appends only grow the file; `consume` and `closed` are never reset; a stopped reader forwards nothing more; one event forwards at most one record |
| Readers.StepPreservesInv | src/de/webis/warc/read/OpenWarcReader.java:83-151 | every event keeps the stream open until `closed`, forwards nothing before `consume`, and keeps the forwarded records a contiguous stretch of the file ending at the read position |
| Readers.ReadRecordPreservesInv | src/de/webis/wasp/warcs/ContinuousWarcRecordReader.java:89-93 | reading one record keeps the invariant |
| Readers.StepsPreserveInv | src/de/webis/wasp/warcs/ContinuousWarcRecordReader.java:83-152 | any sequence of events keeps the invariant |
| Readers.ConsumeNeverResets | src/de/webis/wasp/warcs/ContinuousWarcRecordReader.java:121-123 | once `consume` is set it stays set, whatever happens |
| Readers.CloseOnlySetsClosed | src/de/webis/wasp/warcs/ContinuousWarcRecordReader.java:83-86 | `close()` only sets the flag and leaves the stream open |
| Readers.EndOfFilePolls | src/de/webis/wasp/warcs/ContinuousWarcRecordReader.java:137-152 | at end of file a reader neither closed nor interrupted sets `consume` and keeps polling |
| Readers.AtMostOneRecordAfterClose | src/de/webis/wasp/warcs/ContinuousWarcRecordReader.java:145-151 | after `close()`, at most one more record is forwarded, and none once the stream is released |
| Readers.StepAfterClose | src/de/webis/wasp/warcs/ContinuousWarcRecordReader.java:149-151 | one event after `close()` forwards a record only by releasing the stream |
| Readers.SkipsExistingForwardsNew | src/de/webis/wasp/warcs/ContinuousWarcRecordReader.java:89-93 | a reader not consuming existing records skips what the file held and forwards what is appended after its first end of file |
| Readers.InterruptLeavesStreamOpen | src/de/webis/wasp/warcs/ContinuousWarcRecordReader.java:145-152 | an interrupt during the end-of-file wait ends the run after forwarding the whole file; the run's `close()` only sets the flag, so the stream is never released |
| Readers.ReadAllForwards | src/de/webis/wasp/warcs/ContinuousWarcRecordReader.java:89-93 | reading n records of an open consuming reader forwards exactly those n records |
| Readers.StepsAppend | src/de/webis/wasp/warcs/ContinuousWarcRecordReader.java:83-152 | running two event sequences one after the other is running their concatenation |
| Readers.UnflaggedReaderForwardsExisting | src/de/webis/warc/OpenWarcReader.java:55-62 | the older tailing reader without a consume flag forwards every record the file already holds, in order, from its first read |
| Watchers.InsertByModified | src/de/webis/wasp/warcs/ArchiveWatcher.java:88-93 | inserting into a listing sorted by modification time keeps it sorted and adds exactly the one entry |
| Watchers.SortByModified | src/de/webis/wasp/warcs/ArchiveWatcher.java:87-93 | the sorted listing is a permutation of the directory listing in ascending modification time, and it is stable: the files of any one modification time keep their listing order, as `Arrays.sort` on objects does |
| Watchers.InsertWithTime | src/de/webis/wasp/warcs/ArchiveWatcher.java:88-93 | an inserted entry goes before the entries of the same time, which keep their order |
| Watchers.TailIsLastListedOfNewest | src/de/webis/wasp/warcs/ArchiveWatcher.java:87-113 | of several equally new files, the one tailed is the last of them in the listing |
| Watchers.WaspPlan | src/de/webis/wasp/warcs/ArchiveWatcher.java:85-114 | for a directory that lists, a file is tailed iff the directory is not empty, with existing records forwarded iff they are to be read; older files are replayed only when existing records are to be read, and then replay and tail together are the whole sorted listing; the listing and opening failures are in `Watchers.WaspStartup` |
| Watchers.GatedPlan | src/de/webis/warc/read/ArchiveWatcher.java:67-115 | for a directory that lists: without reading existing archives nothing is replayed or tailed; otherwise the full plan; the listing and opening failures are in `Watchers.GatedStartup` |
| Watchers.UnconditionalPlan | src/de/webis/warc/ArchiveWatcher.java:47-88 | for a directory that lists, a file is tailed iff the directory is not empty, forwarding everything, and replay and tail together are the whole sorted listing; the listing and opening failures are in `Watchers.UnconditionalStartup` |
| Watchers.RawPlan | src/de/webis/wasp/warc/ArchiveWatcher.java:59-70 | for a directory that lists, every listed file is read to completion in listing order and nothing is tailed; the listing and opening failures are in `Watchers.RawStartup` |
| Watchers.RunPlan | src/de/webis/wasp/warcs/ArchiveWatcher.java:95-113 | the files opened are the planned ones (older files, then the newest) up to the first that cannot be opened; the startup fails iff some planned file cannot be opened, and then with IOException and nothing tailed; otherwise exactly the plan is carried out |
| Watchers.WaspStartup | src/de/webis/wasp/warcs/ArchiveWatcher.java:85-113 | a directory that cannot be listed is a NullPointerException; reading existing records, the files are opened oldest first up to the first that cannot be opened, failing iff there is one; otherwise only the newest is opened, failing iff it cannot be; a failure is an IOException with nothing tailed |
| Watchers.GatedStartup | src/de/webis/warc/read/ArchiveWatcher.java:76-111 | without reading existing archives the directory is not listed and nothing can fail; otherwise the unconditional startup |
| Watchers.UnconditionalStartup | src/de/webis/warc/ArchiveWatcher.java:62-87 | a directory that cannot be listed is a NullPointerException; otherwise the files are opened oldest first up to the first that cannot be opened, failing with IOException and nothing tailed iff there is one |
| Watchers.RawStartup | src/de/webis/wasp/warc/ArchiveWatcher.java:59-66 | a directory that cannot be listed is a NullPointerException; otherwise the entries are read in listing order up to the first that cannot be opened, failing with IOException iff there is one; nothing is tailed |
| Watchers.FailedReplayEndsStartup | src/de/webis/wasp/warcs/ArchiveWatcher.java:95-113 | an older file that cannot be opened ends the startup with IOException: exactly the files before it were read and nothing is tailed |
| Watchers.PlanCoversSorted | src/de/webis/wasp/warcs/ArchiveWatcher.java:95-113 | the files replayed followed by the tailed file are the sorted listing |
| Watchers.TailIsNewest | src/de/webis/wasp/warcs/ArchiveWatcher.java:110-113 | the tailed file is one no listed file was modified after |
| Watchers.CloseFile | src/de/webis/wasp/warcs/ArchiveWatcher.java:212-221 | an empty slot stays as it is; a successful close empties the slot and marks the reader closed; a failing close raises IOException with the slot already cleared (wasp) or still holding the reader (older watchers, src/de/webis/warc/ArchiveWatcher.java:131-136) |
| Watchers.OpenFile | src/de/webis/wasp/warcs/ArchiveWatcher.java:222-241 | it succeeds iff closing the current reader returns and the new file can be opened; then the slot holds a newly started reader; a file that cannot be opened raises IOException with the old reader already closed and the slot empty |
| Watchers.CloseThenClearStaysTidy | src/de/webis/warc/ArchiveWatcher.java:131-141 | closing before clearing keeps every started reader either installed or closed, whatever `close()` does |
| Watchers.ClearThenCloseStaysTidy | src/de/webis/wasp/warcs/ArchiveWatcher.java:212-241 | clearing before closing keeps the slot tidy as long as `close()` returns |
| Watchers.ClearThenCloseLosesFailedReader | src/de/webis/wasp/warcs/ArchiveWatcher.java:215-218 | clearing first loses a reader whose `close()` fails: it is neither installed nor closed; the readers the watchers install only set a flag in `close()` (src/de/webis/wasp/warcs/ContinuousWarcRecordReader.java:83-86), so for them this case does not arise |
| Watchers.HandleEvents | src/de/webis/wasp/warcs/ArchiveWatcher.java:174-186 | the events of one key keep the files tailed so far and add only files whose existing records are forwarded; when nothing fails, one file per creation; a reader that cannot be closed or a file that cannot be opened ends the handling |
| Watchers.Watch | src/de/webis/wasp/warcs/ArchiveWatcher.java:169-201 | the loop keeps the files tailed so far and adds only files whose existing records are forwarded; an IOException while handling a key ends it, as does a key that cannot be reset |
| Watchers.HandleEventsTailsCreations | src/de/webis/wasp/warcs/ArchiveWatcher.java:174-186 | when every `close()` returns, the created files are tailed in event order up to the first that cannot be opened, one reader started per file; the handling fails iff such a file exists, and then leaves the slot empty; otherwise the last reader is installed |
| Watchers.WatchTailsUntilReset | src/de/webis/wasp/warcs/ArchiveWatcher.java:169-201 | when every `close()` returns and every created file can be opened, the loop tails exactly the files created up to the first key that cannot be reset, stops with that reason iff some key cannot be reset, and never fails |
| Watchers.WatchTailsUntilFailure | src/de/webis/wasp/warcs/ArchiveWatcher.java:169-201 | when every `close()` returns, the loop tails the files created up to the first key that cannot be reset, stopping at the first file that cannot be opened; it ends with IOException iff such a file is reached, and with a failed reset iff none is and some key cannot be reset |
| Watchers.FailedOpenEndsWatch | src/de/webis/wasp/warcs/ArchiveWatcher.java:178-179 | a created entry that cannot be opened (a directory, or a file already gone) ends the loop with IOException, an empty slot and no new tailed file |
| Watchers.Openable | src/de/webis/wasp/warcs/ArchiveWatcher.java:174-179 | the files reached are a prefix of the created files, all of them iff every one opens, and the one after them cannot be opened |
| Watchers.OpenableAppend | src/de/webis/wasp/warcs/ArchiveWatcher.java:172-179 | over two keys, the files reached stop in the first key when one of its files cannot be opened, and otherwise continue into the second |
| Watchers.NonCreationEventsChangeNothing | src/de/webis/wasp/warcs/ArchiveWatcher.java:180-185 | overflow and unknown events leave the slot and the tailed files as they were |
| UiPages.NewUiInstant | src/de/webis/wasp/ui/UiPage.java:310-332 | a present instant shows its date picker text and carries its ISO, picker and replay-path forms; a missing lower bound reads "beginning", a missing upper bound "now", and only a missing instant that is neither bound has no text |
| UiPages.NewUiQuery | src/de/webis/wasp/ui/UiPage.java:180-191 | the query keeps the terms and page number, always shows both bounds, and has a picker value for a bound exactly when the query has that bound |
| UiPages.HrefBase | src/de/webis/wasp/ui/UiPage.java:109-128 | the href base starts with "?terms=" and the URL-encoded terms, and ends with "&page=" for the number each link appends |
| UiPages.HrefParams | src/de/webis/wasp/ui/UiPage.java:109-128 | terms first and an open page last, with a URL-encoded picker-format `from` right after the terms iff there is a lower bound and a `to` right before the page iff there is an upper bound |
| UiPages.HrefParamsFollowBounds | src/de/webis/wasp/ui/UiPage.java:109-128 | the href base names the terms first and an open page parameter last, with "from" iff the query has a lower bound and "to" iff it has an upper bound |
| UiPages.FirstArrow | src/de/webis/wasp/ui/UiPage.java:130-132 | the first arrow links page 1 and is disabled exactly on page 1, never active |
| UiPages.PageLink | src/de/webis/wasp/ui/UiPage.java:134-138 | the link for page k is labelled with k's decimal text, links it, is active exactly when k is the current page and is never disabled |
| UiPages.LastArrow | src/de/webis/wasp/ui/UiPage.java:140-142 | the last arrow links the last page and is disabled exactly on the last page, never active |
| UiPages.Pagination | src/de/webis/wasp/ui/UiPage.java:129-143 | the pagination is the first arrow, one link per page 1..numPages in order, and the last arrow |
| UiPages.PaginationLinksTargetTheirPage | src/de/webis/wasp/ui/UiPage.java:129-143 | every pagination link is the href base followed by the decimal number of the page it names |
| UiPages.OneActiveLink | src/de/webis/wasp/ui/UiPage.java:134-138 | exactly the link of the current page is active when the page number is one of the pages, and no link otherwise |
| UiPages.NewUiResult | src/de/webis/wasp/ui/UiPage.java:231-258 | a result shows the response's title, the snippet, the matched request's URI and its shortened form, and a replay URI that starts with server/collection/ and ends with the live URI |
| UiPages.EmptyPage | src/de/webis/wasp/ui/UiPage.java:68-77 | the page without a query has no query, results or pagination; a missing replay server or collection is a NullPointerException |
| UiPages.QueryPage | src/de/webis/wasp/ui/UiPage.java:91-143 | the page for a query keeps the terms and page number, shows each given result in order, and carries the pagination for its position; a missing replay server or collection is a NullPointerException |
| Display.NatDigits | src/de/webis/wasp/ui/UiPage.java:136 | a natural number renders as at least one digit without a leading zero |
| Display.Decimal | src/de/webis/wasp/ui/UiPage.java:136 | an int renders as non-empty text that starts with a minus sign iff the number is negative |
| Display.NatDigitsValue | src/de/webis/wasp/ui/UiPage.java:136 | the digits of a natural number have that number as their value |
| Display.DecimalRoundTrip | src/de/webis/wasp/ui/UiPage.java:136 | every integer is read back from its decimal text |
| Display.DecimalInjective | src/de/webis/wasp/ui/UiPage.java:136 | different page numbers render as different link texts |
| Display.ParseInt | src/de/webis/wasp/ui/SearchServlet.java:275-283 | a value that parses starts with a digit or a sign |
| Display.ParseIntRoundTrip | src/de/webis/wasp/ui/SearchServlet.java:275-283 | Integer.parseInt reads back every 32-bit int from its decimal text |
| Display.ParseIntRefusesOverflow | src/de/webis/warc/ui/SearchServlet.java:126-134 | decimal text of a number outside 32 bits is a NumberFormatException rather than a wrapped value |
| Display.Shorten | src/de/webis/wasp/ui/UiPage.java:239-246 | a URI of at most 60 characters is shown whole and only then unchanged; a longer one as its first 28 characters, "..." and its last 28 characters |
| PageCache.Nulls | src/de/webis/warc/index/ResultPages.java:35-37 | the padding is the requested number of null slots |
| PageCache.Pad | src/de/webis/warc/index/ResultPages.java:34-37 | padding keeps the cached slots and appends null slots until the list reaches the page's index |
| PageCache.NewResultPages | src/de/webis/warc/index/ResultPages.java:22-26 | a null fetcher is a NullPointerException; otherwise no page is cached |
| PageCache.GetPageAsWritten | src/de/webis/warc/index/ResultPages.java:32-45 | a page below 1 is an IndexOutOfBoundsException; a page is fetched iff its slot is missing or null, a cached page is returned unchanged, and a returned page sits in its slot |
| PageCache.GetPage | src/de/webis/warc/index/ResultPages.java:32-45 | the intended cache: as above, and every other slot keeps what it held (null beyond the old end) |
| PageCache.CachingFetch | src/de/webis/warc/index/CachingResultsFetcher.java:30-44 | the caching fetcher fetches a page iff its slot is missing or null, through the older fetcher's `fetch` as written (the class it extends); it returns a cached page unchanged and leaves a returned page in its slot |
| PageCache.CachingFetchMissThrows | src/de/webis/warc/index/CachingResultsFetcher.java:38-43 | a page that is not cached throws exactly when the search finds indexed documents for it |
| PageCache.CachingFetchCorrected | src/de/webis/warc/index/CachingResultsFetcher.java:30-44 | with the corrected request loop and the page stored in its own slot: a miss fetches, a hit returns the cached page, and no other slot changes |
| PageCache.GetPageStaysSound | src/de/webis/warc/index/ResultPages.java:32-45 | with the intended cache, every slot keeps holding the page of its own number, so every page returned is the page asked for |
| PageCache.InsertShiftsLaterPages | src/de/webis/warc/index/ResultPages.java:39-42 | as written, after pages 3 and 1 were fetched, asking for page 4 returns page 3 without fetching |
| PageCache.IntendedKeepsPagesInPlace | src/de/webis/warc/index/ResultPages.java:39-42 | the intended cache answers the same requests with page 4 itself |
| PageCache.Upto | src/de/webis/warc/index/ResultPages.java:32-34 | the page numbers lo..hi in increasing order |
| PageCache.InOrderFetchesEachOnce | src/de/webis/warc/index/ResultPages.java:32-45 | asking for the pages after the cached ones in increasing order fetches each exactly once and caches all of them |
| PageCache.RepeatedRequestHits | src/de/webis/warc/index/ResultPages.java:39-44 | asking again for a page just returned fetches nothing and changes nothing |
| Renderer.NewRenderer | src/de/webis/warc/ui/ResultPageRenderer.java:71-78 | a null collection is a NullPointerException; otherwise the renderer keeps the port and collection |
| Renderer.DisplayUri | src/de/webis/warc/ui/ResultPageRenderer.java:264-273 | the escaped URI is shown whole iff it has at most 60 characters, else as its first 28 characters, "..." and its last 28 |
| Renderer.GetTitle | src/de/webis/warc/ui/ResultPageRenderer.java:323-330 | the title is the base title, followed by ": " and the terms exactly when there is a query |
| Renderer.TitleRecoversTerms | src/de/webis/warc/ui/ResultPageRenderer.java:323-330 | the terms can be read back from the title, so different terms give different titles |
| Renderer.HrefParams | src/de/webis/warc/ui/ResultPageRenderer.java:332-354 | the parameter list exists iff the query has no bounds, and is then the URL-encoded terms followed by the open page parameter; a bound is formatted with the zone-less date picker pattern (lines 34-35, 373-377), which throws UnsupportedTemporalTypeException on an `Instant` |
| Renderer.HrefPrefixAgreesWithNewer | src/de/webis/warc/ui/ResultPageRenderer.java:332-354 | the older href prefix exists exactly for queries without bounds, and then equals the newer href base |
| Renderer.HrefPrefix | src/de/webis/warc/ui/ResultPageRenderer.java:332-354 | for a query without bounds the prefix is exactly "?terms=", the URL-encoded terms and "&page="; a query with a bound throws UnsupportedTemporalTypeException |
| Renderer.EarlierPages | src/de/webis/warc/ui/ResultPageRenderer.java:301-305 | the links before the current page are pages 1..pageNumber-1 in order |
| Renderer.PreviousArrow | src/de/webis/warc/ui/ResultPageRenderer.java:297-300 | the previous arrow is disabled without a link exactly on page 1, else links the previous page |
| Renderer.NextArrow | src/de/webis/warc/ui/ResultPageRenderer.java:313-316 | the next arrow is disabled without a link exactly on the last page, else links the next page |
| Renderer.Pagination | src/de/webis/warc/ui/ResultPageRenderer.java:287-321 | the bar is the previous arrow, the earlier pages, the current page, the next page unless this is the last page, and the next arrow |
| Renderer.TargetOfPageLink | src/de/webis/warc/ui/ResultPageRenderer.java:300-316 | the page number of a link is read back from the text after the prefix |
| Renderer.ActiveOnlyAtCurrent | src/de/webis/warc/ui/ResultPageRenderer.java:306-307 | an item is active iff it is the current page's item |
| Renderer.OneActiveItem | src/de/webis/warc/ui/ResultPageRenderer.java:306-307 | exactly one item is active: the current page, without a link |
| Renderer.ItemLeadsNear | src/de/webis/warc/ui/ResultPageRenderer.java:297-316 | on an ordinary page each link leads to an existing page other than the current one, the next page only when this is not the last page |
| Renderer.LinksLeadToNeighbourPages | src/de/webis/warc/ui/ResultPageRenderer.java:287-321 | the same for every link of the bar |
| Renderer.EarlierPagesAgreeWithNewer | src/de/webis/warc/ui/ResultPageRenderer.java:301-305 | before the current page the older bar shows the same labels, links and states as the newer pagination |
| Servlets.StringParameter | src/de/webis/wasp/ui/SearchServlet.java:336-348 | a set parameter gives its value, else the default; with neither, the given exception |
| Servlets.GetParameterValue | src/de/webis/wasp/ui/SearchServlet.java:336-348 | a set parameter gives its value, else the default; with neither, a NoSuchElementException |
| Servlets.GetParameter | src/de/webis/warc/ui/SearchServlet.java:141-153 | a set parameter gives its value, else the default; with neither, a NullPointerException |
| Servlets.IntParameter | src/de/webis/wasp/ui/SearchServlet.java:357-365 | an unset int parameter gives the default; a set one succeeds iff Integer.parseInt accepts it, with that value, else a NumberFormatException |
| Servlets.IntParameterReadsDecimal | src/de/webis/warc/ui/SearchServlet.java:155-163 | a number configured in decimal is the number read |
| Servlets.Init | src/de/webis/wasp/ui/SearchServlet.java:113-123 | init succeeds iff the index port and page size are unset or parse; each setting comes from its own key or its default |
| Servlets.InitDefaults | src/de/webis/wasp/ui/SearchServlet.java:42-56 | without init parameters the settings are port 9200, page size 10, "https://localhost:8002" and "archive" |
| Servlets.InitPageSizeIgnoresIndexPort | src/de/webis/wasp/ui/SearchServlet.java:113-118 | configuring the index port sets the port and leaves the page size alone |
| Servlets.LegacyInitWith | src/de/webis/warc/ui/SearchServlet.java:62-74 | the older init succeeds iff the index port, page size and replay port keys are unset or parse, and reads each setting from its key or default |
| Servlets.LegacyInitAsWritten | src/de/webis/warc/ui/SearchServlet.java:26 | as written, the page size equals the index port whenever the index port is configured |
| Servlets.LegacyInit | src/de/webis/warc/ui/SearchServlet.java:62-74 | the corrected older init reads the page size from "page.size" |
| Servlets.LegacyPageSizeIsIndexPort | src/de/webis/warc/ui/SearchServlet.java:26 | configuring index port 9200 makes the older servlet show 9200 results per page |
| Servlets.LegacyInitAgreesWithNewer | src/de/webis/warc/ui/SearchServlet.java:62-74 | the corrected older init reads the same page size, index port and collection as the newer one |
| Servlets.RememberQuery | src/de/webis/wasp/ui/SearchServlet.java:259-266 | the session stores the query, keeping its stored results only when the stored query equals it |
| Servlets.GetResults | src/de/webis/wasp/ui/SearchServlet.java:227-241 | stored results are returned without searching; otherwise the search's results are returned and stored on success |
| Servlets.ResultsAnswerTheQuery | src/de/webis/wasp/ui/SearchServlet.java:227-268 | starting from a coherent session, the results returned for a query are that query's search results and the session stays coherent |
| Servlets.RepeatedQueryDoesNotSearch | src/de/webis/wasp/ui/SearchServlet.java:227-268 | asking again for the stored query with stored results does not search |
| Servlets.GetPageNumber | src/de/webis/wasp/ui/SearchServlet.java:275-283 | page 1 without the parameter; else Integer.parseInt of it, or a NumberFormatException |
| Servlets.PageNumberOfLink | src/de/webis/wasp/ui/SearchServlet.java:275-283 | the page number written into a link is the page number read back from the request |
| Servlets.ParseInstant | src/de/webis/wasp/ui/SearchServlet.java:306-314 | a missing or empty value is no bound; any other value is the parsed instant or a parse exception |
| Servlets.GetQuery | src/de/webis/wasp/ui/SearchServlet.java:248-268 | no terms means no query and an untouched session; else the query has the terms and a bound iff its value is non-empty, is remembered in the session, and fails iff a bound does not parse |
| Servlets.LegacyGetQuery | src/de/webis/warc/ui/SearchServlet.java:91-110 | no terms means no query; else each bound is set iff its parameter is present, the query exists iff every present bound parses, text that does not parse is an IllegalArgumentException from Joda-Time's `Instant.parse`, and the query is remembered in the session |
| Servlets.EmptyFromDiffers | src/de/webis/warc/ui/SearchServlet.java:96-97 | an empty "from" means no lower bound to the newer servlet but an IllegalArgumentException to the older one |
| Servlets.NumPages | src/de/webis/wasp/ui/SearchServlet.java:206 | computing the number of pages fails iff the page size is 0, with an ArithmeticException |
| Servlets.NumPagesRoundsUp | src/de/webis/wasp/ui/SearchServlet.java:206 | for a positive page size the number of pages is the result count divided by the page size rounded up, and 1 or 0 without results |
| Servlets.PageSlice | src/de/webis/wasp/ui/SearchServlet.java:208-211 | the page is the results between the clamped bounds; a negative start is an IndexOutOfBoundsException and a start after the end an IllegalArgumentException |
| Servlets.SliceBounds | src/de/webis/wasp/ui/SearchServlet.java:208-209 | each bound is at most the result count and otherwise the `int` product modulo 2^32, exactly `Math.min` of the product and the count when the product fits |
| Servlets.PageSliceBounds | src/de/webis/wasp/ui/SearchServlet.java:208-211 | without overflow, page p spans results (p-1)*size up to p*size cut at the end, at most a page |
| Servlets.NonPositivePageThrows | src/de/webis/wasp/ui/SearchServlet.java:207-211 | for a positive page size, a page number below 1 whose start does not overflow makes the slice an IndexOutOfBoundsException |
| Servlets.PagedIsPrefix | src/de/webis/wasp/ui/SearchServlet.java:208-211 | pages 1..k one after the other are the first k pages' worth of results |
| Servlets.PagesTileResults | src/de/webis/wasp/ui/SearchServlet.java:206-211 | pages 1..numPages one after the other are the whole result list in order |
| Servlets.GetPage | src/de/webis/wasp/ui/SearchServlet.java:193-218 | without terms the empty page; else on success the page for the query and requested page number, showing that page's slice of the session's results and the pagination over all pages |
| Servlets.LegacyGet | src/de/webis/warc/ui/SearchServlet.java:76-89 | without terms nothing is rendered; else on success the requested page of the query's results, fetched by the older fetcher as written and cached in the session's result pages under its number |
| Servlets.LegacyGetThrowsOnIndexedHits | src/de/webis/warc/ui/SearchServlet.java:84-87 | on a session without results, whenever the search finds indexed documents, the older servlet throws for every page number from 1 on |
| Servlets.ShownResultsStartAtPage | src/de/webis/wasp/ui/SearchServlet.java:193-218 | the results shown for page p are those from position (p-1)*size on, at most a page of them |
| Servlets.SliceStartsAtPage | src/de/webis/wasp/ui/SearchServlet.java:208-211 | page p's slice holds at most a page of results, starting with result (p-1)*size |

## Left out

- Elasticsearch itself is left out. Searching, highlighting and scoring are a backend function from a search request to hits. Sort order and sort stability are not stated.
- The HTML title and content extraction (`Document`) is left out. It is a parameter of the consumers.
- The WARC and HTTP parsers are left out. Records and headers arrive already parsed, and byte-level decompression is an abstract coding function.
- Threads, `Thread.sleep`, polling intervals, the `WatchService`, `BlockingWarcReader` and the `synchronized` blocks on the session are left out. The tailing readers work at record granularity on Append, Read, Close and Interrupt events.
- The older watchers' `openFile` calls a three-argument `OpenWarcReader` constructor that the `warc.read` reader does not declare. Their reader slot is modelled abstractly.
- The startup replay reads each older file with `run()`, modelled by `Readers.Run`; a consumer exception escaping it, and the second `close()` of the try-with-resources on an already closed stream, are not carried into `Watchers.RunPlan`.
- Logging is left out, and so is the `IOException` of searching the index.
- Date formatting, time zones, locales, URL encoding and HTML escaping are parameters. Only how their results are placed is modelled.
- `Integer.parseInt` is modelled for ASCII digits only. Non-ASCII Unicode digits are not modelled.
- Memory exhaustion is not modelled. This covers padding the page cache to a huge page number, asking `GetPage` for page `INT_MIN`, and a pagination list of `INT_MAX` links.
- The legacy Warcs helpers are not present in the older packages, so the older consumers use the `Warcs` module of the newer ones.
- `GenericHtmlWarcRecordConsumer` overrides a hook with a different argument list than the one `GenericWarcRecordConsumer` declares. The model dispatches to it without its `uri` argument.
- The older `WarcIndexer` calls index methods whose argument lists do not match the older `Index`. Its index calls are abstract functions.
- The newer `ResultsFetcher` builds the six-argument older `Result`, so it is modelled with `Results.LegacyResult`.
- A hit without an id is modelled as a NullPointerException.
- Servlets.LegacyGetQuery: the older servlet parses the bounds with Joda-Time's `Instant` (the type it imports) but hands them to an older `Query` whose setters take `java.time.Instant`, so lines 97 and 99 do not type-check as written. The model follows the parser the file imports, whose failure is an IllegalArgumentException, and passes the parsed instant on as a bound.
- `Servlets.LegacyGet` stops before rendering. The older servlet assigns the `ResultsFetcher` that `Index.query` returns to a `ResultPages` variable; the model reads it as `ResultPages` over that older fetcher. It also calls render methods that `ResultPageRenderer` does not declare.
- Servlets.LegacyGet: does not state that the cached fetcher belongs to the current query.
- UiPages.HrefBase: states the first and the last parameter character by character; the optional bounds in between are stated on the parameter list (`UiPages.HrefParams`).
- The older renderer's `getReplayTime` and `getHtmlTime` also format a bare `Instant` with zone-less patterns and so throw the same way; the older result list that uses them is not modelled.
- Common.ToLower: lower-cases ASCII letters only; `toLowerCase(Locale.ROOT)` also maps non-ASCII letters, which no coding name the registry knows contains.
- Warcs.ToResponse: the records the consumers and the older indexer read (`Consumers.ConsumerHtml`, `Consumers.HookFor`, `LegacyIndexer.IndexCallFor`) go through the corrected decoder order; the decoder order as written is modelled by `Warcs.ToResponseAsWritten` and `Warcs.GetHtmlAsWritten` and compared in `Warcs.GetHtmlReadsEncodedText`.
- Warcs.TextOf: the coded bytes are a stand-in (a NUL and the coding's name in front of the coded content), not real gzip or deflate output; the model relies only on a still-coded body not reading as the text inside.
- Warcs.Elements: quoted strings and escapes in header values are not modelled; a comma inside a quoted value splits the piece here, where HttpCore's header parser keeps it whole.
- Warcs.TrimStart and Warcs.TrimEnd are helpers that carry no prefix or suffix property.
- Warcs.EncodeEntityTwoCodings: is stated for an entity whose header elements are already known to be gzip then deflate. The literal header value is covered by `Warcs.ElementsOfGzipDeflate`.
- Queries.MainQuery and the query builders describe the query that is built. Running it is the backend's job, and `Queries.MainQueryMatchesIffRequestInWindow` gives its meaning under the model's evaluator.
- UiPages.EmptyPage and UiPages.QueryPage take the locale as text. A null `Locale` (a NullPointerException in `locale.toString()`) is not modelled.

## Findings

| source | as written | input that shows it | evidently intended | confidence | as-written member | corrected member |
|---|---|---|---|---|---|---|
| src/de/webis/warc/index/ResultsFetcher.java:111-112 | the loop takes request object `i` and then indexes it again with `get(i)`, so the request is built from a null node | any page with at least one stored request | use that request object itself and pick the latest request in the window | not executed | LegacyFetch.PickRequestAsWrittenAlwaysThrows | LegacyFetch.PickRequestAgreesWithSelect |
| src/de/webis/wasp/warcs/Warcs.java:229-244 | decoders are stacked in listed order, so the first-listed coding is undone first | a body sent with `Content-Encoding: gzip, deflate` (gzip applied first) | undo the last-applied coding first, as section 3.1.2.2 of RFC 7231 orders codings | not executed | Warcs.GetHtmlAsWrittenFailsOnTwoCodings | Warcs.GetHtmlReadsEncodedText |
| src/de/webis/wasp/index/WarcIndexer.java:65 | `acceptRevisit` passes the revisit id and the target id to `indexRevisit` in swapped order | a revisit record whose target page is indexed | `indexRevisit(revisitId, targetId)` | not executed | Consumers.RevisitAsWrittenIsDropped | Consumers.AcceptRevisit |
| src/de/webis/warc/ui/SearchServlet.java:26 | the page-size init parameter key is "index.port" | an init parameter `index.port` of 9200 | the key "page.size", as the newer servlet uses | not executed | Servlets.LegacyPageSizeIsIndexPort | Servlets.LegacyInitAgreesWithNewer |
| src/de/webis/warc/index/ResultPages.java:41 | a miss on a null slot inserts the page with `add(index, page)`, shifting every later cached page by one | fetch page 3, then page 1, then ask for page 4 | replace the slot with `set(index, page)` | not executed | PageCache.InsertShiftsLaterPages | PageCache.IntendedKeepsPagesInPlace |

=== FILE: common.dfy ===
/**
 * Shared vocabulary of the model: Java's null as `Option`, Java's exceptions
 * as the `Throws` arm of `Outcome`, instants, 32-bit `int` arithmetic and the
 * few string operations the program relies on.
 */
module Common {

  datatype Option<T> = None | Some(value: T)

  /** The exceptions (and the one error) the modelled code lets escape or catches. */
  datatype JavaException =
    | NullPointer
    | IllegalArgument
    | IndexOutOfBounds
    | NoSuchElement
    | NumberFormat
    | DateTimeParse
    | Arithmetic
    | Http
    | IO
    | StackOverflow
    | ClassCast
    | UnsupportedTemporalType

  /** The result of a Java call: a value, or the exception it throws. */
  datatype Outcome<T> = Ok(value: T) | Throws(error: JavaException)
  {
    predicate IsFailure() { Throws? }
    function PropagateFailure<U>(): Outcome<U>
      requires Throws?
    {
      Throws(error)
    }
    function Extract(): T
      requires Ok?
    {
      value
    }
    function ToOption(): Option<T>
    {
      if Ok? then Some(value) else None
    }
  }

  // ---------------------------------------------------------------------
  // Instants
  // ---------------------------------------------------------------------

  /** A `java.time.Instant`, as nanoseconds since the epoch. */
  type Instant = int

  const NANOS_PER_SECOND: int := 1_000_000_000

  /**
   * `Instant.ofEpochSecond(t.getEpochSecond())`: the epoch second of an
   * instant is its floor, so the time is cut down to the whole second that
   * contains it.
   */
  function TruncateToSeconds(t: Instant): (r: Instant)
    ensures r % NANOS_PER_SECOND == 0
    ensures r <= t < r + NANOS_PER_SECOND
  {
    (t / NANOS_PER_SECOND) * NANOS_PER_SECOND
  }

  /** `Instant.getEpochSecond()`: the whole seconds since the epoch, rounded down. */
  function EpochSecond(t: Instant): (sec: int)
    ensures sec * NANOS_PER_SECOND <= t < sec * NANOS_PER_SECOND + NANOS_PER_SECOND
    ensures sec * NANOS_PER_SECOND == TruncateToSeconds(t)
  {
    t / NANOS_PER_SECOND
  }

  /** Truncating twice is truncating once, and whole seconds are left alone. */
  lemma TruncateIdempotent(t: Instant)
    ensures TruncateToSeconds(TruncateToSeconds(t)) == TruncateToSeconds(t)
    ensures t % NANOS_PER_SECOND == 0 ==> TruncateToSeconds(t) == t
  {
    var r := TruncateToSeconds(t);
    WholeSecondFixed(r);
    if t % NANOS_PER_SECOND == 0 {
      WholeSecondFixed(t);
    }
  }

  lemma WholeSecondFixed(t: Instant)
    requires t % NANOS_PER_SECOND == 0
    ensures TruncateToSeconds(t) == t
  {
    var r := TruncateToSeconds(t);
    var k := (t - r) / NANOS_PER_SECOND;
    assert t - r == k * NANOS_PER_SECOND;
  }

  /** Truncation never reorders two instants. */
  lemma TruncateMonotone(s: Instant, t: Instant)
    requires s <= t
    ensures TruncateToSeconds(s) <= TruncateToSeconds(t)
  {
  }

  // ---------------------------------------------------------------------
  // Java 32-bit int arithmetic
  // ---------------------------------------------------------------------

  const INT_MIN: int := -0x8000_0000
  const INT_MAX: int := 0x7fff_ffff
  const TWO_TO_32: int := 0x1_0000_0000

  predicate IsInt32(x: int) { INT_MIN <= x <= INT_MAX }

  /** A value of Java's `int` type. */
  type Int32 = x: int | INT_MIN <= x <= INT_MAX

  /** The two's-complement wrap-around of Java `int` arithmetic. */
  function Wrap32(x: int): (r: int)
    ensures IsInt32(r)
    ensures (x - r) % TWO_TO_32 == 0
    ensures IsInt32(x) ==> r == x
  {
    var m := x % TWO_TO_32;
    if m > INT_MAX then m - TWO_TO_32 else m
  }

  /** Values congruent modulo 2^32 wrap to the same `int`. */
  lemma Wrap32Congruent(x: int, y: int)
    requires (x - y) % TWO_TO_32 == 0
    ensures Wrap32(x) == Wrap32(y)
  {
    var k := (x - y) / TWO_TO_32;
    assert x == y + k * TWO_TO_32;
    assert x % TWO_TO_32 == y % TWO_TO_32;
  }

  /** Multiplying congruent values by the same factor keeps them congruent modulo 2^32. */
  lemma MulCongruent(a: int, a': int, b: int)
    requires (a - a') % TWO_TO_32 == 0
    ensures (a * b - a' * b) % TWO_TO_32 == 0
  {
    var k := (a - a') / TWO_TO_32;
    assert a - a' == k * TWO_TO_32;
    assert a * b - a' * b == (k * b) * TWO_TO_32;
  }

  /** Wrapping a factor first does not change the wrapped product. */
  lemma WrapMulLeft(a: int, b: int)
    ensures Wrap32(Wrap32(a) * b) == Wrap32(a * b)
  {
    MulCongruent(Wrap32(a), a, b);
    Wrap32Congruent(Wrap32(a) * b, a * b);
  }

  /** Division rounding toward zero, as Java's `/` does (Dafny's `/` is Euclidean). */
  function TruncDiv(a: int, b: int): (q: int)
    requires b != 0
  {
    if a >= 0 then (if b > 0 then a / b else -(a / -b))
    else (if b > 0 then -((-a) / b) else (-a) / (-b))
  }

  /** Java's `a / b` on `int`: truncating, with `MIN_VALUE / -1` wrapping. */
  function IntDiv(a: int, b: int): Outcome<int>
  {
    if b == 0 then Throws(Arithmetic) else Ok(Wrap32(TruncDiv(a, b)))
  }

  // ---------------------------------------------------------------------
  // Strings
  // ---------------------------------------------------------------------

  predicate EndsWith(s: string, suffix: string)
  {
    |suffix| <= |s| && s[|s| - |suffix|..] == suffix
  }

  /** ASCII lower-casing, which is all `toLowerCase` does to the names it sees here. */
  function LowerChar(c: char): (d: char)
    ensures 'A' <= c <= 'Z' ==> 'a' <= d <= 'z'
    ensures !('A' <= c <= 'Z') ==> d == c
  {
    if 'A' <= c <= 'Z' then (c as int - 'A' as int + 'a' as int) as char else c
  }

  function ToLower(s: string): (r: string)
    ensures |r| == |s|
    ensures forall i :: 0 <= i < |s| ==> r[i] == LowerChar(s[i])
  {
    seq(|s|, i requires 0 <= i < |s| => LowerChar(s[i]))
  }

  /** `String.join(sep, parts)`. */
  function Join(parts: seq<string>, sep: string): (r: string)
    decreases |parts|
  {
    if |parts| == 0 then ""
    else if |parts| == 1 then parts[0]
    else parts[0] + sep + Join(parts[1..], sep)
  }

  /** Joining one more part puts exactly one separator in front of it. */
  lemma {:induction false} JoinSnoc(parts: seq<string>, p: string, sep: string)
    requires |parts| > 0
    ensures Join(parts + [p], sep) == Join(parts, sep) + sep + p
    decreases |parts|
  {
    if |parts| == 1 {
      assert parts + [p] == [parts[0], p];
      assert [parts[0], p][1..] == [p];
    } else {
      assert (parts + [p])[1..] == parts[1..] + [p];
      JoinSnoc(parts[1..], p, sep);
    }
  }

  /** The joined text is as long as the parts plus one separator between each two. */
  lemma {:induction false} JoinLength(parts: seq<string>, sep: string)
    requires |parts| > 0
    ensures |Join(parts, sep)| == SumLengths(parts) + (|parts| - 1) * |sep|
    decreases |parts|
  {
    if |parts| > 1 {
      JoinLength(parts[1..], sep);
    }
  }

  function SumLengths(parts: seq<string>): nat
  {
    if |parts| == 0 then 0 else |parts[0]| + SumLengths(parts[1..])
  }

  /**
   * With a non-empty separator, the joined text is empty exactly when there
   * is nothing to join or the single part is itself empty.
   */
  lemma {:induction false} JoinEmptyIff(parts: seq<string>, sep: string)
    requires sep != ""
    ensures Join(parts, sep) == "" <==> |parts| == 0 || (|parts| == 1 && parts[0] == "")
  {
    if |parts| > 1 {
      JoinLength(parts, sep);
    }
  }
}

=== FILE: consumers.dfy ===
/**
 * The wasp record consumers: `GenericWarcRecordConsumer` routes each WARC
 * record to a hook by its WARC-Type (response, request, revisit; section 6
 * of ISO 28500:2017), `GenericHtmlWarcRecordConsumer` runs a document
 * extractor over HTML, and the wasp `WarcIndexer` turns the hooks into index
 * writes. A hook is modelled as a function from the consumer's state and the
 * call to the new state or the exception it throws.
 */
module Consumers {
  import opened Common
  import opened Records
  import opened Store
  import opened Warcs
  import WaspIndex

  /** A call of one of the consumer's hooks, with the arguments it receives. */
  datatype HookCall =
    | HtmlResponseHook(id: Option<Id>, html: string, time: Instant)
    | NonHtmlResponseHook(id: Option<Id>, time: Instant)
    | RevisitHook(id: Option<Id>, revisitedId: Option<Id>, time: Instant)
    | RequestHook(concurrentId: Option<Id>, targetUri: Option<Uri>, time: Instant)

  /** A hook implementation over consumer state `S`. */
  type Hooks<!S> = (S, HookCall) -> Outcome<S>

  /**
   * The consumer's `getHtml`: the HTML of an HTML response, and null for
   * every other record and whenever parsing or decoding throws.
   */
  function ConsumerHtml(r: WarcRecord): (html: Option<string>)
    ensures GetHtml(r).Throws? ==> html.None?
    ensures html.Some? ==> GetHtml(r) == Ok(html)
    ensures GetHtml(r).Ok? ==> html == GetHtml(r).value
  {
    match GetHtml(r)
    case Ok(h) => h
    case Throws(_) => None
  }

  /** Only a record of type "response" that reads as HTML yields HTML. */
  lemma ConsumerHtmlOnlyForHtmlResponses(r: WarcRecord)
    requires ConsumerHtml(r).Some?
    ensures GetHeader(r, HEADER_TYPE) == Some(HEADER_TYPE_RESPONSE)
    ensures r.http.Some? && IsHtml(Some(r.http.value.headers)) == Ok(true)
  {
  }

  /**
   * The `switch` of `accept`: which hook a record goes to, called with the
   * given time. A missing type fails the `switch` with a null dereference.
   */
  function HookFor(r: WarcRecord, time: Instant): (c: Outcome<Option<HookCall>>)
    ensures c.Throws? <==> GetHeader(r, HEADER_TYPE).None?
    ensures c.Ok? ==> (c.value.Some? <==>
      GetHeader(r, HEADER_TYPE).value in {HEADER_TYPE_RESPONSE, HEADER_TYPE_REQUEST, HEADER_TYPE_REVISIT})
    ensures c.Ok? && c.value.Some? ==> c.value.value.time == time
    ensures c.Ok? && c.value.Some? && c.value.value.HtmlResponseHook? ==>
      GetHeader(r, HEADER_TYPE).value == HEADER_TYPE_RESPONSE &&
      c.value.value.id == GetHeader(r, HEADER_ID) && Some(c.value.value.html) == ConsumerHtml(r)
    ensures c.Ok? && c.value.Some? && c.value.value.NonHtmlResponseHook? ==>
      GetHeader(r, HEADER_TYPE).value == HEADER_TYPE_RESPONSE &&
      c.value.value.id == GetHeader(r, HEADER_ID) && ConsumerHtml(r).None?
    ensures c.Ok? && c.value.Some? && c.value.value.RevisitHook? ==>
      GetHeader(r, HEADER_TYPE).value == HEADER_TYPE_REVISIT &&
      c.value.value.id == GetHeader(r, HEADER_ID) &&
      c.value.value.revisitedId == GetHeader(r, HEADER_REFERS_TO)
    ensures c.Ok? && c.value.Some? && c.value.value.RequestHook? ==>
      GetHeader(r, HEADER_TYPE).value == HEADER_TYPE_REQUEST &&
      c.value.value.concurrentId == GetHeader(r, HEADER_CONCURRENT) &&
      c.value.value.targetUri == GetHeader(r, HEADER_TARGET_URI)
  {
    match GetHeader(r, HEADER_TYPE)
    case None => Throws(NullPointer)
    case Some(t) =>
      if t == HEADER_TYPE_RESPONSE then
        var id := GetHeader(r, HEADER_ID);
        match ConsumerHtml(r)
        case Some(html) => Ok(Some(HtmlResponseHook(id, html, time)))
        case None => Ok(Some(NonHtmlResponseHook(id, time)))
      else if t == HEADER_TYPE_REQUEST then
        Ok(Some(RequestHook(GetHeader(r, HEADER_CONCURRENT), GetHeader(r, HEADER_TARGET_URI), time)))
      else if t == HEADER_TYPE_REVISIT then
        Ok(Some(RevisitHook(GetHeader(r, HEADER_ID), GetHeader(r, HEADER_REFERS_TO), time)))
      else Ok(None)
  }

  /**
   * `accept(record)`: the WARC-Date is parsed before the `try`, so a missing
   * or malformed date escapes; everything after it, the hook included, is
   * caught, and the state is then left as it was.
   */
  function Accept<S>(s: S, r: WarcRecord, parse: string -> Option<Instant>, hooks: Hooks<S>): (out: Outcome<S>)
    ensures GetDate(r, parse).Throws? ==> out == Throws(GetDate(r, parse).error)
    ensures GetDate(r, parse).Ok? ==> out.Ok?
    ensures GetDate(r, parse).Ok? && HookFor(r, TruncateToSeconds(GetDate(r, parse).value)) == Ok(None) ==>
      out == Ok(s)
    ensures GetDate(r, parse).Ok? && GetHeader(r, HEADER_TYPE).None? ==> out == Ok(s)
    ensures GetDate(r, parse).Ok? ==>
      var c := HookFor(r, TruncateToSeconds(GetDate(r, parse).value));
      c.Ok? && c.value.Some? ==>
        out == (if hooks(s, c.value.value).Ok? then hooks(s, c.value.value) else Ok(s))
    ensures out.Ok? && out.value != s ==>
      var c := HookFor(r, TruncateToSeconds(GetDate(r, parse).value));
      c.Ok? && c.value.Some? && hooks(s, c.value.value) == Ok(out.value)
  {
    var date :- GetDate(r, parse);
    var time := TruncateToSeconds(date);
    match HookFor(r, time)
    case Throws(_) => Ok(s)
    case Ok(None) => Ok(s)
    case Ok(Some(c)) =>
      match hooks(s, c)
      case Throws(_) => Ok(s)
      case Ok(s') => Ok(s')
  }

  /** Every hook is called with the record's WARC-Date cut down to its second. */
  lemma HookTimeIsWholeSecond(r: WarcRecord, parse: string -> Option<Instant>)
    requires GetDate(r, parse).Ok?
    requires HookFor(r, TruncateToSeconds(GetDate(r, parse).value)).Ok?
    requires HookFor(r, TruncateToSeconds(GetDate(r, parse).value)).value.Some?
    ensures var c := HookFor(r, TruncateToSeconds(GetDate(r, parse).value)).value.value;
      c.time % NANOS_PER_SECOND == 0 &&
      c.time <= GetDate(r, parse).value < c.time + NANOS_PER_SECOND
  {
  }

  /** The hooks of the generic consumer do nothing. */
  function DefaultHooks<S>(s: S, c: HookCall): (out: Outcome<S>)
    ensures out == Ok(s)
  {
    Ok(s)
  }

  /** With the default hooks, `accept` changes nothing and fails only on the date. */
  lemma DefaultHooksChangeNothing<S>(s: S, r: WarcRecord, parse: string -> Option<Instant>)
    ensures Accept(s, r, parse, DefaultHooks) == (if GetDate(r, parse).Ok? then Ok(s) else Throws(GetDate(r, parse).error))
  {
  }

  // ---------------------------------------------------------------------
  // GenericHtmlWarcRecordConsumer
  // ---------------------------------------------------------------------

  /** `Document`: an extracted title and text, either possibly null. */
  datatype Document = Document(title: Option<string>, content: Option<string>)

  type DocumentExtractor = string -> Document

  /** `setDocumentExtractor`: a null extractor is refused. */
  function SetDocumentExtractor(e: Option<DocumentExtractor>): (r: Outcome<DocumentExtractor>)
    ensures r.Ok? <==> e.Some?
    ensures r.Throws? ==> r.error == NullPointer
    ensures r.Ok? ==> forall html :: r.value(html) == e.value(html)
  {
    if e.None? then Throws(NullPointer) else Ok(e.value)
  }

  /** The document hook the HTML consumer calls in place of the HTML hook. */
  datatype DocumentCall = DocumentCall(id: Option<Id>, document: Document, time: Instant)

  /**
   * `acceptHtmlResponse(id, html, time)` of the HTML consumer: the extractor
   * runs once and its document goes on with the same id and time.
   */
  function ToDocumentCall(extract: DocumentExtractor, c: HookCall): (d: DocumentCall)
    requires c.HtmlResponseHook?
    ensures d.id == c.id && d.time == c.time && d.document == extract(c.html)
  {
    DocumentCall(c.id, extract(c.html), c.time)
  }

  // ---------------------------------------------------------------------
  // wasp WarcIndexer
  // ---------------------------------------------------------------------

  function OrEmpty(s: Option<string>): (r: string)
    ensures s.Some? ==> r == s.value
    ensures s.None? ==> r == ""
  {
    if s.None? then "" else s.value
  }

  /**
   * `acceptHtmlResponse(id, document, time)`: a null title or text counts as
   * empty, and the page is indexed as (id, content, title) unless both are
   * empty.
   */
  function IndexDocument(s: Store, d: DocumentCall): (out: Outcome<Store>)
    ensures OrEmpty(d.document.title) == "" && OrEmpty(d.document.content) == "" ==> out == Ok(s)
    ensures (OrEmpty(d.document.title) != "" || OrEmpty(d.document.content) != "") ==>
      (out.Ok? <==> d.id.Some?) &&
      (out.Ok? ==> out.value == s[d.id.value := Page(Some(OrEmpty(d.document.title)), OrEmpty(d.document.content), [])])
  {
    var title := OrEmpty(d.document.title);
    var content := OrEmpty(d.document.content);
    if title == "" && content == "" then Ok(s)
    else
      var written :- WaspIndex.IndexResponse(s, d.id, content, title);
      Ok(written.0)
  }

  /**
   * `acceptRevisit(id, revisitedId, time)` as written: it calls
   * `indexRevisit(revisitedId, id)`, the record's own id taking the place
   * of the id to point at. A missing id is refused by the index client.
   */
  function AcceptRevisitAsWritten(s: Store, id: Option<Id>, revisitedId: Option<Id>): (out: Outcome<Store>)
    ensures out.Ok? && out.value != s ==>
      id.Some? && revisitedId.Some? && Resolve(s, id.value).Found? &&
      out.value == s[revisitedId.value := Revisit(id.value)]
    ensures id.Some? && Resolve(s, id.value).NotFound? ==> out == Ok(s)
  {
    if id.None? then Throws(NullPointer)
    else
      var written :- WaspIndex.IndexRevisit(s, revisitedId, id.value);
      Ok(written.0)
  }

  /**
   * `acceptRevisit` with the arguments in the index's order: a pointer to
   * the referred-to record is written under the revisit's own id.
   */
  function AcceptRevisit(s: Store, id: Option<Id>, revisitedId: Option<Id>): (out: Outcome<Store>)
    ensures out.Ok? && out.value != s ==>
      id.Some? && revisitedId.Some? && Resolve(s, revisitedId.value).Found? &&
      out.value == s[id.value := Revisit(revisitedId.value)]
    ensures revisitedId.Some? && Resolve(s, revisitedId.value).NotFound? ==> out == Ok(s)
    ensures id.Some? && revisitedId.Some? && Resolve(s, revisitedId.value).Found? ==>
      out == Ok(s[id.value := Revisit(revisitedId.value)])
  {
    if revisitedId.None? then Throws(NullPointer)
    else
      var written :- WaspIndex.IndexRevisit(s, id, revisitedId.value);
      Ok(written.0)
  }

  /** `acceptRequest`: concurrent id, target URI and time go to the index unchanged. */
  function AcceptRequest(s: Store, concurrentId: Option<Id>, uri: Option<Uri>, time: Instant): (out: Outcome<Store>)
    ensures concurrentId.None? ==> out == Throws(NullPointer)
    ensures concurrentId.Some? && Resolve(s, concurrentId.value).NotFound? ==> out == Ok(s)
    ensures concurrentId.Some? && uri.Some? && Resolve(s, concurrentId.value).Found? ==>
      out == Ok(AppendRequest(s, Resolve(s, concurrentId.value).id, RequestRecord(uri.value, time)))
  {
    if concurrentId.None? then Throws(NullPointer)
    else
      var written :- WaspIndex.IndexRequest(s, concurrentId.value, uri, time);
      Ok(written.0)
  }

  /** The indexer's hooks as written. */
  function IndexerHooksAsWritten(extract: DocumentExtractor, s: Store, c: HookCall): (out: Outcome<Store>)
    ensures c.NonHtmlResponseHook? ==> out == Ok(s)
    ensures c.RevisitHook? ==> out == AcceptRevisitAsWritten(s, c.id, c.revisitedId)
    ensures c.HtmlResponseHook? ==> out == IndexDocument(s, DocumentCall(c.id, extract(c.html), c.time))
    ensures c.RequestHook? ==> out == AcceptRequest(s, c.concurrentId, c.targetUri, c.time)
  {
    match c
    case HtmlResponseHook(_, _, _) => IndexDocument(s, ToDocumentCall(extract, c))
    case NonHtmlResponseHook(_, _) => Ok(s)
    case RevisitHook(id, revisitedId, _) => AcceptRevisitAsWritten(s, id, revisitedId)
    case RequestHook(concurrentId, uri, time) => AcceptRequest(s, concurrentId, uri, time)
  }

  /** The indexer's hooks with the revisit arguments in the index's order. */
  function IndexerHooks(extract: DocumentExtractor, s: Store, c: HookCall): (out: Outcome<Store>)
    ensures c.NonHtmlResponseHook? ==> out == Ok(s)
    ensures c.RevisitHook? ==> out == AcceptRevisit(s, c.id, c.revisitedId)
    ensures c.HtmlResponseHook? ==> out == IndexDocument(s, DocumentCall(c.id, extract(c.html), c.time))
    ensures c.RequestHook? ==> out == AcceptRequest(s, c.concurrentId, c.targetUri, c.time)
  {
    match c
    case RevisitHook(id, revisitedId, _) => AcceptRevisit(s, id, revisitedId)
    case _ => IndexerHooksAsWritten(extract, s, c)
  }

  /**
   * As written, a revisit of an indexed page is dropped: the revisit's own id
   * does not resolve yet, so nothing is written and the revisit id stays
   * unknown. With the arguments in order, the revisit id resolves to the page.
   */
  lemma RevisitAsWrittenIsDropped(s: Store, page: Id, revisit: Id)
    requires page in s && s[page].Page?
    requires revisit !in s
    ensures AcceptRevisitAsWritten(s, Some(revisit), Some(page)) == Ok(s)
    ensures Resolve(s, revisit) == NotFound
    ensures AcceptRevisit(s, Some(revisit), Some(page)).Ok?
    ensures Resolve(AcceptRevisit(s, Some(revisit), Some(page)).value, revisit) == Found(page)
  {
    assert Resolve(s, page) == Found(page);
    WaspIndex.IndexedRevisitResolves(s, revisit, page, page);
  }

  /**
   * As written, a revisit record whose own id already resolves overwrites
   * the referred-to page with a pointer back to it.
   */
  lemma RevisitAsWrittenOverwritesPage(s: Store, page: Id, revisit: Id)
    requires page in s && s[page].Page?
    requires revisit in s && s[revisit].Page?
    requires page != revisit
    ensures AcceptRevisitAsWritten(s, Some(revisit), Some(page)) == Ok(s[page := Revisit(revisit)])
    ensures Resolve(s[page := Revisit(revisit)], page) == Found(revisit)
  {
    assert Resolve(s, revisit) == Found(revisit);
    var s' := s[page := Revisit(revisit)];
    ResolveRevisit(s', page, revisit);
    assert Resolve(s', revisit) == Found(revisit);
  }

  /**
   * An HTML response with a title or a text is indexed under its record id
   * as a page without requests, whatever was stored there before.
   */
  lemma AcceptHtmlResponseIndexesPage(s: Store, r: WarcRecord, parse: string -> Option<Instant>,
                                      extract: DocumentExtractor, id: Id, html: string)
    requires GetDate(r, parse).Ok?
    requires GetHeader(r, HEADER_TYPE) == Some(HEADER_TYPE_RESPONSE)
    requires GetHeader(r, HEADER_ID) == Some(id)
    requires ConsumerHtml(r) == Some(html)
    requires OrEmpty(extract(html).title) != "" || OrEmpty(extract(html).content) != ""
    ensures Accept(s, r, parse, (s0, c) => IndexerHooks(extract, s0, c)) ==
      Ok(s[id := Page(Some(OrEmpty(extract(html).title)), OrEmpty(extract(html).content), [])])
  {
    var time := TruncateToSeconds(GetDate(r, parse).value);
    var c := HtmlResponseHook(Some(id), html, time);
    HtmlResponseHookFor(r, time, id, html);
    var page := Page(Some(OrEmpty(extract(html).title)), OrEmpty(extract(html).content), []);
    assert IndexerHooks(extract, s, c) == Ok(s[id := page]);
    var hooks: Hooks<Store> := (s0, c0) => IndexerHooks(extract, s0, c0);
    assert hooks(s, c) == Ok(s[id := page]);
  }

  lemma HtmlResponseHookFor(r: WarcRecord, time: Instant, id: Id, html: string)
    requires GetHeader(r, HEADER_TYPE) == Some(HEADER_TYPE_RESPONSE)
    requires GetHeader(r, HEADER_ID) == Some(id)
    requires ConsumerHtml(r) == Some(html)
    ensures HookFor(r, time) == Ok(Some(HtmlResponseHook(Some(id), html, time)))
  {
  }

  /**
   * A request record whose WARC-Concurrent-To resolves appends its target
   * URI, at the record's second, to the resolved page.
   */
  lemma AcceptRequestAppends(s: Store, r: WarcRecord, parse: string -> Option<Instant>,
                             extract: DocumentExtractor, cid: Id, uri: Uri)
    requires GetDate(r, parse).Ok?
    requires GetHeader(r, HEADER_TYPE) == Some(HEADER_TYPE_REQUEST)
    requires GetHeader(r, HEADER_CONCURRENT) == Some(cid)
    requires GetHeader(r, HEADER_TARGET_URI) == Some(uri)
    requires Resolve(s, cid).Found?
    ensures Accept(s, r, parse, (s0, c) => IndexerHooks(extract, s0, c)) ==
      Ok(AppendRequest(s, Resolve(s, cid).id, RequestRecord(uri, TruncateToSeconds(GetDate(r, parse).value))))
  {
    var time := TruncateToSeconds(GetDate(r, parse).value);
    assert HEADER_TYPE_REQUEST != HEADER_TYPE_RESPONSE;
    assert HookFor(r, time) == Ok(Some(RequestHook(Some(cid), Some(uri), time)));
  }
}

=== FILE: display.dfy ===
/**
 * Text helpers shared by the two search pages: Java's decimal rendering of
 * an `int` (as in `String.valueOf` and string concatenation) with its
 * inverse, and the shortening of long URIs for display.
 */
module Display {
  import opened Common

  // ---------------------------------------------------------------------
  // Decimal numbers
  // ---------------------------------------------------------------------

  predicate IsDigit(c: char) { '0' <= c <= '9' }

  function DigitChar(d: nat): (c: char)
    requires d < 10
    ensures IsDigit(c) && c as int - '0' as int == d
  {
    ('0' as int + d) as char
  }

  function DigitValue(c: char): (d: nat)
    requires IsDigit(c)
    ensures d < 10
  {
    c as int - '0' as int
  }

  /** The digits of `n`, most significant first, without leading zeros. */
  function NatDigits(n: nat): (s: string)
    ensures |s| >= 1 && forall i :: 0 <= i < |s| ==> IsDigit(s[i])
    ensures |s| > 1 ==> s[0] != '0'
    decreases n
  {
    if n < 10 then [DigitChar(n)] else NatDigits(n / 10) + [DigitChar(n % 10)]
  }

  /** Java's decimal rendering of an integer: a minus sign for negatives, then the digits. */
  function Decimal(n: int): (s: string)
    ensures |s| >= 1
    ensures s[0] == '-' <==> n < 0
  {
    if n < 0 then "-" + NatDigits(-n) else NatDigits(n)
  }

  /** The value of a string of digits. */
  function DigitsValue(s: string): nat
    requires forall i :: 0 <= i < |s| ==> IsDigit(s[i])
  {
    if |s| == 0 then 0 else DigitsValue(s[..|s| - 1]) * 10 + DigitValue(s[|s| - 1])
  }

  /** Reads back a rendered integer: an optional minus sign and at least one digit. */
  function ParseDecimal(s: string): Option<int>
  {
    if |s| >= 2 && s[0] == '-' && forall i :: 1 <= i < |s| ==> IsDigit(s[i]) then Some(0 - DigitsValue(s[1..]) as int)
    else if |s| >= 1 && forall i :: 0 <= i < |s| ==> IsDigit(s[i]) then Some(DigitsValue(s) as int)
    else None
  }

  lemma {:induction false} NatDigitsValue(n: nat)
    ensures DigitsValue(NatDigits(n)) == n
    decreases n
  {
    if n >= 10 {
      var s := NatDigits(n / 10) + [DigitChar(n % 10)];
      assert s[..|s| - 1] == NatDigits(n / 10);
      NatDigitsValue(n / 10);
    }
  }

  /** Rendering loses nothing: every integer is read back from its decimal text. */
  lemma DecimalRoundTrip(n: int)
    ensures ParseDecimal(Decimal(n)) == Some(n)
  {
    var s := Decimal(n);
    if n < 0 {
      var d := NatDigits(-n);
      assert s == "-" + d && s[1..] == d;
      assert forall i :: 1 <= i < |s| ==> s[i] == d[i - 1];
      NatDigitsValue(-n);
    } else {
      assert IsDigit(s[0]);
      NatDigitsValue(n);
    }
  }

  /** Different numbers render differently, so a link's number can be read off its text. */
  lemma DecimalInjective(m: int, n: int)
    requires Decimal(m) == Decimal(n)
    ensures m == n
  {
    DecimalRoundTrip(m);
    DecimalRoundTrip(n);
  }

  /**
   * `Integer.parseInt`: an optional sign ("-" or "+") and at least one
   * digit, whose value must fit 32 bits; anything else is a
   * `NumberFormatException`, here `None`.
   */
  function ParseInt(s: string): (r: Option<Int32>)
    ensures r.Some? ==> |s| >= 1 && (IsDigit(s[0]) || s[0] == '-' || s[0] == '+')
  {
    var v :=
      if |s| >= 2 && s[0] == '+' && forall i :: 1 <= i < |s| ==> IsDigit(s[i]) then Some(DigitsValue(s[1..]) as int)
      else ParseDecimal(s);
    if v.Some? && IsInt32(v.value) then Some(v.value) else None
  }

  /** `Integer.parseInt` reads back every 32-bit integer from its decimal text. */
  lemma ParseIntRoundTrip(n: Int32)
    ensures ParseInt(Decimal(n)) == Some(n)
  {
    DecimalRoundTrip(n);
  }

  /** A rendered integer beyond 32 bits is refused rather than wrapped. */
  lemma ParseIntRefusesOverflow(n: int)
    requires !IsInt32(n)
    ensures ParseInt(Decimal(n)) == None
  {
    DecimalRoundTrip(n);
  }

  // ---------------------------------------------------------------------
  // Shortened URIs
  // ---------------------------------------------------------------------

  const MAX_URI_DISPLAY_LENGTH: nat := 60

  /** How many characters are kept at each end: `(60 - 3) / 2`. */
  const SPLIT_INDEX: nat := (MAX_URI_DISPLAY_LENGTH - 3) / 2

  const ELLIPSIS: string := "..."

  /**
   * A URI of at most 60 characters is shown whole; a longer one as its
   * first 28 characters, "...", and its last 28 characters.
   */
  function Shorten(uri: string): (r: string)
    ensures |r| <= MAX_URI_DISPLAY_LENGTH
    ensures r == uri <==> |uri| <= MAX_URI_DISPLAY_LENGTH
    ensures |uri| > MAX_URI_DISPLAY_LENGTH ==>
      (|r| == 2 * SPLIT_INDEX + |ELLIPSIS| &&
       r[..SPLIT_INDEX] == uri[..SPLIT_INDEX] &&
       r[SPLIT_INDEX..SPLIT_INDEX + |ELLIPSIS|] == ELLIPSIS &&
       r[SPLIT_INDEX + |ELLIPSIS|..] == uri[|uri| - SPLIT_INDEX..])
  {
    if |uri| <= MAX_URI_DISPLAY_LENGTH then uri
    else
      var r := uri[..SPLIT_INDEX] + ELLIPSIS + uri[|uri| - SPLIT_INDEX..];
      assert r[..SPLIT_INDEX] == uri[..SPLIT_INDEX];
      assert r[SPLIT_INDEX..SPLIT_INDEX + |ELLIPSIS|] == ELLIPSIS;
      assert r[SPLIT_INDEX + |ELLIPSIS|..] == uri[|uri| - SPLIT_INDEX..];
      r
  }
}

=== FILE: legacyfetch.dfy ===
/**
 * The older results fetcher (`de.webis.warc.index.ResultsFetcher`), which
 * reads hits as untyped JSON documents in the older layout
 * (`{content, title, request: [{uri, date}, ...]}`).
 */
module LegacyFetch {
  import opened Common
  import opened Window
  import opened Queries
  import opened Results
  import LegacyIndex

  /** A JSON tree as the JSON library exposes it. */
  datatype Json =
    | JObject(fields: map<string, Json>)
    | JArray(items: seq<Json>)
    | JText(text: string)
    | JNull

  /** `node.get(name)`: the field of an object; null for anything else. */
  function GetField(n: Json, name: string): Option<Json>
  {
    if n.JObject? && name in n.fields then Some(n.fields[name]) else None
  }

  /** `node.get(index)`: the element of an array; null for anything else. */
  function GetIndex(n: Json, i: int): (r: Option<Json>)
    ensures !n.JArray? ==> r.None?
  {
    if n.JArray? && 0 <= i < |n.items| then Some(n.items[i]) else None
  }

  /** `node.asText()`: the text of a text node; containers have none. */
  function AsText(n: Json): string
  {
    match n
    case JText(t) => t
    case JNull => "null"
    case _ => ""
  }

  /** A hit in the older layout: score, JSON source, highlights. */
  datatype LegacyHit = LegacyHit(score: real, source: Json, highlight: Highlights)

  /** A request read back from the index: its URI and parsed date. */
  datatype MinimalRequest = MinimalRequest(uri: string, date: Instant)

  /** Parses an ISO-8601 instant as `Instant.parse` does; `None` is a parse error. */
  type InstantParser = string -> Option<Instant>

  /**
   * `new MinimalRequest(requestSource)`: both fields must be present (else the
   * dereference throws), the date must parse.
   */
  function MinimalRequestOf(node: Option<Json>, parse: InstantParser): (r: Outcome<MinimalRequest>)
    ensures node.None? ==> r == Throws(NullPointer)
    ensures r.Throws? ==> r.error == NullPointer || r.error == DateTimeParse
    ensures node.Some? && GetField(node.value, LegacyIndex.FIELD_URI_NAME).None? ==> r == Throws(NullPointer)
    ensures node.Some? && GetField(node.value, LegacyIndex.FIELD_DATE_NAME).None? ==> r == Throws(NullPointer)
    ensures (node.Some? && GetField(node.value, LegacyIndex.FIELD_URI_NAME).Some? &&
             GetField(node.value, LegacyIndex.FIELD_DATE_NAME).Some?) ==>
        var d := parse(AsText(GetField(node.value, LegacyIndex.FIELD_DATE_NAME).value));
        (d.None? ==> r == Throws(DateTimeParse)) &&
        (d.Some? ==> r == Ok(MinimalRequest(AsText(GetField(node.value, LegacyIndex.FIELD_URI_NAME).value), d.value)))
  {
    if node.None? then Throws(NullPointer)
    else
      var uri := GetField(node.value, LegacyIndex.FIELD_URI_NAME);
      if uri.None? then Throws(NullPointer)
      else
        var date := GetField(node.value, LegacyIndex.FIELD_DATE_NAME);
        if date.None? then Throws(NullPointer)
        else match parse(AsText(date.value))
          case None => Throws(DateTimeParse)
          case Some(d) => Ok(MinimalRequest(AsText(uri.value), d))
  }

  /**
   * The request array of a source: absent is "no request", an array of
   * size zero too, anything but an array fails the cast.
   */
  function RequestArray(source: Json): (r: Outcome<seq<Json>>)
    ensures r.Ok? ==> |r.value| > 0
    ensures GetField(source, LegacyIndex.FIELD_REQUEST_NAME).None? ==> r == Throws(IllegalArgument)
    ensures GetField(source, LegacyIndex.FIELD_REQUEST_NAME) == Some(JArray([])) ==> r == Throws(IllegalArgument)
    ensures forall n :: GetField(source, LegacyIndex.FIELD_REQUEST_NAME) == Some(n) && !n.JArray? ==> r == Throws(ClassCast)
    ensures forall items :: GetField(source, LegacyIndex.FIELD_REQUEST_NAME) == Some(JArray(items)) && |items| > 0 ==>
      r == Ok(items)
  {
    match GetField(source, LegacyIndex.FIELD_REQUEST_NAME)
    case None => Throws(IllegalArgument)
    case Some(n) =>
      if !n.JArray? then Throws(ClassCast)
      else if |n.items| == 0 then Throws(IllegalArgument)
      else Ok(n.items)
  }

  /** The request read from `node` parses and lies in the window: the loop returns it. */
  predicate PickedFrom(node: Option<Json>, request: MinimalRequest, from: Option<Instant>, to: Option<Instant>,
                       parse: InstantParser)
  {
    MinimalRequestOf(node, parse) == Ok(request) && InWindow(request.date, from, to)
  }

  /** The request read from `node` parses and lies outside the window: the loop goes on. */
  predicate SkippedOver(node: Option<Json>, from: Option<Instant>, to: Option<Instant>, parse: InstantParser)
  {
    var m := MinimalRequestOf(node, parse);
    m.Ok? && !InWindow(m.value.date, from, to)
  }

  /** The exceptions reading a request can raise, and the one for "none in the window". */
  predicate IsPickError(e: JavaException)
  {
    e == IllegalArgument || e == NullPointer || e == DateTimeParse
  }

  /** How the loop of `pickRequest` reads position `i` of the request array. */
  type Reader = (seq<Json>, nat) -> Option<Json>

  /**
   * As written: `requestSources.get(i).get(i)`, the `i`-th element of the
   * `i`-th request instead of the `i`-th request itself.
   */
  function ReadAsWritten(items: seq<Json>, i: nat): Option<Json>
  {
    if i < |items| then GetIndex(items[i], i) else None
  }

  /** As evidently intended: the `i`-th request itself. */
  function ReadRequest(items: seq<Json>, i: nat): Option<Json>
  {
    if i < |items| then Some(items[i]) else None
  }

  /**
   * The loop of `pickRequest`: examines positions `n - 1` down to 0 and
   * returns the first request read there whose date lies in the window.
   */
  function Scan(items: seq<Json>, n: nat, read: Reader, from: Option<Instant>, to: Option<Instant>,
                parse: InstantParser): (r: Outcome<MinimalRequest>)
    ensures r.Throws? ==> IsPickError(r.error)
  {
    if n == 0 then Throws(IllegalArgument)
    else
      match MinimalRequestOf(read(items, n - 1), parse)
      case Throws(e) => Throws(e)
      case Ok(request) =>
        if InWindow(request.date, from, to) then Ok(request)
        else Scan(items, n - 1, read, from, to, parse)
  }

  /**
   * What the loop returns is the request read at the highest position whose
   * date lies in the window, every later one parsed and outside it; when
   * every request parses and lies outside, the loop throws "no request in
   * the time interval".
   */
  lemma {:induction false} ScanPicksLatest(items: seq<Json>, n: nat, read: Reader, from: Option<Instant>,
                                           to: Option<Instant>, parse: InstantParser)
    ensures var r := Scan(items, n, read, from, to, parse);
      (r.Ok? ==> exists i :: (0 <= i < n && PickedFrom(read(items, i), r.value, from, to, parse) &&
        forall j :: i < j < n ==> SkippedOver(read(items, j), from, to, parse))) &&
      ((forall j :: 0 <= j < n ==> SkippedOver(read(items, j), from, to, parse)) ==> r == Throws(IllegalArgument))
  {
    if n > 0 {
      ScanPicksLatest(items, n - 1, read, from, to, parse);
      var m := MinimalRequestOf(read(items, n - 1), parse);
      if m.Ok? && InWindow(m.value.date, from, to) {
        assert PickedFrom(read(items, n - 1), m.value, from, to, parse);
      } else if m.Ok? {
        assert SkippedOver(read(items, n - 1), from, to, parse);
      }
    }
  }

  /**
   * `pickRequest` as written: the request array's errors, then the scan from
   * the last position down, reading element `i` of request `i`.
   */
  function PickRequestAsWritten(source: Json, from: Option<Instant>, to: Option<Instant>,
                                parse: InstantParser): (r: Outcome<MinimalRequest>)
    ensures RequestArray(source).Throws? ==> r == Throws(RequestArray(source).error)
    ensures RequestArray(source).Ok? ==> var items := RequestArray(source).value;
      (r.Ok? ==> exists i :: (0 <= i < |items| && PickedFrom(ReadAsWritten(items, i), r.value, from, to, parse) &&
        forall j :: i < j < |items| ==> SkippedOver(ReadAsWritten(items, j), from, to, parse))) &&
      (r.Throws? ==> IsPickError(r.error))
  {
    var items :- RequestArray(source);
    ScanPicksLatest(items, |items|, ReadAsWritten, from, to, parse);
    Scan(items, |items|, ReadAsWritten, from, to, parse)
  }

  /**
   * `pickRequest` with the corrected loop: the last request of the array
   * whose date lies in the window, every later one parsed and outside it.
   */
  function PickRequest(source: Json, from: Option<Instant>, to: Option<Instant>,
                       parse: InstantParser): (r: Outcome<MinimalRequest>)
    ensures RequestArray(source).Throws? ==> r == Throws(RequestArray(source).error)
    ensures RequestArray(source).Ok? ==> var items := RequestArray(source).value;
      (r.Ok? ==> exists i :: (0 <= i < |items| && PickedFrom(ReadRequest(items, i), r.value, from, to, parse) &&
        forall j :: i < j < |items| ==> SkippedOver(ReadRequest(items, j), from, to, parse))) &&
      ((forall j :: 0 <= j < |items| ==> SkippedOver(ReadRequest(items, j), from, to, parse)) ==> r == Throws(IllegalArgument)) &&
      (r.Throws? ==> IsPickError(r.error))
  {
    var items :- RequestArray(source);
    ScanPicksLatest(items, |items|, ReadRequest, from, to, parse);
    Scan(items, |items|, ReadRequest, from, to, parse)
  }

  // ---------------------------------------------------------------------
  // The documents the older index writes
  // ---------------------------------------------------------------------

  /** The JSON object the older index appends for one request. */
  function EncodeRequest(r: Records.RequestRecord, format: Instant -> string): Json
  {
    JObject(map[LegacyIndex.FIELD_URI_NAME := JText(r.uri), LegacyIndex.FIELD_DATE_NAME := JText(format(r.date))])
  }

  function EncodeRequests(rs: seq<Records.RequestRecord>, format: Instant -> string): (js: seq<Json>)
    ensures |js| == |rs|
    ensures forall i :: 0 <= i < |rs| ==> js[i] == EncodeRequest(rs[i], format)
  {
    if |rs| == 0 then [] else [EncodeRequest(rs[0], format)] + EncodeRequests(rs[1..], format)
  }

  /** A page document of the older layout with the given requests. */
  function EncodePage(title: Json, content: string, rs: seq<Records.RequestRecord>, format: Instant -> string): Json
  {
    JObject(map[
      LegacyIndex.FIELD_TITLE_NAME := title,
      LegacyIndex.FIELD_CONTENT_NAME := JText(content),
      LegacyIndex.FIELD_REQUEST_NAME := JArray(EncodeRequests(rs, format))])
  }

  /**
   * As written, `pickRequest` fails on every page the older index writes:
   * a page without requests is refused, and for any other the first element
   * it reads is `get(i)` of a JSON object, which is null.
   */
  lemma PickRequestAsWrittenAlwaysThrows(title: Json, content: string, rs: seq<Records.RequestRecord>,
                                         format: Instant -> string, from: Option<Instant>, to: Option<Instant>,
                                         parse: InstantParser)
    ensures var r := PickRequestAsWritten(EncodePage(title, content, rs, format), from, to, parse);
      r.Throws? && (|rs| == 0 ==> r.error == IllegalArgument) && (|rs| > 0 ==> r.error == NullPointer)
  {
  }

  /**
   * The corrected loop picks exactly the request the wasp model picks:
   * the latest one in the window, given a date format that parses back.
   */
  lemma {:induction false} ScanAgreesWithSelect(rs: seq<Records.RequestRecord>, n: nat, format: Instant -> string,
                                               parse: InstantParser, from: Option<Instant>, to: Option<Instant>)
    requires n <= |rs|
    requires forall d :: parse(format(d)) == Some(d)
    ensures var r := Scan(EncodeRequests(rs, format), n, ReadRequest, from, to, parse);
      var s := Select(rs[..n], from, to);
      (r.Ok? <==> s.Ok?) && (r.Ok? ==> r.value == MinimalRequest(s.value.uri, s.value.date)) &&
      (r.Throws? ==> r.error == IllegalArgument)
  {
    if n > 0 {
      var js := EncodeRequests(rs, format);
      var req := rs[n - 1];
      assert rs[..n - 1] + [req] == rs[..n];
      EncodedRequestReadsBack(req, format, parse);
      assert js[n - 1] == EncodeRequest(req, format);
      if InWindow(req.date, from, to) {
        assert Scan(js, n, ReadRequest, from, to, parse) == Ok(MinimalRequest(req.uri, req.date));
        AppendedInWindowIsSelected(rs[..n - 1], req, from, to);
      } else {
        assert Scan(js, n, ReadRequest, from, to, parse) == Scan(js, n - 1, ReadRequest, from, to, parse);
        ScanAgreesWithSelect(rs, n - 1, format, parse, from, to);
        AppendedOutsideWindowIgnored(rs[..n - 1], req, from, to);
      }
    }
  }

  lemma EncodedRequestReadsBack(req: Records.RequestRecord, format: Instant -> string, parse: InstantParser)
    requires parse(format(req.date)) == Some(req.date)
    ensures MinimalRequestOf(Some(EncodeRequest(req, format)), parse) == Ok(MinimalRequest(req.uri, req.date))
  {
  }

  lemma PickRequestAgreesWithSelect(title: Json, content: string, rs: seq<Records.RequestRecord>,
                                    format: Instant -> string, parse: InstantParser,
                                    from: Option<Instant>, to: Option<Instant>)
    requires forall d :: parse(format(d)) == Some(d)
    ensures var r := PickRequest(EncodePage(title, content, rs, format), from, to, parse);
      var s := Select(rs, from, to);
      (r.Ok? <==> s.Ok?) && (r.Ok? ==> r.value == MinimalRequest(s.value.uri, s.value.date))
  {
    if |rs| > 0 {
      ScanAgreesWithSelect(rs, |rs|, format, parse, from, to);
      assert rs[..|rs|] == rs;
    }
  }

  // ---------------------------------------------------------------------
  // Results and fetching
  // ---------------------------------------------------------------------

  /**
   * The result for a picked request: the request's URI and date, the
   * rendered title and content of the source, the hit's score and snippet;
   * a source without title or content throws when it is rendered.
   */
  predicate IsResultOf(r: Outcome<LegacyResult>, hit: LegacyHit, request: MinimalRequest, render: Json -> string)
  {
    var title := GetField(hit.source, LegacyIndex.FIELD_TITLE_NAME);
    var content := GetField(hit.source, LegacyIndex.FIELD_CONTENT_NAME);
    (r.Ok? <==> title.Some? && content.Some?) &&
    (r.Throws? ==> r.error == NullPointer) &&
    (r.Ok? ==>
      r.value.uri == request.uri && r.value.instant == request.date &&
      r.value.title == render(title.value) && r.value.content == Some(render(content.value)) &&
      r.value.score == hit.score && r.value.snippet == Snippet(hit.highlight))
  }

  /** `toResult` as written; `render` is the JSON serialisation (`toString`). */
  function ToResultAsWritten(hit: LegacyHit, from: Option<Instant>, to: Option<Instant>,
                             parse: InstantParser, render: Json -> string): (r: Outcome<LegacyResult>)
    ensures var p := PickRequestAsWritten(hit.source, from, to, parse);
      (p.Throws? ==> r == Throws(p.error)) && (p.Ok? ==> IsResultOf(r, hit, p.value, render))
  {
    var request :- PickRequestAsWritten(hit.source, from, to, parse);
    var title := GetField(hit.source, LegacyIndex.FIELD_TITLE_NAME);
    var content := GetField(hit.source, LegacyIndex.FIELD_CONTENT_NAME);
    if title.None? || content.None? then Throws(NullPointer)
    else NewLegacyResult(hit.score, Some(request.uri), Some(request.date), Some(render(title.value)),
                         Some(render(content.value)), Some(Snippet(hit.highlight)))
  }

  /** `toResult` with the corrected request loop. */
  function ToResult(hit: LegacyHit, from: Option<Instant>, to: Option<Instant>,
                    parse: InstantParser, render: Json -> string): (r: Outcome<LegacyResult>)
    ensures var p := PickRequest(hit.source, from, to, parse);
      (p.Throws? ==> r == Throws(p.error)) && (p.Ok? ==> IsResultOf(r, hit, p.value, render))
  {
    var request :- PickRequest(hit.source, from, to, parse);
    var title := GetField(hit.source, LegacyIndex.FIELD_TITLE_NAME);
    var content := GetField(hit.source, LegacyIndex.FIELD_CONTENT_NAME);
    if title.None? || content.None? then Throws(NullPointer)
    else NewLegacyResult(hit.score, Some(request.uri), Some(request.date), Some(render(title.value)),
                         Some(render(content.value)), Some(Snippet(hit.highlight)))
  }

  /** The conversion `fetch` as written applies to every hit. */
  function ToResultAsWrittenIn(q: Query, parse: InstantParser, render: Json -> string): LegacyHit -> Outcome<LegacyResult>
  {
    h => ToResultAsWritten(h, q.from, q.to, parse, render)
  }

  /** The conversion the corrected `fetch` applies to every hit. */
  function ToResultIn(q: Query, parse: InstantParser, render: Json -> string): LegacyHit -> Outcome<LegacyResult>
  {
    h => ToResult(h, q.from, q.to, parse, render)
  }

  /** `fetch(page)` as written, over the hits the backend returned for the page. */
  function FetchAsWritten(hits: seq<LegacyHit>, q: Query, parse: InstantParser, render: Json -> string): (r: Outcome<seq<LegacyResult>>)
    ensures r.Ok? <==> forall i :: 0 <= i < |hits| ==> ToResultAsWritten(hits[i], q.from, q.to, parse, render).Ok?
    ensures r.Throws? ==> exists k :: (0 <= k < |hits| && ToResultAsWritten(hits[k], q.from, q.to, parse, render) == Throws(r.error) &&
      forall i :: 0 <= i < k ==> ToResultAsWritten(hits[i], q.from, q.to, parse, render).Ok?)
    ensures r.Ok? ==> r.value == KeptInOrder(hits, ToResultAsWrittenIn(q, parse, render), IsNotEmpty)
  {
    Collect(hits, ToResultAsWrittenIn(q, parse, render), IsNotEmpty)
  }

  /** `fetch(page)` with the corrected request loop. */
  function Fetch(hits: seq<LegacyHit>, q: Query, parse: InstantParser, render: Json -> string): (r: Outcome<seq<LegacyResult>>)
    ensures r.Ok? <==> forall i :: 0 <= i < |hits| ==> ToResult(hits[i], q.from, q.to, parse, render).Ok?
    ensures r.Throws? ==> exists k :: (0 <= k < |hits| && ToResult(hits[k], q.from, q.to, parse, render) == Throws(r.error) &&
      forall i :: 0 <= i < k ==> ToResult(hits[i], q.from, q.to, parse, render).Ok?)
    ensures r.Ok? ==> forall j :: 0 <= j < |r.value| ==> !IsEmpty(r.value[j])
    ensures r.Ok? ==> r.value == KeptInOrder(hits, ToResultIn(q, parse, render), IsNotEmpty)
  {
    Collect(hits, ToResultIn(q, parse, render), IsNotEmpty)
  }

  ghost predicate IsIndexedPage(source: Json, format: Instant -> string)
  {
    exists title: Json, content: string, rs: seq<Records.RequestRecord> :: source == EncodePage(title, content, rs, format)
  }

  /**
   * Consequently, as written, fetching a page of hits of indexed documents
   * throws unless there are no hits at all.
   */
  lemma FetchAsWrittenFails(hits: seq<LegacyHit>, q: Query, parse: InstantParser, render: Json -> string,
                            format: Instant -> string)
    requires forall i :: 0 <= i < |hits| ==> IsIndexedPage(hits[i].source, format)
    ensures |hits| > 0 ==> FetchAsWritten(hits, q, parse, render).Throws?
    ensures |hits| == 0 ==> FetchAsWritten(hits, q, parse, render) == Ok([])
  {
    if |hits| > 0 {
      var title: Json, content: string, rs: seq<Records.RequestRecord> :|
        hits[0].source == EncodePage(title, content, rs, format);
      PickRequestAsWrittenAlwaysThrows(title, content, rs, format, q.from, q.to, parse);
      assert ToResultAsWritten(hits[0], q.from, q.to, parse, render).Throws?;
    }
  }

  /**
   * With the corrected loop, a hit on an indexed page with a request in the
   * window becomes a result showing that request and the hit's snippet.
   */
  lemma ToResultShowsLatestInWindow(hit: LegacyHit, title: Json, content: string, rs: seq<Records.RequestRecord>,
                                    format: Instant -> string, parse: InstantParser, render: Json -> string,
                                    from: Option<Instant>, to: Option<Instant>)
    requires forall d :: parse(format(d)) == Some(d)
    requires hit.source == EncodePage(title, content, rs, format)
    requires !NoneInWindow(rs, from, to)
    ensures var r := ToResult(hit, from, to, parse, render);
      r.Ok? && r.value.snippet == Snippet(hit.highlight) &&
      exists k :: IsLatestInWindow(rs, from, to, k) && r.value.uri == rs[k].uri && r.value.instant == rs[k].date
  {
    var k := PickedLatest(title, content, rs, format, parse, from, to);
    ToResultOfPage(hit, title, content, rs, format, parse, render, from, to, MinimalRequest(rs[k].uri, rs[k].date));
  }

  /** The corrected loop picks the latest request in the window of a stored page that has one. */
  lemma PickedLatest(title: Json, content: string, rs: seq<Records.RequestRecord>, format: Instant -> string,
                     parse: InstantParser, from: Option<Instant>, to: Option<Instant>) returns (k: nat)
    requires forall d :: parse(format(d)) == Some(d)
    requires !NoneInWindow(rs, from, to)
    ensures IsLatestInWindow(rs, from, to, k)
    ensures PickRequest(EncodePage(title, content, rs, format), from, to, parse) == Ok(MinimalRequest(rs[k].uri, rs[k].date))
  {
    PickRequestAgreesWithSelect(title, content, rs, format, parse, from, to);
    k :| IsLatestInWindow(rs, from, to, k) && Select(rs, from, to).value == rs[k];
  }

  /** A page whose request is picked becomes the result of that request, its fields and its snippet. */
  lemma ToResultOfPage(hit: LegacyHit, title: Json, content: string, rs: seq<Records.RequestRecord>,
                       format: Instant -> string, parse: InstantParser, render: Json -> string,
                       from: Option<Instant>, to: Option<Instant>, request: MinimalRequest)
    requires hit.source == EncodePage(title, content, rs, format)
    requires PickRequest(hit.source, from, to, parse) == Ok(request)
    ensures ToResult(hit, from, to, parse, render) ==
      NewLegacyResult(hit.score, Some(request.uri), Some(request.date), Some(render(title)),
                      Some(render(JText(content))), Some(Snippet(hit.highlight)))
  {
    EncodedPageFields(title, content, rs, format);
  }

  /** The title and content fields of a page as the older index writes it. */
  lemma EncodedPageFields(title: Json, content: string, rs: seq<Records.RequestRecord>, format: Instant -> string)
    ensures GetField(EncodePage(title, content, rs, format), LegacyIndex.FIELD_TITLE_NAME) == Some(title)
    ensures GetField(EncodePage(title, content, rs, format), LegacyIndex.FIELD_CONTENT_NAME) == Some(JText(content))
  {
  }

  // ---------------------------------------------------------------------
  // The search behind `fetch(page)`
  // ---------------------------------------------------------------------

  /** The older index's search: the hits, in the older layout, that a search request returns. */
  type LegacyBackend = SearchRequest -> seq<LegacyHit>

  /**
   * The search request of the older `fetch(page)`: the older query with
   * content highlighting, `pageSize` hits after `(page - 1) * pageSize`
   * in `int` arithmetic.
   */
  function PageRequest(f: Fetcher, page: Int32): (request: SearchRequest)
    ensures request.query == LegacyQueryBuilder(f.query) && request.highlightContent
    ensures request.size == Some(f.pageSize)
    ensures request.offset.Some? && (request.offset.value - (page - 1) * f.pageSize) % TWO_TO_32 == 0
    ensures IsInt32((page - 1) * f.pageSize) ==> request.offset == Some((page - 1) * f.pageSize)
  {
    SearchRequest(LegacyQueryBuilder(f.query), true, Some(f.pageSize), Some(Wrap32((page - 1) * f.pageSize) as Int32))
  }

  /** `fetch(page)` as written: the page's hits from the search, each converted with the double-indexing loop. */
  function FetchPageAsWritten(backend: LegacyBackend, f: Fetcher, page: Int32, parse: InstantParser,
                              render: Json -> string): (r: Outcome<seq<LegacyResult>>)
    ensures var hits := backend(PageRequest(f, page));
      (r.Ok? <==> forall i :: 0 <= i < |hits| ==> ToResultAsWritten(hits[i], f.query.from, f.query.to, parse, render).Ok?) &&
      (r.Ok? ==> r.value == KeptInOrder(hits, ToResultAsWrittenIn(f.query, parse, render), IsNotEmpty))
  {
    FetchAsWritten(backend(PageRequest(f, page)), f.query, parse, render)
  }

  /** `fetch(page)` with the corrected request loop. */
  function FetchPage(backend: LegacyBackend, f: Fetcher, page: Int32, parse: InstantParser,
                     render: Json -> string): (r: Outcome<seq<LegacyResult>>)
    ensures var hits := backend(PageRequest(f, page));
      (r.Ok? <==> forall i :: 0 <= i < |hits| ==> ToResult(hits[i], f.query.from, f.query.to, parse, render).Ok?) &&
      (r.Ok? ==> r.value == KeptInOrder(hits, ToResultIn(f.query, parse, render), IsNotEmpty))
  {
    Fetch(backend(PageRequest(f, page)), f.query, parse, render)
  }

  /** Every hit is a document as the older index writes it, with dates written by `format`. */
  ghost predicate IndexedHits(hits: seq<LegacyHit>, format: Instant -> string)
  {
    forall i :: 0 <= i < |hits| ==> IsIndexedPage(hits[i].source, format)
  }

  /**
   * As written, every page for which the search returns hits on indexed
   * documents throws, whatever the query, page size and page number.
   */
  lemma FetchPageAsWrittenFails(backend: LegacyBackend, f: Fetcher, page: Int32, parse: InstantParser,
                                render: Json -> string, format: Instant -> string)
    requires IndexedHits(backend(PageRequest(f, page)), format)
    ensures |backend(PageRequest(f, page))| > 0 <==> FetchPageAsWritten(backend, f, page, parse, render).Throws?
  {
    FetchAsWrittenFails(backend(PageRequest(f, page)), f.query, parse, render, format);
  }
}

=== FILE: legacyindex.dfy ===
/**
 * The indexing half of the older index (`de.webis.warc.index.Index`): the
 * same store and revisit resolution, with explicit null checks on ids and
 * content, and an optional title.
 */
module LegacyIndex {
  import opened Common
  import opened Records
  import opened Store
  import WaspIndex

  /** Field names of the older document layout. */
  const FIELD_REVISITED_NAME: string := "revisited"
  const FIELD_TITLE_NAME: string := "title"
  const FIELD_CONTENT_NAME: string := "content"
  const FIELD_REQUEST_NAME: string := "request"
  const FIELD_URI_NAME: string := "uri"
  const FIELD_DATE_NAME: string := "date"

  /**
   * `indexResponse(id, content, title)`: id and content are mandatory, the
   * title may be null; the page starts with an empty request list.
   */
  function IndexResponse(s: Store, id: Option<Id>, content: Option<string>, title: Option<string>): (r: Outcome<(Store, bool)>)
    ensures r.Ok? <==> id.Some? && content.Some?
    ensures r.Throws? ==> r.error == NullPointer
    ensures r.Ok? ==> r.value.1
    ensures r.Ok? ==> r.value.0.Keys == s.Keys + {id.value}
    ensures r.Ok? ==> r.value.0[id.value] == Page(title, content.value, [])
    ensures r.Ok? ==> forall k :: k in s && k != id.value ==> r.value.0[k] == s[k]
  {
    if id.None? then Throws(NullPointer)
    else if content.None? then Throws(NullPointer)
    else Ok((s[id.value := Page(title, content.value, [])], true))
  }

  /**
   * `indexRevisit(id, responseId)`: both ids are checked for null before
   * the target is looked up.
   */
  function IndexRevisit(s: Store, id: Option<Id>, responseId: Option<Id>): (r: Outcome<(Store, bool)>)
    ensures id.None? || responseId.None? ==> r == Throws(NullPointer)
    ensures id.Some? && responseId.Some? ==>
      (r == Ok((s, false)) <==> Resolve(s, responseId.value).NotFound?)
    ensures id.Some? && responseId.Some? && Resolve(s, responseId.value).Found? ==>
      r == Ok((s[id.value := Revisit(responseId.value)], true))
  {
    if id.None? || responseId.None? then Throws(NullPointer)
    else match Resolve(s, responseId.value)
      case Diverges => Throws(StackOverflow)
      case NotFound => Ok((s, false))
      case Found(_) => Ok((s[id.value := Revisit(responseId.value)], true))
  }

  /**
   * `indexRequest(concurrentId, uri, instant)`: appends `{uri, date}` to the
   * page the concurrent id resolves to; the instant is only dereferenced
   * once a page was found.
   */
  function IndexRequest(s: Store, concurrentId: Id, uri: Uri, instant: Option<Instant>): (r: Outcome<(Store, bool)>)
    ensures r == Ok((s, false)) <==> Resolve(s, concurrentId).NotFound?
    ensures r.Throws? <==> Resolve(s, concurrentId).Diverges? || (Resolve(s, concurrentId).Found? && instant.None?)
    ensures r.Ok? && r.value.1 ==>
      var p := Resolve(s, concurrentId).id;
      r.value.0 == AppendRequest(s, p, RequestRecord(uri, instant.value))
  {
    match Resolve(s, concurrentId)
    case Diverges => Throws(StackOverflow)
    case NotFound => Ok((s, false))
    case Found(p) =>
      if instant.None? then Throws(NullPointer)
      else Ok((AppendRequest(s, p, RequestRecord(uri, instant.value)), true))
  }

  /**
   * On arguments that are present, the older index stores exactly what the
   * wasp index stores.
   */
  lemma AgreesWithWaspIndex(s: Store, id: Id, target: Id, content: string, title: string, uri: Uri, t: Instant)
    ensures IndexResponse(s, Some(id), Some(content), Some(title)) == WaspIndex.IndexResponse(s, Some(id), content, title)
    ensures IndexRevisit(s, Some(id), Some(target)) == WaspIndex.IndexRevisit(s, Some(id), target)
    ensures IndexRequest(s, id, uri, Some(t)) == WaspIndex.IndexRequest(s, id, Some(uri), t)
  {
  }

  /**
   * Unlike the wasp index, a null revisit id is refused even when the target
   * does not resolve.
   */
  lemma NullRevisitIdRefusedFirst(s: Store, target: Id)
    requires target !in s
    ensures IndexRevisit(s, None, Some(target)) == Throws(NullPointer)
    ensures WaspIndex.IndexRevisit(s, None, target) == Ok((s, false))
  {
  }
}

=== FILE: legacyindexer.dfy ===
/**
 * The older indexing consumer (`de.webis.warc.index.WarcIndexer`): it
 * dispatches on the WARC-Type itself and lets every exception other than
 * an I/O or HTTP failure escape. Its index calls do not match the older
 * index's signatures, so they are modelled as calls on an abstract index.
 */
module LegacyIndexer {
  import opened Common
  import opened Records
  import opened Warcs
  import Consumers

  /** The three calls the indexer makes on its index, with their arguments. */
  datatype IndexCall =
    | ResponseCall(id: Option<Id>, content: string)
    | RevisitCall(id: Option<Id>, refersTo: Option<Id>)
    | RequestCall(concurrentId: Option<Id>, uri: Option<Uri>, epochSecond: int)

  /** Turns HTML into the text to index; null means "do not index". */
  type ContentExtractor = string -> Option<string>

  /** The indexer's configuration after construction. */
  datatype LegacyIndexer = LegacyIndexer(extract: ContentExtractor)

  function Identity(html: string): Option<string>
  {
    Some(html)
  }

  /**
   * The constructor: a null index is refused, a null extractor stands for
   * the identity.
   */
  function NewLegacyIndexer(hasIndex: bool, extractor: Option<ContentExtractor>): (r: Outcome<LegacyIndexer>)
    ensures r.Ok? <==> hasIndex
    ensures r.Throws? ==> r.error == NullPointer
    ensures r.Ok? && extractor.None? ==> forall html :: r.value.extract(html) == Some(html)
    ensures r.Ok? && extractor.Some? ==> forall html :: r.value.extract(html) == extractor.value(html)
  {
    if !hasIndex then Throws(NullPointer)
    else if extractor.None? then Ok(LegacyIndexer(Identity))
    else Ok(LegacyIndexer(extractor.value))
  }

  /**
   * `index(record)`: the call a record leads to, none for non-HTML responses,
   * for responses whose extracted text is null and for other types.
   */
  function IndexCallFor(ix: LegacyIndexer, r: WarcRecord, parse: string -> Option<Instant>): (c: Outcome<Option<IndexCall>>)
    ensures GetHeader(r, HEADER_TYPE).None? ==> c == Throws(NullPointer)
    ensures (GetHeader(r, HEADER_TYPE).Some? &&
      GetHeader(r, HEADER_TYPE).value !in {HEADER_TYPE_RESPONSE, HEADER_TYPE_REQUEST, HEADER_TYPE_REVISIT}) ==>
      c == Ok(None)
    ensures c.Ok? && c.value.Some? && c.value.value.ResponseCall? ==>
      GetHeader(r, HEADER_TYPE) == Some(HEADER_TYPE_RESPONSE) &&
      c.value.value.id == GetHeader(r, HEADER_ID) &&
      exists html :: GetHtml(r) == Ok(Some(html)) && ix.extract(html) == Some(c.value.value.content)
    ensures GetHeader(r, HEADER_TYPE) == Some(HEADER_TYPE_RESPONSE) && GetHtml(r) == Ok(None) ==>
      c == Ok(None)
    ensures GetHeader(r, HEADER_TYPE) == Some(HEADER_TYPE_RESPONSE) && GetHtml(r).Throws? ==>
      c == Throws(GetHtml(r).error)
    ensures GetHeader(r, HEADER_TYPE) == Some(HEADER_TYPE_RESPONSE) && GetHtml(r).Ok? && GetHtml(r).value.Some? ==>
      var content := ix.extract(GetHtml(r).value.value);
      (content.None? ==> c == Ok(None)) &&
      (content.Some? ==> c == Ok(Some(ResponseCall(GetHeader(r, HEADER_ID), content.value))))
    ensures GetHeader(r, HEADER_TYPE) == Some(HEADER_TYPE_REVISIT) ==>
      c == Ok(Some(RevisitCall(GetHeader(r, HEADER_ID), GetHeader(r, HEADER_REFERS_TO))))
    ensures GetHeader(r, HEADER_TYPE) == Some(HEADER_TYPE_REQUEST) && GetDate(r, parse).Ok? ==>
      c.Ok? && c.value.Some? && c.value.value.RequestCall? &&
      c.value.value.concurrentId == GetHeader(r, HEADER_CONCURRENT) &&
      c.value.value.uri == GetHeader(r, HEADER_TARGET_URI) &&
      c.value.value.epochSecond * NANOS_PER_SECOND == TruncateToSeconds(GetDate(r, parse).value)
    ensures GetHeader(r, HEADER_TYPE) == Some(HEADER_TYPE_REQUEST) && GetDate(r, parse).Throws? ==>
      c == Throws(GetDate(r, parse).error)
  {
    match GetHeader(r, HEADER_TYPE)
    case None => Throws(NullPointer)
    case Some(t) =>
      if t == HEADER_TYPE_RESPONSE then
        var html :- GetHtml(r);
        if html.None? then Ok(None)
        else match ix.extract(html.value)
          case None => Ok(None)
          case Some(content) => Ok(Some(ResponseCall(GetHeader(r, HEADER_ID), content)))
      else if t == HEADER_TYPE_REQUEST then
        var date :- GetDate(r, parse);
        Ok(Some(RequestCall(GetHeader(r, HEADER_CONCURRENT), GetHeader(r, HEADER_TARGET_URI), EpochSecond(date))))
      else if t == HEADER_TYPE_REVISIT then
        Ok(Some(RevisitCall(GetHeader(r, HEADER_ID), GetHeader(r, HEADER_REFERS_TO))))
      else Ok(None)
  }

  predicate Swallowed(e: JavaException)
  {
    e == IO || e == Http
  }

  /**
   * `accept(record)`: only I/O and HTTP failures, of the dispatch or of the
   * index call, are caught; any other exception escapes.
   */
  function Accept<S>(ix: LegacyIndexer, s: S, r: WarcRecord, parse: string -> Option<Instant>,
                     apply: (S, IndexCall) -> Outcome<S>): (out: Outcome<S>)
    ensures out.Throws? ==> !Swallowed(out.error)
    ensures IndexCallFor(ix, r, parse).Throws? ==>
      out == (if Swallowed(IndexCallFor(ix, r, parse).error) then Ok(s) else Throws(IndexCallFor(ix, r, parse).error))
    ensures IndexCallFor(ix, r, parse) == Ok(None) ==> out == Ok(s)
    ensures (IndexCallFor(ix, r, parse).Ok? && IndexCallFor(ix, r, parse).value.Some? &&
      apply(s, IndexCallFor(ix, r, parse).value.value).Ok?) ==>
      out == apply(s, IndexCallFor(ix, r, parse).value.value)
  {
    var outcome :=
      match IndexCallFor(ix, r, parse)
      case Throws(e) => Throws(e)
      case Ok(None) => Ok(s)
      case Ok(Some(c)) => apply(s, c);
    if outcome.Throws? && Swallowed(outcome.error) then Ok(s) else outcome
  }

  /**
   * A record without a WARC-Type escapes the older indexer but is swallowed
   * by the wasp consumer, provided its date parses.
   */
  lemma MissingTypeEscapesOnlyHere<S>(ix: LegacyIndexer, s: S, r: WarcRecord, parse: string -> Option<Instant>,
                                      apply: (S, IndexCall) -> Outcome<S>, hooks: Consumers.Hooks<S>)
    requires GetHeader(r, HEADER_TYPE).None?
    requires GetDate(r, parse).Ok?
    ensures Accept(ix, s, r, parse, apply) == Throws(NullPointer)
    ensures Consumers.Accept(s, r, parse, hooks) == Ok(s)
  {
  }

  /**
   * Both generations index a request at the same whole second: the older
   * one as epoch seconds, the wasp one as the truncated instant.
   */
  lemma RequestSecondAgreesWithWasp(ix: LegacyIndexer, r: WarcRecord, parse: string -> Option<Instant>)
    requires GetHeader(r, HEADER_TYPE) == Some(HEADER_TYPE_REQUEST)
    requires GetDate(r, parse).Ok?
    ensures var c := IndexCallFor(ix, r, parse);
      var w := Consumers.HookFor(r, TruncateToSeconds(GetDate(r, parse).value));
      c.Ok? && c.value.Some? && w.Ok? && w.value.Some? &&
      c.value.value.epochSecond * NANOS_PER_SECOND == w.value.value.time &&
      c.value.value.concurrentId == w.value.value.concurrentId &&
      c.value.value.uri == w.value.value.targetUri
  {
    assert HEADER_TYPE_REQUEST != HEADER_TYPE_RESPONSE;
  }

  /**
   * The revisit call passes (record id, WARC-Refers-To) in the index's
   * order, unlike the wasp indexer.
   */
  lemma RevisitArgumentsInOrder(ix: LegacyIndexer, r: WarcRecord, parse: string -> Option<Instant>, id: Id, target: Id)
    requires GetHeader(r, HEADER_TYPE) == Some(HEADER_TYPE_REVISIT)
    requires GetHeader(r, HEADER_ID) == Some(id)
    requires GetHeader(r, HEADER_REFERS_TO) == Some(target)
    ensures IndexCallFor(ix, r, parse) == Ok(Some(RevisitCall(Some(id), Some(target))))
  {
  }
}

=== FILE: matching.dfy ===
/**
 * Pairing requests with responses (`RecordMatchingConsumer` and
 * `WarcRecordPair`): responses wait in a bounded cache kept in insertion
 * order (a `LinkedHashMap` whose eldest entry goes once the cache is over
 * its size); a request takes the response named by its WARC-Concurrent-To
 * out of the cache and forwards the pair.
 */
module Matching {
  import opened Common
  import opened Records
  import opened Warcs

  const DEFAULT_CACHE_SIZE: int := 100

  // ---------------------------------------------------------------------
  // WarcRecordPair
  // ---------------------------------------------------------------------

  datatype WarcRecordPair = WarcRecordPair(request: WarcRecord, response: WarcRecord)

  predicate HasType(r: WarcRecord, t: string)
  {
    GetHeader(r, HEADER_TYPE) == Some(t)
  }

  /**
   * The pair's constructor: null records are refused, and so are records
   * of the wrong type (a record without a type fails the comparison with a
   * null dereference). Nothing relates the two records to each other.
   */
  function NewWarcRecordPair(request: Option<WarcRecord>, response: Option<WarcRecord>): (p: Outcome<WarcRecordPair>)
    ensures p.Ok? <==> (request.Some? && response.Some? &&
      HasType(request.value, HEADER_TYPE_REQUEST) && HasType(response.value, HEADER_TYPE_RESPONSE))
    ensures p.Ok? ==> p.value.request == request.value && p.value.response == response.value
    ensures request.None? || response.None? ==> p == Throws(NullPointer)
    ensures (request.Some? && GetHeader(request.value, HEADER_TYPE).Some? &&
      !HasType(request.value, HEADER_TYPE_REQUEST) && response.Some?) ==> p == Throws(IllegalArgument)
  {
    if request.None? || response.None? then Throws(NullPointer)
    else
      match GetHeader(request.value, HEADER_TYPE)
      case None => Throws(NullPointer)
      case Some(requestType) =>
        if requestType != HEADER_TYPE_REQUEST then Throws(IllegalArgument)
        else match GetHeader(response.value, HEADER_TYPE)
          case None => Throws(NullPointer)
          case Some(responseType) =>
            if responseType != HEADER_TYPE_RESPONSE then Throws(IllegalArgument)
            else Ok(WarcRecordPair(request.value, response.value))
  }

  // ---------------------------------------------------------------------
  // The bounded, insertion-ordered cache
  // ---------------------------------------------------------------------

  /** A cache entry; the key is the response's record id, which may be null. */
  datatype Entry = Entry(key: Option<Id>, record: WarcRecord)

  /** The cache's entries, eldest first, and its size bound. */
  datatype Cache = Cache(size: int, entries: seq<Entry>)

  predicate KeysDistinct(es: seq<Entry>)
  {
    forall i, j :: 0 <= i < j < |es| ==> es[i].key != es[j].key
  }

  /** The position of `k`, or -1. */
  function Find(es: seq<Entry>, k: Option<Id>): (i: int)
    ensures -1 <= i < |es|
    ensures i >= 0 ==> es[i].key == k && forall j :: 0 <= j < i ==> es[j].key != k
    ensures i < 0 ==> forall j :: 0 <= j < |es| ==> es[j].key != k
  {
    if |es| == 0 then -1
    else if es[0].key == k then 0
    else
      var i := Find(es[1..], k);
      if i < 0 then -1 else i + 1
  }

  /** `get(k)`. */
  function Get(c: Cache, k: Option<Id>): (r: Option<WarcRecord>)
    ensures r.Some? <==> exists i :: 0 <= i < |c.entries| && c.entries[i].key == k
    ensures r.Some? ==> Entry(k, r.value) in c.entries
  {
    var i := Find(c.entries, k);
    if i < 0 then None else Some(c.entries[i].record)
  }

  function NewCache(size: int): (c: Cache)
    ensures c.size == size && |c.entries| == 0
  {
    Cache(size, [])
  }

  /**
   * `put(k, v)`: an existing key keeps its place and takes the new value; a
   * new key goes last, and if the cache is then over its size the eldest
   * entry is dropped.
   */
  function Put(c: Cache, k: Option<Id>, v: WarcRecord): (c': Cache)
    requires KeysDistinct(c.entries)
    ensures c'.size == c.size
    ensures KeysDistinct(c'.entries)
    ensures c.size >= 1 ==> Get(c', k) == Some(v)
    ensures |c.entries| <= c.size ==> |c'.entries| <= c.size
    ensures c.size <= 0 && Find(c.entries, k) < 0 ==> |c'.entries| == |c.entries|
    ensures forall key :: key != k && Get(c', key).Some? ==> Get(c', key) == Get(c, key)
  {
    var i := Find(c.entries, k);
    if i >= 0 then
      PutExisting(c, i, k, v);
      c.(entries := c.entries[i := Entry(k, v)])
    else
      PutNew(c, k, v);
      var es := c.entries + [Entry(k, v)];
      if |es| > c.size then c.(entries := es[1..]) else c.(entries := es)
  }

  /** Re-putting a cached key replaces its record in place. */
  lemma PutExisting(c: Cache, i: nat, k: Option<Id>, v: WarcRecord)
    requires KeysDistinct(c.entries)
    requires i == Find(c.entries, k) >= 0
    ensures var c' := c.(entries := c.entries[i := Entry(k, v)]);
      KeysDistinct(c'.entries) && Find(c'.entries, k) == i && Get(c', k) == Some(v) &&
      forall key :: key != k ==> Get(c', key) == Get(c, key)
  {
    var es := c.entries[i := Entry(k, v)];
    FindIs(es, i, k);
    forall key | key != k ensures Get(c.(entries := es), key) == Get(c, key) {
      FindAfterUpdate(c.entries, i, Entry(k, v), key);
    }
  }

  /** A new key goes last; over the size bound the eldest entry goes. */
  lemma PutNew(c: Cache, k: Option<Id>, v: WarcRecord)
    requires KeysDistinct(c.entries)
    requires Find(c.entries, k) < 0
    ensures var es := c.entries + [Entry(k, v)];
      var c' := if |es| > c.size then c.(entries := es[1..]) else c.(entries := es);
      KeysDistinct(c'.entries) &&
      (c.size >= 1 ==> Get(c', k) == Some(v)) &&
      forall key :: key != k && Get(c', key).Some? ==> Get(c', key) == Get(c, key)
  {
    var es := c.entries + [Entry(k, v)];
    forall key | key != k ensures Find(es, key) == Find(c.entries, key) {
      FindAfterAppend(c.entries, Entry(k, v), key);
    }
    if |es| > c.size {
      var c' := c.(entries := es[1..]);
      forall key | key != k && Get(c', key).Some? ensures Get(c', key) == Get(c, key) {
        FindInTail(es, key);
      }
      if c.size >= 1 {
        FindIs(es[1..], |es| - 2, k);
      }
    } else {
      FindIs(es, |es| - 1, k);
    }
  }

  /** Re-putting a cached key does not move it or any other entry. */
  lemma PutKeepsPlace(c: Cache, k: Option<Id>, v: WarcRecord)
    requires KeysDistinct(c.entries)
    requires Find(c.entries, k) >= 0
    ensures |Put(c, k, v).entries| == |c.entries|
    ensures Find(Put(c, k, v).entries, k) == Find(c.entries, k)
    ensures forall i :: 0 <= i < |c.entries| && i != Find(c.entries, k) ==> Put(c, k, v).entries[i] == c.entries[i]
  {
    PutExisting(c, Find(c.entries, k), k, v);
  }

  /** The first position holding `k` is where `Find` stops. */
  lemma FindIs(es: seq<Entry>, i: nat, k: Option<Id>)
    requires i < |es| && es[i].key == k
    requires forall j :: 0 <= j < i ==> es[j].key != k
    ensures Find(es, k) == i
  {
  }

  lemma {:induction false} FindAfterUpdate(es: seq<Entry>, i: nat, e: Entry, key: Option<Id>)
    requires i < |es| && key != e.key && key != es[i].key
    ensures Find(es[i := e], key) == Find(es, key)
  {
    if |es| > 0 && i > 0 {
      assert es[i := e][1..] == es[1..][i - 1 := e];
      FindAfterUpdate(es[1..], i - 1, e, key);
    }
  }

  lemma {:induction false} FindAfterAppend(es: seq<Entry>, e: Entry, key: Option<Id>)
    requires key != e.key
    ensures Find(es + [e], key) == Find(es, key)
  {
    if |es| > 0 {
      assert (es + [e])[1..] == es[1..] + [e];
      FindAfterAppend(es[1..], e, key);
    }
  }

  lemma FindInTail(es: seq<Entry>, key: Option<Id>)
    requires |es| > 0 && Find(es[1..], key) >= 0
    requires KeysDistinct(es)
    ensures Find(es, key) == Find(es[1..], key) + 1
  {
    var j := Find(es[1..], key);
    assert es[j + 1].key == key;
    assert es[0].key != key;
  }

  /**
   * `remove(k)`: the entry under `k` comes out and is returned (null when
   * there is none); the other entries keep their order.
   */
  function Remove(c: Cache, k: Option<Id>): (res: (Cache, Option<WarcRecord>))
    requires KeysDistinct(c.entries)
    ensures res.1 == Get(c, k)
    ensures res.0.size == c.size
    ensures KeysDistinct(res.0.entries)
    ensures Get(res.0, k).None?
    ensures res.1.None? ==> res.0 == c
    ensures res.1.Some? ==> |res.0.entries| == |c.entries| - 1
    ensures forall key :: key != k ==> Get(res.0, key) == Get(c, key)
  {
    var i := Find(c.entries, k);
    if i < 0 then (c, None)
    else
      var es := c.entries[..i] + c.entries[i + 1..];
      assert forall key :: key != k ==> Get(c.(entries := es), key) == Get(c, key) by {
        forall key | key != k ensures Get(c.(entries := es), key) == Get(c, key) {
          FindAfterRemove(c.entries, i, key);
        }
      }
      assert forall j :: 0 <= j < |es| ==> es[j].key != k by {
        forall j | 0 <= j < |es| ensures es[j].key != k {
          if j < i { assert es[j] == c.entries[j]; } else { assert es[j] == c.entries[j + 1]; }
        }
      }
      (c.(entries := es), Some(c.entries[i].record))
  }

  lemma FindAfterRemove(es: seq<Entry>, i: nat, key: Option<Id>)
    requires i < |es| && KeysDistinct(es) && key != es[i].key
    ensures var rest := es[..i] + es[i + 1..];
      (Find(rest, key) >= 0 <==> Find(es, key) >= 0) &&
      (Find(es, key) >= 0 ==> rest[Find(rest, key)] == es[Find(es, key)])
  {
    var rest := es[..i] + es[i + 1..];
    var f := Find(es, key);
    if f >= 0 {
      var g := if f < i then f else f - 1;
      assert rest[g] == es[f];
      var h := Find(rest, key);
      if h >= 0 {
        var hh := if h < i then h else h + 1;
        assert es[hh] == rest[h];
        assert hh == f;
      }
    } else {
      forall j | 0 <= j < |rest| ensures rest[j].key != key {
        if j < i { assert rest[j] == es[j]; } else { assert rest[j] == es[j + 1]; }
      }
    }
  }

  /** A new key put into a full cache drops exactly the eldest entry. */
  lemma PutEvictsEldest(c: Cache, k: Option<Id>, v: WarcRecord)
    requires KeysDistinct(c.entries)
    requires Find(c.entries, k) < 0
    requires |c.entries| == c.size && c.size >= 1
    ensures Put(c, k, v).entries == c.entries[1..] + [Entry(k, v)]
    ensures Get(Put(c, k, v), c.entries[0].key).None?
  {
    var es := c.entries + [Entry(k, v)];
    assert Put(c, k, v).entries == es[1..];
    assert es[1..] == c.entries[1..] + [Entry(k, v)];
    EldestNotInRest(c.entries, Entry(k, v));
  }

  lemma EldestNotInRest(es: seq<Entry>, e: Entry)
    requires KeysDistinct(es) && |es| >= 1 && e.key != es[0].key
    ensures forall j :: 0 <= j < |es| ==> (es + [e])[1..][j].key != es[0].key
  {
    forall j | 0 <= j < |es| ensures (es + [e])[1..][j].key != es[0].key {
      if j < |es| - 1 {
        assert (es + [e])[1..][j] == es[j + 1];
      }
    }
  }

  // ---------------------------------------------------------------------
  // RecordMatchingConsumer
  // ---------------------------------------------------------------------

  /** The consumer's state: its cache of unmatched responses. */
  predicate Valid(c: Cache)
  {
    KeysDistinct(c.entries) &&
    |c.entries| <= (if c.size < 0 then 0 else c.size) &&
    forall i :: 0 <= i < |c.entries| ==> HasType(c.entries[i].record, HEADER_TYPE_RESPONSE)
  }

  /** The constructor: a null pair consumer is refused. */
  function NewMatchingConsumer(hasConsumer: bool, cacheSize: int): (c: Outcome<Cache>)
    ensures c.Ok? <==> hasConsumer
    ensures c.Throws? ==> c.error == NullPointer
    ensures c.Ok? ==> Valid(c.value) && c.value.size == cacheSize && |c.value.entries| == 0
  {
    if !hasConsumer then Throws(NullPointer) else Ok(NewCache(cacheSize))
  }

  /**
   * `accept(record)`: a request takes its response out of the cache and
   * yields the pair; a response is cached under its id; other records are
   * ignored. A record without a type fails with a null dereference.
   */
  function Accept(c: Cache, r: WarcRecord): (out: Outcome<(Cache, Option<WarcRecordPair>)>)
    requires KeysDistinct(c.entries)
    ensures GetHeader(r, HEADER_TYPE).None? ==> out == Throws(NullPointer)
    ensures (GetHeader(r, HEADER_TYPE).Some? && !HasType(r, HEADER_TYPE_REQUEST) &&
      !HasType(r, HEADER_TYPE_RESPONSE)) ==> out == Ok((c, None))
    ensures HasType(r, HEADER_TYPE_RESPONSE) ==> out == Ok((Put(c, GetHeader(r, HEADER_ID), r), None))
    ensures HasType(r, HEADER_TYPE_REQUEST) && Get(c, GetHeader(r, HEADER_CONCURRENT)).None? ==>
      out == Ok((c, None))
    ensures out.Ok? && out.value.1.Some? ==>
      HasType(r, HEADER_TYPE_REQUEST) &&
      out.value.1.value.request == r &&
      Get(c, GetHeader(r, HEADER_CONCURRENT)) == Some(out.value.1.value.response) &&
      out.value.0 == Remove(c, GetHeader(r, HEADER_CONCURRENT)).0
  {
    match GetHeader(r, HEADER_TYPE)
    case None => Throws(NullPointer)
    case Some(t) =>
      if t == HEADER_TYPE_REQUEST then
        var (c', response) := Remove(c, GetHeader(r, HEADER_CONCURRENT));
        if response.None? then Ok((c', None))
        else
          var pair :- NewWarcRecordPair(Some(r), response);
          Ok((c', Some(pair)))
      else if t == HEADER_TYPE_RESPONSE then Ok((Put(c, GetHeader(r, HEADER_ID), r), None))
      else Ok((c, None))
  }

  /**
   * The cache stays within its size and holds only responses, and so a
   * request whose response is cached is always paired.
   */
  lemma AcceptPreservesValid(c: Cache, r: WarcRecord)
    requires Valid(c)
    ensures GetHeader(r, HEADER_TYPE).Some? ==> Accept(c, r).Ok?
    ensures Accept(c, r).Ok? ==> Valid(Accept(c, r).value.0)
    ensures (HasType(r, HEADER_TYPE_REQUEST) && Get(c, GetHeader(r, HEADER_CONCURRENT)).Some?) ==>
      Accept(c, r).Ok? && Accept(c, r).value.1.Some?
  {
    if HasType(r, HEADER_TYPE_RESPONSE) {
      PutKeepsResponses(c, GetHeader(r, HEADER_ID), r);
    } else if HasType(r, HEADER_TYPE_REQUEST) {
      var k := GetHeader(r, HEADER_CONCURRENT);
      RemoveKeepsResponses(c, k);
      if Get(c, k).Some? {
        assert Entry(k, Get(c, k).value) in c.entries;
      }
    }
  }

  lemma PutKeepsResponses(c: Cache, k: Option<Id>, r: WarcRecord)
    requires Valid(c) && HasType(r, HEADER_TYPE_RESPONSE)
    ensures Valid(Put(c, k, r))
  {
    var c' := Put(c, k, r);
    forall i | 0 <= i < |c'.entries| ensures HasType(c'.entries[i].record, HEADER_TYPE_RESPONSE) {
      var e := c'.entries[i];
      if e.key != k {
        assert Get(c', e.key).Some?;
        assert Get(c', e.key) == Get(c, e.key);
        assert Entry(e.key, Get(c, e.key).value) in c.entries;
        KeyDeterminesRecord(c'.entries, i, Find(c'.entries, e.key));
      }
    }
    if c.size < 0 {
      PutNegativeSize(c, k, r);
    }
  }

  lemma RemoveKeepsResponses(c: Cache, k: Option<Id>)
    requires Valid(c)
    ensures Valid(Remove(c, k).0)
  {
    var c' := Remove(c, k).0;
    forall i | 0 <= i < |c'.entries| ensures HasType(c'.entries[i].record, HEADER_TYPE_RESPONSE) {
      var e := c'.entries[i];
      assert Get(c', e.key).Some?;
      assert Get(c', e.key) == Get(c, e.key);
      KeyDeterminesRecord(c'.entries, i, Find(c'.entries, e.key));
    }
  }

  lemma KeyDeterminesRecord(es: seq<Entry>, i: nat, f: int)
    requires KeysDistinct(es) && i < |es| && f == Find(es, es[i].key)
    ensures f == i
  {
  }

  lemma PutNegativeSize(c: Cache, k: Option<Id>, v: WarcRecord)
    requires KeysDistinct(c.entries) && c.size < 0 && |c.entries| == 0
    ensures |Put(c, k, v).entries| == 0
  {
  }

  /**
   * A cached response is paired once: the request that pairs it removes it,
   * so a second request naming it forwards nothing.
   */
  lemma PairedAtMostOnce(c: Cache, r1: WarcRecord, r2: WarcRecord)
    requires Valid(c)
    requires HasType(r1, HEADER_TYPE_REQUEST) && HasType(r2, HEADER_TYPE_REQUEST)
    requires GetHeader(r1, HEADER_CONCURRENT) == GetHeader(r2, HEADER_CONCURRENT)
    ensures Accept(c, r1).Ok?
    ensures KeysDistinct(Accept(c, r1).value.0.entries)
    ensures Accept(Accept(c, r1).value.0, r2) == Ok((Accept(c, r1).value.0, None))
  {
    AcceptPreservesValid(c, r1);
  }

  /**
   * With the request written before its response, nothing is paired: the
   * request finds an empty cache and the response then stays cached.
   */
  lemma RequestBeforeResponseIsNotPaired(request: WarcRecord, response: WarcRecord, size: int)
    requires size >= 1
    requires HasType(request, HEADER_TYPE_REQUEST) && HasType(response, HEADER_TYPE_RESPONSE)
    requires GetHeader(request, HEADER_CONCURRENT) == GetHeader(response, HEADER_ID)
    ensures Accept(NewCache(size), request) == Ok((NewCache(size), None))
    ensures var after := Accept(NewCache(size), response);
      after.Ok? && after.value.1.None? && Get(after.value.0, GetHeader(response, HEADER_ID)) == Some(response)
  {
    assert HEADER_TYPE_REQUEST != HEADER_TYPE_RESPONSE;
  }

  /** With the response first, the request that names it yields the pair. */
  lemma ResponseBeforeRequestIsPaired(request: WarcRecord, response: WarcRecord, size: int)
    requires size >= 1
    requires HasType(request, HEADER_TYPE_REQUEST) && HasType(response, HEADER_TYPE_RESPONSE)
    requires GetHeader(request, HEADER_CONCURRENT) == GetHeader(response, HEADER_ID)
    ensures var c := Accept(NewCache(size), response).value.0;
      Accept(c, request) == Ok((NewCache(size), Some(WarcRecordPair(request, response))))
  {
    assert HEADER_TYPE_REQUEST != HEADER_TYPE_RESPONSE;
    var c := Accept(NewCache(size), response).value.0;
    assert c.entries == [Entry(GetHeader(response, HEADER_ID), response)];
    assert Remove(c, GetHeader(request, HEADER_CONCURRENT)).0.entries == [];
  }
}

=== FILE: pagecache.dfy ===
/**
 * The older result-page caches, `ResultPages.getPage` and
 * `CachingResultsFetcher.fetch`: a list of pages indexed by page number
 * minus one, padded with nulls, filled on a miss by fetching the page.
 * As written, a miss on a null hole inserts the page instead of replacing
 * the hole, which shifts every later cached page by one.
 */
module PageCache {
  import opened Common
  import Results
  import LegacyFetch

  /** The cached pages: slot i holds page i + 1, or null. */
  type Cache<P> = seq<Option<P>>

  /** The cache afterwards, the page or exception returned, and whether the page was fetched. */
  datatype Lookup<P> = Lookup(cache: Cache<P>, page: Outcome<P>, fetched: bool)

  function Nulls<P>(n: nat): (c: Cache<P>)
    ensures |c| == n && forall i :: 0 <= i < n ==> c[i].None?
  {
    seq(n, i => None)
  }

  /** The `while (size < pageIndex) add(null)` padding. */
  function Pad<P>(c: Cache<P>, index: nat): (c': Cache<P>)
    ensures |c'| == if |c| < index then index else |c|
    ensures c'[..|c|] == c && forall i :: |c| <= i < |c'| ==> c'[i].None?
  {
    if |c| < index then c + Nulls(index - |c|) else c
  }

  /** The slot of a page is free when the list does not reach it or holds null there. */
  predicate Miss<P>(c: Cache<P>, index: nat)
  {
    |c| <= index || c[index].None?
  }

  /** The constructor refuses a null fetcher and starts with no pages. */
  function NewResultPages<P>(hasFetcher: bool): (r: Outcome<Cache<P>>)
    ensures r.Ok? <==> hasFetcher
    ensures r.Ok? ==> r.value == []
    ensures r.Throws? ==> r.error == NullPointer
  {
    if hasFetcher then Ok([]) else Throws(NullPointer)
  }

  /**
   * `getPage(page)` as written: a page number below 1 fails on the list
   * access; a miss fetches the page and inserts it at its slot; a hit
   * returns the cached page without fetching.
   */
  function GetPageAsWritten<P>(c: Cache<P>, page: Int32, fetch: Int32 -> Outcome<P>): (r: Lookup<P>)
    ensures Wrap32(page - 1) < 0 ==> r == Lookup(c, Throws(IndexOutOfBounds), false)
    ensures page >= 1 ==> (r.fetched <==> Miss(c, page - 1))
    ensures page >= 1 && !Miss(c, page - 1) ==> r == Lookup(c, Ok(c[page - 1].value), false)
    ensures page >= 1 && r.page.Ok? ==> |r.cache| >= page && r.cache[page - 1] == Some(r.page.value)
    ensures r.page.Ok? ==> 0 <= Wrap32(page - 1) < |r.cache| && r.cache[Wrap32(page - 1)] == Some(r.page.value)
    ensures r.fetched ==> r.page == fetch(page)
  {
    var index := Wrap32(page - 1);
    if index < 0 then Lookup(c, Throws(IndexOutOfBounds), false)
    else
      var padded := Pad(c, index);
      if Miss(padded, index) then
        match fetch(page)
        case Throws(e) => Lookup(padded, Throws(e), true)
        case Ok(p) => Lookup(padded[..index] + [Some(p)] + padded[index..], Ok(p), true)
      else Lookup(padded, Ok(padded[index].value), false)
  }

  /** The intended `getPage`: a miss stores the page in its own slot, replacing the null there. */
  function GetPage<P>(c: Cache<P>, page: Int32, fetch: Int32 -> Outcome<P>): (r: Lookup<P>)
    ensures Wrap32(page - 1) < 0 ==> r == Lookup(c, Throws(IndexOutOfBounds), false)
    ensures page >= 1 ==> (r.fetched <==> Miss(c, page - 1))
    ensures page >= 1 && !Miss(c, page - 1) ==> r == Lookup(c, Ok(c[page - 1].value), false)
    ensures page >= 1 && r.page.Ok? ==> |r.cache| >= page && r.cache[page - 1] == Some(r.page.value)
    ensures r.fetched ==> r.page == fetch(page)
    ensures page >= 1 && r.page.Ok? ==> |r.cache| == if |c| < page then page else |c|
    ensures page >= 1 ==> forall i :: 0 <= i < |r.cache| && i != page - 1 ==> r.cache[i] == (if i < |c| then c[i] else None)
  {
    var index := Wrap32(page - 1);
    if index < 0 then Lookup(c, Throws(IndexOutOfBounds), false)
    else
      var padded := Pad(c, index);
      if Miss(padded, index) then
        match fetch(page)
        case Throws(e) => Lookup(padded, Throws(e), true)
        case Ok(p) =>
          if |padded| == index then Lookup(padded + [Some(p)], Ok(p), true)
          else Lookup(padded[index := Some(p)], Ok(p), true)
      else Lookup(padded, Ok(padded[index].value), false)
  }

  /**
   * `CachingResultsFetcher.fetch`: the same cache in front of the older
   * fetcher's `fetch(page)`, which it extends; a miss runs that `fetch`
   * as written.
   */
  function CachingFetch(c: Cache<seq<Results.LegacyResult>>, backend: LegacyFetch.LegacyBackend, f: Results.Fetcher,
                        parse: LegacyFetch.InstantParser, render: LegacyFetch.Json -> string, page: Int32)
    : (r: Lookup<seq<Results.LegacyResult>>)
    ensures Wrap32(page - 1) < 0 ==> r == Lookup(c, Throws(IndexOutOfBounds), false)
    ensures page >= 1 ==> (r.fetched <==> Miss(c, page - 1))
    ensures page >= 1 && !Miss(c, page - 1) ==> r == Lookup(c, Ok(c[page - 1].value), false)
    ensures r.fetched ==> r.page == LegacyFetch.FetchPageAsWritten(backend, f, page, parse, render)
    ensures page >= 1 && r.page.Ok? ==> |r.cache| >= page && r.cache[page - 1] == Some(r.page.value)
  {
    GetPageAsWritten(c, page, p => LegacyFetch.FetchPageAsWritten(backend, f, p, parse, render))
  }

  /**
   * So the caching fetcher answers a page it has not cached with an
   * exception whenever the search finds indexed documents for it; only
   * pages already cached, or pages without hits, come back.
   */
  lemma CachingFetchMissThrows(c: Cache<seq<Results.LegacyResult>>, backend: LegacyFetch.LegacyBackend,
                               f: Results.Fetcher, parse: LegacyFetch.InstantParser,
                               render: LegacyFetch.Json -> string, format: Instant -> string, page: Int32)
    requires page >= 1 && Miss(c, page - 1)
    requires LegacyFetch.IndexedHits(backend(LegacyFetch.PageRequest(f, page)), format)
    ensures CachingFetch(c, backend, f, parse, render, page).page.Throws? <==>
      |backend(LegacyFetch.PageRequest(f, page))| > 0
  {
    LegacyFetch.FetchPageAsWrittenFails(backend, f, page, parse, render, format);
  }

  /** The caching fetcher with the corrected request loop and the intended cache. */
  function CachingFetchCorrected(c: Cache<seq<Results.LegacyResult>>, backend: LegacyFetch.LegacyBackend,
                                 f: Results.Fetcher, parse: LegacyFetch.InstantParser,
                                 render: LegacyFetch.Json -> string, page: Int32)
    : (r: Lookup<seq<Results.LegacyResult>>)
    ensures page >= 1 ==> (r.fetched <==> Miss(c, page - 1))
    ensures page >= 1 && !Miss(c, page - 1) ==> r == Lookup(c, Ok(c[page - 1].value), false)
    ensures r.fetched ==> r.page == LegacyFetch.FetchPage(backend, f, page, parse, render)
    ensures page >= 1 && r.page.Ok? ==> |r.cache| >= page && r.cache[page - 1] == Some(r.page.value)
    ensures page >= 1 ==> forall i :: 0 <= i < |r.cache| && i != page - 1 ==> r.cache[i] == (if i < |c| then c[i] else None)
  {
    GetPage(c, page, p => LegacyFetch.FetchPage(backend, f, p, parse, render))
  }

  // ---------------------------------------------------------------------
  // What the cache promises
  // ---------------------------------------------------------------------

  /** Every cached slot holds the page of its own number. */
  ghost predicate Sound<P>(c: Cache<P>, fetch: Int32 -> Outcome<P>)
  {
    forall i :: 0 <= i < |c| && c[i].Some? ==> i + 1 <= INT_MAX && fetch(i + 1) == Ok(c[i].value)
  }

  /**
   * The intended cache stays sound, so every page it returns is the page
   * asked for. Page `INT_MIN` is excluded: its index wraps to `INT_MAX`,
   * where the page would be cached under the wrong number.
   */
  lemma GetPageStaysSound<P>(c: Cache<P>, page: Int32, fetch: Int32 -> Outcome<P>)
    requires Sound(c, fetch) && page > INT_MIN
    ensures Sound(GetPage(c, page, fetch).cache, fetch)
    ensures GetPage(c, page, fetch).page.Ok? ==> GetPage(c, page, fetch).page == fetch(page)
  {
    var r := GetPage(c, page, fetch);
    if page >= 1 {
      forall i | 0 <= i < |r.cache| && r.cache[i].Some?
        ensures i + 1 <= INT_MAX && fetch(i + 1) == Ok(r.cache[i].value)
      {
        if i == page - 1 {
          assert r.fetched || (i < |c| && c[i].Some?);
        }
      }
    }
  }

  /**
   * The insert shifts later pages: after pages 3 and then 1 were fetched
   * into an empty cache, asking for page 4 returns page 3 without fetching.
   */
  lemma InsertShiftsLaterPages<P>(fetch: Int32 -> Outcome<P>, p1: P, p3: P)
    requires fetch(1) == Ok(p1) && fetch(3) == Ok(p3)
    ensures var r3 := GetPageAsWritten([], 3, fetch);
      var r1 := GetPageAsWritten(r3.cache, 1, fetch);
      var r4 := GetPageAsWritten(r1.cache, 4, fetch);
      r4.page == Ok(p3) && !r4.fetched
    ensures fetch(4) != Ok(p3) ==> !Sound(GetPageAsWritten(GetPageAsWritten([], 3, fetch).cache, 1, fetch).cache, fetch)
  {
    var r3 := GetPageAsWritten([], 3, fetch);
    assert r3.cache == [None, None, Some(p3)];
    var r1 := GetPageAsWritten(r3.cache, 1, fetch);
    assert r1.cache == [Some(p1)] + [None, None, Some(p3)];
    assert r1.cache[3] == Some(p3);
  }

  /** The intended cache answers the same three requests with page 4 itself. */
  lemma IntendedKeepsPagesInPlace<P>(fetch: Int32 -> Outcome<P>, p1: P, p3: P, p4: P)
    requires fetch(1) == Ok(p1) && fetch(3) == Ok(p3) && fetch(4) == Ok(p4)
    ensures var r3 := GetPage([], 3, fetch);
      var r1 := GetPage(r3.cache, 1, fetch);
      GetPage(r1.cache, 4, fetch).page == Ok(p4)
  {
    var r3 := GetPage([], 3, fetch);
    assert r3.cache == [None, None, Some(p3)];
    var r1 := GetPage(r3.cache, 1, fetch);
    assert r1.cache == [Some(p1), None, Some(p3)];
  }

  /** Every slot holds a page. */
  predicate Full<P>(c: Cache<P>)
  {
    forall i :: 0 <= i < |c| ==> c[i].Some?
  }

  /** Asks for the pages in turn, counting the fetches. */
  function Requests<P>(c: Cache<P>, pages: seq<Int32>, fetch: Int32 -> Outcome<P>): (Cache<P>, nat)
    decreases |pages|
  {
    if |pages| == 0 then (c, 0)
    else
      var r := GetPageAsWritten(c, pages[0], fetch);
      var rest := Requests(r.cache, pages[1..], fetch);
      (rest.0, rest.1 + if r.fetched then 1 else 0)
  }

  /** The page numbers lo, lo + 1, ..., hi. */
  function Upto(lo: nat, hi: nat): (ps: seq<Int32>)
    requires hi <= INT_MAX
    ensures |ps| == if lo <= hi then hi - lo + 1 else 0
    ensures forall i :: 0 <= i < |ps| ==> ps[i] == lo + i
    decreases hi + 1 - lo
  {
    if lo > hi then [] else [lo as Int32] + Upto(lo + 1, hi)
  }

  /**
   * Asking for pages k+1, k+2, ..., m in increasing order, after pages
   * 1..k are cached, fetches each of them exactly once; the insert never
   * bites, because each new page lands at the end.
   */
  lemma {:induction false} InOrderFetchesEachOnce<P>(c: Cache<P>, m: nat, fetch: Int32 -> Outcome<P>)
    requires Full(c) && |c| <= m <= INT_MAX
    requires forall p: Int32 :: fetch(p).Ok?
    ensures Requests(c, Upto(|c| + 1, m), fetch).1 == m - |c|
    ensures Full(Requests(c, Upto(|c| + 1, m), fetch).0) && |Requests(c, Upto(|c| + 1, m), fetch).0| == m
    decreases m - |c|
  {
    if |c| < m {
      var page := (|c| + 1) as Int32;
      var r := GetPageAsWritten(c, page, fetch);
      assert r.cache == c + [Some(fetch(page).value)];
      assert Upto(|c| + 1, m)[1..] == Upto(|r.cache| + 1, m);
      InOrderFetchesEachOnce(r.cache, m, fetch);
    }
  }

  /** Asking again for a cached page fetches nothing and changes nothing. */
  lemma RepeatedRequestHits<P>(c: Cache<P>, page: Int32, fetch: Int32 -> Outcome<P>)
    requires page >= 1
    requires GetPageAsWritten(c, page, fetch).page.Ok?
    ensures var r := GetPageAsWritten(c, page, fetch);
      GetPageAsWritten(r.cache, page, fetch) == Lookup(r.cache, r.page, false)
  {
  }
}

=== FILE: queries.dfy ===
/**
 * Queries: search terms plus an optional window of request dates, their
 * equality, the search request they are turned into, and what that search
 * request asks of a stored page.
 */
module Queries {
  import opened Common
  import opened Records
  import Window

  /** The title counts twice as much as the content. */
  const TITLE_BOOST: real := 2.0

  /** Terms to match title and content with; `from`/`to` bound the request dates. */
  datatype Query = Query(terms: string, from: Option<Instant>, to: Option<Instant>)

  /** `new Query(terms, from, to)` (and `new WaspQuery(...)`): the terms are mandatory. */
  function NewQuery(terms: Option<string>, from: Option<Instant>, to: Option<Instant>): (r: Outcome<Query>)
    ensures r.Ok? <==> terms.Some?
    ensures r.Ok? ==> r.value.terms == terms.value && r.value.from == from && r.value.to == to
    ensures r.Throws? ==> r.error == NullPointer
  {
    if terms.None? then Throws(NullPointer) else Ok(Query(terms.value, from, to))
  }

  /** The older `Query.of(terms)`: mandatory terms and no window yet. */
  function Of(terms: Option<string>): (r: Outcome<Query>)
    ensures r.Ok? <==> terms.Some?
    ensures r.Ok? ==> r.value == Query(terms.value, None, None)
  {
    NewQuery(terms, None, None)
  }

  /** The older fluent setters: each replaces one bound and keeps everything else. */
  function SetFrom(q: Query, from: Option<Instant>): (r: Query)
    ensures r.terms == q.terms && r.to == q.to && r.from == from
  {
    q.(from := from)
  }

  function SetTo(q: Query, to: Option<Instant>): (r: Query)
    ensures r.terms == q.terms && r.from == q.from && r.to == to
  {
    q.(to := to)
  }

  /** What `equals` may be handed: null, a query, or an object of another class. */
  datatype Obj = QueryObj(q: Query) | OtherObj

  /**
   * `equals`, step by step as written: a null or foreign object is unequal;
   * otherwise the terms must be equal and each bound must be absent in both
   * or equal in both.
   */
  function Equals(a: Query, obj: Option<Obj>): bool
  {
    if obj.None? then false
    else match obj.value
      case OtherObj => false
      case QueryObj(b) =>
        if a.terms != b.terms then false
        else if (a.from.None? && b.from.Some?) || (a.from.Some? && (b.from.None? || a.from.value != b.from.value)) then false
        else if (a.to.None? && b.to.Some?) || (a.to.Some? && (b.to.None? || a.to.value != b.to.value)) then false
        else true
  }

  /** `equals` is exactly equality of terms and both bounds. */
  lemma EqualsIsValueEquality(a: Query, b: Query)
    ensures Equals(a, Some(QueryObj(b))) <==> a == b
    ensures !Equals(a, None) && !Equals(a, Some(OtherObj))
  {
  }

  /** Hence `equals` is an equivalence relation on queries. */
  lemma EqualsIsEquivalence(a: Query, b: Query, c: Query)
    ensures Equals(a, Some(QueryObj(a)))
    ensures Equals(a, Some(QueryObj(b))) ==> Equals(b, Some(QueryObj(a)))
    ensures Equals(a, Some(QueryObj(b))) && Equals(b, Some(QueryObj(c))) ==> Equals(a, Some(QueryObj(c)))
  {
    EqualsIsValueEquality(a, a);
    EqualsIsValueEquality(a, b);
    EqualsIsValueEquality(b, a);
    EqualsIsValueEquality(b, c);
    EqualsIsValueEquality(a, c);
  }

  // ---------------------------------------------------------------------
  // The search request
  // ---------------------------------------------------------------------

  datatype Operator = AndOp | OrOp
  datatype ScoreMode = MaxScore

  /** The subset of the search backend's query language the program builds. */
  datatype QueryAst =
    | BoolQuery(must: seq<QueryAst>, should: seq<QueryAst>)
    | Nested(path: string, scoreMode: ScoreMode, inner: QueryAst)
    | Range(field: string, gte: Option<Instant>, lte: Option<Instant>)
    | MatchQuery(field: string, text: string, op: Operator, boost: Option<real>)

  /** Requests dated inside the window; `requestsField` is the nested path. */
  function TimeQuery(q: Query, requestsField: string): (ast: QueryAst)
    ensures ast.Nested? && ast.path == requestsField && ast.scoreMode == MaxScore
    ensures ast.inner == Range(requestsField + "." + FIELD_DATE, q.from, q.to)
  {
    Nested(requestsField, MaxScore, Range(requestsField + "." + FIELD_DATE, q.from, q.to))
  }

  /** All terms in the content, or all terms in the title, which weighs double. */
  function TermQuery(q: Query): (ast: QueryAst)
    ensures ast.BoolQuery? && |ast.must| == 0 && |ast.should| == 2
    ensures forall i :: 0 <= i < 2 ==> ast.should[i].MatchQuery? && ast.should[i].text == q.terms && ast.should[i].op == AndOp
    ensures ast.should[0].field == FIELD_CONTENT && ast.should[0].boost.None?
    ensures ast.should[1].field == FIELD_TITLE && ast.should[1].boost == Some(2.0)
  {
    BoolQuery([], [
      MatchQuery(FIELD_CONTENT, q.terms, AndOp, None),
      MatchQuery(FIELD_TITLE, q.terms, AndOp, Some(TITLE_BOOST))])
  }

  /** The window must match; the terms only contribute to the score. */
  function MainQuery(q: Query, requestsField: string): (ast: QueryAst)
    ensures ast.BoolQuery? && |ast.must| == 1 && |ast.should| == 1
    ensures ast.must[0].Nested? && ast.must[0].path == requestsField && ast.must[0].inner.Range?
    ensures ast.must[0].inner.gte == q.from && ast.must[0].inner.lte == q.to
    ensures ast.must[0].inner.field == requestsField + "." + FIELD_DATE && ast.must[0].scoreMode == MaxScore
    ensures ast.should[0] == TermQuery(q)
  {
    BoolQuery([TimeQuery(q, requestsField)], [TermQuery(q)])
  }

  /** `WaspQuery.getBuilder()`: the nested documents are under "requests". */
  function WaspQueryBuilder(q: Query): (ast: QueryAst)
    ensures ast.BoolQuery? && ast.must == [Nested("requests", MaxScore, Range("requests.date", q.from, q.to))]
    ensures ast.should == [TermQuery(q)]
  {
    assert FIELD_REQUESTS + "." + FIELD_DATE == "requests.date";
    MainQuery(q, FIELD_REQUESTS)
  }

  /** The older `Query.getBuilder()`: the nested documents are under "request". */
  function LegacyQueryBuilder(q: Query): (ast: QueryAst)
    ensures ast.BoolQuery? && ast.must == [Nested("request", MaxScore, Range("request.date", q.from, q.to))]
    ensures ast.should == [TermQuery(q)]
  {
    assert "request" + "." + FIELD_DATE == "request.date";
    MainQuery(q, "request")
  }

  datatype SearchRequest = SearchRequest(
    query: QueryAst,
    highlightContent: bool,
    size: Option<Int32>,
    offset: Option<Int32>)

  /** `Query.build()`: the main query with content highlighting. */
  function Build(q: Query): (r: SearchRequest)
    ensures r.query == MainQuery(q, FIELD_REQUESTS) && r.highlightContent
    ensures r.size.None? && r.offset.None?
  {
    SearchRequest(MainQuery(q, FIELD_REQUESTS), true, None, None)
  }

  /** `Query.build(pageSize)`. */
  function BuildSized(q: Query, pageSize: Int32): (r: SearchRequest)
    ensures r.query == Build(q).query && r.size == Some(pageSize) && r.offset.None?
  {
    Build(q).(size := Some(pageSize))
  }

  /** `Query.build(pageSize, page)`: skips the earlier pages, in `int` arithmetic. */
  function BuildPage(q: Query, pageSize: Int32, page: Int32): (r: SearchRequest)
    ensures r.query == Build(q).query && r.size == Some(pageSize)
    ensures r.offset == Some(Wrap32((page - 1) * pageSize))
  {
    BuildSized(q, pageSize).(offset := Some(Wrap32((page - 1) * pageSize) as Int32))
  }

  /** Without overflow, consecutive pages start exactly one page size apart, page 1 at 0. */
  lemma PagesTile(q: Query, pageSize: Int32, page: Int32)
    requires 1 <= page < INT_MAX && 0 <= pageSize
    requires page * pageSize <= INT_MAX
    ensures BuildPage(q, pageSize, 1).offset == Some(0)
    ensures BuildPage(q, pageSize, page + 1).offset.value == BuildPage(q, pageSize, page).offset.value + pageSize
  {
    assert 0 <= (page - 1) * pageSize <= page * pageSize;
  }

  // ---------------------------------------------------------------------
  // What a search request asks of a stored page
  // ---------------------------------------------------------------------

  /** Whether a query part holds of one nested request whose date field is `dateField`. */
  function RequestHolds(ast: QueryAst, r: RequestRecord, dateField: string): bool
    decreases ast
  {
    match ast
    case Range(field, gte, lte) => field == dateField && Window.InWindow(r.date, gte, lte)
    case BoolQuery(must, should) =>
      (forall c :: c in must ==> RequestHolds(c, r, dateField)) &&
      (|must| > 0 || exists c :: c in should && RequestHolds(c, r, dateField))
    case _ => false
  }

  /**
   * Whether a query part holds of a page whose requests are nested under
   * `path`; `matches(text, terms, op)` is the backend's text matching.
   * A clause in `should` is optional once there is a `must` clause.
   */
  function DocHolds(ast: QueryAst, d: ResponseRecord, path: string,
                    matches: (string, string, Operator) -> bool): bool
    decreases ast
  {
    match ast
    case Nested(p, _, inner) =>
      p == path && exists i :: 0 <= i < |d.requests| && RequestHolds(inner, d.requests[i], path + "." + FIELD_DATE)
    case MatchQuery(field, text, op, _) =>
      (field == FIELD_CONTENT && d.content.Some? && matches(d.content.value, text, op)) ||
      (field == FIELD_TITLE && d.title.Some? && matches(d.title.value, text, op))
    case BoolQuery(must, should) =>
      (forall c :: c in must ==> DocHolds(c, d, path, matches)) &&
      (|must| > 0 || exists c :: c in should && DocHolds(c, d, path, matches))
    case Range(_, _, _) => false
  }

  /**
   * A page matches a query exactly when one of its requests lies in the
   * query's window, whatever its text: so every page the backend returns
   * has a request a result can show.
   */
  lemma MainQueryMatchesIffRequestInWindow(q: Query, d: ResponseRecord, path: string,
                                           matches: (string, string, Operator) -> bool)
    ensures DocHolds(MainQuery(q, path), d, path, matches) <==> Window.Select(d.requests, q.from, q.to).Ok?
  {
    var ast := MainQuery(q, path);
    var time := TimeQuery(q, path);
    assert ast.must == [time];
    forall c | c in ast.must ensures c == time { }
    if DocHolds(ast, d, path, matches) {
      assert DocHolds(time, d, path, matches);
      var i :| 0 <= i < |d.requests| && RequestHolds(time.inner, d.requests[i], path + "." + FIELD_DATE);
      assert !Window.NoneInWindow(d.requests, q.from, q.to);
    }
    if Window.Select(d.requests, q.from, q.to).Ok? {
      var i :| 0 <= i < |d.requests| && Window.InWindow(d.requests[i].date, q.from, q.to);
      assert RequestHolds(time.inner, d.requests[i], path + "." + FIELD_DATE);
      assert DocHolds(time, d, path, matches);
    }
  }

  /**
   * The optional part scores a page whose content or title holds all the
   * terms; the time part is met by a page with a request in the window.
   */
  lemma TermQueryMatchesContentOrTitle(q: Query, d: ResponseRecord, path: string,
                                       matches: (string, string, Operator) -> bool)
    ensures DocHolds(TermQuery(q), d, path, matches) <==>
      (d.content.Some? && matches(d.content.value, q.terms, AndOp)) ||
      (d.title.Some? && matches(d.title.value, q.terms, AndOp))
  {
    var ast := TermQuery(q);
    if (d.content.Some? && matches(d.content.value, q.terms, AndOp)) {
      assert ast.should[0] in ast.should && DocHolds(ast.should[0], d, path, matches);
    }
    if (d.title.Some? && matches(d.title.value, q.terms, AndOp)) {
      assert ast.should[1] in ast.should && DocHolds(ast.should[1], d, path, matches);
    }
  }
}

=== FILE: readers.dfy ===
/**
 * Reading archives: the plain readers (wasp `WarcRecordReader`, older
 * `WarcReader`) forward the records of a finished file; the tailing readers
 * (`ContinuousWarcRecordReader` and the two `OpenWarcReader`s) keep polling
 * at end of file until closed. Threads, sleeping and interrupts become
 * explicit events of a sequential state machine, and the byte stream is
 * seen one record at a time.
 */
module Readers {
  import opened Common

  // ---------------------------------------------------------------------
  // Which files are gzip-compressed
  // ---------------------------------------------------------------------

  const GZIP_SUFFIX: string := ".gz"

  /** wasp `openDataInputStream`: gzip iff the lower-cased path ends with ".gz". */
  predicate IsGzipPath(path: string)
  {
    EndsWith(ToLower(path), GZIP_SUFFIX)
  }

  /** Older `openDataInputStream`: the same test, case-sensitive. */
  predicate IsGzipPathLegacy(path: string)
  {
    EndsWith(path, GZIP_SUFFIX)
  }

  /**
   * The wasp rule accepts every path the older rule accepts, and also the
   * upper-case ".GZ" the older rule misses.
   */
  lemma GzipRulesCompared(path: string)
    ensures IsGzipPathLegacy(path) ==> IsGzipPath(path)
    ensures EndsWith(path, ".GZ") ==> IsGzipPath(path) && !IsGzipPathLegacy(path)
  {
    var n := |path|;
    if n >= 3 {
      var lower := ToLower(path);
      if path[n - 3..] == GZIP_SUFFIX {
        assert path[n - 3] == '.' && path[n - 2] == 'g' && path[n - 1] == 'z';
        assert lower[n - 3..] == GZIP_SUFFIX by {
          assert lower[n - 3] == '.' && lower[n - 2] == 'g' && lower[n - 1] == 'z';
        }
      }
      if path[n - 3..] == ".GZ" {
        assert path[n - 3] == '.' && path[n - 2] == 'G' && path[n - 1] == 'Z';
        assert lower[n - 3..] == GZIP_SUFFIX by {
          assert lower[n - 3] == '.' && lower[n - 2] == 'g' && lower[n - 1] == 'z';
        }
        assert path[n - 3..][1] != GZIP_SUFFIX[1];
      }
    }
  }

  // ---------------------------------------------------------------------
  // The plain reader
  // ---------------------------------------------------------------------

  /** What `readNextWarcRecord` answers: a record, null at end of stream, or an I/O failure. */
  datatype ReadResult<R> = Record(record: R) | EndOfStream | ReadFailure

  /** How `run` ended: at end of stream, on a logged I/O failure, or by an exception escaping the consumer. */
  datatype RunEnd = Ended | FailedIO | Escaped(error: JavaException)

  datatype RunOutcome<S> = RunOutcome(state: S, consumed: nat, end: RunEnd, streamClosed: bool)

  /** The records read before the stream first answers something else. */
  function LeadingRecords<R>(answers: seq<ReadResult<R>>): (rs: seq<R>)
    ensures |rs| <= |answers|
    ensures forall i :: 0 <= i < |rs| ==> answers[i] == Record(rs[i])
    ensures |rs| < |answers| ==> !answers[|rs|].Record?
  {
    if |answers| == 0 || !answers[0].Record? then []
    else [answers[0].record] + LeadingRecords(answers[1..])
  }

  /** Hands records to the consumer one after the other, stopping at the first exception. */
  function Feed<S, R>(s: S, rs: seq<R>, accept: (S, R) -> Outcome<S>): Outcome<S>
  {
    if |rs| == 0 then Ok(s)
    else match accept(s, rs[0])
      case Throws(e) => Throws(e)
      case Ok(s') => Feed(s', rs[1..], accept)
  }

  /**
   * `run()`: forwards every record in stream order until the first null,
   * then closes the stream; an I/O failure is logged and leaves the stream
   * open; an exception of the consumer escapes. The stream ends, at the
   * latest, after the given answers.
   */
  function Run<S, R>(s: S, answers: seq<ReadResult<R>>, accept: (S, R) -> Outcome<S>): (o: RunOutcome<S>)
    ensures o.streamClosed <==> o.end == Ended
    ensures o.consumed <= |LeadingRecords(answers)|
    ensures o.end == Ended ==>
      (o.consumed == |LeadingRecords(answers)| &&
       (|LeadingRecords(answers)| == |answers| || answers[o.consumed] == EndOfStream))
    ensures o.end == FailedIO ==> o.consumed == |LeadingRecords(answers)| < |answers| && answers[o.consumed] == ReadFailure
    ensures o.end.Escaped? <==> Feed(s, LeadingRecords(answers), accept).Throws?
    ensures !o.end.Escaped? ==> Feed(s, LeadingRecords(answers), accept) == Ok(o.state)
    ensures o.end.Escaped? ==> o.end.error == Feed(s, LeadingRecords(answers), accept).error
    decreases |answers|
  {
    if |answers| == 0 then RunOutcome(s, 0, Ended, true)
    else match answers[0]
      case EndOfStream => RunOutcome(s, 0, Ended, true)
      case ReadFailure => RunOutcome(s, 0, FailedIO, false)
      case Record(r) =>
        match accept(s, r)
        case Throws(e) => RunOutcome(s, 0, Escaped(e), false)
        case Ok(s') =>
          var o := Run(s', answers[1..], accept);
          o.(consumed := o.consumed + 1)
  }

  /** The `while (record != null)` loop of `run`. */
  method RunLoop<S, R>(s: S, answers: seq<ReadResult<R>>, accept: (S, R) -> Outcome<S>) returns (o: RunOutcome<S>)
    ensures o == Run(s, answers, accept)
  {
    var state := s;
    var i := 0;
    while i < |answers| && answers[i].Record?
      invariant 0 <= i <= |answers|
      invariant forall j :: 0 <= j < i ==> answers[j].Record?
      invariant Run(s, answers, accept) == ShiftConsumed(Run(state, answers[i..], accept), i)
      decreases |answers| - i
    {
      match accept(state, answers[i].record)
      case Throws(e) =>
        return ShiftConsumed(RunOutcome(state, 0, Escaped(e), false), i);
      case Ok(next) =>
        assert answers[i..][1..] == answers[i + 1..];
        state := next;
        i := i + 1;
    }
    if i == |answers| || answers[i] == EndOfStream {
      o := ShiftConsumed(RunOutcome(state, 0, Ended, true), i);
    } else {
      o := ShiftConsumed(RunOutcome(state, 0, FailedIO, false), i);
    }
  }

  function ShiftConsumed<S>(o: RunOutcome<S>, n: nat): (o': RunOutcome<S>)
    ensures o'.consumed == o.consumed + n
  {
    o.(consumed := o.consumed + n)
  }

  /**
   * The plain reader with the wasp consumer: a record whose WARC-Date cannot
   * be read ends `run` with that exception, and no later record is read.
   */
  lemma EscapingRecordStopsRun<S, R>(s: S, answers: seq<ReadResult<R>>, accept: (S, R) -> Outcome<S>, k: nat)
    requires k < |answers| && forall i :: 0 <= i <= k ==> answers[i].Record?
    requires Feed(s, LeadingRecords(answers[..k]), accept).Ok?
    requires accept(Feed(s, LeadingRecords(answers[..k]), accept).value, answers[k].record).Throws?
    ensures Run(s, answers, accept).end.Escaped?
    ensures !Run(s, answers, accept).streamClosed
  {
    FeedPrefix(s, answers, accept, k);
  }

  lemma {:induction false} FeedPrefix<S, R>(s: S, answers: seq<ReadResult<R>>, accept: (S, R) -> Outcome<S>, k: nat)
    requires k < |answers| && forall i :: 0 <= i <= k ==> answers[i].Record?
    requires Feed(s, LeadingRecords(answers[..k]), accept).Ok?
    requires accept(Feed(s, LeadingRecords(answers[..k]), accept).value, answers[k].record).Throws?
    ensures Feed(s, LeadingRecords(answers), accept).Throws?
    decreases k
  {
    if k == 0 {
    } else {
      assert answers[..k][1..] == answers[1..][..k - 1];
      assert LeadingRecords(answers[..k]) == [answers[0].record] + LeadingRecords(answers[1..][..k - 1]);
      var s' := accept(s, answers[0].record).value;
      FeedPrefix(s', answers[1..], accept, k - 1);
    }
  }

  // ---------------------------------------------------------------------
  // The tailing readers
  // ---------------------------------------------------------------------

  /** What can happen to a tailing reader: the writer appends, the reader thread answers, someone closes or interrupts it. */
  datatype Event<R> = Append(record: R) | Read | Close | Interrupt

  /**
   * A tailing reader: the file written so far, how far it has been read,
   * the `consume` and `closed` flags, the thread's interrupt flag, whether
   * the underlying stream is still open, whether `run` still runs (and
   * whether it stopped on an I/O failure), and the records forwarded.
   */
  datatype Tail<R> = Tail(
    file: seq<R>,
    pos: nat,
    consume: bool,
    closed: bool,
    interrupted: bool,
    streamOpen: bool,
    running: bool,
    failed: bool,
    forwarded: seq<R>)

  /**
   * The three constructors. `ContinuousWarcRecordReader` and the
   * `read.OpenWarcReader` start forwarding iff `consumeExistingRecords`; the
   * other `OpenWarcReader` has no flag and always forwards.
   */
  function NewTail<R>(file: seq<R>, hasConsumeFlag: bool, consumeExistingRecords: bool): (t: Tail<R>)
    ensures t.consume == (!hasConsumeFlag || consumeExistingRecords)
    ensures !t.closed && t.streamOpen && t.running && !t.failed && t.pos == 0 && t.forwarded == []
  {
    Tail(file, 0, !hasConsumeFlag || consumeExistingRecords, false, false, true, true, false, [])
  }

  /** The reachable states: the stream is released only after `closed`, and nothing is forwarded before `consume`. */
  ghost predicate Inv<R>(t: Tail<R>)
  {
    t.pos <= |t.file| &&
    (!t.streamOpen ==> t.closed) &&
    (!t.consume ==> t.forwarded == []) &&
    (t.failed ==> !t.running) &&
    |t.forwarded| <= t.pos &&
    t.forwarded == t.file[t.pos - |t.forwarded|..t.pos]
  }

  /**
   * One event. A read on a released stream fails; a read of a record
   * forwards it iff `consume` is set and then releases the stream if
   * `closed` is set; at end of file a reader that is not closed sets
   * `consume` and keeps polling unless interrupted; an interrupted wait and
   * a closed end of file both end `run`, which then calls `close()`.
   */
  function Step<R>(t: Tail<R>, e: Event<R>): (t': Tail<R>)
    ensures t'.file == t.file || (e.Append? && t'.file == t.file + [e.record])
    ensures t.consume ==> t'.consume
    ensures t.closed ==> t'.closed
    ensures !t.running ==> t'.running == t.running && t'.forwarded == t.forwarded
    ensures |t'.forwarded| <= |t.forwarded| + 1
  {
    match e
    case Append(r) => t.(file := t.file + [r])
    case Close => t.(closed := true)
    case Interrupt => t.(interrupted := true)
    case Read =>
      if !t.running then t
      else if !t.streamOpen then t.(running := false, failed := true)
      else if t.pos < |t.file| then
        var fwd := if t.consume then t.forwarded + [t.file[t.pos]] else t.forwarded;
        t.(pos := t.pos + 1, forwarded := fwd, streamOpen := !t.closed)
      else if t.closed then t.(streamOpen := false, running := false)
      else if t.interrupted then t.(consume := true, interrupted := false, running := false, closed := true)
      else t.(consume := true)
  }

  /** Every event keeps the reachable-state invariant. */
  lemma StepPreservesInv<R>(t: Tail<R>, e: Event<R>)
    requires Inv(t)
    ensures Inv(Step(t, e))
  {
    if e.Append? {
      var t' := t.(file := t.file + [e.record]);
      assert t'.file[t.pos - |t.forwarded|..t.pos] == t.file[t.pos - |t.forwarded|..t.pos];
    } else if e.Read? && t.running && t.streamOpen && t.pos < |t.file| {
      ReadRecordPreservesInv(t);
    }
  }

  lemma ReadRecordPreservesInv<R>(t: Tail<R>)
    requires Inv(t) && t.running && t.streamOpen && t.pos < |t.file|
    ensures Inv(Step(t, Read))
  {
    if t.consume {
      assert t.file[t.pos - |t.forwarded|..t.pos + 1] == t.file[t.pos - |t.forwarded|..t.pos] + [t.file[t.pos]];
    } else {
      assert t.forwarded == [];
    }
  }

  function Steps<R>(t: Tail<R>, es: seq<Event<R>>): (t': Tail<R>)
    decreases |es|
  {
    if |es| == 0 then t else Steps(Step(t, es[0]), es[1..])
  }

  lemma {:induction false} StepsPreserveInv<R>(t: Tail<R>, es: seq<Event<R>>)
    requires Inv(t)
    ensures Inv(Steps(t, es))
    decreases |es|
  {
    if |es| > 0 {
      StepPreservesInv(t, es[0]);
      StepsPreserveInv(Step(t, es[0]), es[1..]);
    }
  }

  /** Once set, `consume` stays set, whatever happens next. */
  lemma {:induction false} ConsumeNeverResets<R>(t: Tail<R>, es: seq<Event<R>>)
    requires t.consume
    ensures Steps(t, es).consume
    decreases |es|
  {
    if |es| > 0 {
      ConsumeNeverResets(Step(t, es[0]), es[1..]);
    }
  }

  /** `close()` only sets `closed`: the stream stays open and nothing else changes. */
  lemma CloseOnlySetsClosed<R>(t: Tail<R>)
    ensures Step(t, Close) == t.(closed := true)
    ensures Step(t, Close).streamOpen == t.streamOpen
  {
  }

  /** At end of file, a reader that is neither closed nor interrupted sets `consume` and keeps polling. */
  lemma EndOfFilePolls<R>(t: Tail<R>)
    requires t.running && t.streamOpen && t.pos == |t.file| && !t.closed && !t.interrupted
    ensures Step(t, Read) == t.(consume := true)
    ensures Step(t, Read).running
  {
  }

  /**
   * After `close()`, at most one more record is forwarded: the read that
   * returns it also releases the stream, and the read after that fails.
   */
  lemma {:induction false} AtMostOneRecordAfterClose<R>(t: Tail<R>, es: seq<Event<R>>)
    requires Inv(t) && t.closed
    ensures |Steps(t, es).forwarded| <= |t.forwarded| + (if t.streamOpen then 1 else 0)
    ensures t.forwarded <= Steps(t, es).forwarded
    decreases |es|
  {
    if |es| > 0 {
      var t1 := Step(t, es[0]);
      StepAfterClose(t, es[0]);
      AtMostOneRecordAfterClose(t1, es[1..]);
    }
  }

  /** One event after `close()`: a record forwarded is paid for by releasing the stream. */
  lemma StepAfterClose<R>(t: Tail<R>, e: Event<R>)
    requires Inv(t) && t.closed
    ensures var t' := Step(t, e);
      Inv(t') && t'.closed &&
      |t'.forwarded| + (if t'.streamOpen then 1 else 0) <= |t.forwarded| + (if t.streamOpen then 1 else 0) &&
      t.forwarded <= t'.forwarded
  {
    StepPreservesInv(t, e);
  }

  /**
   * A reader created not to consume existing records skips what the file
   * held, sets `consume` at the first end of file, and forwards what is
   * appended after that.
   */
  lemma SkipsExistingForwardsNew<R>(existing: R, appended: R)
    ensures var t := Steps(NewTail([existing], true, false), [Read, Read, Append(appended), Read]);
      t.forwarded == [appended] && t.running && t.consume
  {
    var t0 := NewTail([existing], true, false);
    var t1 := Step(t0, Read);
    assert t1.forwarded == [] && t1.pos == 1;
    var t2 := Step(t1, Read);
    assert t2.consume;
    var t3 := Step(t2, Append(appended));
    assert t3.file == [existing, appended];
    var t4 := Step(t3, Read);
    assert t4.forwarded == [appended];
    assert Steps(t0, [Read, Read, Append(appended), Read]) == Steps(t1, [Read, Append(appended), Read]);
    assert Steps(t1, [Read, Append(appended), Read]) == Steps(t2, [Append(appended), Read]);
    assert Steps(t2, [Append(appended), Read]) == Steps(t3, [Read]);
  }

  /**
   * An interrupt during the end-of-file wait ends `run`; `run` then calls
   * `close()`, which only sets the flag, so the stream is never released.
   */
  lemma InterruptLeavesStreamOpen<R>(file: seq<R>)
    ensures var t := Steps(NewTail(file, true, true), ReadAll<R>(|file|) + [Interrupt, Read]);
      !t.running && t.closed && t.streamOpen && !t.failed && t.forwarded == file
  {
    var t0 := NewTail(file, true, true);
    ReadAllForwards(t0, |file|);
    var t1 := Steps(t0, ReadAll<R>(|file|));
    StepsAppend(t0, ReadAll<R>(|file|), [Interrupt, Read]);
    assert Steps(t1, [Interrupt, Read]) == Steps(Step(t1, Interrupt), [Read]);
  }

  function ReadAll<R>(n: nat): (es: seq<Event<R>>)
    ensures |es| == n && forall i :: 0 <= i < n ==> es[i] == Read
  {
    seq(n, i => Read)
  }

  /**
   * The older `OpenWarcReader` without a consume flag forwards every record
   * the file already holds, in order, from its very first read.
   */
  lemma UnflaggedReaderForwardsExisting<R>(file: seq<R>, consumeExistingRecords: bool)
    ensures var t := Steps(NewTail(file, false, consumeExistingRecords), ReadAll<R>(|file|));
      t.forwarded == file && t.running && t.pos == |file|
  {
    ReadAllForwards(NewTail(file, false, consumeExistingRecords), |file|);
  }

  /** One read of an open, consuming reader with a record ahead forwards that record. */
  lemma ReadForwardsNext<R>(t: Tail<R>)
    requires t.running && t.streamOpen && !t.closed && t.consume
    requires t.pos < |t.file|
    ensures Step(t, Read) == Advanced(t)
  {
  }

  /** The reader after forwarding the record at its position. */
  function Advanced<R>(t: Tail<R>): Tail<R>
    requires t.pos < |t.file|
  {
    t.(pos := t.pos + 1, forwarded := t.forwarded + [t.file[t.pos]])
  }

  /**
   * `t'` is `t` after forwarding the next `n` records: still open and
   * running, with the same file, flags and interrupt, `n` positions further.
   */
  ghost predicate ForwardedNext<R>(t: Tail<R>, t': Tail<R>, n: nat)
  {
    t'.running && t'.streamOpen && !t'.closed && !t'.failed == !t.failed &&
    t'.interrupted == t.interrupted && t'.file == t.file &&
    t.pos + n <= |t.file| && t'.pos == t.pos + n && t'.forwarded == t.forwarded + t.file[t.pos..t.pos + n]
  }

  /** Reading an open, consuming reader's file record by record forwards all of it. */
  lemma {:induction false} ReadAllForwards<R>(t: Tail<R>, n: nat)
    requires t.running && t.streamOpen && !t.closed && t.consume
    requires t.pos + n <= |t.file|
    ensures ForwardedNext(t, Steps(t, ReadAll<R>(n)), n)
    decreases n
  {
    if n > 0 {
      ReadOnce(t, n);
      ReadAllForwards(Advanced(t), n - 1);
      ForwardedStep(t, Steps(Advanced(t), ReadAll<R>(n - 1)), n);
    }
  }

  /** `n` reads of a reader with a record ahead are forwarding it and then `n - 1` more reads. */
  lemma ReadOnce<R>(t: Tail<R>, n: nat)
    requires t.running && t.streamOpen && !t.closed && t.consume
    requires 0 < n && t.pos + n <= |t.file|
    ensures Steps(t, ReadAll<R>(n)) == Steps(Advanced(t), ReadAll<R>(n - 1))
  {
    var es := ReadAll<R>(n);
    StepsFirst(t, es);
    assert es[0] == Read && es[1..] == ReadAll<R>(n - 1);
    ReadForwardsNext(t);
  }

  /** Forwarding the next record and then `n - 1` more is forwarding the next `n`. */
  lemma ForwardedStep<R>(t: Tail<R>, t': Tail<R>, n: nat)
    requires 0 < n && t.pos + n <= |t.file|
    requires ForwardedNext(Advanced(t), t', n - 1)
    ensures ForwardedNext(t, t', n)
  {
    var rest := t.file[t.pos + 1..t.pos + n];
    assert t.file[t.pos..t.pos + n] == [t.file[t.pos]] + rest;
    assert t.forwarded + [t.file[t.pos]] + rest == t.forwarded + ([t.file[t.pos]] + rest);
  }

  lemma StepsFirst<R>(t: Tail<R>, es: seq<Event<R>>)
    requires |es| > 0
    ensures Steps(t, es) == Steps(Step(t, es[0]), es[1..])
  {
  }

  lemma {:induction false} StepsAppend<R>(t: Tail<R>, a: seq<Event<R>>, b: seq<Event<R>>)
    ensures Steps(t, a + b) == Steps(Steps(t, a), b)
    decreases |a|
  {
    if |a| > 0 {
      assert (a + b)[0] == a[0];
      assert (a + b)[1..] == a[1..] + b;
      StepsAppend(Step(t, a[0]), a[1..], b);
      assert Steps(t, a + b) == Steps(Step(t, a[0]), a[1..] + b);
    } else {
      assert a + b == b;
    }
  }
}

=== FILE: records.dfy ===
/**
 * The documents the index stores for a page: a response record with the
 * requests that fetched it (wasp `ResponseRecord` and `RequestRecord`).
 */
module Records {
  import opened Common

  type Id = string
  type Uri = string

  /** Stored field names of the index mapping. */
  const FIELD_URI: string := "uri"
  const FIELD_TITLE: string := "title"
  const FIELD_CONTENT: string := "content"
  const FIELD_REQUESTS: string := "requests"
  const FIELD_DATE: string := "date"
  /** The path of a request's date inside a response document. */
  const FIELD_DATE_COMPLETE: string := FIELD_REQUESTS + "." + FIELD_DATE

  /** One archived request of a page: the URI asked for and when. */
  datatype RequestRecord = RequestRecord(uri: Uri, date: Instant)

  /** A stored page: its URI, optional title and text, and its requests in order. */
  datatype ResponseRecord = ResponseRecord(
    uri: Uri,
    title: Option<string>,
    content: Option<string>,
    requests: seq<RequestRecord>)

  /** `new RequestRecord(uri, date)`: both arguments are mandatory. */
  function NewRequestRecord(uri: Option<Uri>, date: Option<Instant>): (r: Outcome<RequestRecord>)
    ensures r.Ok? <==> uri.Some? && date.Some?
    ensures r.Ok? ==> r.value.uri == uri.value && r.value.date == date.value
    ensures r.Throws? ==> r.error == NullPointer
  {
    if uri.None? || date.None? then Throws(NullPointer)
    else Ok(RequestRecord(uri.value, date.value))
  }

  predicate NoNulls<T>(xs: seq<Option<T>>)
  {
    forall i :: 0 <= i < |xs| ==> xs[i].Some?
  }

  /** The values of a list without null elements, in order. */
  function Values<T>(xs: seq<Option<T>>): (ys: seq<T>)
    requires NoNulls(xs)
    ensures |ys| == |xs|
    ensures forall i :: 0 <= i < |xs| ==> Some(ys[i]) == xs[i]
  {
    if |xs| == 0 then [] else [xs[0].value] + Values(xs[1..])
  }

  /**
   * `new ResponseRecord(uri, title, content, requests)`: the URI is mandatory,
   * title and content may be absent, an absent request list becomes the empty
   * list and a present one is copied, refusing null elements.
   */
  function NewResponseRecord(
    uri: Option<Uri>, title: Option<string>, content: Option<string>,
    requests: Option<seq<Option<RequestRecord>>>): (r: Outcome<ResponseRecord>)
    ensures r.Ok? <==> uri.Some? && (requests.Some? ==> NoNulls(requests.value))
    ensures r.Throws? ==> r.error == NullPointer
    ensures r.Ok? ==> r.value.uri == uri.value && r.value.title == title && r.value.content == content
    ensures r.Ok? && requests.None? ==> r.value.requests == []
    ensures r.Ok? && requests.Some? ==>
      |r.value.requests| == |requests.value| &&
      forall i :: 0 <= i < |requests.value| ==> requests.value[i] == Some(r.value.requests[i])
  {
    if uri.None? then Throws(NullPointer)
    else if requests.None? then Ok(ResponseRecord(uri.value, title, content, []))
    else if !NoNulls(requests.value) then Throws(NullPointer)
    else Ok(ResponseRecord(uri.value, title, content, Values(requests.value)))
  }

  /** `ResponseRecord.forPage`: a fresh page with URI, title and content, and no requests yet. */
  function ForPage(uri: Option<Uri>, title: Option<string>, content: Option<string>): (r: Outcome<ResponseRecord>)
    ensures r.Ok? <==> uri.Some? && title.Some? && content.Some?
    ensures r.Ok? ==> r.value == ResponseRecord(uri.value, title, content, [])
    ensures r.Throws? ==> r.error == NullPointer
  {
    if uri.None? || title.None? || content.None? then Throws(NullPointer)
    else NewResponseRecord(uri, title, content, None)
  }
}

=== FILE: renderer.dfy ===
/**
 * The older result page renderer: its construction, the displayed form of
 * a URI, the page title, the href prefix of its pagination links and the
 * list of pagination items.
 */
module Renderer {
  import opened Common
  import opened Queries
  import opened Display
  import UiPages

  /** The replay server's port and collection the result links point to. */
  datatype Conf = Conf(replayPort: Int32, replayCollection: string)

  /** `new ResultPageRenderer(port, collection)`: the collection is mandatory. */
  function NewRenderer(replayPort: Int32, replayCollection: Option<string>): (r: Outcome<Conf>)
    ensures r.Ok? <==> replayCollection.Some?
    ensures r.Throws? ==> r.error == NullPointer
    ensures r.Ok? ==> r.value.replayPort == replayPort && r.value.replayCollection == replayCollection.value
  {
    if replayCollection.None? then Throws(NullPointer) else Ok(Conf(replayPort, replayCollection.value))
  }

  /** `getDisplayUri`: the HTML-escaped URI, shortened like the newer result list does. */
  function DisplayUri(escapeHtml: string -> string, uri: string): (r: string)
    ensures |r| <= MAX_URI_DISPLAY_LENGTH
    ensures r == escapeHtml(uri) <==> |escapeHtml(uri)| <= MAX_URI_DISPLAY_LENGTH
    ensures |escapeHtml(uri)| > MAX_URI_DISPLAY_LENGTH ==>
      r == escapeHtml(uri)[..SPLIT_INDEX] + ELLIPSIS + escapeHtml(uri)[|escapeHtml(uri)| - SPLIT_INDEX..]
  {
    Shorten(escapeHtml(uri))
  }

  // ---------------------------------------------------------------------
  // Title
  // ---------------------------------------------------------------------

  const BASE_TITLE: string := "Web Archive Search Personalized"
  const TITLE_SEPARATOR: string := ": "

  /** `getTitle`: the base title, followed by ": " and the terms when there is a query. */
  function GetTitle(q: Option<Query>): (t: string)
    ensures |t| >= |BASE_TITLE| && t[..|BASE_TITLE|] == BASE_TITLE
    ensures q.None? <==> t == BASE_TITLE
    ensures q.Some? ==> t[|BASE_TITLE|..] == TITLE_SEPARATOR + q.value.terms
  {
    if q.None? then BASE_TITLE
    else
      var t := BASE_TITLE + TITLE_SEPARATOR + q.value.terms;
      assert t[..|BASE_TITLE|] == BASE_TITLE;
      assert t[|BASE_TITLE|..] == TITLE_SEPARATOR + q.value.terms;
      t
  }

  /** The terms can be read back from the title, so different terms give different titles. */
  lemma TitleRecoversTerms(a: Query, b: Query)
    ensures GetTitle(Some(a))[|BASE_TITLE| + |TITLE_SEPARATOR|..] == a.terms
    ensures GetTitle(Some(a)) == GetTitle(Some(b)) ==> a.terms == b.terms
  {
    var ta := GetTitle(Some(a));
    assert ta[|BASE_TITLE| + |TITLE_SEPARATOR|..] == ta[|BASE_TITLE|..][|TITLE_SEPARATOR|..];
    var tb := GetTitle(Some(b));
    assert tb[|BASE_TITLE| + |TITLE_SEPARATOR|..] == tb[|BASE_TITLE|..][|TITLE_SEPARATOR|..];
  }

  // ---------------------------------------------------------------------
  // Pagination
  // ---------------------------------------------------------------------

  /**
   * `instantToTimePickerFormat`: the date picker pattern "yyyy-MM-dd HH:mm"
   * carries no zone, and a bare `Instant` has no year, month or hour field,
   * so formatting it throws UnsupportedTemporalTypeException whatever the
   * offset added before.
   */
  function PickerFormat(t: Instant): (r: Outcome<string>)
    ensures r.Throws?
  {
    Throws(UnsupportedTemporalType)
  }

  /** The `&from=` or `&to=` parameter of a bound, if there is one. */
  function BoundParam(key: string, bound: Option<Instant>): (r: Outcome<seq<UiPages.Param>>)
    ensures r.Ok? <==> bound.None?
  {
    if bound.None? then Ok([])
    else match PickerFormat(bound.value)
      case Ok(v) => Ok([UiPages.Param(key, v)])
      case Throws(e) => Throws(e)
  }

  /**
   * The parameters `getPaginationHrefPrefix` writes: the URL-encoded
   * terms, the bounds in date picker format, and the open page parameter.
   * Formatting a bound throws, so only a query without bounds gets a list.
   */
  function HrefParams(q: Query, fmt: UiPages.Formats): (ps: Outcome<seq<UiPages.Param>>)
    ensures ps.Ok? <==> q.from.None? && q.to.None?
    ensures ps.Throws? ==> ps.error == UnsupportedTemporalType
    ensures ps.Ok? ==> ps.value == [UiPages.Param(UiPages.PARAM_TERMS, fmt.urlEncode(q.terms)), UiPages.Param(UiPages.PARAM_PAGE, "")]
  {
    var from :- BoundParam(UiPages.PARAM_FROM, q.from);
    var to :- BoundParam(UiPages.PARAM_TO, q.to);
    Ok([UiPages.Param(UiPages.PARAM_TERMS, fmt.urlEncode(q.terms))] + from + to + [UiPages.Param(UiPages.PARAM_PAGE, "")])
  }

  /**
   * `getPaginationHrefPrefix`: "?terms=<terms>&page=", for the number each
   * link appends, when the query has no bounds; with a bound it throws.
   */
  function HrefPrefix(q: Query, fmt: UiPages.Formats): (prefix: Outcome<string>)
    ensures prefix.Ok? <==> q.from.None? && q.to.None?
    ensures prefix.Throws? ==> prefix.error == UnsupportedTemporalType
    ensures prefix.Ok? ==> "?" + UiPages.PARAM_TERMS + "=" + fmt.urlEncode(q.terms) + "&" <= prefix.value
    ensures prefix.Ok? ==> EndsWith(prefix.value, "&" + UiPages.PARAM_PAGE + "=")
    ensures prefix.Ok? ==> prefix.value == "?" + UiPages.PARAM_TERMS + "=" + fmt.urlEncode(q.terms) + "&" + UiPages.PARAM_PAGE + "="
  {
    var ps :- HrefParams(q, fmt);
    UiPages.RenderParamsEnds(ps);
    assert UiPages.RenderPairs(ps[1..]) == UiPages.PARAM_PAGE + "=";
    Ok(UiPages.RenderParams(ps))
  }

  /**
   * For a query without bounds both generations build the same href
   * prefix; for any other query the older one throws.
   */
  lemma HrefPrefixAgreesWithNewer(q: Query, fmt: UiPages.Formats)
    ensures HrefPrefix(q, fmt).Ok? <==> q.from.None? && q.to.None?
    ensures HrefPrefix(q, fmt).Ok? ==> HrefPrefix(q, fmt).value == UiPages.HrefBase(q, fmt)
  {
    if q.from.None? && q.to.None? {
      assert HrefParams(q, fmt).value == UiPages.HrefParams(q, fmt);
    }
  }

  /** One item of the pagination bar: its label, its href, and its CSS state. */
  datatype Item = Item(text: string, href: string, active: bool, disabled: bool)

  const NO_LINK: string := "#"

  /** The link to page `p`. */
  function PageItem(prefix: string, p: int): Item
  {
    Item(Decimal(p), prefix + Decimal(p), false, false)
  }

  /** Links to pages 1, ..., pageNumber - 1. */
  function EarlierPages(prefix: string, pageNumber: Int32): (items: seq<Item>)
    ensures |items| == if pageNumber > 1 then pageNumber - 1 else 0
    ensures forall i :: 0 <= i < |items| ==> items[i] == PageItem(prefix, i + 1)
  {
    seq(if pageNumber > 1 then pageNumber - 1 else 0, i => PageItem(prefix, i + 1))
  }

  /** "&laquo;": disabled without a link on page 1, else a link to the previous page. */
  function PreviousArrow(prefix: string, pageNumber: Int32): (item: Item)
    ensures item.text == UiPages.TEXT_FIRST && !item.active && (item.disabled <==> pageNumber == 1)
    ensures item.href == if pageNumber == 1 then NO_LINK else prefix + Decimal(Wrap32(pageNumber - 1))
  {
    Item(UiPages.TEXT_FIRST, if pageNumber == 1 then NO_LINK else prefix + Decimal(Wrap32(pageNumber - 1)),
         false, pageNumber == 1)
  }

  /** "&raquo;": disabled without a link on the last page, else a link to the next page. */
  function NextArrow(prefix: string, pageNumber: Int32, isLastPage: bool): (item: Item)
    ensures item.text == UiPages.TEXT_LAST && !item.active && (item.disabled <==> isLastPage)
    ensures item.href == if isLastPage then NO_LINK else prefix + Decimal(Wrap32(pageNumber + 1))
  {
    Item(UiPages.TEXT_LAST, if isLastPage then NO_LINK else prefix + Decimal(Wrap32(pageNumber + 1)),
         false, isLastPage)
  }

  /** The current page: active, without a link. */
  function CurrentItem(pageNumber: Int32): Item
  {
    Item(Decimal(pageNumber), NO_LINK, true, false)
  }

  /** Where the current page sits in the bar. */
  function CurrentIndex(pageNumber: Int32): nat
  {
    if pageNumber > 1 then pageNumber else 1
  }

  /**
   * `renderPagination`: "&laquo;", the earlier pages, the current page, the
   * next page unless this is the last page, and "&raquo;". Page arithmetic
   * is 32-bit.
   */
  function Pagination(prefix: string, pageNumber: Int32, isLastPage: bool): (items: seq<Item>)
    ensures |items| == CurrentIndex(pageNumber) + (if isLastPage then 2 else 3)
    ensures items[0] == PreviousArrow(prefix, pageNumber)
    ensures items[|items| - 1] == NextArrow(prefix, pageNumber, isLastPage)
    ensures forall p :: 1 <= p < CurrentIndex(pageNumber) ==> items[p] == PageItem(prefix, p)
    ensures items[CurrentIndex(pageNumber)] == CurrentItem(pageNumber)
    ensures !isLastPage ==> items[CurrentIndex(pageNumber) + 1] == PageItem(prefix, Wrap32(pageNumber + 1))
  {
    var before := [PreviousArrow(prefix, pageNumber)] + EarlierPages(prefix, pageNumber);
    var next := if isLastPage then [] else [PageItem(prefix, Wrap32(pageNumber + 1))];
    var after := [CurrentItem(pageNumber)] + next + [NextArrow(prefix, pageNumber, isLastPage)];
    var items := before + after;
    assert |before| == CurrentIndex(pageNumber);
    assert items[0] == before[0];
    assert items[|items| - 1] == after[|after| - 1];
    assert items[|before|] == after[0];
    assert !isLastPage ==> items[|before| + 1] == after[1];
    assert forall p :: 1 <= p < |before| ==> items[p] == before[p] == PageItem(prefix, p);
    items
  }

  /** The page number a link leads to: the decimal number after the prefix. */
  function Target(prefix: string, href: string): Option<int>
  {
    if |prefix| <= |href| && href[..|prefix|] == prefix then ParseDecimal(href[|prefix|..]) else None
  }

  lemma TargetOfPageLink(prefix: string, p: int)
    ensures Target(prefix, prefix + Decimal(p)) == Some(p)
  {
    var h := prefix + Decimal(p);
    assert h[..|prefix|] == prefix && h[|prefix|..] == Decimal(p);
    DecimalRoundTrip(p);
  }

  /** The labels and links of the active items. */
  function ActiveItems(items: seq<Item>): set<Item>
  {
    set i | 0 <= i < |items| && items[i].active :: items[i]
  }

  lemma ActiveOnlyAtCurrent(prefix: string, pageNumber: Int32, isLastPage: bool, i: nat)
    requires i < |Pagination(prefix, pageNumber, isLastPage)|
    ensures Pagination(prefix, pageNumber, isLastPage)[i].active <==> i == CurrentIndex(pageNumber)
  {
    var items := Pagination(prefix, pageNumber, isLastPage);
    BarActiveOnlyAtCurrent(items, CurrentIndex(pageNumber), isLastPage, i);
  }

  /** The same, for any bar whose items are active where `Pagination` makes them so. */
  lemma BarActiveOnlyAtCurrent(items: seq<Item>, c: nat, isLastPage: bool, i: nat)
    requires |items| == c + (if isLastPage then 2 else 3)
    requires !items[0].active && !items[|items| - 1].active && items[c].active
    requires forall p :: 1 <= p < c ==> !items[p].active
    requires !isLastPage ==> !items[c + 1].active
    requires i < |items|
    ensures items[i].active <==> i == c
  {
  }

  /** Exactly one item is active: the current page, without a link. */
  lemma OneActiveItem(prefix: string, pageNumber: Int32, isLastPage: bool)
    ensures ActiveItems(Pagination(prefix, pageNumber, isLastPage)) == {CurrentItem(pageNumber)}
  {
    var items := Pagination(prefix, pageNumber, isLastPage);
    forall x | x in ActiveItems(items) ensures x == CurrentItem(pageNumber) {
      var i :| 0 <= i < |items| && items[i].active && items[i] == x;
      ActiveOnlyAtCurrent(prefix, pageNumber, isLastPage, i);
    }
    assert items[CurrentIndex(pageNumber)] in ActiveItems(items);
  }

  /** A link, unless it is none, leads to a neighbour of the current page that exists. */
  predicate LeadsNear(prefix: string, href: string, pageNumber: int, isLastPage: bool)
  {
    href != NO_LINK ==>
      var t := Target(prefix, href);
      t.Some? && 1 <= t.value <= pageNumber + 1 && t.value != pageNumber &&
      (t.value == pageNumber + 1 ==> !isLastPage)
  }

  lemma ItemLeadsNear(prefix: string, pageNumber: Int32, isLastPage: bool, i: nat)
    requires 1 <= pageNumber < INT_MAX && i < |Pagination(prefix, pageNumber, isLastPage)|
    ensures LeadsNear(prefix, Pagination(prefix, pageNumber, isLastPage)[i].href, pageNumber, isLastPage)
  {
    var items := Pagination(prefix, pageNumber, isLastPage);
    if i == 0 {
      TargetOfPageLink(prefix, pageNumber - 1);
    } else if i < pageNumber {
      assert items[i] == PageItem(prefix, i);
      TargetOfPageLink(prefix, i);
    } else if i == |items| - 1 {
      TargetOfPageLink(prefix, pageNumber + 1);
    } else if i == pageNumber + 1 {
      assert items[i] == PageItem(prefix, pageNumber + 1);
      TargetOfPageLink(prefix, pageNumber + 1);
    }
  }

  /**
   * On an ordinary page number, every link leads to a page between 1 and
   * the next page, never to the current page, and to the next page only
   * when this is not the last page.
   */
  lemma LinksLeadToNeighbourPages(prefix: string, pageNumber: Int32, isLastPage: bool)
    requires 1 <= pageNumber < INT_MAX
    ensures var items := Pagination(prefix, pageNumber, isLastPage);
      forall i :: 0 <= i < |items| ==> LeadsNear(prefix, items[i].href, pageNumber, isLastPage)
  {
    var items := Pagination(prefix, pageNumber, isLastPage);
    forall i | 0 <= i < |items| ensures LeadsNear(prefix, items[i].href, pageNumber, isLastPage) {
      ItemLeadsNear(prefix, pageNumber, isLastPage, i);
    }
  }

  /**
   * Before the current page, the older bar links the same pages under the
   * same labels and hrefs as the newer pagination does.
   */
  lemma EarlierPagesAgreeWithNewer(prefix: string, pageNumber: Int32, isLastPage: bool, numPages: Int32, p: int)
    requires 1 <= p < pageNumber <= numPages
    ensures var older := Pagination(prefix, pageNumber, isLastPage)[p];
      var newer := UiPages.Pagination(prefix, pageNumber, numPages)[p];
      older.text == newer.text && older.href == newer.link && older.active == newer.isActive &&
      older.disabled == newer.isDisabled
  {
  }
}

=== FILE: results.dfy ===
/**
 * Turning search hits into results: the snippet, the request a result
 * shows, and the loop that converts every hit and keeps those with a
 * snippet. Shared by the wasp `Result`, the resource index's `search`, and
 * the wasp `ResultsFetcher`.
 */
module Results {
  import opened Common
  import opened Records
  import opened Window
  import opened Queries

  const SNIPPET_SEPARATOR: string := " ... "

  /** Highlighted fragments per field, as the backend returns them. */
  type Highlights = map<string, seq<string>>

  /** A search hit: the backend's score, the stored page, its highlights. */
  datatype Hit = Hit(score: real, source: ResponseRecord, highlight: Highlights)

  /** The content fragments joined by " ... ", or "" when the content has none. */
  function Snippet(h: Highlights): (s: string)
    ensures FIELD_CONTENT !in h ==> s == ""
    ensures FIELD_CONTENT in h && |h[FIELD_CONTENT]| == 1 ==> s == h[FIELD_CONTENT][0]
    ensures FIELD_CONTENT in h && |h[FIELD_CONTENT]| > 0 ==> h[FIELD_CONTENT][0] <= s
  {
    if FIELD_CONTENT !in h then "" else Join(h[FIELD_CONTENT], SNIPPET_SEPARATOR)
  }

  /**
   * A snippet is empty exactly when the content was not highlighted at all,
   * or its only fragment is empty.
   */
  lemma SnippetEmptyIff(h: Highlights)
    ensures Snippet(h) == "" <==>
      FIELD_CONTENT !in h || |h[FIELD_CONTENT]| == 0 || (|h[FIELD_CONTENT]| == 1 && h[FIELD_CONTENT][0] == "")
  {
    if FIELD_CONTENT in h {
      JoinEmptyIff(h[FIELD_CONTENT], SNIPPET_SEPARATOR);
    }
  }

  /** Two or more fragments are kept in order, separated by " ... ". */
  lemma SnippetAppendsFragment(h: Highlights, fragments: seq<string>, f: string)
    requires |fragments| > 0
    ensures Snippet(h[FIELD_CONTENT := fragments + [f]]) == Snippet(h[FIELD_CONTENT := fragments]) + SNIPPET_SEPARATOR + f
  {
    JoinSnoc(fragments, f, SNIPPET_SEPARATOR);
  }

  // ---------------------------------------------------------------------
  // Converting every hit and keeping some
  // ---------------------------------------------------------------------

  /**
   * Reference definition of what is kept, read from the front: the value of
   * every hit that converts and that `keep` accepts, in the order of the hits.
   */
  function KeptInOrder<H, R>(hits: seq<H>, convert: H -> Outcome<R>, keep: R -> bool): seq<R>
  {
    if |hits| == 0 then []
    else
      var c := convert(hits[0]);
      (if c.Ok? && keep(c.value) then [c.value] else []) + KeptInOrder(hits[1..], convert, keep)
  }

  /** Adding a hit at the end adds its value at the end, when it is kept. */
  lemma {:induction false} KeptInOrderSnoc<H, R>(hits: seq<H>, h: H, convert: H -> Outcome<R>, keep: R -> bool)
    ensures KeptInOrder(hits + [h], convert, keep) ==
      KeptInOrder(hits, convert, keep) + (if convert(h).Ok? && keep(convert(h).value) then [convert(h).value] else [])
    decreases |hits|
  {
    if |hits| > 0 {
      assert (hits + [h])[1..] == hits[1..] + [h];
      KeptInOrderSnoc(hits[1..], h, convert, keep);
    }
  }

  /**
   * Converts hits in order, stopping at the first conversion that throws,
   * and keeps the converted values `keep` accepts.
   */
  function Collect<H, R>(hits: seq<H>, convert: H -> Outcome<R>, keep: R -> bool): (r: Outcome<seq<R>>)
    ensures r.Ok? <==> forall i :: 0 <= i < |hits| ==> convert(hits[i]).Ok?
    ensures r.Throws? ==> exists k :: (0 <= k < |hits| && convert(hits[k]) == Throws(r.error) &&
      forall i :: 0 <= i < k ==> convert(hits[i]).Ok?)
    ensures r.Ok? ==> forall j :: 0 <= j < |r.value| ==> keep(r.value[j])
    ensures r.Ok? ==> forall j :: 0 <= j < |r.value| ==>
      exists i :: 0 <= i < |hits| && convert(hits[i]) == Ok(r.value[j])
    ensures r.Ok? ==> forall i :: 0 <= i < |hits| && keep(convert(hits[i]).value) ==>
      convert(hits[i]).value in r.value
    ensures r.Ok? ==> |r.value| <= |hits|
    ensures r.Ok? ==> r.value == KeptInOrder(hits, convert, keep)
    decreases |hits|
  {
    if |hits| == 0 then Ok([])
    else
      var prefix := hits[..|hits| - 1];
      assert hits == prefix + [hits[|hits| - 1]];
      KeptInOrderSnoc(prefix, hits[|hits| - 1], convert, keep);
      match Collect(prefix, convert, keep)
      case Throws(e) => Throws(e)
      case Ok(kept) =>
        match convert(hits[|hits| - 1])
        case Throws(e) => Throws(e)
        case Ok(x) => Ok(if keep(x) then kept + [x] else kept)
  }

  /** The for-each loop over the hits. */
  method CollectLoop<H, R>(hits: seq<H>, convert: H -> Outcome<R>, keep: R -> bool) returns (r: Outcome<seq<R>>)
    ensures r == Collect(hits, convert, keep)
  {
    var results: seq<R> := [];
    var i := 0;
    while i < |hits|
      invariant 0 <= i <= |hits|
      invariant Collect(hits[..i], convert, keep) == Ok(results)
    {
      assert hits[..i + 1][..i] == hits[..i];
      var result := convert(hits[i]);
      if result.Throws? {
        CollectStopsAtFailure(hits, convert, keep, i + 1);
        return Throws(result.error);
      }
      if keep(result.value) {
        results := results + [result.value];
      }
      i := i + 1;
    }
    assert hits[..i] == hits;
    return Ok(results);
  }

  /** A failure in a prefix is the failure of the whole list. */
  lemma {:induction false} CollectStopsAtFailure<H, R>(hits: seq<H>, convert: H -> Outcome<R>, keep: R -> bool, n: nat)
    requires n <= |hits|
    requires Collect(hits[..n], convert, keep).Throws?
    ensures Collect(hits, convert, keep) == Collect(hits[..n], convert, keep)
    decreases |hits| - n
  {
    if n < |hits| {
      assert hits[..n + 1][..n] == hits[..n];
      CollectStopsAtFailure(hits, convert, keep, n + 1);
    } else {
      assert hits[..n] == hits;
    }
  }

  // ---------------------------------------------------------------------
  // The wasp result
  // ---------------------------------------------------------------------

  /** A result: score, snippet, the matched page and the request shown. */
  datatype WaspResult = WaspResult(score: real, snippet: string, response: ResponseRecord, matchedRequest: RequestRecord)

  /** `new Result(score, snippet, response, matchedRequest)`: all but the score are mandatory. */
  function NewWaspResult(score: real, snippet: Option<string>, response: Option<ResponseRecord>,
                         matchedRequest: Option<RequestRecord>): (r: Outcome<WaspResult>)
    ensures r.Ok? <==> snippet.Some? && response.Some? && matchedRequest.Some?
    ensures r.Ok? ==> r.value == WaspResult(score, snippet.value, response.value, matchedRequest.value)
    ensures r.Throws? ==> r.error == NullPointer
  {
    if snippet.None? || response.None? || matchedRequest.None? then Throws(NullPointer)
    else Ok(WaspResult(score, snippet.value, response.value, matchedRequest.value))
  }

  /**
   * `Result.fromHit(hit, from, to)`: the result for a hit shows the page's
   * latest request inside the window, and throws when there is none.
   */
  function FromHit(hit: Hit, from: Option<Instant>, to: Option<Instant>): (r: Outcome<WaspResult>)
    ensures r.Ok? <==> !NoneInWindow(hit.source.requests, from, to)
    ensures r.Throws? ==> r.error == IllegalArgument
    ensures r.Ok? ==> r.value.score == hit.score && r.value.response == hit.source
    ensures r.Ok? ==> r.value.snippet == Snippet(hit.highlight)
    ensures r.Ok? ==> exists k :: (IsLatestInWindow(hit.source.requests, from, to, k) &&
      r.value.matchedRequest == hit.source.requests[k])
  {
    var request :- Select(hit.source.requests, from, to);
    NewWaspResult(hit.score, Some(Snippet(hit.highlight)), Some(hit.source), Some(request))
  }

  predicate HasEmptySnippet(r: WaspResult)
  {
    r.snippet == ""
  }

  /**
   * A converted hit has an empty snippet, and is dropped by `search`,
   * exactly when the hit's content has no highlight list, an empty one, or
   * a single empty fragment.
   */
  lemma FromHitEmptySnippetIff(hit: Hit, from: Option<Instant>, to: Option<Instant>)
    requires FromHit(hit, from, to).Ok?
    ensures HasEmptySnippet(FromHit(hit, from, to).value) <==>
      (FIELD_CONTENT !in hit.highlight || |hit.highlight[FIELD_CONTENT]| == 0 ||
       (|hit.highlight[FIELD_CONTENT]| == 1 && hit.highlight[FIELD_CONTENT][0] == ""))
  {
    SnippetEmptyIff(hit.highlight);
  }

  /** The conversion `search` applies to every hit. */
  function FromHitIn(from: Option<Instant>, to: Option<Instant>): Hit -> Outcome<WaspResult>
  {
    h => FromHit(h, from, to)
  }

  /** The filter `search` applies to every converted hit. */
  predicate HasSnippet(r: WaspResult)
  {
    !HasEmptySnippet(r)
  }

  // ---------------------------------------------------------------------
  // Searching the resource index
  // ---------------------------------------------------------------------

  /** Results a search returns when the caller does not ask for a number. */
  const DEFAULT_MAX_RESULTS: Int32 := 100

  /** The search backend: the hits it returns for a search request. */
  type Backend = SearchRequest -> seq<Hit>

  /**
   * `search(query, maxResults, offset)`: results for the hits of the sized
   * and offset query, in order, without those whose snippet is empty; a hit
   * without a request in the window makes the whole search throw.
   */
  function Search(backend: Backend, q: Query, maxResults: Int32, offset: Int32): (r: Outcome<seq<WaspResult>>)
    ensures var hits := backend(BuildSized(q, maxResults).(offset := Some(offset)));
      (r.Ok? <==> forall i :: 0 <= i < |hits| ==> !NoneInWindow(hits[i].source.requests, q.from, q.to)) &&
      (r.Throws? ==> r.error == IllegalArgument) &&
      (r.Ok? ==> |r.value| <= |hits| && forall j :: 0 <= j < |r.value| ==> !HasEmptySnippet(r.value[j])) &&
      (r.Ok? ==> forall j :: 0 <= j < |r.value| ==> exists i :: 0 <= i < |hits| && FromHit(hits[i], q.from, q.to) == Ok(r.value[j])) &&
      (r.Ok? ==> forall i :: 0 <= i < |hits| && Snippet(hits[i].highlight) != "" ==> FromHit(hits[i], q.from, q.to).value in r.value) &&
      (r.Ok? ==> r.value == KeptInOrder(hits, FromHitIn(q.from, q.to), HasSnippet))
  {
    var hits := backend(BuildSized(q, maxResults).(offset := Some(offset)));
    Collect(hits, FromHitIn(q.from, q.to), HasSnippet)
  }

  /** `search(query)` and `search(query, maxResults)`: first page, 100 results by default. */
  function SearchDefault(backend: Backend, q: Query): (r: Outcome<seq<WaspResult>>)
    ensures var hits := backend(BuildSized(q, DEFAULT_MAX_RESULTS).(offset := Some(0)));
      (r.Ok? <==> forall i :: 0 <= i < |hits| ==> !NoneInWindow(hits[i].source.requests, q.from, q.to)) &&
      (r.Throws? ==> r.error == IllegalArgument) &&
      (r.Ok? ==> r.value == KeptInOrder(hits, FromHitIn(q.from, q.to), HasSnippet))
  {
    SearchMax(backend, q, DEFAULT_MAX_RESULTS)
  }

  /** `search(query, maxResults)`: the first `maxResults` hits, from offset 0. */
  function SearchMax(backend: Backend, q: Query, maxResults: Int32): (r: Outcome<seq<WaspResult>>)
    ensures var request := BuildSized(q, maxResults).(offset := Some(0));
      request.size == Some(maxResults) && request.offset == Some(0) &&
      var hits := backend(request);
      (r.Ok? <==> forall i :: 0 <= i < |hits| ==> !NoneInWindow(hits[i].source.requests, q.from, q.to)) &&
      (r.Throws? ==> r.error == IllegalArgument) &&
      (r.Ok? ==> r.value == KeptInOrder(hits, FromHitIn(q.from, q.to), HasSnippet))
  {
    Search(backend, q, maxResults, 0)
  }

  /**
   * A backend that only returns pages matching the query (a request in the
   * window) never makes the search throw.
   */
  lemma SoundBackendSearchSucceeds(backend: Backend, q: Query, maxResults: Int32, offset: Int32,
                                   matches: (string, string, Operator) -> bool)
    requires var hits := backend(BuildSized(q, maxResults).(offset := Some(offset)));
      forall i :: 0 <= i < |hits| ==> DocHolds(Build(q).query, hits[i].source, FIELD_REQUESTS, matches)
    ensures Search(backend, q, maxResults, offset).Ok?
  {
    var hits := backend(BuildSized(q, maxResults).(offset := Some(offset)));
    forall i | 0 <= i < |hits|
      ensures !NoneInWindow(hits[i].source.requests, q.from, q.to)
    {
      MainQueryMatchesIffRequestInWindow(q, hits[i].source, FIELD_REQUESTS, matches);
    }
  }

  // ---------------------------------------------------------------------
  // The result of the older layout, built by both results fetchers
  // ---------------------------------------------------------------------

  datatype LegacyResult = LegacyResult(
    score: real, uri: Uri, instant: Instant, title: string, content: Option<string>, snippet: string)

  /** `new Result(score, uri, instant, title, content, snippet)`: only the content may be null. */
  function NewLegacyResult(score: real, uri: Option<Uri>, instant: Option<Instant>, title: Option<string>,
                           content: Option<string>, snippet: Option<string>): (r: Outcome<LegacyResult>)
    ensures r.Ok? <==> uri.Some? && instant.Some? && title.Some? && snippet.Some?
    ensures r.Throws? ==> r.error == NullPointer
    ensures r.Ok? ==> r.value == LegacyResult(score, uri.value, instant.value, title.value, content, snippet.value)
  {
    if uri.None? || instant.None? || title.None? || snippet.None? then Throws(NullPointer)
    else Ok(LegacyResult(score, uri.value, instant.value, title.value, content, snippet.value))
  }

  predicate IsEmpty(r: LegacyResult)
  {
    r.snippet == ""
  }

  /** The filter both results fetchers apply to every converted hit. */
  predicate IsNotEmpty(r: LegacyResult)
  {
    !IsEmpty(r)
  }

  // ---------------------------------------------------------------------
  // The wasp results fetcher
  // ---------------------------------------------------------------------

  datatype Fetcher = Fetcher(query: Query, pageSize: Int32)

  /** `new ResultsFetcher(index, query, pageSize)`: index and query present, page size at least 1. */
  function NewFetcher(hasIndex: bool, query: Option<Query>, pageSize: Int32): (r: Outcome<Fetcher>)
    ensures r.Ok? <==> hasIndex && query.Some? && pageSize >= 1
    ensures !hasIndex || query.None? ==> r == Throws(NullPointer)
    ensures hasIndex && query.Some? && pageSize < 1 ==> r == Throws(IllegalArgument)
    ensures r.Ok? ==> r.value == Fetcher(query.value, pageSize)
  {
    if !hasIndex || query.None? then Throws(NullPointer)
    else if pageSize < 1 then Throws(IllegalArgument)
    else Ok(Fetcher(query.value, pageSize))
  }

  /** The search request for one page: `pageSize` hits after `(page - 1) * pageSize`. */
  function FetchRequest(f: Fetcher, page: Int32): (request: SearchRequest)
    ensures request.query == WaspQueryBuilder(f.query) && request.highlightContent
    ensures request.size == Some(f.pageSize)
    ensures request.offset.Some? && (request.offset.value - (page - 1) * f.pageSize) % TWO_TO_32 == 0
    ensures IsInt32((page - 1) * f.pageSize) ==> request.offset == Some((page - 1) * f.pageSize)
  {
    SearchRequest(WaspQueryBuilder(f.query), true, Some(f.pageSize), Some(Wrap32((page - 1) * f.pageSize) as Int32))
  }

  /**
   * `toResult(hit, from, to)`: URI and date of the latest request in the
   * window, title and content of the page, score and snippet of the hit; a
   * page without a title cannot be a result.
   */
  function ToResult(hit: Hit, from: Option<Instant>, to: Option<Instant>): (r: Outcome<LegacyResult>)
    ensures r.Ok? <==> !NoneInWindow(hit.source.requests, from, to) && hit.source.title.Some?
    ensures NoneInWindow(hit.source.requests, from, to) ==> r == Throws(IllegalArgument)
    ensures r.Ok? ==> exists k :: (IsLatestInWindow(hit.source.requests, from, to, k) &&
      r.value.uri == hit.source.requests[k].uri && r.value.instant == hit.source.requests[k].date)
    ensures r.Ok? ==> (r.value.title == hit.source.title.value && r.value.content == hit.source.content &&
      r.value.score == hit.score && r.value.snippet == Snippet(hit.highlight))
  {
    var request :- Select(hit.source.requests, from, to);
    NewLegacyResult(hit.score, Some(request.uri), Some(request.date), hit.source.title,
                    hit.source.content, Some(Snippet(hit.highlight)))
  }

  /** The conversion `fetch` applies to every hit. */
  function ToResultIn(from: Option<Instant>, to: Option<Instant>): Hit -> Outcome<LegacyResult>
  {
    h => ToResult(h, from, to)
  }

  /** `fetch(page)`: the non-empty results of one page of hits, in order. */
  function Fetch(backend: Backend, f: Fetcher, page: Int32): (r: Outcome<seq<LegacyResult>>)
    ensures var hits := backend(FetchRequest(f, page));
      (r.Ok? <==> forall i :: 0 <= i < |hits| ==> ToResult(hits[i], f.query.from, f.query.to).Ok?) &&
      (r.Throws? ==> r.error == IllegalArgument || r.error == NullPointer) &&
      (r.Ok? ==> |r.value| <= |hits| && forall j :: 0 <= j < |r.value| ==> !IsEmpty(r.value[j])) &&
      (r.Ok? ==> forall j :: 0 <= j < |r.value| ==>
        exists i :: 0 <= i < |hits| && ToResult(hits[i], f.query.from, f.query.to) == Ok(r.value[j])) &&
      (r.Ok? ==> forall i :: 0 <= i < |hits| && Snippet(hits[i].highlight) != "" ==>
        ToResult(hits[i], f.query.from, f.query.to).value in r.value) &&
      (r.Ok? ==> r.value == KeptInOrder(hits, ToResultIn(f.query.from, f.query.to), IsNotEmpty))
  {
    Collect(backend(FetchRequest(f, page)), ToResultIn(f.query.from, f.query.to), IsNotEmpty)
  }

  /** Without overflow, page `p` asks for the hits after the first `(p - 1) * pageSize`. */
  lemma FetchRequestOffset(f: Fetcher, page: Int32)
    requires f.pageSize >= 1 && page >= 1 && (page - 1) * f.pageSize <= INT_MAX
    ensures FetchRequest(f, page).offset == Some((page - 1) * f.pageSize)
    ensures FetchRequest(f, page).size == Some(f.pageSize)
    ensures FetchRequest(f, page).query == Build(f.query).query
  {
    assert 0 <= (page - 1) * f.pageSize;
  }
}

=== FILE: servlets.dfy ===
/**
 * The two search servlets: their init parameters, the query and results
 * they keep in the HTTP session, the page number and time bounds read from
 * a request, and the slicing of the newer servlet's result list into pages.
 */
module Servlets {
  import opened Common
  import opened Queries
  import opened Display
  import Results
  import UiPages
  import PageCache
  import LegacyFetch
  import Renderer

  // ---------------------------------------------------------------------
  // Init parameters
  // ---------------------------------------------------------------------

  /** The init parameters that are set, by name. */
  type Config = map<string, string>

  const INDEX_PORT_KEY: string := "index.port"
  const PAGE_SIZE_KEY: string := "page.size"
  const REPLAY_SERVER_KEY: string := "replay.server"
  const REPLAY_COLLECTION_KEY: string := "replay.collection"
  const REPLAY_PORT_KEY: string := "replay.port"

  /** The older servlet's key for the page size: the index port's key. */
  const LEGACY_PAGE_SIZE_KEY: string := "index.port"

  const DEFAULT_INDEX_PORT: Int32 := 9200
  const DEFAULT_PAGE_SIZE: Int32 := 10
  const DEFAULT_REPLAY_SERVER: string := "https://localhost:8002"
  const DEFAULT_REPLAY_COLLECTION: string := "archive"
  const DEFAULT_REPLAY_PORT: Int32 := 8002

  /**
   * A string parameter: its value if set, else the default; with neither,
   * the servlet throws `missing`.
   */
  function StringParameter(config: Config, key: string, default: Option<string>, missing: JavaException): (r: Outcome<string>)
    ensures r.Ok? <==> key in config || default.Some?
    ensures r.Ok? ==> r.value == if key in config then config[key] else default.value
    ensures r.Throws? ==> r.error == missing
  {
    if key in config then Ok(config[key])
    else if default.Some? then Ok(default.value)
    else Throws(missing)
  }

  /** The newer `getParameterValue(config, key, default)`: `NoSuchElementException` when nothing is set. */
  function GetParameterValue(config: Config, key: string, default: Option<string>): (r: Outcome<string>)
    ensures r.Ok? <==> key in config || default.Some?
    ensures r.Ok? ==> r.value == if key in config then config[key] else default.value
    ensures r.Throws? ==> r.error == NoSuchElement
  {
    StringParameter(config, key, default, NoSuchElement)
  }

  /** The older `getParameter(config, key, default)`: `NullPointerException` when nothing is set. */
  function GetParameter(config: Config, key: string, default: Option<string>): (r: Outcome<string>)
    ensures r.Ok? <==> key in config || default.Some?
    ensures r.Ok? ==> r.value == if key in config then config[key] else default.value
    ensures r.Throws? ==> r.error == NullPointer
  {
    StringParameter(config, key, default, NullPointer)
  }

  /** An `int` parameter: `Integer.parseInt` of its value if set, else the default. */
  function IntParameter(config: Config, key: string, default: Int32): (r: Outcome<Int32>)
    ensures key !in config ==> r == Ok(default)
    ensures key in config ==> (r.Ok? <==> ParseInt(config[key]).Some?)
    ensures key in config && r.Ok? ==> r.value == ParseInt(config[key]).value
    ensures r.Throws? ==> r.error == NumberFormat
  {
    if key !in config then Ok(default)
    else match ParseInt(config[key])
      case None => Throws(NumberFormat)
      case Some(n) => Ok(n)
  }

  /** A number configured in decimal is the number read. */
  lemma IntParameterReadsDecimal(config: Config, key: string, default: Int32, n: Int32)
    requires key in config && config[key] == Decimal(n)
    ensures IntParameter(config, key, default) == Ok(n)
  {
    ParseIntRoundTrip(n);
  }

  /** Whether an `int` parameter is absent or parses. */
  predicate Parses(config: Config, key: string)
  {
    key in config ==> ParseInt(config[key]).Some?
  }

  /** The value an `int` parameter takes. */
  function IntValue(config: Config, key: string, default: Int32): Int32
  {
    if key in config && ParseInt(config[key]).Some? then ParseInt(config[key]).value else default
  }

  /** What the newer servlet reads in `init`. */
  datatype Settings = Settings(indexPort: Int32, pageSize: Int32, replayServer: string, replayCollection: string)

  /** The newer `init`: each setting from its own key, with its default. */
  function Init(config: Config): (r: Outcome<Settings>)
    ensures r.Ok? <==> Parses(config, INDEX_PORT_KEY) && Parses(config, PAGE_SIZE_KEY)
    ensures r.Throws? ==> r.error == NumberFormat
    ensures r.Ok? ==>
      r.value.indexPort == IntValue(config, INDEX_PORT_KEY, DEFAULT_INDEX_PORT) &&
      r.value.pageSize == IntValue(config, PAGE_SIZE_KEY, DEFAULT_PAGE_SIZE) &&
      r.value.replayServer == (if REPLAY_SERVER_KEY in config then config[REPLAY_SERVER_KEY] else DEFAULT_REPLAY_SERVER) &&
      r.value.replayCollection == (if REPLAY_COLLECTION_KEY in config then config[REPLAY_COLLECTION_KEY] else DEFAULT_REPLAY_COLLECTION)
  {
    var indexPort :- IntParameter(config, INDEX_PORT_KEY, DEFAULT_INDEX_PORT);
    var pageSize :- IntParameter(config, PAGE_SIZE_KEY, DEFAULT_PAGE_SIZE);
    var server := GetParameterValue(config, REPLAY_SERVER_KEY, Some(DEFAULT_REPLAY_SERVER)).value;
    var collection := GetParameterValue(config, REPLAY_COLLECTION_KEY, Some(DEFAULT_REPLAY_COLLECTION)).value;
    Ok(Settings(indexPort, pageSize, server, collection))
  }

  /** Without init parameters, the newer servlet uses the defaults. */
  lemma InitDefaults()
    ensures Init(map[]) == Ok(Settings(DEFAULT_INDEX_PORT, DEFAULT_PAGE_SIZE, DEFAULT_REPLAY_SERVER, DEFAULT_REPLAY_COLLECTION))
  {
  }

  /** In the newer servlet, configuring the index port leaves the page size alone. */
  lemma InitPageSizeIgnoresIndexPort(config: Config, port: Int32)
    requires Init(config).Ok?
    ensures Init(config[INDEX_PORT_KEY := Decimal(port)]).Ok?
    ensures Init(config[INDEX_PORT_KEY := Decimal(port)]).value.pageSize == Init(config).value.pageSize
    ensures Init(config[INDEX_PORT_KEY := Decimal(port)]).value.indexPort == port
  {
    ParseIntRoundTrip(port);
    assert INDEX_PORT_KEY != PAGE_SIZE_KEY by { assert INDEX_PORT_KEY[0] != PAGE_SIZE_KEY[0]; }
  }

  /** What the older servlet reads in `init`: the index port, the page size, and its renderer. */
  datatype LegacySettings = LegacySettings(indexPort: Int32, pageSize: Int32, renderer: Renderer.Conf)

  /** The older `init`, reading the page size from `pageSizeKey`. */
  function LegacyInitWith(config: Config, pageSizeKey: string): (r: Outcome<LegacySettings>)
    ensures r.Ok? <==> Parses(config, INDEX_PORT_KEY) && Parses(config, pageSizeKey) && Parses(config, REPLAY_PORT_KEY)
    ensures r.Throws? ==> r.error == NumberFormat
    ensures r.Ok? ==>
      r.value.indexPort == IntValue(config, INDEX_PORT_KEY, DEFAULT_INDEX_PORT) &&
      r.value.pageSize == IntValue(config, pageSizeKey, DEFAULT_PAGE_SIZE) &&
      r.value.renderer.replayPort == IntValue(config, REPLAY_PORT_KEY, DEFAULT_REPLAY_PORT) &&
      r.value.renderer.replayCollection ==
        (if REPLAY_COLLECTION_KEY in config then config[REPLAY_COLLECTION_KEY] else DEFAULT_REPLAY_COLLECTION)
  {
    var indexPort :- IntParameter(config, INDEX_PORT_KEY, DEFAULT_INDEX_PORT);
    var pageSize :- IntParameter(config, pageSizeKey, DEFAULT_PAGE_SIZE);
    var replayPort :- IntParameter(config, REPLAY_PORT_KEY, DEFAULT_REPLAY_PORT);
    var collection := GetParameter(config, REPLAY_COLLECTION_KEY, Some(DEFAULT_REPLAY_COLLECTION)).value;
    var renderer := Renderer.NewRenderer(replayPort, Some(collection)).value;
    Ok(LegacySettings(indexPort, pageSize, renderer))
  }

  /** The older `init` as written: the page size comes from "index.port". */
  function LegacyInitAsWritten(config: Config): (r: Outcome<LegacySettings>)
    ensures r.Ok? ==> r.value.pageSize == r.value.indexPort || INDEX_PORT_KEY !in config
  {
    LegacyInitWith(config, LEGACY_PAGE_SIZE_KEY)
  }

  /** The older `init` with the page size read from "page.size", as its name says. */
  function LegacyInit(config: Config): (r: Outcome<LegacySettings>)
    ensures r.Ok? ==> r.value.pageSize == IntValue(config, PAGE_SIZE_KEY, DEFAULT_PAGE_SIZE)
  {
    LegacyInitWith(config, PAGE_SIZE_KEY)
  }

  /**
   * As written, configuring the index port configures the page size too:
   * with the usual port 9200 set explicitly, every page holds up to 9200
   * results, and without it the default page size 10 applies.
   */
  lemma LegacyPageSizeIsIndexPort(config: Config, port: Int32)
    requires LegacyInitAsWritten(config).Ok?
    ensures LegacyInitAsWritten(config[INDEX_PORT_KEY := Decimal(port)]).Ok?
    ensures LegacyInitAsWritten(config[INDEX_PORT_KEY := Decimal(port)]).value.pageSize == port
    ensures LegacyInitAsWritten(map[INDEX_PORT_KEY := "9200"]).Ok?
    ensures LegacyInitAsWritten(map[INDEX_PORT_KEY := "9200"]).value.pageSize == 9200
    ensures LegacyInitAsWritten(map[]).Ok? && LegacyInitAsWritten(map[]).value.pageSize == DEFAULT_PAGE_SIZE
  {
    ParseIntRoundTrip(port);
    ParseIntRoundTrip(9200);
    assert Decimal(9200) == "9200" by {
      assert NatDigits(9200) == NatDigits(920) + ['0'];
      assert NatDigits(920) == NatDigits(92) + ['0'];
      assert NatDigits(92) == NatDigits(9) + ['2'];
    }
  }

  /** The corrected older `init` reads the settings the newer one reads, from the same keys. */
  lemma LegacyInitAgreesWithNewer(config: Config)
    requires LegacyInit(config).Ok? && Init(config).Ok?
    ensures LegacyInit(config).value.pageSize == Init(config).value.pageSize
    ensures LegacyInit(config).value.indexPort == Init(config).value.indexPort
    ensures LegacyInit(config).value.renderer.replayCollection == Init(config).value.replayCollection
  {
  }

  // ---------------------------------------------------------------------
  // The session
  // ---------------------------------------------------------------------

  /** The session's "query" and "results" attributes. */
  datatype Session<R> = Session(query: Option<Query>, results: Option<R>)

  /** The stored query as `equals` sees it. */
  function AsObj(q: Option<Query>): Option<Obj>
  {
    if q.None? then None else Some(QueryObj(q.value))
  }

  /**
   * The session update of `getQuery`: a query that does not equal the
   * stored one replaces it and drops the stored results.
   */
  function RememberQuery<R>(s: Session<R>, q: Query): (r: Session<R>)
    ensures r.query == Some(q)
    ensures r.results == if s.query == Some(q) then s.results else None
  {
    if s.query.None? then
      assert !Equals(q, AsObj(s.query));
      Session(Some(q), None)
    else
      EqualsIsValueEquality(q, s.query.value);
      if !Equals(q, AsObj(s.query)) then Session(Some(q), None) else s
  }

  /**
   * `getResults`: the stored results if there are any; otherwise the
   * search's results, which are then stored. A failed search stores
   * nothing.
   */
  function GetResults<R>(s: Session<R>, q: Query, search: Query -> Outcome<R>): (r: (Session<R>, Outcome<R>))
    ensures r.0.query == s.query
    ensures s.results.Some? ==> r == (s, Ok(s.results.value))
    ensures s.results.None? ==> r.1 == search(q) && r.0.results == (if r.1.Ok? then Some(r.1.value) else None)
  {
    if s.results.Some? then (s, Ok(s.results.value))
    else match search(q)
      case Ok(rs) => (s.(results := Some(rs)), Ok(rs))
      case Throws(e) => (s, Throws(e))
  }

  /** Stored results, if any, are the results of searching the stored query. */
  ghost predicate Coherent<R>(s: Session<R>, search: Query -> Outcome<R>)
  {
    s.results.Some? ==> s.query.Some? && search(s.query.value) == Ok(s.results.value)
  }

  /**
   * A request's results are always those of its own query: remembering the
   * query and then getting the results returns exactly what searching the
   * query returns, and the session stays coherent.
   */
  lemma ResultsAnswerTheQuery<R>(s: Session<R>, q: Query, search: Query -> Outcome<R>)
    requires Coherent(s, search)
    ensures GetResults(RememberQuery(s, q), q, search).1 == search(q)
    ensures Coherent(GetResults(RememberQuery(s, q), q, search).0, search)
  {
  }

  /** Asking again for the stored query does not search at all: any search gives the same answer. */
  lemma RepeatedQueryDoesNotSearch<R>(s: Session<R>, q: Query, search: Query -> Outcome<R>, other: Query -> Outcome<R>)
    requires s.query == Some(q) && s.results.Some?
    ensures GetResults(RememberQuery(s, q), q, search) == GetResults(RememberQuery(s, q), q, other)
    ensures GetResults(RememberQuery(s, q), q, search) == (s, Ok(s.results.value))
  {
  }

  // ---------------------------------------------------------------------
  // Request parameters
  // ---------------------------------------------------------------------

  /** The request parameters "terms", "from", "to" and "page". */
  datatype Request = Request(terms: Option<string>, from: Option<string>, to: Option<string>, page: Option<string>)

  /** Parses a date in the client's time zone; `None` stands for a parse exception. */
  type InstantParser = string -> Option<Instant>

  /** `getPageNumber`: page 1 unless the parameter is given, then `Integer.parseInt` of it. */
  function GetPageNumber(page: Option<string>): (r: Outcome<Int32>)
    ensures page.None? ==> r == Ok(1)
    ensures page.Some? ==> (r.Ok? <==> ParseInt(page.value).Some?)
    ensures page.Some? && r.Ok? ==> r.value == ParseInt(page.value).value
    ensures r.Throws? ==> r.error == NumberFormat
  {
    if page.None? then Ok(1)
    else match ParseInt(page.value)
      case None => Throws(NumberFormat)
      case Some(n) => Ok(n)
  }

  /** A pagination link's number, read back from its "page" parameter, is the page it names. */
  lemma PageNumberOfLink(n: Int32)
    ensures GetPageNumber(Some(Decimal(n))) == Ok(n)
  {
    ParseIntRoundTrip(n);
  }

  /** The newer `parseInstant`: no bound for a missing or empty value, else the parsed date. */
  function ParseInstant(value: Option<string>, parse: InstantParser): (r: Outcome<Option<Instant>>)
    ensures value.None? || value == Some("") ==> r == Ok(None)
    ensures value.Some? && value.value != "" ==>
      (r.Ok? <==> parse(value.value).Some?) && (r.Ok? ==> r.value == parse(value.value))
    ensures r.Throws? ==> r.error == DateTimeParse
  {
    if value.None? || value.value == "" then Ok(None)
    else match parse(value.value)
      case None => Throws(DateTimeParse)
      case Some(t) => Ok(Some(t))
  }

  /**
   * The newer `getQuery`: no query without terms; else the query of the
   * terms and the parsed bounds, remembered in the session. A bound that
   * does not parse fails before the session is touched.
   */
  function GetQuery<R>(s: Session<R>, req: Request, parse: InstantParser): (r: Outcome<(Session<R>, Option<Query>)>)
    ensures req.terms.None? ==> r == Ok((s, None))
    ensures r.Throws? ==> r.error == DateTimeParse
    ensures req.terms.Some? && r.Ok? ==>
      r.value.1.Some? && r.value.1.value.terms == req.terms.value &&
      (r.value.1.value.from.Some? <==> req.from.Some? && req.from.value != "") &&
      (r.value.1.value.to.Some? <==> req.to.Some? && req.to.value != "") &&
      r.value.0 == RememberQuery(s, r.value.1.value)
    ensures req.terms.Some? ==>
      (r.Ok? <==> ParseInstant(req.from, parse).Ok? && ParseInstant(req.to, parse).Ok?)
  {
    if req.terms.None? then Ok((s, None))
    else
      var from :- ParseInstant(req.from, parse);
      var to :- ParseInstant(req.to, parse);
      var q := Query(req.terms.value, from, to);
      Ok((RememberQuery(s, q), Some(q)))
  }

  /**
   * The older `getQuery`: the bounds are set only when their parameters
   * are present, each parsed as an ISO instant by Joda-Time's
   * `Instant.parse` (the instant type the file imports); text that does not
   * parse throws an `IllegalArgumentException`.
   */
  function LegacyGetQuery<R>(s: Session<R>, req: Request, parseIso: InstantParser): (r: Outcome<(Session<R>, Option<Query>)>)
    ensures req.terms.None? ==> r == Ok((s, None))
    ensures r.Throws? ==> r.error == IllegalArgument
    ensures req.terms.Some? && r.Ok? ==>
      r.value.1.Some? && r.value.1.value.terms == req.terms.value &&
      (r.value.1.value.from.Some? <==> req.from.Some?) && (r.value.1.value.to.Some? <==> req.to.Some?) &&
      r.value.0 == RememberQuery(s, r.value.1.value)
    ensures req.terms.Some? && req.from.Some? && parseIso(req.from.value).None? ==> r == Throws(IllegalArgument)
    ensures req.terms.Some? && req.to.Some? && parseIso(req.to.value).None? ==> r == Throws(IllegalArgument)
    ensures req.terms.Some? ==>
      (r.Ok? <==> (req.from.None? || parseIso(req.from.value).Some?) && (req.to.None? || parseIso(req.to.value).Some?))
  {
    if req.terms.None? then Ok((s, None))
    else
      var q0 := Of(req.terms).value;
      var q1 :- if req.from.None? then Ok(q0)
                else if parseIso(req.from.value).None? then Throws(IllegalArgument)
                else Ok(SetFrom(q0, parseIso(req.from.value)));
      var q2 :- if req.to.None? then Ok(q1)
                else if parseIso(req.to.value).None? then Throws(IllegalArgument)
                else Ok(SetTo(q1, parseIso(req.to.value)));
      Ok((RememberQuery(s, q2), Some(q2)))
  }

  /**
   * An empty "from" field, as an untouched date picker submits it, means
   * "since the beginning" to the newer servlet, but is an error to the
   * older one when the empty text does not parse.
   */
  lemma EmptyFromDiffers<R>(s: Session<R>, terms: string, to: Option<string>, page: Option<string>,
                            parse: InstantParser, parseIso: InstantParser)
    requires parseIso("") == None
    requires ParseInstant(to, parse).Ok?
    ensures var req := Request(Some(terms), Some(""), to, page);
      GetQuery(s, req, parse).Ok? && GetQuery(s, req, parse).value.1.value.from.None? &&
      LegacyGetQuery(s, req, parseIso) == Throws(IllegalArgument)
  {
  }

  // ---------------------------------------------------------------------
  // Pages of the newer servlet
  // ---------------------------------------------------------------------

  /** `(numResults - 1) / pageSize + 1` in 32-bit `int` arithmetic. */
  function NumPages(numResults: nat, pageSize: Int32): (r: Outcome<Int32>)
    ensures r.Throws? <==> pageSize == 0
    ensures r.Throws? ==> r.error == Arithmetic
  {
    var q :- IntDiv(numResults - 1, pageSize);
    Ok(Wrap32(q + 1))
  }

  lemma DivBelow(x: nat, b: int)
    requires b >= 1
    ensures 0 <= x / b <= x && TruncDiv(x, b) == x / b
  {
    assert x / b * b <= x;
  }

  lemma DivStep(x: nat, b: int)
    requires b >= 1
    ensures (x + b) / b == x / b + 1
  {
    var q, r := x / b, x % b;
    assert x + b == (q + 1) * b + r;
    DivUnique(x + b, b, q + 1, r);
  }

  lemma DivUnique(x: int, b: int, q: int, r: int)
    requires b >= 1 && 0 <= r < b && x == q * b + r
    ensures x / b == q
  {
    var q', r' := x / b, x % b;
    assert (q - q') * b == r' - r;
    if q > q' {
      MulAtLeast(q - q', b);
    } else if q < q' {
      MulAtLeast(q' - q, b);
    }
  }

  lemma MulAtLeast(k: int, b: int)
    requires k >= 1 && b >= 1
    ensures k * b >= b
  {
    assert k * b == b + (k - 1) * b;
  }

  /**
   * For a positive page size, the number of pages is the number of results
   * divided by the page size, rounded up; but no results still make one
   * page, unless the page size is 1.
   */
  lemma NumPagesRoundsUp(numResults: nat, pageSize: Int32)
    requires pageSize >= 1 && numResults <= INT_MAX
    ensures numResults >= 1 ==> NumPages(numResults, pageSize) == Ok((numResults + pageSize - 1) / pageSize)
    ensures numResults == 0 ==> NumPages(numResults, pageSize) == Ok(if pageSize >= 2 then 1 else 0)
  {
    if numResults >= 1 {
      var a: nat := numResults - 1;
      DivBelow(a, pageSize);
      DivStep(a, pageSize);
      assert IntDiv(a, pageSize) == Ok(a / pageSize);
      assert Wrap32(a / pageSize + 1) == (a + pageSize) / pageSize;
    } else if pageSize == 1 {
      assert IntDiv(-1, pageSize) == Ok(-1);
    } else {
      assert 1 / pageSize == 0;
      assert IntDiv(-1, pageSize) == Ok(0);
    }
  }

  /** `Math.min(bound, n)`. */
  function Clamp(bound: int, n: nat): int
  {
    if bound < n then bound else n
  }

  /**
   * `bound` is what Java computes for `Math.min(product, n)` when `product`
   * is evaluated in `int`: at most `n`, and otherwise the product modulo
   * 2^32, which is the product itself when it does not overflow.
   */
  predicate ClampedProduct(bound: int, product: int, n: nat)
  {
    bound <= n &&
    (bound == n || (IsInt32(bound) && (bound - product) % TWO_TO_32 == 0)) &&
    (IsInt32(product) ==> bound == Min(product, n))
  }

  lemma ClampWrapped(x: int, n: nat)
    ensures ClampedProduct(Clamp(Wrap32(x), n), x, n)
  {
  }

  /** The first and the past-the-end index of a page, `Math.min` of the 32-bit products and the count. */
  function SliceBounds(numResults: nat, pageSize: Int32, pageNumber: Int32): (bounds: (int, int))
    ensures ClampedProduct(bounds.0, (pageNumber - 1) * pageSize, numResults)
    ensures ClampedProduct(bounds.1, pageNumber * pageSize, numResults)
  {
    WrapMulLeft(pageNumber - 1, pageSize);
    ClampWrapped((pageNumber - 1) * pageSize, numResults);
    ClampWrapped(pageNumber * pageSize, numResults);
    (Clamp(Wrap32(Wrap32(pageNumber - 1) * pageSize), numResults), Clamp(Wrap32(pageNumber * pageSize), numResults))
  }

  /**
   * `results.subList(fromResult, toResult)` on an `ArrayList`: a negative
   * start is an `IndexOutOfBoundsException`, a start after the end an
   * `IllegalArgumentException`.
   */
  function PageSlice<T>(results: seq<T>, pageSize: Int32, pageNumber: Int32): (r: Outcome<seq<T>>)
    ensures var (from, to) := SliceBounds(|results|, pageSize, pageNumber);
      (r.Ok? <==> 0 <= from <= to) &&
      (from < 0 ==> r == Throws(IndexOutOfBounds)) &&
      (0 <= from && to < from ==> r == Throws(IllegalArgument)) &&
      (r.Ok? ==> to <= |results| && r.value == results[from..to])
  {
    var (from, to) := SliceBounds(|results|, pageSize, pageNumber);
    if from < 0 then Throws(IndexOutOfBounds)
    else if from > to then Throws(IllegalArgument)
    else Ok(results[from..to])
  }

  /**
   * Without overflow, page p of a positive page size holds the results
   * from (p - 1) * pageSize up to p * pageSize, cut at the end of the list:
   * at most one page of results.
   */
  lemma PageSliceBounds<T>(results: seq<T>, pageSize: Int32, pageNumber: Int32)
    requires pageSize >= 1 && pageNumber >= 1 && pageNumber * pageSize <= INT_MAX
    ensures var (from, to) := SliceBounds(|results|, pageSize, pageNumber);
      from == Min((pageNumber - 1) * pageSize, |results|) && to == Min(pageNumber * pageSize, |results|) &&
      0 <= from <= to <= |results| && to - from <= pageSize
    ensures PageSlice(results, pageSize, pageNumber).Ok?
  {
    assert 0 <= (pageNumber - 1) * pageSize <= pageNumber * pageSize;
  }

  function Min(a: int, b: int): int { if a < b then a else b }

  /** A page number below 1 makes the slice start before the list. */
  lemma NonPositivePageThrows<T>(results: seq<T>, pageSize: Int32, pageNumber: Int32)
    requires pageSize >= 1 && pageNumber <= 0 && (pageNumber - 1) * pageSize >= INT_MIN
    ensures PageSlice(results, pageSize, pageNumber) == Throws(IndexOutOfBounds)
  {
    MulNegative(pageNumber - 1, pageSize);
  }

  lemma MulNegative(a: int, b: int)
    requires a < 0 && b >= 1
    ensures a * b <= a
  {
    assert a * b == a + a * (b - 1);
    assert a * (b - 1) <= 0;
  }

  /** The slices of pages 1..k, one after the other. */
  function Paged<T>(results: seq<T>, pageSize: Int32, k: nat): seq<T>
    requires pageSize >= 1 && k * pageSize <= INT_MAX
  {
    if k == 0 then []
    else
      assert (k - 1) * pageSize <= k * pageSize;
      var page := PageSlice(results, pageSize, k as Int32);
      Paged(results, pageSize, k - 1) + (if page.Ok? then page.value else [])
  }

  lemma {:induction false} PagedIsPrefix<T>(results: seq<T>, pageSize: Int32, k: nat)
    requires pageSize >= 1 && k * pageSize <= INT_MAX
    ensures Paged(results, pageSize, k) == results[..Min(k * pageSize, |results|)]
  {
    if k > 0 {
      PageStep(pageSize, k);
      var lo := Min((k - 1) * pageSize, |results|);
      var hi := Min(k * pageSize, |results|);
      PagedIsPrefix(results, pageSize, k - 1);
      PagedStep(results, pageSize, k);
      assert results[..lo] + results[lo..hi] == results[..hi];
    }
  }

  lemma PagedStep<T>(results: seq<T>, pageSize: Int32, k: nat)
    requires pageSize >= 1 && k >= 1 && k * pageSize <= INT_MAX
    ensures 0 <= (k - 1) * pageSize <= k * pageSize
    ensures Paged(results, pageSize, k) ==
      Paged(results, pageSize, k - 1) + results[Min((k - 1) * pageSize, |results|)..Min(k * pageSize, |results|)]
  {
    PageStep(pageSize, k);
    PageSliceBounds(results, pageSize, k as Int32);
  }

  lemma PageStep(pageSize: Int32, k: nat)
    requires pageSize >= 1 && k >= 1
    ensures 0 <= (k - 1) * pageSize == k * pageSize - pageSize
  {
  }

  /** The pages 1..numPages, one after the other, are the whole result list in order. */
  lemma PagesTileResults<T>(results: seq<T>, pageSize: Int32)
    requires pageSize >= 1 && |results| + pageSize <= INT_MAX
    ensures NumPages(|results|, pageSize).Ok?
    ensures var n := NumPages(|results|, pageSize).value;
      n >= 0 && n * pageSize <= INT_MAX && Paged(results, pageSize, n) == results
  {
    NumPagesRoundsUp(|results|, pageSize);
    var n := NumPages(|results|, pageSize).value;
    if |results| == 0 {
      assert n * pageSize <= pageSize;
      PagedIsPrefix(results, pageSize, n);
    } else {
      CeilingBounds(|results|, pageSize);
      PagedIsPrefix(results, pageSize, n);
    }
  }

  /** Rounding up to whole pages covers the results with less than a page to spare. */
  lemma CeilingBounds(x: nat, b: int)
    requires x >= 1 && b >= 1
    ensures var n := (x + b - 1) / b; x <= n * b <= x + b - 1
  {
    var m := x + b - 1;
    var n := m / b;
    assert m == n * b + m % b;
  }

  /** The shown results are the given results, in order, each linked to the replay server. */
  predicate ShowsResults(shown: seq<UiPages.UiResult>, settings: Settings, slice: seq<Results.WaspResult>, fmt: UiPages.Formats)
  {
    |shown| == |slice| &&
    forall i :: 0 <= i < |slice| ==>
      shown[i] == UiPages.NewUiResult(settings.replayServer, settings.replayCollection, slice[i], fmt)
  }

  /** A page shows exactly the given results, in order, and the pagination for its position. */
  predicate ShowsSlice(page: UiPages.UiPage, settings: Settings, q: Query, slice: seq<Results.WaspResult>,
                       pageNumber: Int32, numPages: Int32, fmt: UiPages.Formats)
  {
    ShowsResults(page.results, settings, slice, fmt) &&
    page.pagination == UiPages.Pagination(UiPages.HrefBase(q, fmt), pageNumber, numPages)
  }

  /**
   * The newer `getPage`: the query-less page without terms; else the
   * query's results (from the session or a search for the first 100),
   * the requested page of them, and the pagination over all pages. The
   * session keeps what `getQuery` and `getResults` stored even when a
   * later step fails.
   */
  function GetPage(settings: Settings, s: Session<seq<Results.WaspResult>>, req: Request, parse: InstantParser,
                   backend: Results.Backend, locale: string, fmt: UiPages.Formats)
    : (r: (Session<seq<Results.WaspResult>>, Outcome<UiPages.UiPage>))
    ensures req.terms.None? ==> r.0 == s && r.1.Ok? && r.1.value.query.None? && r.1.value.results == []
    ensures r.1.Ok? && req.terms.Some? ==>
      r.1.value.query.Some? && r.1.value.query.value.terms == req.terms.value &&
      r.0.query.Some? && r.0.query.value.terms == req.terms.value &&
      r.0.results.Some? && GetPageNumber(req.page).Ok? &&
      r.1.value.query.value.pageNumber == GetPageNumber(req.page).value &&
      PageSlice(r.0.results.value, settings.pageSize, GetPageNumber(req.page).value).Ok? &&
      NumPages(|r.0.results.value|, settings.pageSize).Ok? &&
      ShowsSlice(r.1.value, settings, r.0.query.value, PageSlice(r.0.results.value, settings.pageSize, GetPageNumber(req.page).value).value,
                 GetPageNumber(req.page).value, NumPages(|r.0.results.value|, settings.pageSize).value, fmt)
  {
    match GetQuery(s, req, parse)
    case Throws(e) => (s, Throws(e))
    case Ok((s1, query)) =>
      if query.None? then (s1, UiPages.EmptyPage(Some(settings.replayServer), Some(settings.replayCollection), locale))
      else
        var q := query.value;
        var (s2, found) := GetResults(s1, q, q => Results.SearchDefault(backend, q));
        var page := (
          var results :- found;
          var numPages :- NumPages(|results|, settings.pageSize);
          var pageNumber :- GetPageNumber(req.page);
          var slice :- PageSlice(results, settings.pageSize, pageNumber);
          UiPages.QueryPage(Some(settings.replayServer), Some(settings.replayCollection), q, slice,
                            pageNumber, numPages, locale, fmt));
        (s2, page)
  }

  // ---------------------------------------------------------------------
  // Pages of the older servlet
  // ---------------------------------------------------------------------

  /** What the older servlet keeps as results: the fetcher and the pages fetched so far. */
  datatype Paging = Paging(fetcher: Results.Fetcher, pages: PageCache.Cache<seq<Results.LegacyResult>>)

  /** The page the older `doGet` renders: its query, its results and its number. */
  datatype LegacyPage = LegacyPage(query: Query, results: seq<Results.LegacyResult>, pageNumber: Int32)

  /**
   * The older `doGet` up to rendering: no page without terms; else the
   * query's result pages from the session (or new ones for the query and
   * page size), and the requested page from them, fetched if not cached
   * through the older fetcher's `fetch` as written.
   */
  function LegacyGet(settings: LegacySettings, s: Session<Paging>, req: Request, parseIso: InstantParser,
                     backend: LegacyFetch.LegacyBackend, parseStored: LegacyFetch.InstantParser,
                     render: LegacyFetch.Json -> string)
    : (r: (Session<Paging>, Outcome<Option<LegacyPage>>))
    ensures req.terms.None? ==> r == (s, Ok(None))
    ensures r.1.Ok? && req.terms.Some? ==>
      r.1.value.Some? && r.1.value.value.query.terms == req.terms.value &&
      GetPageNumber(req.page) == Ok(r.1.value.value.pageNumber) &&
      r.0.query == Some(r.1.value.value.query) && r.0.results.Some? &&
      var slot := Wrap32(r.1.value.value.pageNumber - 1);
      0 <= slot < |r.0.results.value.pages| && r.0.results.value.pages[slot] == Some(r.1.value.value.results)
  {
    match LegacyGetQuery(s, req, parseIso)
    case Throws(e) => (s, Throws(e))
    case Ok((s1, query)) =>
      if query.None? then (s1, Ok(None))
      else
        var q := query.value;
        var (s2, found) := GetResults(s1, q,
          q => var f :- Results.NewFetcher(true, Some(q), settings.pageSize); Ok(Paging(f, [])));
        if found.Throws? then (s2, Throws(found.error))
        else
          var paging := found.value;
          match GetPageNumber(req.page)
          case Throws(e) => (s2, Throws(e))
          case Ok(pageNumber) =>
            var lookup := PageCache.CachingFetch(paging.pages, backend, paging.fetcher, parseStored, render, pageNumber);
            var s3 := s2.(results := Some(paging.(pages := lookup.cache)));
            match lookup.page
            case Throws(e) => (s3, Throws(e))
            case Ok(results) => (s3, Ok(Some(LegacyPage(q, results, pageNumber))))
  }

  /**
   * As written, a first search of a session shows no page: when the search
   * finds indexed documents for every request, the older servlet throws
   * for every query and every page number from 1 on.
   */
  lemma LegacyGetThrowsOnIndexedHits(settings: LegacySettings, s: Session<Paging>, req: Request, parseIso: InstantParser,
                                     backend: LegacyFetch.LegacyBackend, parseStored: LegacyFetch.InstantParser,
                                     render: LegacyFetch.Json -> string, format: Instant -> string)
    requires s.results.None? && req.terms.Some?
    requires forall rq :: |backend(rq)| > 0 && LegacyFetch.IndexedHits(backend(rq), format)
    requires GetPageNumber(req.page).Ok? && GetPageNumber(req.page).value >= 1
    ensures LegacyGet(settings, s, req, parseIso, backend, parseStored, render).1.Throws?
  {
    match LegacyGetQuery(s, req, parseIso)
    case Throws(_) =>
    case Ok((s1, query)) =>
      if query.Some? {
        var f := Results.NewFetcher(true, query, settings.pageSize);
        if f.Ok? {
          var page := GetPageNumber(req.page).value;
          PageCache.CachingFetchMissThrows([], backend, f.value, parseStored, render, format, page);
        }
      }
  }

  /**
   * For an ordinary page number p, the results shown for p's slice (as
   * `GetPage`'s pages show them) are those from position (p - 1) * pageSize
   * on, at most a page of them.
   */
  lemma ShownResultsStartAtPage(shown: seq<UiPages.UiResult>, settings: Settings, all: seq<Results.WaspResult>,
                                pageNumber: Int32, fmt: UiPages.Formats)
    requires settings.pageSize >= 1 && pageNumber >= 1 && pageNumber * settings.pageSize <= INT_MAX
    requires PageSlice(all, settings.pageSize, pageNumber).Ok?
    requires ShowsResults(shown, settings, PageSlice(all, settings.pageSize, pageNumber).value, fmt)
    ensures var first := (pageNumber - 1) * settings.pageSize;
      |shown| <= settings.pageSize &&
      forall i :: 0 <= i < |shown| ==>
        first + i < |all| &&
        shown[i] == UiPages.NewUiResult(settings.replayServer, settings.replayCollection, all[first + i], fmt)
  {
    SliceStartsAtPage(all, settings.pageSize, pageNumber);
  }

  /** `slice` is the run of `all` that starts at position `first`. */
  ghost predicate RunFrom<T>(slice: seq<T>, all: seq<T>, first: int)
  {
    forall i :: 0 <= i < |slice| ==> 0 <= first + i < |all| && slice[i] == all[first + i]
  }

  /** Page p's slice holds at most a page of results, starting with result (p - 1) * size. */
  lemma SliceStartsAtPage<T>(all: seq<T>, pageSize: Int32, pageNumber: Int32)
    requires pageSize >= 1 && pageNumber >= 1 && pageNumber * pageSize <= INT_MAX
    ensures PageSlice(all, pageSize, pageNumber).Ok?
    ensures |PageSlice(all, pageSize, pageNumber).value| <= pageSize
    ensures RunFrom(PageSlice(all, pageSize, pageNumber).value, all, (pageNumber - 1) * pageSize)
  {
    PageSliceBounds(all, pageSize, pageNumber);
  }

}

=== FILE: store.dfy ===
/**
 * The index's documents as a map from record id to document. A document is a
 * page (title, text and the requests that fetched it) or a revisit pointing
 * at another id. Looking an id up follows revisit pointers until a page or a
 * missing id is reached; the source recurses without a bound, so a cycle of
 * pointers never ends (a `StackOverflowError`), which the model reports as
 * `Diverges`.
 */
module Store {
  import opened Common
  import opened Records

  datatype Doc =
    | Page(title: Option<string>, content: string, requests: seq<RequestRecord>)
    | Revisit(target: Id)

  type Store = map<Id, Doc>

  datatype Resolution = Found(id: Id) | NotFound | Diverges

  /** Follows revisit pointers from `id`; `visited` are the ids already passed. */
  function ResolveFrom(s: Store, id: Id, visited: set<Id>): (r: Resolution)
    ensures r.Found? ==> r.id in s && s[r.id].Page?
    decreases s.Keys - visited
  {
    if id in visited then Diverges
    else if id !in s then NotFound
    else match s[id]
      case Page(_, _, _) => Found(id)
      case Revisit(t) => ResolveFrom(s, t, visited + {id})
  }

  /**
   * The page an id stands for, as the index's `getResponse` computes it: a
   * missing id stands for nothing (null), a stored page for itself, and
   * whatever is found is a stored page.
   */
  function Resolve(s: Store, id: Id): (r: Resolution)
    ensures id !in s ==> r == NotFound
    ensures id in s && s[id].Page? ==> r == Found(id)
    ensures r.Found? ==> r.id in s && s[r.id].Page?
  {
    ResolveFrom(s, id, {})
  }

  /** Forgetting visited ids changes nothing unless the walk came back to one of them. */
  lemma {:induction false} ResolveMono(s: Store, x: Id, v: set<Id>, v': set<Id>)
    requires v <= v'
    requires ResolveFrom(s, x, v') != Diverges
    ensures ResolveFrom(s, x, v) == ResolveFrom(s, x, v')
    decreases s.Keys - v'
  {
    if x !in v' && x in s && s[x].Revisit? {
      ResolveMono(s, s[x].target, v + {x}, v' + {x});
    }
  }

  /**
   * A walk that does not come back to `v` never passes a revisit `y` that
   * points into `v`, so marking `y` as visited changes nothing.
   */
  lemma {:induction false} ResolveAvoids(s: Store, x: Id, v: set<Id>, y: Id)
    requires y !in v && y in s && s[y].Revisit? && s[y].target in v
    requires ResolveFrom(s, x, v) != Diverges
    ensures ResolveFrom(s, x, v + {y}) == ResolveFrom(s, x, v)
    decreases s.Keys - v
  {
    if x !in v && x in s && s[x].Revisit? {
      var t := s[x].target;
      assert x != y;
      ResolveAvoids(s, t, v + {x}, y);
      assert v + {y} + {x} == v + {x} + {y};
    }
  }

  /** A revisit stands for whatever its target stands for, cycles included. */
  lemma ResolveRevisit(s: Store, id: Id, t: Id)
    requires id in s && s[id] == Revisit(t)
    ensures Resolve(s, id) == Resolve(s, t)
  {
    assert Resolve(s, id) == ResolveFrom(s, t, {} + {id});
    assert {} + {id} == {id};
    if ResolveFrom(s, t, {}) == Diverges {
      if ResolveFrom(s, t, {id}) != Diverges {
        ResolveMono(s, t, {}, {id});
      }
    } else if t != id && t in s && s[t].Revisit? {
      var u := s[t].target;
      assert ResolveFrom(s, t, {}) == ResolveFrom(s, u, {} + {t});
      assert {} + {t} == {t};
      ResolveAvoids(s, u, {t}, id);
      assert ResolveFrom(s, t, {id}) == ResolveFrom(s, u, {id} + {t});
      assert {t} + {id} == {id} + {t};
    }
  }

  /** A revisit pointing at itself never resolves. */
  lemma SelfRevisitDiverges(s: Store, id: Id)
    requires id in s && s[id] == Revisit(id)
    ensures Resolve(s, id) == Diverges
  {
    assert Resolve(s, id) == ResolveFrom(s, id, {} + {id});
  }

  /** Two stores with the same pointer structure resolve every id alike. */
  predicate SameShape(s: Store, s': Store)
  {
    s.Keys == s'.Keys &&
    forall k :: k in s ==> s[k].Page? == s'[k].Page? && (s[k].Revisit? ==> s[k].target == s'[k].target)
  }

  lemma {:induction false} ResolveSameShape(s: Store, s': Store, x: Id, v: set<Id>)
    requires SameShape(s, s')
    ensures ResolveFrom(s, x, v) == ResolveFrom(s', x, v)
    decreases s.Keys - v
  {
    if x !in v && x in s && s[x].Revisit? {
      ResolveSameShape(s, s', s[x].target, v + {x});
    }
  }

  /** Adding a document under a new id leaves every resolved id resolved alike. */
  lemma {:induction false} ResolveFresh(s: Store, y: Id, d: Doc, x: Id, v: set<Id>)
    requires y !in s
    requires ResolveFrom(s, x, v).Found?
    ensures ResolveFrom(s[y := d], x, v) == ResolveFrom(s, x, v)
    decreases s.Keys - v
  {
    if x !in v && x in s && s[x].Revisit? {
      ResolveFresh(s, y, d, s[x].target, v + {x});
    }
  }

  /** Appends a request to the page stored under `id`. */
  function AppendRequest(s: Store, id: Id, r: RequestRecord): (s': Store)
    requires id in s && s[id].Page?
    ensures s'.Keys == s.Keys
    ensures s'[id].Page? && s'[id].requests == s[id].requests + [r]
    ensures s'[id].title == s[id].title && s'[id].content == s[id].content
    ensures forall k :: k in s && k != id ==> s'[k] == s[k]
  {
    s[id := s[id].(requests := s[id].requests + [r])]
  }

  /**
   * Every page keeps its requests as a prefix: requests are only ever
   * appended, never reordered or removed.
   */
  predicate RequestsGrow(s: Store, s': Store)
  {
    forall k :: k in s && k in s' && s[k].Page? && s'[k].Page? ==>
      s[k].requests <= s'[k].requests
  }

  /** Appending a request keeps the pointer structure and only grows request lists. */
  lemma AppendRequestPreserves(s: Store, id: Id, r: RequestRecord)
    requires id in s && s[id].Page?
    ensures SameShape(s, AppendRequest(s, id, r))
    ensures RequestsGrow(s, AppendRequest(s, id, r))
    ensures forall x :: Resolve(AppendRequest(s, id, r), x) == Resolve(s, x)
  {
    var s' := AppendRequest(s, id, r);
    forall x ensures Resolve(s', x) == Resolve(s, x) {
      ResolveSameShape(s, s', x, {});
    }
  }
}

=== FILE: uipage.dfy ===
/**
 * The wasp search page model (`UiPage`): the query as shown, one entry per
 * result, and the pagination links. Date formatting, URL encoding and the
 * client's time zone are given functions.
 */
module UiPages {
  import opened Common
  import opened Records
  import opened Queries
  import opened Results
  import opened Display

  /** The formatting the page relies on: ISO text, the date picker's and the replay path's formats, URL encoding. */
  datatype Formats = Formats(
    iso: Instant -> string,
    picker: Instant -> string,
    replayPath: Instant -> string,
    urlEncode: string -> string)

  // ---------------------------------------------------------------------
  // Instants
  // ---------------------------------------------------------------------

  const TEXT_BEGINNING: string := "beginning"
  const TEXT_NOW: string := "now"

  datatype UiInstant = UiInstant(
    text: Option<string>,
    iso: Option<string>,
    timePickerValue: Option<string>,
    replayPathValue: Option<string>)

  /**
   * `UiInstant`: an absent instant has no formatted fields and reads
   * "beginning" as a lower bound, "now" as an upper bound, nothing
   * otherwise; a present one reads as its date-picker value.
   */
  function NewUiInstant(instant: Option<Instant>, fmt: Formats, isFrom: bool, isTo: bool): (u: UiInstant)
    ensures u.text.None? <==> instant.None? && !isFrom && !isTo
    ensures u.iso.Some? == u.timePickerValue.Some? == u.replayPathValue.Some? == instant.Some?
    ensures instant.Some? ==> u.text == u.timePickerValue
    ensures instant.None? && isFrom ==> u.text == Some(TEXT_BEGINNING)
    ensures instant.None? && !isFrom && isTo ==> u.text == Some(TEXT_NOW)
  {
    match instant
    case None =>
      UiInstant(if isFrom then Some(TEXT_BEGINNING) else if isTo then Some(TEXT_NOW) else None, None, None, None)
    case Some(t) =>
      UiInstant(Some(fmt.picker(t)), Some(fmt.iso(t)), Some(fmt.picker(t)), Some(fmt.replayPath(t)))
  }

  // ---------------------------------------------------------------------
  // The query and the links' query string
  // ---------------------------------------------------------------------

  datatype UiQuery = UiQuery(terms: string, termsUrl: string, from: UiInstant, to: UiInstant, pageNumber: int)

  function NewUiQuery(q: Query, pageNumber: Int32, fmt: Formats): (u: UiQuery)
    ensures u.terms == q.terms && u.pageNumber == pageNumber
    ensures u.from.text.Some? && u.to.text.Some?
    ensures u.from.timePickerValue.Some? <==> q.from.Some?
    ensures u.to.timePickerValue.Some? <==> q.to.Some?
  {
    UiQuery(q.terms, fmt.urlEncode(q.terms), NewUiInstant(q.from, fmt, true, false), NewUiInstant(q.to, fmt, false, true), pageNumber)
  }

  const PARAM_TERMS: string := "terms"
  const PARAM_FROM: string := "from"
  const PARAM_TO: string := "to"
  const PARAM_PAGE: string := "page"

  datatype Param = Param(key: string, value: string)

  /** The parameters every pagination link carries; the page number's value is appended per link. */
  function HrefParams(q: Query, fmt: Formats): (ps: seq<Param>)
    ensures |ps| == 2 + (if q.from.Some? then 1 else 0) + (if q.to.Some? then 1 else 0)
    ensures ps[0] == Param(PARAM_TERMS, fmt.urlEncode(q.terms)) && ps[|ps| - 1] == Param(PARAM_PAGE, "")
    ensures q.from.Some? ==> ps[1] == Param(PARAM_FROM, fmt.urlEncode(fmt.picker(q.from.value)))
    ensures q.to.Some? ==> ps[|ps| - 2] == Param(PARAM_TO, fmt.urlEncode(fmt.picker(q.to.value)))
  {
    [Param(PARAM_TERMS, fmt.urlEncode(q.terms))] +
    (if q.from.Some? then [Param(PARAM_FROM, fmt.urlEncode(fmt.picker(q.from.value)))] else []) +
    (if q.to.Some? then [Param(PARAM_TO, fmt.urlEncode(fmt.picker(q.to.value)))] else []) +
    [Param(PARAM_PAGE, "")]
  }

  function Keys(ps: seq<Param>): (ks: seq<string>)
    ensures |ks| == |ps| && forall i :: 0 <= i < |ps| ==> ks[i] == ps[i].key
  {
    seq(|ps|, i requires 0 <= i < |ps| => ps[i].key)
  }

  /** `key=value` pairs joined by "&". */
  function RenderPairs(ps: seq<Param>): string
  {
    if |ps| == 0 then ""
    else if |ps| == 1 then ps[0].key + "=" + ps[0].value
    else ps[0].key + "=" + ps[0].value + "&" + RenderPairs(ps[1..])
  }

  /** Two or more pairs render as the first pair and "&" up front, "&" and the last pair at the end. */
  lemma {:induction false} RenderPairsEnds(ps: seq<Param>)
    requires |ps| >= 2
    ensures ps[0].key + "=" + ps[0].value + "&" <= RenderPairs(ps)
    ensures EndsWith(RenderPairs(ps), "&" + ps[|ps| - 1].key + "=" + ps[|ps| - 1].value)
  {
    var head := ps[0].key + "=" + ps[0].value;
    var rest := RenderPairs(ps[1..]);
    assert RenderPairs(ps) == head + "&" + rest;
    assert RenderPairs(ps) == (head + "&") + rest;
    var last := ps[|ps| - 1];
    var suffix := "&" + last.key + "=" + last.value;
    if |ps| == 2 {
      assert rest == last.key + "=" + last.value;
      assert RenderPairs(ps) == head + suffix;
    } else {
      RenderPairsEnds(ps[1..]);
      assert ps[1..][|ps[1..]| - 1] == last;
      assert rest[|rest| - |suffix|..] == suffix;
      assert RenderPairs(ps)[|RenderPairs(ps)| - |suffix|..] == rest[|rest| - |suffix|..];
    }
  }

  /** A query string: "?" and the `key=value` pairs joined by "&". */
  function RenderParams(ps: seq<Param>): string
  {
    "?" + RenderPairs(ps)
  }

  /** A query string of two or more parameters starts with "?", the first pair and "&", and ends with "&" and the last pair. */
  lemma RenderParamsEnds(ps: seq<Param>)
    requires |ps| >= 2
    ensures "?" + ps[0].key + "=" + ps[0].value + "&" <= RenderParams(ps)
    ensures EndsWith(RenderParams(ps), "&" + ps[|ps| - 1].key + "=" + ps[|ps| - 1].value)
  {
    RenderPairsEnds(ps);
    var t := ps[0].key + "=" + ps[0].value + "&";
    assert RenderPairs(ps) == t + RenderPairs(ps)[|t|..];
    assert RenderParams(ps) == "?" + t + RenderPairs(ps)[|t|..];
  }

  /**
   * The href base: "?terms=<terms>", then "&from=<from>" and "&to=<to>" for
   * the bounds the query has, then "&page=" for the number each link appends.
   */
  function HrefBase(q: Query, fmt: Formats): (base: string)
    ensures "?" + PARAM_TERMS + "=" + fmt.urlEncode(q.terms) + "&" <= base
    ensures EndsWith(base, "&" + PARAM_PAGE + "=")
  {
    RenderParamsEnds(HrefParams(q, fmt));
    RenderParams(HrefParams(q, fmt))
  }

  /**
   * The parameters are the terms first and an open `page` last, with a
   * `from` iff the query has a lower bound and a `to` iff it has an upper
   * bound.
   */
  lemma HrefParamsFollowBounds(q: Query, fmt: Formats)
    ensures var ks := Keys(HrefParams(q, fmt));
      ks[0] == PARAM_TERMS && ks[|ks| - 1] == PARAM_PAGE &&
      (PARAM_FROM in ks <==> q.from.Some?) && (PARAM_TO in ks <==> q.to.Some?)
  {
    var ps := HrefParams(q, fmt);
    var ks := Keys(ps);
    assert PARAM_TERMS != PARAM_FROM && PARAM_TERMS != PARAM_TO && PARAM_PAGE != PARAM_FROM && PARAM_PAGE != PARAM_TO
      && PARAM_FROM != PARAM_TO by {
      assert PARAM_TERMS[0] != PARAM_FROM[0] && PARAM_TERMS[0] != PARAM_TO[1] && PARAM_PAGE[0] != PARAM_FROM[0];
      assert |PARAM_PAGE| != |PARAM_TO| && PARAM_FROM[0] != PARAM_TO[0];
    }
    if q.from.Some? && q.to.Some? {
      assert ks == [PARAM_TERMS, PARAM_FROM, PARAM_TO, PARAM_PAGE];
    } else if q.from.Some? {
      assert ks == [PARAM_TERMS, PARAM_FROM, PARAM_PAGE];
    } else if q.to.Some? {
      assert ks == [PARAM_TERMS, PARAM_TO, PARAM_PAGE];
    } else {
      assert ks == [PARAM_TERMS, PARAM_PAGE];
    }
  }

  // ---------------------------------------------------------------------
  // Pagination
  // ---------------------------------------------------------------------

  const TEXT_FIRST: string := "&laquo;"
  const TEXT_LAST: string := "&raquo;"

  datatype PaginationLink = PaginationLink(number: int, text: string, link: string, isActive: bool, isDisabled: bool)

  /** The arrow to page 1, disabled on page 1. */
  function FirstArrow(base: string, pageNumber: Int32): (l: PaginationLink)
    ensures l.number == 1 && l.link == base + Decimal(1) && l.text == TEXT_FIRST
    ensures !l.isActive && (l.isDisabled <==> pageNumber == 1)
  {
    PaginationLink(1, TEXT_FIRST, base + Decimal(1), false, pageNumber == 1)
  }

  /** The arrow to the last page, disabled on the last page. */
  function LastArrow(base: string, pageNumber: Int32, numPages: Int32): (l: PaginationLink)
    ensures l.number == numPages && l.link == base + Decimal(numPages) && l.text == TEXT_LAST
    ensures !l.isActive && (l.isDisabled <==> pageNumber == numPages)
  {
    PaginationLink(numPages, TEXT_LAST, base + Decimal(numPages), false, pageNumber == numPages)
  }

  /** The link to page k, active on page k and never disabled. */
  function PageLink(base: string, pageNumber: Int32, k: int): (l: PaginationLink)
    ensures l.number == k && l.link == base + Decimal(k) && l.text == Decimal(k)
    ensures !l.isDisabled && (l.isActive <==> k == pageNumber)
  {
    PaginationLink(k, Decimal(k), base + Decimal(k), k == pageNumber, false)
  }

  /**
   * The pagination: an arrow to page 1, one link per page 1..numPages, an
   * arrow to page numPages. The arrows are disabled on their own page; the
   * current page's link is active.
   */
  function Pagination(base: string, pageNumber: Int32, numPages: Int32): (ls: seq<PaginationLink>)
    ensures |ls| == (if numPages > 0 then numPages else 0) + 2
    ensures ls[0] == FirstArrow(base, pageNumber)
    ensures ls[|ls| - 1] == LastArrow(base, pageNumber, numPages)
    ensures forall k :: 1 <= k <= numPages ==> ls[k] == PageLink(base, pageNumber, k)
  {
    var pages := if numPages > 0 then numPages else 0;
    var numbered := seq(pages, i requires 0 <= i < pages => PageLink(base, pageNumber, i + 1));
    var ls := [FirstArrow(base, pageNumber)] + numbered + [LastArrow(base, pageNumber, numPages)];
    assert forall k :: 1 <= k <= pages ==> ls[k] == numbered[k - 1];
    ls
  }

  /** Every link of the pagination is the href base followed by the decimal number of its page. */
  lemma PaginationLinksTargetTheirPage(base: string, pageNumber: Int32, numPages: Int32)
    ensures var ls := Pagination(base, pageNumber, numPages);
      forall k :: 0 <= k < |ls| ==> ls[k].link == base + Decimal(ls[k].number)
  {
    var ls := Pagination(base, pageNumber, numPages);
    forall k | 0 <= k < |ls| ensures ls[k].link == base + Decimal(ls[k].number) {
      if 1 <= k <= numPages {
        assert ls[k] == PageLink(base, pageNumber, k);
      }
    }
  }

  function ActiveLinks(ls: seq<PaginationLink>): set<nat>
  {
    set k | 0 <= k < |ls| && ls[k].isActive
  }

  /** Exactly one link is active when the page number is a page, none otherwise. */
  lemma OneActiveLink(base: string, pageNumber: Int32, numPages: Int32)
    ensures var ls := Pagination(base, pageNumber, numPages);
      ActiveLinks(ls) == (if 1 <= pageNumber <= numPages then {pageNumber as nat} else {})
  {
    var ls := Pagination(base, pageNumber, numPages);
    var expected: set<nat> := if 1 <= pageNumber <= numPages then {pageNumber as nat} else {};
    forall k | k in ActiveLinks(ls) ensures k in expected {
      assert 0 < k < |ls| - 1;
      assert 1 <= k <= numPages;
      assert ls[k].isActive <==> k == pageNumber;
    }
    if 1 <= pageNumber <= numPages {
      assert ls[pageNumber].isActive;
      assert pageNumber as nat in ActiveLinks(ls);
    }
  }

  // ---------------------------------------------------------------------
  // Results and the page
  // ---------------------------------------------------------------------

  datatype UiResult = UiResult(
    title: Option<string>,
    date: UiInstant,
    liveUri: string,
    liveUriShortened: string,
    replayUri: string,
    snippet: string)

  /**
   * `UiResult`: the page's title, the matched request's URI (shortened for
   * display) and date, the snippet, and a replay link under the replay
   * server and collection that ends with the live URI.
   */
  function NewUiResult(server: string, collection: string, r: WaspResult, fmt: Formats): (u: UiResult)
    ensures u.title == r.response.title && u.snippet == r.snippet
    ensures u.liveUri == r.matchedRequest.uri && u.liveUriShortened == Shorten(u.liveUri)
    ensures u.date.timePickerValue.Some? && u.date.text == u.date.timePickerValue
    ensures var prefix := server + "/" + collection + "/";
      |prefix| <= |u.replayUri| && u.replayUri[..|prefix|] == prefix
    ensures |u.liveUri| <= |u.replayUri| && u.replayUri[|u.replayUri| - |u.liveUri|..] == u.liveUri
  {
    var date := NewUiInstant(Some(r.matchedRequest.date), fmt, false, false);
    var prefix := server + "/" + collection + "/";
    var replay := prefix + date.replayPathValue.value + "/" + r.matchedRequest.uri;
    assert replay[..|prefix|] == prefix;
    assert replay[|replay| - |r.matchedRequest.uri|..] == r.matchedRequest.uri;
    UiResult(r.response.title, date, r.matchedRequest.uri, Shorten(r.matchedRequest.uri), replay, r.snippet)
  }

  datatype UiPage = UiPage(
    replayServer: string,
    replayCollection: string,
    locale: string,
    query: Option<UiQuery>,
    results: seq<UiResult>,
    pagination: seq<PaginationLink>)

  /** The page without a query: no query, no results, no pagination; a null server or collection is refused. */
  function EmptyPage(server: Option<string>, collection: Option<string>, locale: string): (p: Outcome<UiPage>)
    ensures p.Ok? <==> server.Some? && collection.Some?
    ensures p.Throws? ==> p.error == NullPointer
    ensures p.Ok? ==> p.value.query.None? && p.value.results == [] && p.value.pagination == []
  {
    if server.None? || collection.None? then Throws(NullPointer)
    else Ok(UiPage(server.value, collection.value, locale, None, [], []))
  }

  /** The page for a query: the given page of results in order, and the pagination for its position. */
  function QueryPage(server: Option<string>, collection: Option<string>, q: Query, results: seq<WaspResult>,
                     pageNumber: Int32, numPages: Int32, locale: string, fmt: Formats): (p: Outcome<UiPage>)
    ensures p.Ok? <==> server.Some? && collection.Some?
    ensures p.Throws? ==> p.error == NullPointer
    ensures p.Ok? ==>
      (p.value.query.Some? && p.value.query.value.terms == q.terms && p.value.query.value.pageNumber == pageNumber &&
       |p.value.results| == |results| &&
       (forall i :: 0 <= i < |results| ==> p.value.results[i] == NewUiResult(server.value, collection.value, results[i], fmt)) &&
       p.value.pagination == Pagination(HrefBase(q, fmt), pageNumber, numPages))
  {
    if server.None? || collection.None? then Throws(NullPointer)
    else
      Ok(UiPage(server.value, collection.value, locale, Some(NewUiQuery(q, pageNumber, fmt)),
        seq(|results|, i requires 0 <= i < |results| => NewUiResult(server.value, collection.value, results[i], fmt)),
        Pagination(HrefBase(q, fmt), pageNumber, numPages)))
  }
}

=== FILE: warcs.dfy ===
/**
 * WARC records and the HTTP response inside a response record: header
 * access, whether a response is HTML, how its body is framed, and which
 * content-coding decoders are stacked on it.
 */
module Warcs {
  import opened Common

  const HEADER_ID: string := "WARC-Record-ID"
  const HEADER_TYPE: string := "WARC-Type"
  const HEADER_TYPE_INFO: string := "warcinfo"
  const HEADER_TYPE_REQUEST: string := "request"
  const HEADER_TYPE_RESPONSE: string := "response"
  const HEADER_TYPE_REVISIT: string := "revisit"
  const HEADER_REFERS_TO: string := "WARC-Refers-To"
  const HEADER_TARGET_URI: string := "WARC-Target-URI"
  const HEADER_CONCURRENT: string := "WARC-Concurrent-To"
  const HEADER_DATE: string := "WARC-Date"
  const HTTP_HEADER_CONTENT_TYPE: string := "Content-Type"
  const HTTP_HEADER_CONTENT_ENCODING: string := "Content-Encoding"
  const HTTP_HEADER_CONTENT_LENGTH: string := "Content-Length"
  const HTTP_HEADER_CONTENT_MD5: string := "Content-MD5"
  const HTML_CONTENT_TYPE_PREFIX: string := "text/html"

  /** Content-length decisions of the HTTP library: chunked, read to end, or a length. */
  const CHUNKED: int := -2
  const IDENTITY: int := -1

  // ---------------------------------------------------------------------
  // HTTP messages
  // ---------------------------------------------------------------------

  datatype Header = Header(name: string, value: Option<string>)

  /** HTTP header names compare without regard to ASCII case. */
  predicate NameIs(h: Header, name: string)
  {
    ToLower(h.name) == ToLower(name)
  }

  /** `getLastHeader(name)`. */
  function LastHeader(hs: seq<Header>, name: string): (r: Option<Header>)
    ensures r.None? <==> forall i :: 0 <= i < |hs| ==> !NameIs(hs[i], name)
    ensures r.Some? ==> exists i :: (0 <= i < |hs| && hs[i] == r.value && NameIs(hs[i], name) &&
      forall j :: i < j < |hs| ==> !NameIs(hs[j], name))
    decreases |hs|
  {
    if |hs| == 0 then None
    else if NameIs(hs[|hs| - 1], name) then Some(hs[|hs| - 1])
    else LastHeader(hs[..|hs| - 1], name)
  }

  /** `getFirstHeader(name)`. */
  function FirstHeader(hs: seq<Header>, name: string): (r: Option<Header>)
    ensures r.None? <==> forall i :: 0 <= i < |hs| ==> !NameIs(hs[i], name)
    ensures r.Some? ==> exists i :: (0 <= i < |hs| && hs[i] == r.value && NameIs(hs[i], name) &&
      forall j :: 0 <= j < i ==> !NameIs(hs[j], name))
    decreases |hs|
  {
    if |hs| == 0 then None
    else if NameIs(hs[0], name) then Some(hs[0])
    else FirstHeader(hs[1..], name)
  }

  /** Characters a regular-expression `.` does not match. */
  predicate IsLineTerminator(c: char)
  {
    c == '\n' || c == '\r' || c == '\U{0085}' || c == '\U{2028}' || c == '\U{2029}'
  }

  /**
   * The content type pattern `text/html.*` matched against the whole value:
   * case-sensitive prefix, and no line break after it.
   */
  predicate IsHtmlContentType(v: string)
  {
    |HTML_CONTENT_TYPE_PREFIX| <= |v| && v[..|HTML_CONTENT_TYPE_PREFIX|] == HTML_CONTENT_TYPE_PREFIX &&
    forall i :: |HTML_CONTENT_TYPE_PREFIX| <= i < |v| ==> !IsLineTerminator(v[i])
  }

  /**
   * `isHtml(response)`: no response is not HTML; a response without a
   * Content-Type header fails on the dereference; otherwise the last
   * Content-Type decides.
   */
  function IsHtml(headers: Option<seq<Header>>): (r: Outcome<bool>)
    ensures headers.None? ==> r == Ok(false)
    ensures headers.Some? ==> (r.Throws? <==> forall i :: 0 <= i < |headers.value| ==> !NameIs(headers.value[i], HTTP_HEADER_CONTENT_TYPE))
    ensures r.Throws? ==> r.error == NullPointer
    ensures r == Ok(true) <==> headers.Some? && exists i :: (0 <= i < |headers.value| &&
      NameIs(headers.value[i], HTTP_HEADER_CONTENT_TYPE) &&
      headers.value[i].value.Some? && IsHtmlContentType(headers.value[i].value.value) &&
      forall j :: i < j < |headers.value| ==> !NameIs(headers.value[j], HTTP_HEADER_CONTENT_TYPE))
  {
    if headers.None? then Ok(false)
    else match LastHeader(headers.value, HTTP_HEADER_CONTENT_TYPE)
      case None => Throws(NullPointer)
      case Some(h) => Ok(h.value.Some? && IsHtmlContentType(h.value.value))
  }

  /**
   * Only the last Content-Type header counts: a header of another name added
   * at the end changes nothing, a Content-Type header added at the end
   * decides alone.
   */
  lemma IsHtmlDecidedByLastContentType(hs: seq<Header>, h: Header)
    ensures NameIs(h, HTTP_HEADER_CONTENT_TYPE) ==>
      IsHtml(Some(hs + [h])) == Ok(h.value.Some? && IsHtmlContentType(h.value.value))
    ensures !NameIs(h, HTTP_HEADER_CONTENT_TYPE) ==> IsHtml(Some(hs + [h])) == IsHtml(Some(hs))
  {
    assert (hs + [h])[..|hs|] == hs;
  }

  lemma HtmlContentTypeExamples()
    ensures IsHtmlContentType("text/html")
    ensures IsHtmlContentType("text/html; charset=UTF-8")
    ensures !IsHtmlContentType("Text/HTML")
    ensures !IsHtmlContentType("application/xhtml+xml")
    ensures !IsHtmlContentType("text/html\n")
  {
    assert "Text/HTML"[..9] != "text/html" by { assert "Text/HTML"[0] != 't'; }
    assert "application/xhtml+xml"[..9] != "text/html" by { assert "application/xhtml+xml"[0] != 't'; }
    assert IsLineTerminator("text/html\n"[9]);
  }

  // ---------------------------------------------------------------------
  // Framing of the body
  // ---------------------------------------------------------------------

  datatype InputKind = ChunkedInput | IdentityInput | EmptyInput | LengthInput(length: int)

  /** `createInputStream(len)`. */
  function CreateInputStream(len: int): (k: InputKind)
    ensures k == ChunkedInput <==> len == CHUNKED
    ensures k == IdentityInput <==> len == IDENTITY
    ensures k == EmptyInput <==> len == 0
    ensures k.LengthInput? <==> len !in {CHUNKED, IDENTITY, 0}
    ensures k.LengthInput? ==> k.length == len
  {
    if len == CHUNKED then ChunkedInput
    else if len == IDENTITY then IdentityInput
    else if len == 0 then EmptyInput
    else LengthInput(len)
  }

  datatype Entity = Entity(
    chunked: bool,
    contentLength: int,
    input: InputKind,
    contentType: Option<Header>,
    contentEncoding: Option<Header>)

  /**
   * `getEntity(response, input)`, given the length the library's lax
   * content-length strategy determined: chunked only for a chunked body,
   * length -1 whenever it is not known, and the first Content-Type and
   * Content-Encoding headers.
   */
  function GetEntity(headers: seq<Header>, len: int): (e: Entity)
    ensures e.chunked <==> len == CHUNKED
    ensures e.contentLength == (if len == CHUNKED || len == IDENTITY then -1 else len)
    ensures e.input == CreateInputStream(len)
    ensures e.contentType == FirstHeader(headers, HTTP_HEADER_CONTENT_TYPE)
    ensures e.contentEncoding == FirstHeader(headers, HTTP_HEADER_CONTENT_ENCODING)
  {
    var input := CreateInputStream(len);
    var framed :=
      if len == CHUNKED then Entity(true, -1, input, None, None)
      else if len == IDENTITY then Entity(false, -1, input, None, None)
      else Entity(false, len, input, None, None);
    framed.(contentType := FirstHeader(headers, HTTP_HEADER_CONTENT_TYPE),
            contentEncoding := FirstHeader(headers, HTTP_HEADER_CONTENT_ENCODING))
  }

  // ---------------------------------------------------------------------
  // Content codings
  // ---------------------------------------------------------------------

  datatype Codec = Gzip | Deflate

  /** The decoder registry: gzip and x-gzip, and deflate. */
  function LookupDecoder(name: string): (c: Option<Codec>)
    ensures c == Some(Gzip) <==> name == "gzip" || name == "x-gzip"
    ensures c == Some(Deflate) <==> name == "deflate"
  {
    if name == "gzip" || name == "x-gzip" then Some(Gzip)
    else if name == "deflate" then Some(Deflate)
    else None
  }

  /** Splits at every `sep`, keeping empty pieces. */
  function Split(s: string, sep: char): (parts: seq<string>)
    ensures |parts| >= 1
    ensures forall i :: 0 <= i < |parts| ==> sep !in parts[i]
    decreases |s|
  {
    if sep !in s then [s]
    else
      var i := IndexOf(s, sep);
      [s[..i]] + Split(s[i + 1..], sep)
  }

  function IndexOf(s: string, c: char): (i: nat)
    requires c in s
    ensures i < |s| && s[i] == c && c !in s[..i]
  {
    if s[0] == c then 0 else 1 + IndexOf(s[1..], c)
  }

  /** Splitting a joined list gives the list back when no piece holds the separator. */
  lemma {:induction false} SplitJoin(parts: seq<string>, sep: char)
    requires |parts| > 0
    requires forall i :: 0 <= i < |parts| ==> sep !in parts[i]
    ensures Split(Join(parts, [sep]), sep) == parts
    decreases |parts|
  {
    if |parts| > 1 {
      var rest := Join(parts[1..], [sep]);
      assert Join(parts, [sep]) == parts[0] + [sep] + rest;
      SplitAtFirst(parts[0], sep, rest);
      SplitJoin(parts[1..], sep);
      assert parts == [parts[0]] + parts[1..];
    }
  }

  /** A piece without the separator, the separator, and the rest split into that piece and the rest's pieces. */
  lemma SplitAtFirst(a: string, c: char, b: string)
    requires c !in a
    ensures Split(a + [c] + b, c) == [a] + Split(b, c)
  {
    var s := a + [c] + b;
    IndexOfPrefix(a, c, b);
    assert s[..|a|] == a;
    assert s[|a| + 1..] == b;
  }

  lemma IndexOfPrefix(a: string, c: char, b: string)
    requires c !in a
    ensures c in a + [c] + b && IndexOf(a + [c] + b, c) == |a|
  {
    var s := a + [c] + b;
    assert s[|a|] == c;
    assert s[..|a|] == a;
  }

  predicate IsHttpSpace(c: char)
  {
    c == ' ' || c == '\t' || c == '\r' || c == '\n'
  }

  function TrimStart(s: string): (r: string)
    ensures |r| > 0 ==> !IsHttpSpace(r[0])
  {
    if |s| > 0 && IsHttpSpace(s[0]) then TrimStart(s[1..]) else s
  }

  function TrimEnd(s: string): (r: string)
    ensures |r| > 0 ==> !IsHttpSpace(r[|r| - 1])
  {
    if |s| > 0 && IsHttpSpace(s[|s| - 1]) then TrimEnd(s[..|s| - 1]) else s
  }

  /** The name of one header element: before its parameters or value, trimmed. */
  function ElementName(element: string): string
  {
    var beforeParams := Split(element, ';')[0];
    TrimEnd(TrimStart(Split(beforeParams, '=')[0]))
  }

  /** The element carries a value: an `=` before its parameters. */
  predicate HasValue(element: string)
  {
    '=' in Split(element, ';')[0]
  }

  /**
   * `getElements()` keeps a comma-separated piece unless both its name is
   * empty and it carries no value; so `=x` is an element with the empty name.
   */
  predicate IsElement(element: string)
  {
    ElementName(element) != "" || HasValue(element)
  }

  /**
   * `getElements()` of a Content-Encoding value: the names of the
   * comma-separated elements, in listed order. A name is empty only where
   * its piece carries a value.
   */
  function Elements(value: string): (names: seq<string>)
    ensures |names| <= |Split(value, ',')|
    ensures (forall j :: 0 <= j < |Split(value, ',')| ==> !HasValue(Split(value, ',')[j])) ==>
      forall i :: 0 <= i < |names| ==> names[i] != ""
  {
    ElementNames(Split(value, ','))
  }

  function ElementNames(pieces: seq<string>): (names: seq<string>)
    ensures |names| <= |pieces|
    ensures (forall j :: 0 <= j < |pieces| ==> !HasValue(pieces[j])) ==>
      forall i :: 0 <= i < |names| ==> names[i] != ""
  {
    if |pieces| == 0 then []
    else
      (if IsElement(pieces[0]) then [ElementName(pieces[0])] else []) + ElementNames(pieces[1..])
  }

  /** The elements are the names of the pieces that are elements. */
  lemma {:induction false} ElementNamesMember(pieces: seq<string>, n: string)
    ensures n in ElementNames(pieces) <==>
      exists j :: 0 <= j < |pieces| && IsElement(pieces[j]) && ElementName(pieces[j]) == n
  {
    if |pieces| > 0 {
      ElementNamesMember(pieces[1..], n);
      if exists j :: 0 <= j < |pieces[1..]| && IsElement(pieces[1..][j]) && ElementName(pieces[1..][j]) == n {
        var j :| 0 <= j < |pieces[1..]| && IsElement(pieces[1..][j]) && ElementName(pieces[1..][j]) == n;
        assert pieces[j + 1] == pieces[1..][j];
      }
      if exists j :: 0 <= j < |pieces| && IsElement(pieces[j]) && ElementName(pieces[j]) == n {
        var j :| 0 <= j < |pieces| && IsElement(pieces[j]) && ElementName(pieces[j]) == n;
        if j > 0 {
          assert pieces[1..][j - 1] == pieces[j];
        }
      }
    }
  }

  /**
   * A listed piece with an empty name and a value (as in `gzip,=x`) is an
   * element whose name is no known coding and not "identity", so
   * `encodeEntity` refuses the entity.
   */
  lemma EmptyNamedElementRefused(e: Entity, j: nat)
    requires e.contentLength != 0 && e.contentEncoding.Some?
    requires j < |Split(ValueOf(e.contentEncoding.value), ',')|
    requires ElementName(Split(ValueOf(e.contentEncoding.value), ',')[j]) == ""
    requires HasValue(Split(ValueOf(e.contentEncoding.value), ',')[j])
    ensures EncodeEntityAsWritten(e) == Throws(Http)
    ensures EncodeEntity(e) == Throws(Http)
  {
    var codings := Elements(ValueOf(e.contentEncoding.value));
    assert "" in codings by {
      ElementNamesMember(Split(ValueOf(e.contentEncoding.value), ','), "");
    }
    EmptyNameRefusedByLoop(codings);
  }

  /** The loop of `encodeEntity` refuses a list that holds the empty name. */
  lemma EmptyNameRefusedByLoop(codings: seq<string>)
    requires "" in codings
    ensures DecodersInListedOrder(codings) == Throws(Http)
  {
    var i :| 0 <= i < |codings| && codings[i] == "";
    assert ToLower(codings[i]) == "";
  }

  /** `Content-Encoding: gzip,=x` lists gzip and then an element with the empty name. */
  lemma GzipThenEmptyNameRefused(e: Entity)
    requires e.contentLength != 0 && e.contentEncoding.Some?
    requires ValueOf(e.contentEncoding.value) == "gzip,=x"
    ensures Elements("gzip,=x") == ["gzip", ""]
    ensures EncodeEntityAsWritten(e) == Throws(Http)
  {
    ElementsOfGzipEmptyName();
    SplitGzipEmptyName();
    EmptyNameWithValue();
    EmptyNamedElementRefused(e, 1);
  }

  lemma ElementsOfGzipEmptyName()
    ensures Elements("gzip,=x") == ["gzip", ""]
  {
    SplitGzipEmptyName();
    GzipDeflatePlain();
    NameWithoutParameters("gzip");
    EmptyNameWithValue();
    ElementNamesOfTwo("gzip", "=x");
  }

  lemma ElementNamesOfTwo(p: string, q: string)
    requires IsElement(p) && IsElement(q)
    ensures ElementNames([p, q]) == [ElementName(p), ElementName(q)]
  {
    var pieces := [p, q];
    assert pieces[1..] == [q] && pieces[1..][1..] == [];
  }

  lemma SplitGzipEmptyName()
    ensures Split("gzip,=x", ',') == ["gzip", "=x"]
  {
    var parts := ["gzip", "=x"];
    assert parts[1..] == ["=x"];
    assert Join(parts[1..], [',']) == "=x";
    assert Join(parts, [',']) == "gzip" + [','] + "=x" == "gzip,=x";
    SplitJoin(parts, ',');
  }

  lemma EmptyNameWithValue()
    ensures ElementName("=x") == "" && HasValue("=x") && IsElement("=x")
  {
    assert Split("=x", ';') == ["=x"];
    assert IndexOf("=x", '=') == 0;
    assert Split("=x", '=')[0] == "";
  }

  /** A comma-separated list of plain coding names gives back exactly those names, in order. */
  lemma ElementsOfJoinedNames(names: seq<string>)
    requires |names| > 0
    requires forall i :: 0 <= i < |names| ==> PlainName(names[i]) && ',' !in names[i]
    ensures Elements(Join(names, [','])) == names
  {
    SplitJoin(names, ',');
    PlainNamesKept(names);
  }

  /**
   * The loop of `encodeEntity` over the listed codings: each known coding
   * adds its decoder, "identity" adds nothing, anything else is refused.
   * The decoders come back in the order they wrap the entity, which is the
   * order they are applied to the received bytes.
   */
  function DecodersInListedOrder(codings: seq<string>): (r: Outcome<seq<Codec>>)
    ensures r.Throws? ==> r.error == Http
    ensures r.Ok? <==> forall i :: 0 <= i < |codings| ==>
      LookupDecoder(ToLower(codings[i])).Some? || ToLower(codings[i]) == "identity"
    ensures r.Ok? ==> r.value == KnownCodecs(codings)
    ensures r.Ok? ==> |r.value| <= |codings|
    decreases |codings|
  {
    if |codings| == 0 then Ok([])
    else
      var name := ToLower(codings[0]);
      match LookupDecoder(name)
      case Some(codec) =>
        (match DecodersInListedOrder(codings[1..])
         case Throws(e) => Throws(e)
         case Ok(rest) => Ok([codec] + rest))
      case None =>
        if name != "identity" then Throws(Http) else DecodersInListedOrder(codings[1..])
  }

  /** Reference definition: the decoder of every known coding of the list, in listed order. */
  function KnownCodecs(codings: seq<string>): seq<Codec>
  {
    if |codings| == 0 then []
    else
      var c := LookupDecoder(ToLower(codings[0]));
      (if c.Some? then [c.value] else []) + KnownCodecs(codings[1..])
  }

  /** A codec is in the list exactly when one of the codings names it. */
  lemma {:induction false} KnownCodecsNamed(codings: seq<string>, c: Codec)
    ensures c in KnownCodecs(codings) <==> exists i :: 0 <= i < |codings| && LookupDecoder(ToLower(codings[i])) == Some(c)
  {
    if |codings| > 0 {
      KnownCodecsNamed(codings[1..], c);
      if c in KnownCodecs(codings[1..]) {
        var i :| 0 <= i < |codings[1..]| && LookupDecoder(ToLower(codings[1..][i])) == Some(c);
        assert codings[i + 1] == codings[1..][i];
      }
      if exists i :: 0 <= i < |codings| && LookupDecoder(ToLower(codings[i])) == Some(c) {
        var i :| 0 <= i < |codings| && LookupDecoder(ToLower(codings[i])) == Some(c);
        if i > 0 {
          assert codings[1..][i - 1] == codings[i];
        }
      }
    }
  }

  function Reverse<T>(xs: seq<T>): (ys: seq<T>)
    ensures |ys| == |xs|
    ensures forall i :: 0 <= i < |xs| ==> ys[i] == xs[|xs| - 1 - i]
  {
    if |xs| == 0 then [] else Reverse(xs[1..]) + [xs[0]]
  }

  /**
   * `encodeEntity` as written: nothing to do for an empty body or without
   * a Content-Encoding header; otherwise the decoders of the listed codings,
   * applied first-listed first.
   */
  function EncodeEntityAsWritten(e: Entity): (r: Outcome<seq<Codec>>)
    ensures e.contentLength == 0 || e.contentEncoding.None? ==> r == Ok([])
    ensures e.contentLength != 0 && e.contentEncoding.Some? ==>
      var codings := Elements(ValueOf(e.contentEncoding.value));
      (r.Ok? <==> forall i :: 0 <= i < |codings| ==>
        LookupDecoder(ToLower(codings[i])).Some? || ToLower(codings[i]) == "identity") &&
      (r.Ok? ==> r.value == KnownCodecs(codings)) &&
      (r.Throws? ==> r.error == Http)
  {
    if e.contentLength == 0 || e.contentEncoding.None? then Ok([])
    else DecodersInListedOrder(Elements(ValueOf(e.contentEncoding.value)))
  }

  /**
   * `encodeEntity` as section 3.1.2.2 of RFC 7231 requires: codings are
   * listed in the order they were applied, so they are undone last-listed
   * first.
   */
  function EncodeEntity(e: Entity): (r: Outcome<seq<Codec>>)
    ensures r.Ok? <==> EncodeEntityAsWritten(e).Ok?
    ensures r.Throws? ==> r == EncodeEntityAsWritten(e)
    ensures r.Ok? ==> forall text :: Decode(Encode(text, EncodeEntityAsWritten(e).value), r.value) == Ok(Plain(text))
    ensures r.Ok? ==> forall ds :: |ds| == |r.value| && ds != r.value ==>
      forall text :: Decode(Encode(text, EncodeEntityAsWritten(e).value), ds) == Throws(IO)
  {
    var listed :- EncodeEntityAsWritten(e);
    DecodeUndoesOnlyReverse(listed);
    Ok(Reverse(listed))
  }

  function ValueOf(h: Header): string
  {
    if h.value.Some? then h.value.value else ""
  }

  // ---------------------------------------------------------------------
  // What the decoders do to a body
  // ---------------------------------------------------------------------

  /** A body as sent: plain text with content codings applied on top, last applied outermost. */
  datatype Payload = Plain(text: string) | Coded(codec: Codec, inner: Payload)

  /** The body a server sends after applying `codings` in order. */
  function Encode(text: string, codings: seq<Codec>): Payload
    decreases |codings|
  {
    if |codings| == 0 then Plain(text)
    else Coded(codings[|codings| - 1], Encode(text, codings[..|codings| - 1]))
  }

  /** Reading through the decoders, first decoder first; a mismatching stream is an I/O error. */
  function Decode(p: Payload, decoders: seq<Codec>): (r: Outcome<Payload>)
    ensures r.Throws? ==> r.error == IO
    decreases |decoders|
  {
    if |decoders| == 0 then Ok(p)
    else if p.Coded? && p.codec == decoders[0] then Decode(p.inner, decoders[1..])
    else Throws(IO)
  }

  /** Undoing the codings last-applied first recovers the text, for any list of codings. */
  lemma {:induction false} DecodeReversedRoundTrip(text: string, codings: seq<Codec>)
    ensures Decode(Encode(text, codings), Reverse(codings)) == Ok(Plain(text))
    decreases |codings|
  {
    if |codings| > 0 {
      var n := |codings| - 1;
      var rev := Reverse(codings);
      assert rev[0] == codings[n];
      assert rev[1..] == Reverse(codings[..n]);
      DecodeReversedRoundTrip(text, codings[..n]);
    }
  }

  /**
   * Decoders as many as the codings recover the text exactly when they are
   * the codings reversed; any other order fails with an I/O error.
   */
  lemma {:induction false} DecodeEncoded(text: string, codings: seq<Codec>, decoders: seq<Codec>)
    requires |decoders| == |codings|
    ensures Decode(Encode(text, codings), decoders) ==
      if decoders == Reverse(codings) then Ok(Plain(text)) else Throws(IO)
    decreases |codings|
  {
    if |codings| > 0 {
      var n := |codings| - 1;
      var rev := Reverse(codings);
      assert rev[0] == codings[n];
      assert rev[1..] == Reverse(codings[..n]);
      if decoders[0] == codings[n] {
        DecodeEncoded(text, codings[..n], decoders[1..]);
        assert decoders == Reverse(codings) <==> decoders[1..] == rev[1..] by {
          if decoders[1..] == rev[1..] {
            assert decoders == [decoders[0]] + decoders[1..];
            assert rev == [rev[0]] + rev[1..];
          }
        }
      } else {
        assert decoders != Reverse(codings) by { assert decoders[0] != rev[0]; }
      }
    }
  }

  /** The same, for every text at once. */
  lemma DecodeUndoesOnlyReverse(codings: seq<Codec>)
    ensures forall text :: Decode(Encode(text, codings), Reverse(codings)) == Ok(Plain(text))
    ensures forall ds :: |ds| == |codings| && ds != Reverse(codings) ==>
      forall text :: Decode(Encode(text, codings), ds) == Throws(IO)
  {
    forall text ensures Decode(Encode(text, codings), Reverse(codings)) == Ok(Plain(text)) {
      DecodeEncoded(text, codings, Reverse(codings));
    }
    forall ds, text | |ds| == |codings| && ds != Reverse(codings)
      ensures Decode(Encode(text, codings), ds) == Throws(IO)
    {
      DecodeEncoded(text, codings, ds);
    }
  }

  /**
   * Applying the decoders in listed order, as `encodeEntity` does, recovers
   * the text exactly when the listed codings read the same both ways.
   */
  lemma ListedOrderDecodesIffPalindrome(text: string, codings: seq<Codec>)
    ensures Decode(Encode(text, codings), codings) ==
      if codings == Reverse(codings) then Ok(Plain(text)) else Throws(IO)
  {
    DecodeEncoded(text, codings, codings);
  }

  /** A single coding is undone either way. */
  lemma SingleCodingDecodes(text: string, c: Codec)
    ensures Decode(Encode(text, [c]), [c]) == Ok(Plain(text))
  {
    assert [c][..0] == [];
  }

  /**
   * With two different codings, applying the decoders in listed order fails:
   * a body sent with "Content-Encoding: gzip, deflate" is read through the
   * gzip decoder first although deflate was applied last.
   */
  lemma ListedOrderFailsOnTwoCodings(text: string)
    ensures Decode(Encode(text, [Gzip, Deflate]), [Gzip, Deflate]) == Throws(IO)
    ensures Decode(Encode(text, [Gzip, Deflate]), Reverse([Gzip, Deflate])) == Ok(Plain(text))
  {
    assert [Gzip, Deflate][..1] == [Gzip];
    assert [Gzip][..0] == [];
    DecodeReversedRoundTrip(text, [Gzip, Deflate]);
  }

  lemma EncodeEntityTwoCodings(e: Entity)
    requires e.contentLength != 0
    requires e.contentEncoding.Some? && Elements(ValueOf(e.contentEncoding.value)) == ["gzip", "deflate"]
    ensures EncodeEntityAsWritten(e) == Ok([Gzip, Deflate])
    ensures EncodeEntity(e) == Ok([Deflate, Gzip])
  {
    DecodersOfGzipDeflate();
    EncodeListedElements(e, ["gzip", "deflate"], [Gzip, Deflate]);
    assert Reverse([Gzip, Deflate]) == [Deflate, Gzip];
  }

  lemma DecodersOfDeflate()
    ensures DecodersInListedOrder(["deflate"]) == Ok([Deflate])
  {
    CodingNamesAreLowerCase();
    var c := ["deflate"];
    assert ToLower(c[0]) == "deflate";
    assert "deflate" != "gzip" by { assert "deflate"[0] != "gzip"[0]; }
    assert "deflate" != "x-gzip" by { assert "deflate"[0] != "x-gzip"[0]; }
    assert LookupDecoder("deflate") == Some(Deflate);
    assert c[1..] == [];
    assert DecodersInListedOrder(c[1..]) == Ok([]);
    assert DecodersInListedOrder(c) == Ok([Deflate] + []);
    assert [Deflate] + [] == [Deflate];
  }

  lemma DecodersOfGzipDeflate()
    ensures DecodersInListedOrder(["gzip", "deflate"]) == Ok([Gzip, Deflate])
  {
    CodingNamesAreLowerCase();
    DecodersOfDeflate();
    var c := ["gzip", "deflate"];
    assert ToLower(c[0]) == "gzip";
    assert LookupDecoder("gzip") == Some(Gzip);
    assert c[1..] == ["deflate"];
    assert DecodersInListedOrder(c[1..]) == Ok([Deflate]);
    var name := ToLower(c[0]);
    assert name == "gzip";
    assert LookupDecoder(name) == Some(Gzip);
    assert DecodersInListedOrder(c) == Ok([Gzip] + [Deflate]);
    assert [Gzip] + [Deflate] == [Gzip, Deflate];
  }

  lemma CodingNamesAreLowerCase()
    ensures ToLower("gzip") == "gzip" && ToLower("deflate") == "deflate"
  {
    var g := "gzip";
    forall i | 0 <= i < |g| ensures ToLower(g)[i] == g[i] {
      assert !('A' <= g[i] <= 'Z');
    }
    var d := "deflate";
    forall i | 0 <= i < |d| ensures ToLower(d)[i] == d[i] {
      assert !('A' <= d[i] <= 'Z');
    }
  }

  lemma ElementsOfGzipDeflate()
    ensures Elements("gzip,deflate") == ["gzip", "deflate"]
  {
    var parts := ["gzip", "deflate"];
    JoinGzipDeflate();
    GzipDeflatePlain();
    assert forall i :: 0 <= i < |parts| ==> PlainName(parts[i]) && ',' !in parts[i];
    ElementsOfJoinedNames(parts);
  }

  lemma JoinGzipDeflate()
    ensures Join(["gzip", "deflate"], [',']) == "gzip,deflate"
  {
    var parts := ["gzip", "deflate"];
    assert parts[1..] == ["deflate"];
    assert Join(parts[1..], [',']) == "deflate";
    assert Join(parts, [',']) == "gzip" + [','] + "deflate";
  }

  lemma GzipDeflatePlain()
    ensures PlainName("gzip") && ',' !in "gzip"
    ensures PlainName("deflate") && ',' !in "deflate"
  {
  }

  /** A coding name without parameters, values or surrounding space. */
  predicate PlainName(n: string)
  {
    n != "" && ';' !in n && '=' !in n && !IsHttpSpace(n[0]) && !IsHttpSpace(n[|n| - 1])
  }

  /** Plain names come through `getElements()` unchanged. */
  lemma {:induction false} PlainNamesKept(names: seq<string>)
    requires forall i :: 0 <= i < |names| ==> PlainName(names[i])
    ensures ElementNames(names) == names
  {
    if |names| > 0 {
      NameWithoutParameters(names[0]);
      PlainNamesKept(names[1..]);
      assert [names[0]] + names[1..] == names;
    }
  }

  lemma EncodeListedElements(e: Entity, names: seq<string>, decoders: seq<Codec>)
    requires e.contentLength != 0 && e.contentEncoding.Some?
    requires Elements(ValueOf(e.contentEncoding.value)) == names
    requires DecodersInListedOrder(names) == Ok(decoders)
    ensures EncodeEntityAsWritten(e) == Ok(decoders)
    ensures EncodeEntity(e) == Ok(Reverse(decoders))
  {
  }

  lemma SplitGzipDeflate()
    ensures Split("gzip,deflate", ',') == ["gzip", "deflate"]
  {
    var parts := ["gzip", "deflate"];
    JoinGzipDeflate();
    SplitJoin(parts, ',');
  }

  lemma NameWithoutParameters(n: string)
    requires PlainName(n)
    ensures ElementName(n) == n && !HasValue(n)
  {
    assert Split(n, ';') == [n];
    assert Split(n, '=') == [n];
  }

  // ---------------------------------------------------------------------
  // WARC records
  // ---------------------------------------------------------------------

  /** An HTTP response parsed from a record's content. */
  datatype HttpResponse = HttpResponse(headers: seq<Header>, length: int, body: Payload)

  /**
   * A WARC record: its named header fields and its content, which is either
   * an HTTP response the parser accepts or `None` when parsing fails.
   */
  datatype WarcRecord = WarcRecord(fields: map<string, string>, http: Option<HttpResponse>)

  /** `getHeaderMetadataItem(name)`: null when the record has no such field. */
  function GetHeader(r: WarcRecord, name: string): Option<string>
  {
    if name in r.fields then Some(r.fields[name]) else None
  }

  /** `getDate(record)`: absent is a null dereference, malformed a parse error. */
  function GetDate(r: WarcRecord, parse: string -> Option<Instant>): (d: Outcome<Instant>)
    ensures GetHeader(r, HEADER_DATE).None? ==> d == Throws(NullPointer)
    ensures GetHeader(r, HEADER_DATE).Some? ==>
      (d.Ok? <==> parse(GetHeader(r, HEADER_DATE).value).Some?) &&
      (d.Ok? ==> Some(d.value) == parse(GetHeader(r, HEADER_DATE).value)) &&
      (d.Throws? ==> d.error == DateTimeParse)
  {
    match GetHeader(r, HEADER_DATE)
    case None => Throws(NullPointer)
    case Some(text) =>
      match parse(text)
      case None => Throws(DateTimeParse)
      case Some(t) => Ok(t)
  }

  /** A parsed response with the entity and the decoders stacked on it. */
  datatype Response = Response(headers: seq<Header>, entity: Entity, decoders: seq<Codec>, body: Payload)

  /** `removeHeaders(name)`: every header of that name goes, the others stay in order. */
  function RemoveHeaders(hs: seq<Header>, name: string): (r: seq<Header>)
    ensures forall i :: 0 <= i < |r| ==> !NameIs(r[i], name)
    ensures |r| <= |hs|
  {
    if |hs| == 0 then []
    else (if NameIs(hs[0], name) then [] else [hs[0]]) + RemoveHeaders(hs[1..], name)
  }

  /** A header survives the removal exactly when it was there under another name. */
  lemma {:induction false} RemoveHeadersMember(hs: seq<Header>, name: string, h: Header)
    ensures h in RemoveHeaders(hs, name) <==> h in hs && !NameIs(h, name)
  {
    if |hs| > 0 {
      RemoveHeadersMember(hs[1..], name, h);
      assert hs == [hs[0]] + hs[1..];
    }
  }

  /** Removing twice removes nothing more. */
  lemma {:induction false} RemoveHeadersIdempotent(hs: seq<Header>, name: string)
    ensures RemoveHeaders(RemoveHeaders(hs, name), name) == RemoveHeaders(hs, name)
  {
    if |hs| > 0 {
      RemoveHeadersIdempotent(hs[1..], name);
      var rest := RemoveHeaders(hs[1..], name);
      if NameIs(hs[0], name) {
        assert RemoveHeaders(hs, name) == rest;
      } else {
        var once := [hs[0]] + rest;
        assert RemoveHeaders(hs, name) == once;
        assert once[0] == hs[0] && once[1..] == rest;
        assert RemoveHeaders(once, name) == [hs[0]] + RemoveHeaders(rest, name);
      }
    }
  }

  /**
   * The headers a stacked decoder makes stale: length, coding and digest
   * of the coded body; the response loses them once any decoder is stacked.
   */
  function StripCodingHeaders(hs: seq<Header>): seq<Header>
  {
    RemoveHeaders(RemoveHeaders(RemoveHeaders(hs, HTTP_HEADER_CONTENT_LENGTH), HTTP_HEADER_CONTENT_ENCODING),
                  HTTP_HEADER_CONTENT_MD5)
  }

  /** One of the headers a stacked decoder makes stale. */
  predicate IsCodingHeader(h: Header)
  {
    NameIs(h, HTTP_HEADER_CONTENT_LENGTH) || NameIs(h, HTTP_HEADER_CONTENT_ENCODING) || NameIs(h, HTTP_HEADER_CONTENT_MD5)
  }

  /** Stripping keeps exactly the headers that are not coding headers. */
  lemma StripCodingHeadersMember(hs: seq<Header>, h: Header)
    ensures h in StripCodingHeaders(hs) <==> h in hs && !IsCodingHeader(h)
  {
    var a := RemoveHeaders(hs, HTTP_HEADER_CONTENT_LENGTH);
    var b := RemoveHeaders(a, HTTP_HEADER_CONTENT_ENCODING);
    RemoveHeadersMember(hs, HTTP_HEADER_CONTENT_LENGTH, h);
    RemoveHeadersMember(a, HTTP_HEADER_CONTENT_ENCODING, h);
    RemoveHeadersMember(b, HTTP_HEADER_CONTENT_MD5, h);
  }

  /** The last header of a name, after one more header is added at the end. */
  lemma LastHeaderSnoc(hs: seq<Header>, h: Header, name: string)
    ensures LastHeader(hs + [h], name) == if NameIs(h, name) then Some(h) else LastHeader(hs, name)
  {
    assert (hs + [h])[..|hs|] == hs;
  }

  /** Removing headers of another name leaves the last header of a name in place. */
  lemma {:induction false} LastHeaderAfterRemove(hs: seq<Header>, name: string, other: string)
    requires ToLower(name) != ToLower(other)
    ensures LastHeader(RemoveHeaders(hs, other), name) == LastHeader(hs, name)
    decreases |hs|
  {
    if |hs| > 0 {
      var n := |hs| - 1;
      var init, x := hs[..n], hs[n];
      assert init + [x] == hs;
      var kept := RemoveHeaders(init, other);
      RemoveHeadersSnoc(init, x, other);
      LastHeaderAfterRemove(init, name, other);
      LastHeaderSnoc(init, x, name);
      if NameIs(x, other) {
        assert !NameIs(x, name);
        assert kept + [] == kept;
        assert RemoveHeaders(hs, other) == kept;
      } else {
        assert RemoveHeaders(hs, other) == kept + [x];
        LastHeaderSnoc(kept, x, name);
      }
    }
  }

  lemma {:induction false} RemoveHeadersSnoc(hs: seq<Header>, h: Header, name: string)
    ensures RemoveHeaders(hs + [h], name) == RemoveHeaders(hs, name) + (if NameIs(h, name) then [] else [h])
    decreases |hs|
  {
    if |hs| > 0 {
      assert (hs + [h])[1..] == hs[1..] + [h];
      RemoveHeadersSnoc(hs[1..], h, name);
    }
  }

  lemma ContentTypeIsNoCodingHeader()
    ensures ToLower(HTTP_HEADER_CONTENT_TYPE) != ToLower(HTTP_HEADER_CONTENT_LENGTH)
    ensures ToLower(HTTP_HEADER_CONTENT_TYPE) != ToLower(HTTP_HEADER_CONTENT_ENCODING)
    ensures ToLower(HTTP_HEADER_CONTENT_TYPE) != ToLower(HTTP_HEADER_CONTENT_MD5)
  {
    assert ToLower(HTTP_HEADER_CONTENT_TYPE)[8] == 't';
    assert ToLower(HTTP_HEADER_CONTENT_LENGTH)[8] == 'l';
    assert ToLower(HTTP_HEADER_CONTENT_ENCODING)[8] == 'e';
    assert ToLower(HTTP_HEADER_CONTENT_MD5)[8] == 'm';
  }

  /** Whether headers are HTML depends on their last Content-Type header alone. */
  lemma IsHtmlByLastHeader(hs: seq<Header>, gs: seq<Header>)
    requires LastHeader(hs, HTTP_HEADER_CONTENT_TYPE) == LastHeader(gs, HTTP_HEADER_CONTENT_TYPE)
    ensures IsHtml(Some(hs)) == IsHtml(Some(gs))
  {
  }

  /** Stripping the coding headers, as stacking a decoder does, does not change whether the response is HTML. */
  lemma IsHtmlAfterStrip(hs: seq<Header>)
    ensures IsHtml(Some(StripCodingHeaders(hs))) == IsHtml(Some(hs))
  {
    ContentTypeIsNoCodingHeader();
    var a := RemoveHeaders(hs, HTTP_HEADER_CONTENT_LENGTH);
    var b := RemoveHeaders(a, HTTP_HEADER_CONTENT_ENCODING);
    LastHeaderAfterRemove(hs, HTTP_HEADER_CONTENT_TYPE, HTTP_HEADER_CONTENT_LENGTH);
    LastHeaderAfterRemove(a, HTTP_HEADER_CONTENT_TYPE, HTTP_HEADER_CONTENT_ENCODING);
    LastHeaderAfterRemove(b, HTTP_HEADER_CONTENT_TYPE, HTTP_HEADER_CONTENT_MD5);
    IsHtmlByLastHeader(StripCodingHeaders(hs), hs);
  }

  /** The response built once the decoders are known. */
  function Stack(m: HttpResponse, entity: Entity, decoders: seq<Codec>): (resp: Response)
    ensures resp.entity == entity && resp.decoders == decoders && resp.body == m.body
    ensures |decoders| == 0 ==> resp.headers == m.headers
    ensures forall h :: h in resp.headers <==> h in m.headers && (|decoders| > 0 ==> !IsCodingHeader(h))
    ensures IsHtml(Some(resp.headers)) == IsHtml(Some(m.headers))
  {
    IsHtmlAfterStrip(m.headers);
    assert forall h :: h in StripCodingHeaders(m.headers) <==> h in m.headers && !IsCodingHeader(h) by {
      forall h ensures h in StripCodingHeaders(m.headers) <==> h in m.headers && !IsCodingHeader(h) {
        StripCodingHeadersMember(m.headers, h);
      }
    }
    Response(if |decoders| == 0 then m.headers else StripCodingHeaders(m.headers), entity, decoders, m.body)
  }

  /** The response of a record, given how decoders are stacked on an entity. */
  function ResponseWith(r: WarcRecord, decodersOf: Entity -> Outcome<seq<Codec>>): Outcome<Option<Response>>
  {
    match GetHeader(r, HEADER_TYPE)
    case None => Throws(NullPointer)
    case Some(t) =>
      if t != HEADER_TYPE_RESPONSE then Ok(None)
      else match r.http
        case None => Throws(Http)
        case Some(m) =>
          var entity := GetEntity(m.headers, m.length);
          match decodersOf(entity)
          case Throws(e) => Throws(e)
          case Ok(decoders) => Ok(Some(Stack(m, entity, decoders)))
  }

  /** The record is a response record whose content parsed as an HTTP response. */
  predicate IsParsedResponse(r: WarcRecord)
  {
    GetHeader(r, HEADER_TYPE) == Some(HEADER_TYPE_RESPONSE) && r.http.Some?
  }

  /**
   * `toResponse(record)` as written: null for records that are not
   * responses, a parse failure for content that is not an HTTP response,
   * otherwise the response with its entity and the decoders of the listed
   * codings, applied first-listed first.
   */
  function ToResponseAsWritten(r: WarcRecord): (resp: Outcome<Option<Response>>)
    ensures GetHeader(r, HEADER_TYPE).None? ==> resp == Throws(NullPointer)
    ensures GetHeader(r, HEADER_TYPE).Some? && GetHeader(r, HEADER_TYPE).value != HEADER_TYPE_RESPONSE ==> resp == Ok(None)
    ensures GetHeader(r, HEADER_TYPE) == Some(HEADER_TYPE_RESPONSE) && r.http.None? ==> resp == Throws(Http)
    ensures IsParsedResponse(r) ==>
      var m := r.http.value;
      var e := GetEntity(m.headers, m.length);
      (resp.Throws? <==> EncodeEntityAsWritten(e).Throws?) && (resp.Throws? ==> resp.error == Http) &&
      (resp.Ok? ==> resp.value.Some? && resp.value.value == Stack(m, e, EncodeEntityAsWritten(e).value))
  {
    ResponseWith(r, EncodeEntityAsWritten)
  }

  /**
   * `toResponse(record)` with the decoders stacked last-listed first, so that
   * they undo the listed codings.
   */
  function ToResponse(r: WarcRecord): (resp: Outcome<Option<Response>>)
    ensures GetHeader(r, HEADER_TYPE).None? ==> resp == Throws(NullPointer)
    ensures GetHeader(r, HEADER_TYPE).Some? && GetHeader(r, HEADER_TYPE).value != HEADER_TYPE_RESPONSE ==> resp == Ok(None)
    ensures GetHeader(r, HEADER_TYPE) == Some(HEADER_TYPE_RESPONSE) && r.http.None? ==> resp == Throws(Http)
    ensures IsParsedResponse(r) ==>
      var m := r.http.value;
      var e := GetEntity(m.headers, m.length);
      (resp.Throws? <==> EncodeEntityAsWritten(e).Throws?) && (resp.Throws? ==> resp.error == Http) &&
      (resp.Ok? ==> resp.value.Some? && resp.value.value == Stack(m, e, EncodeEntity(e).value))
  {
    ResponseWith(r, EncodeEntity)
  }

  function HeadersOf(resp: Option<Response>): Option<seq<Header>>
  {
    if resp.None? then None else Some(resp.value.headers)
  }

  /**
   * The HTML text of a response: none for no response or a response that is
   * not HTML, the body read through the decoders otherwise.
   */
  function HtmlOf(resp: Option<Response>): (html: Outcome<Option<string>>)
    ensures resp.None? ==> html == Ok(None)
    ensures resp.Some? ==>
      var isHtml := IsHtml(Some(resp.value.headers));
      var body := Decode(resp.value.body, resp.value.decoders);
      (isHtml.Throws? ==> html == Throws(NullPointer)) &&
      (isHtml == Ok(false) ==> html == Ok(None)) &&
      (isHtml == Ok(true) && body.Ok? ==> html == Ok(Some(TextOf(body.value)))) &&
      (isHtml == Ok(true) && body.Throws? ==> html == Throws(IO))
  {
    var isHtml :- IsHtml(HeadersOf(resp));
    if !isHtml then Ok(None)
    else
      var p :- Decode(resp.value.body, resp.value.decoders);
      Ok(Some(TextOf(p)))
  }

  /**
   * `getHtml(record)` as written: the decoded text of an HTML response, null
   * for any other record; the exceptions of parsing and decoding pass through.
   */
  function GetHtmlAsWritten(r: WarcRecord): (html: Outcome<Option<string>>)
    ensures ToResponseAsWritten(r).Throws? ==> html == Throws(ToResponseAsWritten(r).error)
    ensures ToResponseAsWritten(r) == Ok(None) ==> html == Ok(None)
    ensures ToResponseAsWritten(r).Ok? && ToResponseAsWritten(r).value.Some? ==>
      var resp := ToResponseAsWritten(r).value.value;
      var body := Decode(resp.body, resp.decoders);
      IsHtml(Some(resp.headers)) == Ok(true) && body.Ok? ==> html == Ok(Some(TextOf(body.value)))
  {
    var resp :- ToResponseAsWritten(r);
    HtmlOf(resp)
  }

  /** `getHtml(record)` with the decoders stacked last-listed first. */
  function GetHtml(r: WarcRecord): (html: Outcome<Option<string>>)
    ensures ToResponse(r).Throws? ==> html == Throws(ToResponse(r).error)
    ensures ToResponse(r) == Ok(None) ==> html == Ok(None)
    ensures html.Ok? && html.value.Some? ==>
      ToResponse(r).Ok? && ToResponse(r).value.Some? && IsHtml(HeadersOf(ToResponse(r).value)) == Ok(true)
    ensures ToResponse(r).Ok? && ToResponse(r).value.Some? ==>
      var resp := ToResponse(r).value.value;
      var body := Decode(resp.body, resp.decoders);
      IsHtml(Some(resp.headers)) == Ok(true) && body.Ok? ==> html == Ok(Some(TextOf(body.value)))
  {
    var resp :- ToResponse(r);
    HtmlOf(resp)
  }

  /**
   * What a coding writes in front of the content, as far as the model
   * needs the coded bytes: a NUL and the coding's name, so that a body
   * still coded never reads as the text inside it.
   */
  function CodingMark(c: Codec): (m: string)
    ensures |m| > 0
  {
    match c
    case Gzip => "\0gzip:"
    case Deflate => "\0deflate:"
  }

  /**
   * `EntityUtils.toString`: the text the entity reads as. A body still
   * coded reads as its coded bytes, not as the text inside.
   */
  function TextOf(p: Payload): string
  {
    match p
    case Plain(t) => t
    case Coded(c, inner) => CodingMark(c) + TextOf(inner)
  }

  /**
   * Reading a body without undoing its codings gives the text back only
   * when no coding was applied; each coding left in place lengthens it.
   */
  lemma {:induction false} TextOfEncoded(text: string, codings: seq<Codec>)
    ensures |TextOf(Encode(text, codings))| >= |text| + |codings|
    ensures TextOf(Encode(text, codings)) == text <==> |codings| == 0
    decreases |codings|
  {
    if |codings| > 0 {
      TextOfEncoded(text, codings[..|codings| - 1]);
    }
  }

  /**
   * A response whose body was coded with the codings its Content-Encoding
   * header lists reads back as the original text; as written, it does so
   * only when the listed codings read the same both ways, and otherwise
   * fails with an I/O error.
   */
  lemma GetHtmlReadsEncodedText(r: WarcRecord, text: string, codings: seq<Codec>)
    requires IsParsedResponse(r)
    requires IsHtml(Some(r.http.value.headers)) == Ok(true)
    requires EncodeEntityAsWritten(GetEntity(r.http.value.headers, r.http.value.length)) == Ok(codings)
    requires r.http.value.body == Encode(text, codings)
    ensures GetHtml(r) == Ok(Some(text))
    ensures GetHtmlAsWritten(r) == if codings == Reverse(codings) then Ok(Some(text)) else Throws(IO)
  {
    DecodeEncoded(text, codings, Reverse(codings));
    ListedOrderDecodesIffPalindrome(text, codings);
  }

  /**
   * A coded body whose codings the headers do not list is read without
   * decoding: the HTML is the coded bytes, which are the text only when no
   * coding was applied.
   */
  lemma GetHtmlReadsUndecodedBody(r: WarcRecord, text: string, codings: seq<Codec>)
    requires IsParsedResponse(r)
    requires IsHtml(Some(r.http.value.headers)) == Ok(true)
    requires EncodeEntityAsWritten(GetEntity(r.http.value.headers, r.http.value.length)) == Ok([])
    requires r.http.value.body == Encode(text, codings)
    ensures GetHtml(r) == Ok(Some(TextOf(Encode(text, codings))))
    ensures GetHtmlAsWritten(r) == GetHtml(r)
    ensures GetHtml(r) == Ok(Some(text)) <==> |codings| == 0
  {
    TextOfEncoded(text, codings);
  }

  /** A record whose HTTP headers list "gzip,deflate" and whose body was coded so. */
  predicate IsGzipDeflateHtml(r: WarcRecord, text: string)
  {
    IsParsedResponse(r) && r.http.value.length != 0 &&
    FirstHeader(r.http.value.headers, HTTP_HEADER_CONTENT_ENCODING) ==
      Some(Header(HTTP_HEADER_CONTENT_ENCODING, Some("gzip,deflate"))) &&
    IsHtml(Some(r.http.value.headers)) == Ok(true) &&
    r.http.value.body == Encode(text, [Gzip, Deflate])
  }

  /** With the decoders stacked last-listed first, such a body reads back as the text. */
  lemma GetHtmlDecodesCodedBody(r: WarcRecord, text: string)
    requires IsGzipDeflateHtml(r, text)
    ensures GetHtml(r) == Ok(Some(text))
  {
    var e := GetEntity(r.http.value.headers, r.http.value.length);
    ElementsOfGzipDeflate();
    EncodeEntityTwoCodings(e);
    GetHtmlReadsEncodedText(r, text, [Gzip, Deflate]);
  }

  /** As written, reading such a body fails with an I/O error. */
  lemma GetHtmlAsWrittenFailsOnTwoCodings(r: WarcRecord, text: string)
    requires IsGzipDeflateHtml(r, text)
    ensures GetHtmlAsWritten(r) == Throws(IO)
  {
    var e := GetEntity(r.http.value.headers, r.http.value.length);
    ElementsOfGzipDeflate();
    EncodeEntityTwoCodings(e);
    assert Reverse([Gzip, Deflate]) == [Deflate, Gzip];
    GetHtmlReadsEncodedText(r, text, [Gzip, Deflate]);
  }
}

=== FILE: waspindex.dfy ===
/**
 * The indexing half of the wasp index: storing pages, revisit pointers and
 * requests, each keyed by WARC record id, and resolving an id to its page.
 */
module WaspIndex {
  import opened Common
  import opened Records
  import opened Store
  import Window

  /** `resolveConcurrentId`: the id of the page an id stands for, or null. */
  function ResolveConcurrentId(s: Store, id: Id): (r: Outcome<Option<Id>>)
    ensures r.Throws? <==> Resolve(s, id).Diverges?
    ensures r.Throws? ==> r.error == StackOverflow
    ensures r == Ok(None) <==> Resolve(s, id).NotFound?
    ensures r.Ok? && r.value.Some? ==> r.value.value in s && s[r.value.value].Page?
  {
    match Resolve(s, id)
    case Found(p) => Ok(Some(p))
    case NotFound => Ok(None)
    case Diverges => Throws(StackOverflow)
  }

  /**
   * `indexResponse(id, content, title)`: writes a fresh page (no requests)
   * under the id, replacing whatever was stored there; always answers true.
   */
  function IndexResponse(s: Store, id: Option<Id>, content: string, title: string): (r: Outcome<(Store, bool)>)
    ensures r.Ok? <==> id.Some?
    ensures r.Throws? ==> r.error == NullPointer
    ensures r.Ok? ==> r.value.1
    ensures r.Ok? ==> r.value.0.Keys == s.Keys + {id.value}
    ensures r.Ok? ==> r.value.0[id.value] == Page(Some(title), content, [])
    ensures r.Ok? ==> forall k :: k in s && k != id.value ==> r.value.0[k] == s[k]
  {
    if id.None? then Throws(NullPointer)
    else Ok((s[id.value := Page(Some(title), content, [])], true))
  }

  /**
   * `indexRevisit(id, responseId)`: if `responseId` resolves to a page, writes
   * a pointer to `responseId` (not to the resolved page) under `id`; otherwise
   * leaves the index alone and answers false.
   */
  function IndexRevisit(s: Store, id: Option<Id>, responseId: Id): (r: Outcome<(Store, bool)>)
    ensures r.Throws? <==> Resolve(s, responseId).Diverges? || (Resolve(s, responseId).Found? && id.None?)
    ensures r.Throws? && Resolve(s, responseId).Diverges? ==> r.error == StackOverflow
    ensures r == Ok((s, false)) <==> Resolve(s, responseId).NotFound?
    ensures r.Ok? && r.value.1 ==>
      r.value.0.Keys == s.Keys + {id.value} && r.value.0[id.value] == Revisit(responseId) &&
      forall k :: k in s && k != id.value ==> r.value.0[k] == s[k]
  {
    match Resolve(s, responseId)
    case Diverges => Throws(StackOverflow)
    case NotFound => Ok((s, false))
    case Found(_) =>
      if id.None? then Throws(NullPointer)
      else Ok((s[id.value := Revisit(responseId)], true))
  }

  /**
   * `indexRequest(concurrentId, uri, instant)`: appends the request to the page
   * the concurrent id resolves to; answers false, changing nothing, when
   * there is no such page.
   */
  function IndexRequest(s: Store, concurrentId: Id, uri: Option<Uri>, instant: Instant): (r: Outcome<(Store, bool)>)
    ensures r.Throws? <==> Resolve(s, concurrentId).Diverges? || (Resolve(s, concurrentId).Found? && uri.None?)
    ensures r == Ok((s, false)) <==> Resolve(s, concurrentId).NotFound?
    ensures r.Ok? && r.value.1 ==>
      var p := Resolve(s, concurrentId).id;
      var s' := r.value.0;
      s'.Keys == s.Keys && s'[p].Page? &&
      s'[p].requests == s[p].requests + [RequestRecord(uri.value, instant)] &&
      forall k :: k in s && k != p ==> s'[k] == s[k]
  {
    match Resolve(s, concurrentId)
    case Diverges => Throws(StackOverflow)
    case NotFound => Ok((s, false))
    case Found(p) =>
      match NewRequestRecord(uri, Some(instant))
      case Throws(e) => Throws(e)
      case Ok(rec) => Ok((AppendRequest(s, p, rec), true))
  }

  /** A freshly indexed page resolves to itself and has no request to show yet. */
  lemma IndexedResponseResolves(s: Store, id: Id, content: string, title: string)
    ensures IndexResponse(s, Some(id), content, title).Ok?
    ensures Resolve(IndexResponse(s, Some(id), content, title).value.0, id) == Found(id)
  {
  }

  /**
   * A revisit stored under a new id resolves to the page its target resolves
   * to, and every id that resolved before still resolves alike.
   */
  lemma IndexedRevisitResolves(s: Store, id: Id, responseId: Id, x: Id)
    requires id !in s
    requires Resolve(s, responseId).Found?
    requires Resolve(s, x).Found?
    ensures IndexRevisit(s, Some(id), responseId).Ok?
    ensures var s' := IndexRevisit(s, Some(id), responseId).value.0;
      Resolve(s', id) == Resolve(s, responseId) && Resolve(s', x) == Resolve(s, x)
  {
    var s' := s[id := Revisit(responseId)];
    ResolveRevisit(s', id, responseId);
    ResolveFresh(s, id, Revisit(responseId), responseId, {});
    ResolveFresh(s, id, Revisit(responseId), x, {});
  }

  /**
   * Indexing a request changes no resolution, keeps every earlier request
   * of every page, and makes the new request the one shown for any window
   * containing its instant.
   */
  lemma IndexedRequestPreserves(s: Store, concurrentId: Id, uri: Uri, instant: Instant,
                                from: Option<Instant>, to: Option<Instant>)
    requires Resolve(s, concurrentId).Found?
    ensures IndexRequest(s, concurrentId, Some(uri), instant).Ok?
    ensures var s' := IndexRequest(s, concurrentId, Some(uri), instant).value.0;
      RequestsGrow(s, s') && (forall x :: Resolve(s', x) == Resolve(s, x))
    ensures var s' := IndexRequest(s, concurrentId, Some(uri), instant).value.0;
      var p := Resolve(s, concurrentId).id;
      Window.InWindow(instant, from, to) ==>
        Window.Select(s'[p].requests, from, to) == Ok(RequestRecord(uri, instant))
  {
    var p := Resolve(s, concurrentId).id;
    var rec := RequestRecord(uri, instant);
    AppendRequestPreserves(s, p, rec);
    if Window.InWindow(instant, from, to) {
      Window.AppendedInWindowIsSelected(s[p].requests, rec, from, to);
    }
  }

  /** A request whose response has not been indexed (yet) is dropped. */
  lemma RequestWithoutResponseDropped(s: Store, concurrentId: Id, uri: Option<Uri>, instant: Instant)
    requires concurrentId !in s
    ensures IndexRequest(s, concurrentId, uri, instant) == Ok((s, false))
  {
  }

  /**
   * The ingest order of a WARC file: a response, its request, a later
   * revisit of it and the revisit's request. Both requests end up, in order,
   * on the one page.
   */
  lemma RevisitRequestsReachOriginal(r1: Id, v1: Id, content: string, title: string,
                                     u1: Uri, t1: Instant, u2: Uri, t2: Instant)
    requires r1 != v1
    ensures var s0: Store := map[];
      var s1 := IndexResponse(s0, Some(r1), content, title).value.0;
      var s2 := IndexRequest(s1, r1, Some(u1), t1).value.0;
      var s3 := IndexRevisit(s2, Some(v1), r1).value.0;
      var out := IndexRequest(s3, v1, Some(u2), t2);
      out.Ok? && out.value.1 &&
      out.value.0[r1] == Page(Some(title), content, [RequestRecord(u1, t1), RequestRecord(u2, t2)])
  {
    var s0: Store := map[];
    var s1 := IndexResponse(s0, Some(r1), content, title).value.0;
    var s2 := IndexRequest(s1, r1, Some(u1), t1).value.0;
    var s3 := IndexRevisit(s2, Some(v1), r1).value.0;
    ResolveRevisit(s3, v1, r1);
  }

  /**
   * Two revisits written against each other's ids make a pointer cycle;
   * every later lookup of either id then never ends.
   */
  lemma RevisitCycleDiverges(a: Id, b: Id, content: string, title: string, uri: Uri, t: Instant)
    requires a != b
    ensures var s0: Store := map[a := Page(Some(title), content, [])];
      var s1 := IndexRevisit(s0, Some(b), a).value.0;
      var out := IndexRevisit(s1, Some(a), b);
      out.Ok? && out.value.1 &&
      Resolve(out.value.0, a) == Diverges && IndexRequest(out.value.0, b, Some(uri), t) == Throws(StackOverflow)
  {
    var s0: Store := map[a := Page(Some(title), content, [])];
    var s1 := s0[b := Revisit(a)];
    ResolveRevisit(s1, b, a);
    var s2 := s1[a := Revisit(b)];
    assert Resolve(s2, a) == ResolveFrom(s2, b, {} + {a});
    assert {} + {a} == {a};
    assert ResolveFrom(s2, b, {a}) == ResolveFrom(s2, a, {a} + {b});
    ResolveRevisit(s2, b, a);
  }
}

=== FILE: watchers.dfy ===
/**
 * The archive watchers: at startup they plan which existing files to read
 * to completion and which one to tail, and afterwards they tail every file
 * the directory reports as created. The directory listing, the watch
 * service and the reader threads are inputs: a listing is a sequence of
 * files with modification times, a reader is named by its creation number.
 *
 * Four generations exist: the wasp watcher (`wasp.warcs`), the gated and
 * the unconditional older watchers (`warc.read`, `warc`) and the raw-order
 * watcher (`wasp.warc`).
 */
module Watchers {
  import opened Common

  // ---------------------------------------------------------------------
  // Ordering the directory listing
  // ---------------------------------------------------------------------

  datatype FileEntry = FileEntry(name: string, lastModified: int)

  ghost predicate SortedByModified(fs: seq<FileEntry>)
  {
    forall i, j :: 0 <= i < j < |fs| ==> fs[i].lastModified <= fs[j].lastModified
  }

  /** Puts `f` before the first entry that is not older than it. */
  function InsertByModified(f: FileEntry, fs: seq<FileEntry>): (r: seq<FileEntry>)
    requires SortedByModified(fs)
    ensures SortedByModified(r)
    ensures multiset(r) == multiset(fs) + multiset{f}
  {
    if |fs| == 0 then [f]
    else if f.lastModified <= fs[0].lastModified then
      [f] + fs
    else
      var rest := InsertByModified(f, fs[1..]);
      assert fs == [fs[0]] + fs[1..];
      LowerBoundKept(fs[0], f, fs[1..], rest);
      ConsSorted(fs[0], rest);
      [fs[0]] + rest
  }

  /** Every entry of a permutation of `fs` plus `f` is at least as new as `x` when they all are. */
  lemma LowerBoundKept(x: FileEntry, f: FileEntry, fs: seq<FileEntry>, r: seq<FileEntry>)
    requires multiset(r) == multiset(fs) + multiset{f}
    requires x.lastModified <= f.lastModified
    requires forall k :: 0 <= k < |fs| ==> x.lastModified <= fs[k].lastModified
    ensures forall k :: 0 <= k < |r| ==> x.lastModified <= r[k].lastModified
  {
    forall k | 0 <= k < |r| ensures x.lastModified <= r[k].lastModified {
      assert r[k] in multiset(r);
      if r[k] != f {
        assert r[k] in multiset(fs);
        var j :| 0 <= j < |fs| && fs[j] == r[k];
      }
    }
  }

  lemma ConsSorted(x: FileEntry, r: seq<FileEntry>)
    requires SortedByModified(r)
    requires forall k :: 0 <= k < |r| ==> x.lastModified <= r[k].lastModified
    ensures SortedByModified([x] + r)
  {
    var s := [x] + r;
    forall i, j | 0 <= i < j < |s| ensures s[i].lastModified <= s[j].lastModified {
      assert s[j] == r[j - 1];
      if i > 0 {
        assert s[i] == r[i - 1];
      }
    }
  }

  /**
   * `Arrays.sort` with a comparator on `lastModified`: a permutation of the
   * listing in ascending modification time.
   */
  function SortByModified(fs: seq<FileEntry>): (r: seq<FileEntry>)
    ensures SortedByModified(r)
    ensures multiset(r) == multiset(fs)
    ensures |r| == |fs|
    ensures forall t :: WithTime(r, t) == WithTime(fs, t)
  {
    if |fs| == 0 then []
    else
      assert fs == [fs[0]] + fs[1..];
      var rest := SortByModified(fs[1..]);
      InsertWithTime(fs[0], rest);
      WithTimeCons(fs[0], fs[1..]);
      InsertByModified(fs[0], rest)
  }

  /** The entries modified at time `t`, in their order. */
  function WithTime(fs: seq<FileEntry>, t: int): (r: seq<FileEntry>)
    ensures |r| <= |fs|
  {
    if |fs| == 0 then []
    else (if fs[0].lastModified == t then [fs[0]] else []) + WithTime(fs[1..], t)
  }

  lemma WithTimeCons(f: FileEntry, fs: seq<FileEntry>)
    ensures forall t :: WithTime([f] + fs, t) == (if f.lastModified == t then [f] else []) + WithTime(fs, t)
  {
    assert ([f] + fs)[1..] == fs;
  }

  /**
   * Inserting goes before every entry of the same time: among equally new
   * entries the inserted one comes first, and the others keep their order.
   */
  lemma {:induction false} InsertWithTime(f: FileEntry, fs: seq<FileEntry>)
    requires SortedByModified(fs)
    ensures forall t :: WithTime(InsertByModified(f, fs), t) == (if f.lastModified == t then [f] else []) + WithTime(fs, t)
  {
    if |fs| > 0 && f.lastModified > fs[0].lastModified {
      assert SortedByModified(fs[1..]);
      InsertWithTime(f, fs[1..]);
      var rest := InsertByModified(f, fs[1..]);
      assert InsertByModified(f, fs) == [fs[0]] + rest;
      WithTimeCons(fs[0], rest);
      WithTimeCons(fs[0], fs[1..]);
      assert fs == [fs[0]] + fs[1..];
    } else if |fs| > 0 {
      WithTimeCons(f, fs);
    } else {
      WithTimeCons(f, []);
      assert [f] + [] == [f];
    }
  }

  function Names(fs: seq<FileEntry>): (ns: seq<string>)
    ensures |ns| == |fs| && forall i :: 0 <= i < |fs| ==> ns[i] == fs[i].name
  {
    seq(|fs|, i requires 0 <= i < |fs| => fs[i].name)
  }

  // ---------------------------------------------------------------------
  // Startup plans
  // ---------------------------------------------------------------------

  /** A file to tail, and whether its existing records are forwarded. */
  datatype TailSpec = TailSpec(file: string, consumeExisting: bool)

  /** Files read to completion, in this order, then the file tailed, if any. */
  datatype Plan = Plan(replay: seq<string>, tail: Option<TailSpec>)

  /** Replays all but the newest of the sorted files when asked to, and tails the newest. */
  function SortedPlan(listing: seq<FileEntry>, replayOlder: bool, consumeNewest: bool): Plan
  {
    var sorted := SortByModified(listing);
    var n := |sorted|;
    Plan(
      if replayOlder && n >= 2 then Names(sorted[..n - 1]) else [],
      if n >= 1 then Some(TailSpec(sorted[n - 1].name, consumeNewest)) else None)
  }

  /**
   * wasp `initForDirectory`: replays the older files iff existing records are
   * to be read, and tails the newest with that same flag.
   */
  function WaspPlan(listing: seq<FileEntry>, readExistingRecords: bool): (p: Plan)
    ensures |listing| >= 1 <==> p.tail.Some?
    ensures p.tail.Some? ==> p.tail.value.consumeExisting == readExistingRecords
    ensures !readExistingRecords ==> p.replay == []
    ensures readExistingRecords && p.tail.Some? ==>
      p.replay + [p.tail.value.file] == Names(SortByModified(listing))
  {
    var p := SortedPlan(listing, readExistingRecords, readExistingRecords);
    PlanCoversSorted(listing, readExistingRecords);
    p
  }

  /**
   * The gated older watcher: nothing at all unless existing archives are to
   * be read, then the full plan. Its tailing reader forwards everything.
   */
  function GatedPlan(listing: seq<FileEntry>, readExistingArchives: bool): (p: Plan)
    ensures !readExistingArchives ==> p == Plan([], None)
    ensures readExistingArchives ==> p == UnconditionalPlan(listing)
  {
    if readExistingArchives then SortedPlan(listing, true, true) else Plan([], None)
  }

  /** The unconditional older watcher: always the full plan, with a tailing reader that forwards everything. */
  function UnconditionalPlan(listing: seq<FileEntry>): (p: Plan)
    ensures |listing| >= 1 <==> p.tail.Some?
    ensures p.tail.Some? ==> p.tail.value.consumeExisting
    ensures p.tail.Some? ==> p.replay + [p.tail.value.file] == Names(SortByModified(listing))
    ensures p.tail.None? ==> p.replay == []
  {
    var p := SortedPlan(listing, true, true);
    PlanCoversSorted(listing, true);
    p
  }

  /** `wasp.warc` watcher: every entry read to completion in listing order; nothing is tailed. */
  function RawPlan(listing: seq<FileEntry>): (p: Plan)
    ensures p.tail.None?
    ensures |p.replay| == |listing|
    ensures forall i :: 0 <= i < |listing| ==> p.replay[i] == listing[i].name
  {
    Plan(Names(listing), None)
  }

  lemma PlanCoversSorted(listing: seq<FileEntry>, replayOlder: bool)
    ensures var p := SortedPlan(listing, replayOlder, replayOlder);
      replayOlder && p.tail.Some? ==> p.replay + [p.tail.value.file] == Names(SortByModified(listing))
  {
    var sorted := SortByModified(listing);
    if replayOlder && |sorted| >= 1 {
      NamesOfAllButLast(sorted);
    }
  }

  lemma NamesOfAllButLast(fs: seq<FileEntry>)
    requires |fs| >= 1
    ensures Names(fs[..|fs| - 1]) + [fs[|fs| - 1].name] == Names(fs)
  {
    var a := Names(fs[..|fs| - 1]) + [fs[|fs| - 1].name];
    assert forall i :: 0 <= i < |fs| - 1 ==> a[i] == fs[i].name;
    assert a[|fs| - 1] == fs[|fs| - 1].name;
  }

  /** The tailed file is the newest: no listed file was modified later. */
  lemma TailIsNewest(listing: seq<FileEntry>, readExistingRecords: bool)
    requires |listing| >= 1
    ensures forall f :: f in listing ==> f.lastModified <= SortByModified(listing)[|listing| - 1].lastModified
    ensures WaspPlan(listing, readExistingRecords).tail.value.file == SortByModified(listing)[|listing| - 1].name
  {
    var sorted := SortByModified(listing);
    assert multiset(sorted) == multiset(listing);
    forall f | f in listing ensures f.lastModified <= sorted[|sorted| - 1].lastModified {
      assert f in multiset(listing);
      NewestOfSorted(sorted, f);
    }
  }

  /**
   * Of several equally new files, the tailed one is the last of them in the
   * listing, since the sort keeps equally new files in listing order.
   */
  lemma TailIsLastListedOfNewest(listing: seq<FileEntry>, readExistingRecords: bool)
    requires |listing| >= 1
    ensures var newest := SortByModified(listing)[|listing| - 1];
      var ties := WithTime(listing, newest.lastModified);
      |ties| >= 1 && ties[|ties| - 1] == newest &&
      WaspPlan(listing, readExistingRecords).tail.value.file == newest.name
  {
    TiesOfSorted(listing);
    WaspTailIsLastSorted(listing, readExistingRecords);
  }

  lemma TiesOfSorted(listing: seq<FileEntry>)
    requires |listing| >= 1
    ensures var newest := SortByModified(listing)[|listing| - 1];
      var ties := WithTime(listing, newest.lastModified);
      |ties| >= 1 && ties[|ties| - 1] == newest
  {
    var sorted := SortByModified(listing);
    LastOfTies(sorted, WithTime(listing, sorted[|sorted| - 1].lastModified));
  }

  lemma WaspTailIsLastSorted(listing: seq<FileEntry>, readExistingRecords: bool)
    requires |listing| >= 1
    ensures WaspPlan(listing, readExistingRecords).tail == Some(TailSpec(SortByModified(listing)[|listing| - 1].name, readExistingRecords))
  {
  }

  lemma LastOfTies(sorted: seq<FileEntry>, ties: seq<FileEntry>)
    requires |sorted| >= 1 && ties == WithTime(sorted, sorted[|sorted| - 1].lastModified)
    ensures |ties| >= 1 && ties[|ties| - 1] == sorted[|sorted| - 1]
  {
    var n := |sorted|;
    var older, newest := sorted[..n - 1], sorted[n - 1];
    assert older + [newest] == sorted;
    WithTimeSnoc(older, newest, newest.lastModified);
    assert ties == WithTime(older, newest.lastModified) + [newest];
  }

  lemma {:induction false} WithTimeSnoc(fs: seq<FileEntry>, f: FileEntry, t: int)
    ensures WithTime(fs + [f], t) == WithTime(fs, t) + (if f.lastModified == t then [f] else [])
  {
    if |fs| == 0 {
      assert [] + [f] == [f] && [f][1..] == [];
    } else {
      assert (fs + [f])[1..] == fs[1..] + [f];
      WithTimeSnoc(fs[1..], f, t);
    }
  }

  lemma NewestOfSorted(sorted: seq<FileEntry>, f: FileEntry)
    requires SortedByModified(sorted) && f in multiset(sorted)
    ensures f.lastModified <= sorted[|sorted| - 1].lastModified
  {
    var j :| 0 <= j < |sorted| && sorted[j] == f;
    if j < |sorted| - 1 {
      assert sorted[j].lastModified <= sorted[|sorted| - 1].lastModified;
    }
  }

  // ---------------------------------------------------------------------
  // Carrying out a startup plan
  // ---------------------------------------------------------------------

  /**
   * What a startup did: the files read to completion, the file left
   * tailed, and the exception that ended the watcher's constructor, if any.
   */
  datatype Startup = Startup(replayed: seq<string>, tailed: Option<TailSpec>, error: Option<JavaException>)

  /** The files a plan opens, in order: those it replays, then the one it tails. */
  function PlanFiles(p: Plan): seq<string>
  {
    p.replay + (if p.tail.Some? then [p.tail.value.file] else [])
  }

  /** The files a startup opened, in order. */
  function StartedFiles(s: Startup): seq<string>
  {
    s.replayed + (if s.tailed.Some? then [s.tailed.value.file] else [])
  }

  /**
   * Carrying out a plan: each older file is opened and read in turn, then
   * the newest is opened for tailing. A file that cannot be opened ends the
   * startup with IOException, after the files before it.
   */
  function RunPlan(p: Plan, openFails: string -> bool): (s: Startup)
    ensures StartedFiles(s) == Openable(PlanFiles(p), openFails)
    ensures s.error.None? <==> AllOpen(PlanFiles(p), openFails)
    ensures s.error.Some? ==> s.error == Some(IO) && s.tailed.None?
    ensures s.error.None? ==> s.replayed == p.replay && s.tailed == p.tail
  {
    PlanFilesOpenable(p, openFails);
    if !AllOpen(p.replay, openFails) then Startup(Openable(p.replay, openFails), None, Some(IO))
    else if p.tail.Some? && openFails(p.tail.value.file) then Startup(p.replay, None, Some(IO))
    else Startup(p.replay, p.tail, None)
  }

  /** Opening a plan's files goes on to the tailed file only when every replayed file opens. */
  lemma PlanFilesOpenable(p: Plan, openFails: string -> bool)
    ensures Openable(PlanFiles(p), openFails) ==
      if !AllOpen(p.replay, openFails) then Openable(p.replay, openFails)
      else if p.tail.Some? && openFails(p.tail.value.file) then p.replay
      else PlanFiles(p)
    ensures AllOpen(PlanFiles(p), openFails) <==>
      AllOpen(p.replay, openFails) && (p.tail.None? || !openFails(p.tail.value.file))
  {
    var tailFiles := if p.tail.Some? then [p.tail.value.file] else [];
    OpenableAppend(p.replay, tailFiles, openFails);
    if p.tail.Some? {
      OpenableCons(p.tail.value.file, [], openFails);
      assert [p.tail.value.file] + [] == tailFiles;
    }
    assert Openable([], openFails) == [] && AllOpen([], openFails);
    assert p.replay + [] == p.replay;
  }

  /** Without replay, the wasp plan opens the newest file alone. */
  lemma NewestOnlyOpens(listing: seq<FileEntry>, openFails: string -> bool)
    ensures WaspPlan(listing, false).replay == []
    ensures AllOpen(PlanFiles(WaspPlan(listing, false)), openFails) <==>
      |listing| == 0 || !openFails(SortByModified(listing)[|listing| - 1].name)
  {
    var p := WaspPlan(listing, false);
    PlanFilesOpenable(p, openFails);
    assert AllOpen([], openFails);
  }

  /** Replay and tail of the plan that reads the older files are the whole sorted listing. */
  lemma FullPlanFiles(listing: seq<FileEntry>)
    ensures PlanFiles(SortedPlan(listing, true, true)) == Names(SortByModified(listing))
  {
    PlanCoversSorted(listing, true);
    if |listing| == 0 {
      assert Names(SortByModified(listing)) == [];
    }
  }

  /**
   * wasp `initForDirectory`: a directory that cannot be listed is a
   * NullPointerException in the sort; otherwise the files are opened
   * oldest first (the older ones only when existing records are to be
   * read) until one cannot be opened.
   */
  function WaspStartup(listing: Option<seq<FileEntry>>, readExistingRecords: bool, openFails: string -> bool): (s: Startup)
    ensures listing.None? ==> s == Startup([], None, Some(NullPointer))
    ensures listing.Some? && readExistingRecords ==>
      StartedFiles(s) == Openable(Names(SortByModified(listing.value)), openFails) &&
      (s.error.None? <==> AllOpen(Names(SortByModified(listing.value)), openFails))
    ensures listing.Some? && !readExistingRecords ==>
      s.replayed == [] &&
      (s.error.None? <==> |listing.value| == 0 || !openFails(SortByModified(listing.value)[|listing.value| - 1].name))
    ensures listing.Some? && s.error.Some? ==> s.error == Some(IO) && s.tailed.None?
    ensures listing.Some? && s.error.None? ==> s.tailed == WaspPlan(listing.value, readExistingRecords).tail
  {
    match listing
    case None => Startup([], None, Some(NullPointer))
    case Some(entries) =>
      FullPlanFiles(entries);
      NewestOnlyOpens(entries, openFails);
      RunPlan(WaspPlan(entries, readExistingRecords), openFails)
  }

  /**
   * The gated older watcher: without reading existing archives the
   * directory is not even listed; otherwise the unconditional startup.
   */
  function GatedStartup(listing: Option<seq<FileEntry>>, readExistingArchives: bool, openFails: string -> bool): (s: Startup)
    ensures !readExistingArchives ==> s == Startup([], None, None)
    ensures readExistingArchives ==> s == UnconditionalStartup(listing, openFails)
  {
    if readExistingArchives then UnconditionalStartup(listing, openFails) else Startup([], None, None)
  }

  /**
   * The unconditional older watcher's `readAllFilesInDirectory`: a directory
   * that cannot be listed is a NullPointerException; otherwise every file is
   * opened, oldest first, until one cannot be opened.
   */
  function UnconditionalStartup(listing: Option<seq<FileEntry>>, openFails: string -> bool): (s: Startup)
    ensures listing.None? ==> s == Startup([], None, Some(NullPointer))
    ensures listing.Some? ==>
      StartedFiles(s) == Openable(Names(SortByModified(listing.value)), openFails) &&
      (s.error.None? <==> AllOpen(Names(SortByModified(listing.value)), openFails))
    ensures listing.Some? && s.error.Some? ==> s.error == Some(IO) && s.tailed.None?
    ensures listing.Some? && s.error.None? ==> s.tailed == UnconditionalPlan(listing.value).tail
  {
    match listing
    case None => Startup([], None, Some(NullPointer))
    case Some(entries) =>
      FullPlanFiles(entries);
      RunPlan(UnconditionalPlan(entries), openFails)
  }

  /**
   * `wasp.warc` `readAllFilesInDirectory`: a directory that cannot be listed
   * is a NullPointerException in the for-each; otherwise every entry is read
   * in listing order until one cannot be opened, and nothing is tailed.
   */
  function RawStartup(listing: Option<seq<FileEntry>>, openFails: string -> bool): (s: Startup)
    ensures listing.None? ==> s == Startup([], None, Some(NullPointer))
    ensures s.tailed.None?
    ensures listing.Some? ==>
      s.replayed == Openable(Names(listing.value), openFails) &&
      (s.error.None? <==> AllOpen(Names(listing.value), openFails))
    ensures listing.Some? && s.error.Some? ==> s.error == Some(IO)
  {
    match listing
    case None => Startup([], None, Some(NullPointer))
    case Some(entries) =>
      assert Openable([], openFails) == [] && AllOpen([], openFails);
      assert Names(entries) + [] == Names(entries);
      RunPlan(RawPlan(entries), openFails)
  }

  /** The opened files stop just before the first that cannot be opened. */
  lemma OpenableStopsAt(fs: seq<string>, k: nat, openFails: string -> bool)
    requires k < |fs| && openFails(fs[k])
    requires forall j :: 0 <= j < k ==> !openFails(fs[j])
    ensures Openable(fs, openFails) == fs[..k]
  {
  }

  /**
   * An older file that cannot be opened for replay aborts the wasp watcher's
   * startup with IOException: the files before it were read, it and the
   * newer ones are not, and nothing is tailed.
   */
  lemma FailedReplayEndsStartup(listing: seq<FileEntry>, k: nat, openFails: string -> bool)
    requires k < |listing| && openFails(SortByModified(listing)[k].name)
    requires forall j :: 0 <= j < k ==> !openFails(SortByModified(listing)[j].name)
    ensures var s := WaspStartup(Some(listing), true, openFails);
      s.error == Some(IO) && s.tailed.None? && s.replayed == Names(SortByModified(listing))[..k]
  {
    var names := Names(SortByModified(listing));
    var s := WaspStartup(Some(listing), true, openFails);
    StartupStopsAt(s, names, k, openFails);
  }

  lemma StartupStopsAt(s: Startup, names: seq<string>, k: nat, openFails: string -> bool)
    requires k < |names| && openFails(names[k])
    requires forall j :: 0 <= j < k ==> !openFails(names[j])
    requires StartedFiles(s) == Openable(names, openFails)
    requires s.error.None? <==> AllOpen(names, openFails)
    requires s.error.Some? ==> s.error == Some(IO) && s.tailed.None?
    ensures s.error == Some(IO) && s.tailed.None? && s.replayed == names[..k]
  {
    OpenableStopsAt(names, k, openFails);
    assert StartedFiles(s) == s.replayed + [];
  }

  // ---------------------------------------------------------------------
  // The reader slot
  // ---------------------------------------------------------------------

  /** The order `closeFile` works in: the wasp watcher clears the slot first; the older ones close first. */
  datatype CloseOrder = ClearThenClose | CloseThenClear

  /**
   * The slot: the installed reader, if any, the number of readers started so
   * far (readers are named 0, 1, ...) and the ones whose `close()` returned.
   */
  datatype Slot = Slot(installed: Option<nat>, started: nat, closed: set<nat>)

  /** The state after a slot operation, and the exception it raised. */
  datatype SlotResult = SlotResult(slot: Slot, error: Option<JavaException>)

  const EmptySlot := Slot(None, 0, {})

  /** Every started reader that is not installed has been closed, and the installed one is live. */
  ghost predicate Tidy(s: Slot)
  {
    (forall id: nat :: id < s.started && s.installed != Some(id) ==> id in s.closed) &&
    (forall id :: id in s.closed ==> id < s.started) &&
    (s.installed.Some? ==> s.installed.value < s.started && s.installed.value !in s.closed)
  }

  /**
   * `closeFile`. With an empty slot nothing happens. Otherwise the reader is
   * closed and removed, and a failing `close()` raises IOException after the
   * slot was cleared (wasp) or before (older watchers).
   */
  function CloseFile(s: Slot, order: CloseOrder, closeFails: bool): (r: SlotResult)
    ensures s.installed.None? ==> r == SlotResult(s, None)
    ensures r.error.None? ==> r.slot.installed.None?
    ensures r.error.Some? ==> r.error == Some(IO) && closeFails
    ensures r.slot.started == s.started
    ensures r.error.None? && s.installed.Some? ==> s.installed.value in r.slot.closed
    ensures r.error.Some? ==> r.slot.installed == (if order == ClearThenClose then None else s.installed)
  {
    match s.installed
    case None => SlotResult(s, None)
    case Some(id) =>
      if closeFails then
        SlotResult(if order == ClearThenClose then s.(installed := None) else s, Some(IO))
      else
        SlotResult(s.(installed := None, closed := s.closed + {id}), None)
  }

  /**
   * `openFile`: closes the current reader and, if that returned normally,
   * opens a new reader on the file (which throws IOException when the file
   * cannot be opened, say because it is a directory or is already gone),
   * installs it and starts it. A failed open leaves the slot empty, with
   * the old reader closed.
   */
  function OpenFile(s: Slot, order: CloseOrder, closeFails: bool, openFails: bool): (r: SlotResult)
    ensures r.error.None? <==> !(s.installed.Some? && closeFails) && !openFails
    ensures r.error.None? ==> r.slot.installed == Some(s.started) && r.slot.started == s.started + 1
    ensures r.error.None? && s.installed.Some? ==> s.installed.value in r.slot.closed
    ensures r.error.Some? ==> r.slot.started == s.started && r.error == Some(IO)
    ensures !(s.installed.Some? && closeFails) && openFails ==>
      r.slot.installed.None? && (s.installed.Some? ==> s.installed.value in r.slot.closed)
  {
    var c := CloseFile(s, order, closeFails);
    if c.error.Some? then c
    else if openFails then SlotResult(c.slot, Some(IO))
    else SlotResult(c.slot.(installed := Some(s.started), started := s.started + 1), None)
  }

  /**
   * Closing first keeps the slot tidy whatever `close()` does: a reader that
   * could not be closed stays installed.
   */
  lemma CloseThenClearStaysTidy(s: Slot, closeFails: bool, openFails: bool)
    requires Tidy(s)
    ensures Tidy(CloseFile(s, CloseThenClear, closeFails).slot)
    ensures Tidy(OpenFile(s, CloseThenClear, closeFails, openFails).slot)
  {
  }

  /** Clearing first keeps the slot tidy as long as `close()` returns. */
  lemma ClearThenCloseStaysTidy(s: Slot, openFails: bool)
    requires Tidy(s)
    ensures Tidy(CloseFile(s, ClearThenClose, false).slot)
    ensures Tidy(OpenFile(s, ClearThenClose, false, openFails).slot)
  {
  }

  /**
   * Clearing first loses a reader whose `close()` fails: it is no longer
   * installed and was never closed.
   */
  lemma ClearThenCloseLosesFailedReader(s: Slot, id: nat)
    requires Tidy(s) && s.installed == Some(id)
    ensures var r := CloseFile(s, ClearThenClose, true);
      r.slot.installed.None? && id !in r.slot.closed && !Tidy(r.slot)
  {
  }

  // ---------------------------------------------------------------------
  // The watch loop
  // ---------------------------------------------------------------------

  datatype WatchEvent = Created(file: string) | Overflow | UnknownKind

  /** The events of one watch key, and whether `reset()` on it succeeded. */
  datatype Batch = Batch(events: seq<WatchEvent>, resetOk: bool)

  /** Why the loop stopped: the key could no longer be reset, an I/O failure, or it still waits for events. */
  datatype LoopEnd = ResetFailed | FailedIO | Waiting

  datatype LoopState = LoopState(slot: Slot, tailed: seq<TailSpec>)

  /** `after` keeps the tailed files of `before` and adds only files whose existing records are forwarded. */
  predicate Extends(before: seq<TailSpec>, after: seq<TailSpec>)
  {
    |before| <= |after| && after[..|before|] == before &&
    forall i :: |before| <= i < |after| ==> after[i].consumeExisting
  }

  lemma ExtendsTransitive(a: seq<TailSpec>, b: seq<TailSpec>, c: seq<TailSpec>)
    requires Extends(a, b) && Extends(b, c)
    ensures Extends(a, c)
  {
    assert c[..|a|] == c[..|b|][..|a|];
  }

  /**
   * The events of one key: each creation is tailed with existing records
   * forwarded; other kinds only log. A reader that cannot be closed, or a
   * file that cannot be opened, ends the handling with IOException.
   */
  function HandleEvents(st: LoopState, es: seq<WatchEvent>, order: CloseOrder, closeFails: nat -> bool,
                        openFails: string -> bool): (r: (LoopState, bool))
    ensures r.1 ==> |r.0.tailed| == |st.tailed| + |Creations(es)|
    ensures Extends(st.tailed, r.0.tailed)
    decreases |es|
  {
    if |es| == 0 then (st, true)
    else match es[0]
      case Created(f) =>
        var o := OpenFile(st.slot, order, if st.slot.installed.Some? then closeFails(st.slot.installed.value) else false,
                          openFails(f));
        if o.error.Some? then (st.(slot := o.slot), false)
        else
          var st1 := LoopState(o.slot, st.tailed + [TailSpec(f, true)]);
          var r := HandleEvents(st1, es[1..], order, closeFails, openFails);
          assert Creations(es) == [f] + Creations(es[1..]);
          assert st1.tailed[..|st.tailed|] == st.tailed;
          ExtendsTransitive(st.tailed, st1.tailed, r.0.tailed);
          r
      case _ =>
        assert Creations(es) == Creations(es[1..]);
        HandleEvents(st, es[1..], order, closeFails, openFails)
  }

  /** The created files among the events, in order. */
  function Creations(es: seq<WatchEvent>): seq<string>
  {
    if |es| == 0 then []
    else if es[0].Created? then [es[0].file] + Creations(es[1..])
    else Creations(es[1..])
  }

  /**
   * `run()`: handles the keys in turn; a failed reset ends the loop after its
   * events were handled, and an I/O failure ends it at once.
   */
  function Watch(st: LoopState, batches: seq<Batch>, order: CloseOrder, closeFails: nat -> bool,
                 openFails: string -> bool): (r: (LoopState, LoopEnd))
    ensures Extends(st.tailed, r.0.tailed)
    decreases |batches|
  {
    if |batches| == 0 then (st, Waiting)
    else
      var h := HandleEvents(st, batches[0].events, order, closeFails, openFails);
      if !h.1 then (h.0, FailedIO)
      else if !batches[0].resetOk then (h.0, ResetFailed)
      else
        var r := Watch(h.0, batches[1..], order, closeFails, openFails);
        ExtendsTransitive(st.tailed, h.0.tailed, r.0.tailed);
        r
  }

  /** The creations the loop reaches: those of each key up to and including the first that cannot be reset. */
  function CreationsUntilReset(batches: seq<Batch>): seq<string>
  {
    if |batches| == 0 then []
    else if !batches[0].resetOk then Creations(batches[0].events)
    else Creations(batches[0].events) + CreationsUntilReset(batches[1..])
  }

  function Files(ts: seq<TailSpec>): (fs: seq<string>)
    ensures |fs| == |ts| && forall i :: 0 <= i < |ts| ==> fs[i] == ts[i].file
  {
    seq(|ts|, i requires 0 <= i < |ts| => ts[i].file)
  }

  /** Every file of `fs` can be opened. */
  predicate AllOpen(fs: seq<string>, openFails: string -> bool)
  {
    forall i :: 0 <= i < |fs| ==> !openFails(fs[i])
  }

  /** The files of `fs` before the first one that cannot be opened. */
  function Openable(fs: seq<string>, openFails: string -> bool): (r: seq<string>)
    ensures |r| <= |fs| && r == fs[..|r|]
    ensures r == fs <==> AllOpen(fs, openFails)
    ensures |r| < |fs| ==> openFails(fs[|r|])
    ensures forall i :: 0 <= i < |r| ==> !openFails(r[i])
  {
    if |fs| == 0 || openFails(fs[0]) then [] else [fs[0]] + Openable(fs[1..], openFails)
  }

  /** Opening stops inside the first part when one of its files fails, and goes on into the second otherwise. */
  lemma {:induction false} OpenableAppend(a: seq<string>, b: seq<string>, openFails: string -> bool)
    ensures Openable(a + b, openFails) == if AllOpen(a, openFails) then a + Openable(b, openFails) else Openable(a, openFails)
    ensures AllOpen(a + b, openFails) <==> AllOpen(a, openFails) && AllOpen(b, openFails)
  {
    if |a| > 0 {
      assert (a + b)[0] == a[0] && (a + b)[1..] == a[1..] + b;
      OpenableAppend(a[1..], b, openFails);
      assert AllOpen(a, openFails) <==> !openFails(a[0]) && AllOpen(a[1..], openFails) by {
        if !openFails(a[0]) && AllOpen(a[1..], openFails) {
          forall i | 0 <= i < |a| ensures !openFails(a[i]) {
            if i > 0 { assert a[i] == a[1..][i - 1]; }
          }
        }
        if AllOpen(a, openFails) {
          forall i | 0 <= i < |a[1..]| ensures !openFails(a[1..][i]) {
            assert a[1..][i] == a[i + 1];
          }
        }
      }
    } else {
      assert a + b == b;
    }
  }

  lemma OpenableCons(f: string, rest: seq<string>, openFails: string -> bool)
    ensures Openable([f] + rest, openFails) == if openFails(f) then [] else [f] + Openable(rest, openFails)
    ensures AllOpen([f] + rest, openFails) <==> !openFails(f) && AllOpen(rest, openFails)
  {
    assert ([f] + rest)[0] == f && ([f] + rest)[1..] == rest;
    if !openFails(f) && AllOpen(rest, openFails) {
      forall i | 0 <= i < |[f] + rest| ensures !openFails(([f] + rest)[i]) {
        if i > 0 { assert ([f] + rest)[i] == rest[i - 1]; }
      }
    }
  }

  /**
   * What handling events that create the files `cs` leaves behind when
   * every `close()` returns: the files are tailed in order up to the first
   * that cannot be opened; that failure ends the handling with an empty
   * slot, and otherwise the last file's reader is installed.
   */
  ghost predicate HandledUntilFailure(st: LoopState, cs: seq<string>, r: (LoopState, bool), openFails: string -> bool)
  {
    var tails := Openable(cs, openFails);
    (r.1 <==> AllOpen(cs, openFails)) &&
    Files(r.0.tailed) == Files(st.tailed) + tails &&
    r.0.slot.started == st.slot.started + |tails| &&
    (!r.1 ==> r.0.slot.installed.None?) &&
    (r.1 && |tails| > 0 ==> r.0.slot.installed == Some(r.0.slot.started - 1)) &&
    (r.1 && |tails| == 0 ==> r.0.slot == st.slot)
  }

  lemma HandledFailedOpen(st: LoopState, f: string, rest: seq<string>, r: (LoopState, bool), openFails: string -> bool)
    requires openFails(f) && !r.1 && r.0.tailed == st.tailed
    requires r.0.slot.started == st.slot.started && r.0.slot.installed.None?
    ensures HandledUntilFailure(st, [f] + rest, r, openFails)
  {
    OpenableCons(f, rest, openFails);
  }

  lemma HandledOpened(st: LoopState, st1: LoopState, f: string, rest: seq<string>, r: (LoopState, bool),
                      openFails: string -> bool)
    requires !openFails(f) && st1.tailed == st.tailed + [TailSpec(f, true)]
    requires st1.slot.started == st.slot.started + 1 && st1.slot.installed == Some(st.slot.started)
    requires HandledUntilFailure(st1, rest, r, openFails)
    ensures HandledUntilFailure(st, [f] + rest, r, openFails)
  {
    OpenableCons(f, rest, openFails);
    FilesSnoc(st.tailed, TailSpec(f, true));
    AppendAfter(Files(st.tailed), Files(st1.tailed), Files(r.0.tailed), [f], Openable(rest, openFails));
  }

  lemma FilesSnoc(ts: seq<TailSpec>, t: TailSpec)
    ensures Files(ts + [t]) == Files(ts) + [t.file]
  {
  }

  /** When every `close()` returns, handling the events tails their created files until one cannot be opened. */
  lemma {:induction false} HandleEventsTailsCreations(st: LoopState, es: seq<WatchEvent>, order: CloseOrder,
                                                      closeFails: nat -> bool, openFails: string -> bool)
    requires forall id :: !closeFails(id)
    ensures HandledUntilFailure(st, Creations(es), HandleEvents(st, es, order, closeFails, openFails), openFails)
    decreases |es|
  {
    var r := HandleEvents(st, es, order, closeFails, openFails);
    if |es| == 0 {
      assert Openable([], openFails) == [];
    } else if es[0].Created? {
      var f := es[0].file;
      assert Creations(es) == [f] + Creations(es[1..]);
      var o := OpenFile(st.slot, order, if st.slot.installed.Some? then closeFails(st.slot.installed.value) else false,
                        openFails(f));
      if openFails(f) {
        HandledFailedOpen(st, f, Creations(es[1..]), r, openFails);
      } else {
        var st1 := LoopState(o.slot, st.tailed + [TailSpec(f, true)]);
        HandleEventsTailsCreations(st1, es[1..], order, closeFails, openFails);
        HandledOpened(st, st1, f, Creations(es[1..]), r, openFails);
      }
    } else {
      assert Creations(es) == Creations(es[1..]);
      HandleEventsTailsCreations(st, es[1..], order, closeFails, openFails);
    }
  }

  /** Some key cannot be reset. */
  predicate SomeResetFails(batches: seq<Batch>)
  {
    exists k :: 0 <= k < |batches| && !batches[k].resetOk
  }

  lemma SomeResetFailsTail(batches: seq<Batch>)
    requires |batches| > 0 && batches[0].resetOk
    ensures SomeResetFails(batches) <==> SomeResetFails(batches[1..])
  {
    if SomeResetFails(batches) {
      var k :| 0 <= k < |batches| && !batches[k].resetOk;
      assert k > 0 && !batches[1..][k - 1].resetOk;
    }
    if SomeResetFails(batches[1..]) {
      var k :| 0 <= k < |batches[1..]| && !batches[1..][k].resetOk;
      assert !batches[k + 1].resetOk;
    }
  }

  /**
   * What the loop leaves behind when every `close()` returns and its keys
   * create the files `cs` up to the first that cannot be reset: the files
   * are tailed up to the first that cannot be opened; the loop ends with
   * IOException exactly when such a file is reached, and with a failed
   * reset exactly when none is and some key cannot be reset.
   */
  ghost predicate WatchedUntilFailure(st: LoopState, cs: seq<string>, batches: seq<Batch>, r: (LoopState, LoopEnd),
                                      openFails: string -> bool)
  {
    Files(r.0.tailed) == Files(st.tailed) + Openable(cs, openFails) &&
    (r.1 == FailedIO <==> !AllOpen(cs, openFails)) &&
    (r.1 == ResetFailed <==> AllOpen(cs, openFails) && SomeResetFails(batches))
  }

  lemma WatchFailedIO(st: LoopState, h: (LoopState, bool), c0: seq<string>, rest: seq<string>, batches: seq<Batch>,
                      r: (LoopState, LoopEnd), openFails: string -> bool)
    requires HandledUntilFailure(st, c0, h, openFails) && !h.1 && r == (h.0, FailedIO)
    ensures WatchedUntilFailure(st, c0 + rest, batches, r, openFails)
  {
    OpenableAppend(c0, rest, openFails);
  }

  lemma WatchResetFailed(st: LoopState, h: (LoopState, bool), c0: seq<string>, batches: seq<Batch>,
                         r: (LoopState, LoopEnd), openFails: string -> bool)
    requires HandledUntilFailure(st, c0, h, openFails) && h.1 && r == (h.0, ResetFailed)
    requires |batches| > 0 && !batches[0].resetOk
    ensures WatchedUntilFailure(st, c0, batches, r, openFails)
  {
    assert SomeResetFails(batches) by { assert !batches[0].resetOk; }
  }

  /** Appending in two steps appends the two parts at once. */
  lemma AppendAfter(a: seq<string>, b: seq<string>, c: seq<string>, x: seq<string>, y: seq<string>)
    requires b == a + x && c == b + y
    ensures c == a + (x + y)
  {
  }

  lemma WatchContinues(st: LoopState, h: (LoopState, bool), c0: seq<string>, rest: seq<string>, batches: seq<Batch>,
                       r: (LoopState, LoopEnd), openFails: string -> bool)
    requires HandledUntilFailure(st, c0, h, openFails) && h.1
    requires |batches| > 0 && batches[0].resetOk
    requires WatchedUntilFailure(h.0, rest, batches[1..], r, openFails)
    ensures WatchedUntilFailure(st, c0 + rest, batches, r, openFails)
  {
    var all := c0 + rest;
    assert AllOpen(all, openFails) <==> AllOpen(rest, openFails) by {
      OpenableAppend(c0, rest, openFails);
    }
    assert Files(r.0.tailed) == Files(st.tailed) + Openable(all, openFails) by {
      OpenableAppend(c0, rest, openFails);
      AppendAfter(Files(st.tailed), Files(h.0.tailed), Files(r.0.tailed), c0, Openable(rest, openFails));
    }
    SomeResetFailsTail(batches);
  }

  /**
   * When every `close()` returns, the loop tails the created files up to
   * the first key that cannot be reset, stopping early at the first file
   * that cannot be opened.
   */
  lemma {:induction false} WatchTailsUntilFailure(st: LoopState, batches: seq<Batch>, order: CloseOrder,
                                                  closeFails: nat -> bool, openFails: string -> bool)
    requires forall id :: !closeFails(id)
    ensures WatchedUntilFailure(st, CreationsUntilReset(batches), batches, Watch(st, batches, order, closeFails, openFails),
                                openFails)
    decreases |batches|
  {
    var r := Watch(st, batches, order, closeFails, openFails);
    if |batches| == 0 {
      assert Openable([], openFails) == [];
    } else {
      var c0 := Creations(batches[0].events);
      HandleEventsTailsCreations(st, batches[0].events, order, closeFails, openFails);
      var h := HandleEvents(st, batches[0].events, order, closeFails, openFails);
      if !batches[0].resetOk {
        assert CreationsUntilReset(batches) == c0 + [];
        if h.1 {
          WatchResetFailed(st, h, c0, batches, r, openFails);
        } else {
          WatchFailedIO(st, h, c0, [], batches, r, openFails);
        }
      } else {
        var rest := CreationsUntilReset(batches[1..]);
        assert CreationsUntilReset(batches) == c0 + rest;
        if h.1 {
          WatchTailsUntilFailure(h.0, batches[1..], order, closeFails, openFails);
          WatchContinues(st, h, c0, rest, batches, r, openFails);
        } else {
          WatchFailedIO(st, h, c0, rest, batches, r, openFails);
        }
      }
    }
  }

  /**
   * When every `close()` returns and every created file can be opened, the
   * loop tails exactly the created files up to the first key that cannot
   * be reset, each with existing records forwarded, and ignores all later
   * keys.
   */
  lemma WatchTailsUntilReset(st: LoopState, batches: seq<Batch>, order: CloseOrder, closeFails: nat -> bool,
                             openFails: string -> bool)
    requires forall id :: !closeFails(id)
    requires forall f :: !openFails(f)
    ensures var r := Watch(st, batches, order, closeFails, openFails);
      Files(r.0.tailed) == Files(st.tailed) + CreationsUntilReset(batches) &&
      (r.1 == ResetFailed <==> exists k :: 0 <= k < |batches| && !batches[k].resetOk) &&
      r.1 != FailedIO
  {
    WatchTailsUntilFailure(st, batches, order, closeFails, openFails);
  }

  /** A created file that cannot be opened ends the loop with IOException and an empty slot. */
  lemma FailedOpenEndsWatch(st: LoopState, f: string, rest: seq<Batch>, resetOk: bool, order: CloseOrder,
                            closeFails: nat -> bool, openFails: string -> bool)
    requires forall id :: !closeFails(id)
    requires openFails(f)
    ensures var r := Watch(st, [Batch([Created(f)], resetOk)] + rest, order, closeFails, openFails);
      r.1 == FailedIO && r.0.slot.installed.None? && r.0.tailed == st.tailed
  {
    var batches := [Batch([Created(f)], resetOk)] + rest;
    assert batches[0].events == [Created(f)];
  }

  /** Overflow and unknown events leave the slot and the tailed files as they were. */
  lemma NonCreationEventsChangeNothing(st: LoopState, es: seq<WatchEvent>, order: CloseOrder, closeFails: nat -> bool,
                                       openFails: string -> bool)
    requires forall i :: 0 <= i < |es| ==> !es[i].Created?
    ensures HandleEvents(st, es, order, closeFails, openFails) == (st, true)
    decreases |es|
  {
    if |es| > 0 {
      NonCreationEventsChangeNothing(st, es[1..], order, closeFails, openFails);
    }
  }
}

=== FILE: window.dfy ===
/**
 * Which request of a page a search result shows: the latest one (the last in
 * the stored order) whose date lies in the query's window, both bounds
 * inclusive and either one possibly absent.
 */
module Window {
  import opened Common
  import opened Records

  /** A request is skipped when it is before `from` or after `to`. */
  predicate InWindow(date: Instant, from: Option<Instant>, to: Option<Instant>)
  {
    !(from.Some? && date < from.value) && !(to.Some? && date > to.value)
  }

  /** The window is closed at both ends and an absent bound does not constrain. */
  lemma InWindowInclusive(date: Instant, from: Option<Instant>, to: Option<Instant>)
    ensures InWindow(date, from, to) <==>
      (from.None? || from.value <= date) && (to.None? || date <= to.value)
  {
  }

  predicate IsLatestInWindow(rs: seq<RequestRecord>, from: Option<Instant>, to: Option<Instant>, k: int)
  {
    0 <= k < |rs| && InWindow(rs[k].date, from, to) &&
    forall j :: k < j < |rs| ==> !InWindow(rs[j].date, from, to)
  }

  predicate NoneInWindow(rs: seq<RequestRecord>, from: Option<Instant>, to: Option<Instant>)
  {
    forall i :: 0 <= i < |rs| ==> !InWindow(rs[i].date, from, to)
  }

  /** There is at most one latest request in a window. */
  lemma LatestUnique(rs: seq<RequestRecord>, from: Option<Instant>, to: Option<Instant>, k1: int, k2: int)
    requires IsLatestInWindow(rs, from, to, k1) && IsLatestInWindow(rs, from, to, k2)
    ensures k1 == k2
  {
  }

  /** The position of the latest request in the window, scanning from the end. */
  function LatestInWindow(rs: seq<RequestRecord>, from: Option<Instant>, to: Option<Instant>): (k: Option<nat>)
    ensures k.Some? ==> IsLatestInWindow(rs, from, to, k.value)
    ensures k.None? <==> NoneInWindow(rs, from, to)
    decreases |rs|
  {
    if |rs| == 0 then None
    else if InWindow(rs[|rs| - 1].date, from, to) then Some(|rs| - 1)
    else LatestInWindow(rs[..|rs| - 1], from, to)
  }

  /**
   * The request a result shows, or `IllegalArgumentException` when no request
   * of the page lies in the window.
   */
  function Select(rs: seq<RequestRecord>, from: Option<Instant>, to: Option<Instant>): (r: Outcome<RequestRecord>)
    ensures r.Ok? <==> !NoneInWindow(rs, from, to)
    ensures r.Ok? ==> exists k :: IsLatestInWindow(rs, from, to, k) && r.value == rs[k]
    ensures r.Throws? ==> r.error == IllegalArgument
  {
    match LatestInWindow(rs, from, to)
    case None => Throws(IllegalArgument)
    case Some(k) => Ok(rs[k])
  }

  /**
   * The iterator loop of the result builders: walk backwards from the end,
   * skip requests outside the window, return the first that is inside.
   */
  method SelectLoop(rs: seq<RequestRecord>, from: Option<Instant>, to: Option<Instant>) returns (r: Outcome<RequestRecord>)
    ensures r == Select(rs, from, to)
  {
    var i := |rs|;
    while i > 0
      invariant 0 <= i <= |rs|
      invariant forall j :: i <= j < |rs| ==> !InWindow(rs[j].date, from, to)
    {
      i := i - 1;
      var request := rs[i];
      if from.Some? && request.date < from.value {
        continue;
      }
      if to.Some? && request.date > to.value {
        continue;
      }
      assert IsLatestInWindow(rs, from, to, i);
      LatestIsSelected(rs, from, to, i);
      return Ok(request);
    }
    return Throws(IllegalArgument);
  }

  lemma LatestIsSelected(rs: seq<RequestRecord>, from: Option<Instant>, to: Option<Instant>, k: int)
    requires IsLatestInWindow(rs, from, to, k)
    ensures Select(rs, from, to) == Ok(rs[k])
  {
    var s := LatestInWindow(rs, from, to);
    LatestUnique(rs, from, to, k, s.value);
  }

  /** Without bounds the latest request of all is shown. */
  lemma UnboundedSelectsLast(rs: seq<RequestRecord>)
    requires |rs| > 0
    ensures Select(rs, None, None) == Ok(rs[|rs| - 1])
  {
    LatestIsSelected(rs, None, None, |rs| - 1);
  }

  /** A request appended inside the window is the one shown afterwards. */
  lemma AppendedInWindowIsSelected(rs: seq<RequestRecord>, r: RequestRecord, from: Option<Instant>, to: Option<Instant>)
    requires InWindow(r.date, from, to)
    ensures Select(rs + [r], from, to) == Ok(r)
  {
    LatestIsSelected(rs + [r], from, to, |rs|);
  }

  /** A request appended outside the window changes nothing about what is shown. */
  lemma {:induction false} AppendedOutsideWindowIgnored(rs: seq<RequestRecord>, r: RequestRecord, from: Option<Instant>, to: Option<Instant>)
    requires !InWindow(r.date, from, to)
    ensures Select(rs + [r], from, to) == Select(rs, from, to)
  {
    assert (rs + [r])[..|rs|] == rs;
  }

  /**
   * Widening the window never makes a shown request disappear, and the one
   * shown for the wider window is at least as late in the stored order.
   */
  lemma WiderWindowSelectsLater(rs: seq<RequestRecord>, from: Option<Instant>, to: Option<Instant>,
                                 from': Option<Instant>, to': Option<Instant>, k: int)
    requires from'.Some? ==> from.Some? && from'.value <= from.value
    requires to'.Some? ==> to.Some? && to.value <= to'.value
    requires IsLatestInWindow(rs, from, to, k)
    ensures LatestInWindow(rs, from', to').Some?
    ensures LatestInWindow(rs, from', to').value >= k
  {
    assert InWindow(rs[k].date, from', to');
  }
}
